=== FILE: README.md ===
# my-stocks-py: the decision and transformation rules, in Dafny

my-stocks-py collects Taiwanese stock-market open data and stores it in a SQLite database. The data covers:
- the stock list;
- daily prices;
- monthly revenues;
- quarterly financial reports.

On top of the database it screens stocks and shows them in panels.

Underneath the pandas, SQLite and HTTP plumbing, the program is a set of pure rules. This project models those rules as pure Dafny functions over immutable sequences and maps. "Now" and every file, web or database result is a parameter.

The modules follow the program's structure.

**Storage semantics of `StockDatabase`** (src/database/stock.py)
- `Storage`:
  - SQLite tables are maps from primary key to row.
  - The three write modes are INSERT OR REPLACE, INSERT OR IGNORE, and ON CONFLICT DO UPDATE of the supplied columns.
  - The `metadata` table records the "last updated" time of each table.
- `CsvImport`:
  - the daily-price, OHLC, monthly-revenue and quarterly-report folder importers;
  - the file-name patterns and the skip-if-not-newer rule;
  - column renaming, mandatory columns and NOT NULL rows;
  - the reformatting of OHLC trade dates;
  - the write mode of each source, and the recorded source time.
- `StockListImport`: the stock-list import, which deletes the table and inserts the list.
- `RevenueDerived`: the derived monthly-revenue columns, as the pandas fallback of `update_monthly_revenue` computes them. These are the lags, the year-to-date sums and the growth percentages.
- `FinancialCore`:
  - the conversion of cumulative year-to-date reports into single quarters;
  - the quarter-gap check of `verify_financial_data`.
- `PeriodKeys`: the `year*10+quarter` and `year*100+month` period keys, their range queries and the `get_database_info` labels.

**Open-data normalisers**
- `QuarterlyReports` (src/openData/getQuarterlyReports.py):
  - request validation and the sector-inclusion rule;
  - the industry-sector guesser, with the index error of its debug print;
  - the header-row clean-up of the ratio statement;
  - column rename, removal and reordering;
  - the last published report quarter;
  - the quarter-by-quarter history loop.
- `MonthlyRevenues` (src/openData/getMonthlyRevenues.py):
  - request validation and file names;
  - the previous revenue month;
  - the month-by-month history loop.
- `DailyPrices` (src/openData/getDailyPrices.py):
  - the TPEx CSV clean-up;
  - the `filename` parameter of the `Content-Disposition` header, read in the simplified quoted-only form of section 4.1 of RFC 6266;
  - joining the two exchanges' prices only when their dates agree.
- `StockList` (src/openData/getStockList.py): the CFI-prefix classification, using the ISO 10962 category and group letters. Also the type filter, the market rewrite and the Symbol/Name split.

**Calendar utilities**
- `Calendar`: proleptic Gregorian dates, with Python's ordinal and weekday numbering, month and quarter stepping, and the date texts `date.fromisoformat` reads, ISO week dates included.
- `Assistant` (src/utils/ass.py):
  - the last market close day;
  - the date in a file name;
  - file staleness;
  - backup names and the backup tally.
- `TradingHoliday` (src/utils/getTradingHoliday.py): the holiday table and `isTradingHoliday`.
- `HistoryTally`: the per-period download counts.
- `Patterns`: the left-most match of `re.search` for the fixed patterns the program uses.

**Screening algebra**
- `Screening` (src/screening/operation.py, list_industrial.py, helper.py): list union with score sums, list difference, the industrial intersection, and the target list of a screen.
- `RevenueScreens` (list_revenue.py), `MetricsScreens` (list_metrics.py) and `PriceScreens` (list_price.py): each screen's select-and-score rule.
- `Series`: the shared series helpers: recent window, dropping missing values, max/min and growth percentage.

**Display transforms**
- `LoadStock` (src/load_stock.py):
  - monthly tables with `{year}/{MM}` labels, latest first;
  - the period pivot of quarterly tables;
  - thousands grouping of integers.

**Support modules**
- `Text`: decimal digits and number formatting.
- `Sorting`: the stable insertion sort that stands for pandas `sort_values`.
- `ReportColumns`: the column lists of the reports.
- `Wrappers`: `Option` and `Result`.

**Representations**
- Times are integer microseconds.
- Dates are `(year, month, day)` triples with a validity predicate.
- Screening values and scores are `real`.
- Where the program raises an exception, the model returns `Failure` with the program's message.

Some behaviours a reader might expect are not in the program, and the model follows the program:
- Daily rows are stored exactly as read: no OHLC sanity check rejects a bar (src/database/stock.py:549-574).
- The price and revenue imports use INSERT OR REPLACE unconditionally. An existing row is replaced even when its values are the same.
- There is no retry or back-off, no "inactive" symbol state and no per-symbol ingestion counter.
- A second import of the same folder can write files again, because the metadata keeps whole seconds only (first row of Findings). The model proves that a second import writes nothing once times are kept to the microsecond.
- Repairing quarter gaps amounts to the warnings of `verify_financial_data`; nothing is re-fetched.

## Model

| member | source | states |
|---|---|---|
| Storage.ReplaceLastWins | src/database/stock.py:565-574 | INSERT OR REPLACE into a table keyed by its primary key: the keys afterwards are the old keys plus the batch's keys; for a batch key the last row of the batch with that key is stored; every other key keeps its row |
| Storage.ReplaceIdempotent | src/database/stock.py:420-431 | writing the same batch twice with INSERT OR REPLACE leaves the table as writing it once |
| Storage.IgnoreFirstWins | src/database/stock.py:1444 | INSERT OR IGNORE: existing keys keep their rows; a new key gets the first batch row carrying it |
| Storage.IgnoreIdempotent | src/database/stock.py:1444 | writing the same batch twice with INSERT OR IGNORE equals writing it once |
| Storage.UpsertKeepsOtherColumns | src/database/stock.py:1436-1458 | the quarterly upsert adds the batch's keys, leaves rows of other keys alone, and never changes an existing row's column outside the supplied columns |
| Storage.UpsertNothingIsIgnore | src/database/stock.py:1436-1458 | an upsert with no non-key columns is exactly INSERT OR IGNORE |
| Storage.Overlay | src/database/stock.py:1449-1458 | an upserted row has the existing row's columns plus the supplied incoming ones; a supplied column takes the incoming value, all others keep the existing value |
| Storage.StoredTime | src/database/stock.py:79-83 | the stored time never exceeds the real one and is less than a second earlier; whole-second storage drops the sub-second part, the exact store keeps it |
| Storage.SetTableUpdatedTime | src/database/stock.py:69-97 | setting a table's time records it (as stored) under that table's name and keeps every other table's entry |
| Storage.UpdateTableTime | src/database/stock.py:129-144 | a table's recorded time never moves backwards: with no entry the new time is stored, otherwise the result is the later of the old and new time; other tables keep theirs |
| Storage.StoredTimeMonotone | src/database/stock.py:141-144 | a time that survives storage unchanged is still at or below the stored form of any later time, so the newer-than comparison is sound |
| CsvImport.Examine | src/database/stock.py:475-552 | a file is written only when its name matches the source's pattern, it is newer than the recorded time, it reads, and it has every mandatory column after renaming; such a file breaks the import iff an OHLC trade date cannot be read or a row is NULL in a NOT NULL column, and otherwise writes its batch with OHLC dates reformatted |
| CsvImport.ReformatDate | src/database/stock.py:698-701 | an OHLC trade date that is NULL stays NULL; a text reads iff it is a date in the pandas Timestamp range, and then is rewritten as the same date in canonical 'YYYY-MM-DD' form |
| CsvImport.ReformatDateIdempotent | src/database/stock.py:698-701 | reformatting an already reformatted trade date leaves it unchanged |
| CsvImport.ReformatDates | src/database/stock.py:698-701 | the column reformat fails iff some row's trade date cannot be read; otherwise each row is the same row with its trade date reformatted |
| CsvImport.OhlcDatesCanonical | src/database/stock.py:696-724 | every text trade date an OHLC file writes is a canonical 'YYYY-MM-DD' date |
| CsvImport.ExamineLater | src/database/stock.py:489-494 | moving the recorded time forward never makes a skipped file importable, and every file no newer than the recorded time is skipped |
| CsvImport.Batch | src/database/stock.py:509-558 | a batch exists iff the mandatory columns are among the available ones; every row carries exactly the available columns and, except for OHLC files, a non-null code; every batch row is the prepared form of a file row of the kept sector, and every such prepared row with a code (any row, for OHLC files) is in the batch |
| CsvImport.BatchInFileOrder | src/database/stock.py:548-568 | the batch keeps file order and multiplicity: the batch of two runs of lines is the first run's batch followed by the second's |
| CsvImport.Available | src/database/stock.py:512-526 | a table column is available iff it is wanted and some header column renames to it |
| CsvImport.NewestOf | src/database/stock.py:578-580 | the newest time is none iff no file was written; otherwise it is a written file's time and no written file is newer |
| CsvImport.RunOutcome | src/database/stock.py:473-590 | the import loop fails iff some file breaks; on success it remembers the newest written file's time, its row count is the number of rows of the written files, and the table's keys are the old keys plus the key of every written row; with nothing written the table is untouched |
| CsvImport.ImportFolder | src/database/stock.py:439-590 | an import fails iff some planned file is broken; with nothing to write the table and metadata are unchanged; otherwise the source's entry holds the newest imported time; the returned count is the number of rows of the written files, and the table's keys are the old ones plus the key of every written row |
| CsvImport.WriteKeys | src/database/stock.py:565-574 | each write mode keeps the table's keys and adds exactly the batch's keys |
| CsvImport.ReimportWritesNothing | src/database/stock.py:584-588 | with exact times, running the same import a second time over the same folder writes no rows and changes nothing |
| CsvImport.AgainPassed | src/database/stock.py:489-494 | with exact times, after an import every file of the folder is skipped by the next run |
| CsvImport.NothingPlannedWritesNothing | src/database/stock.py:489-494 | when every file is skipped the import returns the table and metadata unchanged and zero rows |
| CsvImport.NewestFileWrittenAgain | src/database/stock.py:79-83 | as written (whole seconds): when the newest imported file's time has a sub-second part, the next run imports some file again |
| CsvImport.TrackingIsNotTarget | src/database/stock.py:584-588 | a source's tracking entry differs from its target table's entry, except for monthly revenue, which tracks itself |
| CsvImport.SectorRows | src/database/stock.py:1361-1382 | with only_ci and a Sector column a quarterly file keeps exactly its 'ci' rows; otherwise every row |
| StockListImport.ImportStockList | src/database/stock.py:174-290 | the stock-list import fails iff the file is missing; an older file or a file without code/name/market writes nothing; otherwise the table becomes exactly the file's coded rows keyed by code, the count is their number, the 'stocks' time is the file's and other entries are kept |
| StockListImport.StockListReimport | src/database/stock.py:189-197 | with exact times, importing the same stock list again writes nothing |
| RevenueDerived.PctChange | src/database/stock.py:1078-1079 | a growth percentage exists iff the prior value exists and is non-zero; it satisfies pct × prior = (cur − prior) × 100, and is positive iff the value rose over a positive prior |
| RevenueDerived.Derive | src/database/stock.py:1071-1080 | the derived rows are the table's months in period order, one per input row, each with its year-to-date sum equal to the sum over its year's months up to it |
| RevenueDerived.DerivedLags | src/database/stock.py:1075-1077 | the last-year revenue and last-year year-to-date are the values 12 rows earlier, positionally, and absent in the first 12 rows |
| RevenueDerived.DerivedNulls | src/database/stock.py:1007-1017 | month-on-month, year-on-year and year-to-date growth are null exactly when the row 1 or 12 back is missing or zero |
| RevenueDerived.YtdIsWindowSum | src/database/stock.py:1076 | in period order, the running sum within a year equals the sum of that year's months up to and including the row |
| RevenueDerived.OrderedYtd | src/database/stock.py:1071-1076 | the running sum over the sorted table is the year-window sum over the original, unsorted table |
| RevenueDerived.WindowSumPermutation | src/database/stock.py:1071 | the year-window sum does not depend on the order of the rows |
| RevenueDerived.LagIsSameMonthLastYear | src/database/stock.py:1075 | when the months are consecutive, the row 12 back is the same month of the previous year |
| RevenueDerived.LagReachesAtLeastAYearBack | src/database/stock.py:1075 | with gaps, the row 12 back is at least twelve months earlier |
| FinancialCore.CoreFromYtd | src/database/stock.py:1549-1750 | a quarter is derived iff it is Q1 of the cumulative reports or both it and the quarter before are present; Q1 is copied; later quarters difference the flow columns and copy the balance columns |
| FinancialCore.Diff | src/database/stock.py:1703-1710 | a single-quarter flow exists iff both cumulative values do, and adds back to the current cumulative value |
| FinancialCore.Differenced | src/database/stock.py:1699-1710 | a differenced row has exactly the flow and balance columns; flows are differences, balance columns are the current quarter's |
| FinancialCore.QuartersSumToYtd | src/database/stock.py:1663-1710 | when Q1..Qq of a year are all reported, the derived Q1..Qq of a flow column sum to the year-to-date value of Qq |
| FinancialCore.VerifyGroup | src/database/stock.py:1507-1547 | the gap check visits every quarter from the first to the last report exactly once and warns exactly for the missing quarters and the missing values of the warned columns |
| FinancialCore.WarnMissing | src/database/stock.py:1526-1541 | a report's warnings are exactly those for its warned columns that are null |
| FinancialCore.Find | src/database/stock.py:1502-1527 | a quarter is found iff some report is for it, and then the values are that report's |
| FinancialCore.FromIndex | src/database/stock.py:1543-1547 | quarter stepping wraps 4 to 1 with the next year: every quarter index has one (year, quarter 1..4) |
| PeriodKeys.QuarterKeyRoundTrip | src/database/stock.py:1784-1785 | a `year*10+quarter` key decodes back to its year and quarter by //10 and %10 |
| PeriodKeys.QuarterKeyOrder | src/database/stock.py:1784-1797 | comparing quarter keys is comparing (year, quarter) lexicographically |
| PeriodKeys.QuarterRangeMeaning | src/database/stock.py:1773-1797 | the BETWEEN query on quarter keys selects exactly the quarters from the start date's quarter to the end date's quarter |
| PeriodKeys.MonthKeyRoundTrip | src/database/stock.py:1145-1146 | a `year*100+month` key decodes back to its year and month |
| PeriodKeys.MonthKeyOrder | src/database/stock.py:1145-1155 | comparing month keys is comparing (year, month) lexicographically |
| PeriodKeys.MonthRangeMeaning | src/database/stock.py:1145-1155 | the BETWEEN query on month keys selects exactly the months from the start month to the end month |
| PeriodKeys.QuarterLabelOfKey | src/database/stock.py:2212-2217 | the label of a stored quarter key is its year, '-Q' and its quarter digit |
| PeriodKeys.QuarterLabelInjective | src/database/stock.py:2212-2217 | two stored quarters have the same label iff they are the same quarter |
| PeriodKeys.MonthLabelOfKey | src/database/stock.py:2186-2192 | the label of a stored month key is its year, '-' and its month on two digits |
| PeriodKeys.EarliestKeyIsEarliestMonth | src/database/stock.py:2180-2192 | the MIN over month keys is the earliest (year, month) |
| QuarterlyReports.ValidateRequest | src/openData/getQuarterlyReports.py:77-130 | a request is accepted iff the market and statement are known, the year is at least 2013 and the quarter is 1..4; errors come in the source's order and wording; the query has year−1911 and season '0'+quarter |
| QuarterlyReports.RequestDeterminesPeriod | src/openData/getQuarterlyReports.py:121-130 | two accepted requests with the same query year and season ask for the same year and quarter |
| QuarterlyReports.RequestedSectors | src/openData/getQuarterlyReports.py:110-114 | no sectors means all six; a single name is wrapped into a list; a list is taken as given |
| QuarterlyReports.SelectTables | src/openData/getQuarterlyReports.py:178-216 | the reply is read without error iff it has at least two tables, a ratio reply has exactly two and an adjustable first table, and no table's guess hits the debug print without a cell to print; then a table after the first is selected iff its guessed sector is kept, in table order, with its columns adjusted by the statement's adjustment entry (which the fetch passes in) and labelled with the sector |
| QuarterlyReports.KeepFlags | src/openData/getQuarterlyReports.py:194-216 | the per-table flags are the inclusion rule applied to each table's guessed sector |
| QuarterlyReports.KeptPositions | src/openData/getQuarterlyReports.py:194-216 | a table position is selected iff its flag is set |
| QuarterlyReports.FetchStatementsAsWritten | src/openData/getQuarterlyReports.py:72-233 | a fetch succeeds iff the request is valid and the reply is read without error; by default a table is selected iff its guess is neither '' nor the position rule's 'min' |
| QuarterlyReports.FetchStatements | src/openData/getQuarterlyReports.py:72-233 | corrected: a fetch succeeds iff the request is valid and the reply is read without error; by default a table is selected iff the guesser gives it some sector |
| QuarterlyReports.FetchDropsOtherBalance | src/openData/getQuarterlyReports.py:285-302 | the seventh small, markerless listed-market balance table is missing from the as-written default fetch and present in the corrected one |
| QuarterlyReports.FetchFailsOnEmptyAmbiguousTable | src/openData/getQuarterlyReports.py:194-197 | an empty balance table at a position that does not decide its sector makes the whole fetch fail |
| QuarterlyReports.RatioWithMoreTablesFails | src/openData/getQuarterlyReports.py:172-195 | a ratio reply of more than two tables fails, because the adjusted list has two tables while the loop runs over the reply's count |
| QuarterlyReports.AdjustRatio | src/openData/getQuarterlyReports.py:348-392 | the adjustment fails iff the table has no rows or no columns; otherwise the columns are titled with row 0's cells and hold, in order, exactly the rows whose first cell differs from row 0's |
| QuarterlyReports.AdjustRatioDropsHeaders | src/openData/getQuarterlyReports.py:378-386 | no repeated header row is left, and every data row's first cell is still present |
| QuarterlyReports.DefaultKeptTables | src/openData/getQuarterlyReports.py:201-216 | when all six sectors are requested, a table is kept iff its guessed sector is not '' and, for the label 'min', not the other-industry label |
| QuarterlyReports.GuessSector | src/openData/getQuarterlyReports.py:235-344 | the guess fails iff it reaches one of the two debug prints of cell (0, 1) on a table without rows or with fewer than two columns; otherwise it is one of '', the six sectors, 'bd_ci_min' and '--' |
| QuarterlyReports.PrintsWhenUnsure | src/openData/getQuarterlyReports.py:302-344 | the debug print is reached exactly when the guess is 'bd_ci_min', or '--' for a table that is not a cash-flow statement |
| QuarterlyReports.FirstPassDecides | src/openData/getQuarterlyReports.py:241-272 | in the first pass the first marker column in column order decides the sector, and the guess succeeds |
| QuarterlyReports.LargeBalanceIsGeneral | src/openData/getQuarterlyReports.py:274-279 | a balance table with current assets, no earlier marker and at least 500 rows is general industry 'ci' |
| QuarterlyReports.OtherBalanceDroppedAsWritten | src/openData/getQuarterlyReports.py:289-301 | as written: a small balance table of the other industry is guessed 'min', which the default request and a request for 'mim' both drop |
| QuarterlyReports.DefaultRequestAsWritten | src/openData/getQuarterlyReports.py:201-216 | as written, the default request keeps a table iff its guess is neither '' nor 'min' |
| QuarterlyReports.AsWrittenOtherDropped | src/openData/getQuarterlyReports.py:112 | the label 'min' is not one of the six requested sectors, so neither the default request nor 'mim' keeps it |
| QuarterlyReports.DefaultRequestKeepsAllSectors | src/openData/getQuarterlyReports.py:110-114 | corrected: with the other-industry label 'mim' the default request keeps a table iff the guesser assigns it any sector |
| QuarterlyReports.RenameColumns | src/openData/getQuarterlyReports.py:693 | renaming keeps every column and its cells; a mapped label takes its mapped name, any other label is unchanged |
| QuarterlyReports.DropColumns | src/openData/getQuarterlyReports.py:695-700 | the removal either drops every listed label, when all are present, or leaves the columns as they were; columns outside the list are unaffected |
| QuarterlyReports.AdjustColumns | src/openData/getQuarterlyReports.py:674-702 | an unknown statement leaves the table unchanged; otherwise the result is the renamed columns, all-or-nothing removal applied, with the other columns untouched |
| QuarterlyReports.OutsideIdempotent | src/openData/getQuarterlyReports.py:695-700 | filtering out the removal list twice equals filtering it once |
| QuarterlyReports.SortColumns | src/openData/getQuarterlyReports.py:706-732 | reordering is a permutation of the columns, sorted by position in the statement's sequence; an unknown statement leaves the order |
| QuarterlyReports.SortColumnsStable | src/openData/getQuarterlyReports.py:717-732 | columns with equal sort keys keep their relative order, and unknown columns come after all known ones |
| QuarterlyReports.WindowsTile | src/openData/getQuarterlyReports.py:774-780 | every date of a year lies in exactly one of the five publication windows |
| QuarterlyReports.LastReportYearQuarter | src/openData/getQuarterlyReports.py:747-798 | the last published report has a quarter in 1..4, is this year's or last year's, and lies one or two quarters before today's quarter |
| QuarterlyReports.LastReportMonotone | src/openData/getQuarterlyReports.py:774-798 | within a year a later day never has an earlier last report |
| QuarterlyReports.StepQuarters | src/openData/getQuarterlyReports.py:931-970 | corrected: the history loop visits each quarter from start to end once, in order, wrapping 4 to 1, and nothing from a start past the end; the count is the number of quarters; downloaded and failed count those outcomes |
| QuarterlyReports.DownloadHistory | src/openData/getQuarterlyReports.py:911-975 | corrected: the history runs from the start date's quarter to the last published quarter, each step the next quarter; it is empty iff the start quarter lies past that quarter |
| Calendar.QuarterAfterIndex | src/openData/getQuarterlyReports.py:963-968 | each step of the quarter loop adds one to the quarter index |
| QuarterlyReports.QuarterLoopNeverExits | src/openData/getQuarterlyReports.py:935-970 | as written, from a start quarter past the end quarter no quarter the loop reaches is the end quarter, so its only exit never fires |
| QuarterlyReports.DownloadFromTodaysQuarter | src/openData/getQuarterlyReports.py:916-923 | a start date in today's quarter always lies past the latest quarter due, so that start never reaches the loop's exit |
| MonthlyRevenues.ValidateRequest | src/openData/getMonthlyRevenues.py:41-63 | a request is accepted iff the market is known, the year is at least 2013 and the month is 1..12, with the source's error messages in its order; the file is `t21sc03_{year−1911}_{month}.csv` |
| MonthlyRevenues.RemoteFileNameInjective | src/openData/getMonthlyRevenues.py:61-63 | different months have different published file names |
| MonthlyRevenues.LastRevenueYearMonth | src/openData/getMonthlyRevenues.py:187-194 | the last revenue month is the month before today's, January going back to December of the year before |
| MonthlyRevenues.LocalFileNameRoundTrip | src/openData/getMonthlyRevenues.py:296 | `revenues_{YYYY}{MM}.csv` carries the year and the two-digit month, which read back |
| MonthlyRevenues.StepMonths | src/openData/getMonthlyRevenues.py:294-335 | corrected: the history loop visits each month from start to end exactly once, in order, wrapping 12 to 1, and nothing from a start past the end; the count is the number of months; downloaded and failed count those outcomes |
| MonthlyRevenues.DownloadHistory | src/openData/getMonthlyRevenues.py:272-335 | corrected: the history runs from the start month to the last revenue month, each step the next month; it is empty iff the start lies in today's month or later |
| Calendar.MonthAfterIndex | src/openData/getMonthlyRevenues.py:325-330 | each step of the month loop adds one to the month index |
| MonthlyRevenues.MonthLoopNeverExits | src/openData/getMonthlyRevenues.py:294-335 | as written, from a start month past the end month no month the loop reaches is the end month, so its only exit never fires |
| MonthlyRevenues.DownloadFromTodaysMonth | src/openData/getMonthlyRevenues.py:280-285 | a start date in today's month lies past the last revenue month, so that start never reaches the loop's exit |
| DailyPrices.FileNameFromHeader | src/openData/getDailyPrices.py:60-75 | no header and no `filename="…"` are errors with the source's messages; otherwise the name is the greedy capture at the first match |
| DailyPrices.FindFilename | src/openData/getDailyPrices.py:63-66 | the search returns the capture at the first position where the filename pattern matches, and none iff it matches nowhere |
| DailyPrices.FileNameRoundTrip | src/openData/getDailyPrices.py:60-75 | a header made of a lead, `filename="name"` and a quote-free tail gives back the name |
| DailyPrices.DataLines | src/openData/getDailyPrices.py:200-209 | the data lines are those after the first two up to the first empty line |
| DailyPrices.CleanTpex | src/openData/getDailyPrices.py:196-235 | every written line is a cleaned data line, every cleaned non-warrant data line is written, and warrant lines are written only when asked for |
| DailyPrices.KeepLinesAppend | src/openData/getDailyPrices.py:223-235 | the line filter works line by line and keeps input order |
| DailyPrices.MatchOfQuoted | src/openData/getDailyPrices.py:214-221 | a quoted field matches a clean-up pattern exactly when its contents are accepted by it |
| DailyPrices.SubstituteRecord | src/openData/getDailyPrices.py:214-221 | a substitution over a quoted record rewrites each field on its own |
| DailyPrices.CleanRecord | src/openData/getDailyPrices.py:214-221 | cleaning a record replaces each field by its cleaned form: dash placeholders become 0, grouped numbers lose their commas, others stay |
| DailyPrices.NoEarlyCommaNotGrouped | src/openData/getDailyPrices.py:217-221 | a field with no comma or point among its first six characters is not a grouped number, so it is left alone |
| DailyPrices.WarrantByCode | src/openData/getDailyPrices.py:223-235 | a record is a warrant line iff its first field is a warrant code |
| DailyPrices.CleanKeepsWarrantCode | src/openData/getDailyPrices.py:214-235 | clean-up never changes a warrant code, so filtering after cleaning sees the original code |
| DailyPrices.CombinePrices | src/openData/getDailyPrices.py:447-470 | the two exchanges' prices are joined, first TWSE then TPEx, iff their dates are equal; otherwise 'Failed to get prices' |
| DailyPrices.LaggingIsOlder | src/openData/getDailyPrices.py:455-458 | the exchange named as waiting to be updated is the one with the older date |
| DailyPrices.SameDayJoins | src/openData/getDailyPrices.py:262-274 | files of the same close day, one named in Gregorian and one in Minguo form, yield equal dates and are joined |
| StockList.Mode | src/openData/getStockList.py:41-48 | the listing mode exists exactly for the markets tse, otc and esb; any other market is an error |
| StockList.CfiToType | src/openData/getStockList.py:153-186 | a CFI code shorter than two characters is '-' or, when the first letter leads to a second-letter test, an error |
| StockList.CfiToTypeIsTableLookup | src/openData/getStockList.py:153-186 | for codes of two or more characters the type is the lookup of the first two letters (ES, RW, EP, EF, CE, CM, ED, CB, DA), anything else '-' |
| StockList.CfiPrefixDecides | src/openData/getStockList.py:153-186 | only the two-letter prefix of a CFI code matters |
| StockList.Keep | src/openData/getStockList.py:201-219 | '-' rows are dropped; warrant, preferred, ETN, REIT and ABS rows are kept iff their flag is set; all others are kept |
| StockList.KeepExtremes | src/openData/getStockList.py:201-219 | with every flag set exactly the classified codes are kept; with none set only stocks, ETFs and TDRs are |
| StockList.SplitSymbol | src/openData/getStockList.py:229 | the symbol has no separator, and the cell is the symbol, one separator and the name, or the symbol alone |
| StockList.SplitSymbolRoundTrip | src/openData/getStockList.py:229 | a separator-free symbol, an ideographic or ASCII space and a name split back into symbol and name |
| StockList.ListStocks | src/openData/getStockList.py:188-231 | the listing succeeds iff the market is known, every CFI code can be classified and some kept non-TIB row's cell holds an ideographic or ASCII space; with a known market and classifiable codes the failure is pandas' column-length error, which also covers the case of no kept row; every listed stock has the requested market and a kept type and comes from a non-TIB row, and every non-TIB row of a kept type is listed |
| StockList.NamedIffWantedNamed | src/openData/getStockList.py:229 | some listed stock has a name iff some kept non-TIB row's cell holds a separator |
| StockList.UnsplitListingFails | src/openData/getStockList.py:229 | a listing whose only kept row has no separator, and one that keeps no row, fail with the column-length error |
| StockList.ListStocksAppend | src/openData/getStockList.py:188-231 | the listing keeps register order: listing two parts of the register lists the first part's stocks, then the second's |
| StockList.WantedRowsListed | src/openData/getStockList.py:193-219 | every row that is not TIB and whose type is kept is listed |
| StockList.ListedFromWantedRows | src/openData/getStockList.py:193-219 | each listed stock comes from a row that is not TIB and whose type is kept |
| StockList.Listed | src/openData/getStockList.py:193-219 | the listing has as many stocks as there are wanted rows |
| Assistant.DaysBackLands | src/utils/ass.py:13-35 | going back from a weekday: at most three days, onto a weekday, zero iff it is a weekday after the close, and only weekend days are skipped |
| Assistant.LastMarketCloseDay | src/utils/ass.py:13-35 | the last close day is a weekday at most three days back; it is today iff today is a weekday past the close time; every day skipped is a weekend day |
| Assistant.CloseDayIsIso | src/utils/ass.py:37-45 | with '-' as separator the close day is written as its ISO date |
| Assistant.CloseDayParses | src/utils/ass.py:37-45 | the unseparated YYYYMMDD form reads back as the same date |
| Assistant.DateFromPathName | src/utils/ass.py:52-67 | no date in the name iff neither an eight- nor a seven-digit date pattern matches anywhere; a found date is eight digits |
| Assistant.PathDateRoundTrip | src/utils/ass.py:55-62 | a file named `{prefix}_{YYYYMMDD}.csv` gives back its eight-digit date |
| Assistant.PathMinGuoDateRoundTrip | src/utils/ass.py:55-67 | a file named with a seven-digit Minguo date gives back the Gregorian eight-digit date |
| Assistant.LatestUpdate | src/utils/ass.py:116-134 | the threshold is the latest instant at the given time of day that is before now, at most a day back |
| Assistant.FileIsOldMeaning | src/utils/ass.py:101-143 | a non-empty file is old iff its modification time is at or before the latest passed threshold |
| Assistant.SplitExt | src/utils/ass.py:186-187 | the name splits into root and extension that rejoin to it; an extension starts at the last dot, and a leading-dots name has none |
| Assistant.BackupNameKeepsExtension | src/utils/ass.py:184-191 | the backup name is the base name's root, '_', the stamp, and the original extension |
| Assistant.Tally | src/utils/ass.py:259-276 | skipped, failed and added counts sum to the number of files; skipped is zero iff none was skipped, failed iff none failed |
| Assistant.Collect | src/utils/ass.py:251-257 | the loop stops iff some file fails and the user declines to continue after it; otherwise every result is collected, in file order |
| Assistant.BackupFiles | src/utils/ass.py:240-276 | the backup succeeds iff every file was added |
| Calendar.WeekdayMinusDays | src/utils/ass.py:13-35 | going back n days moves the weekday back n modulo 7 |
| Calendar.MinusDays | src/utils/ass.py:13-35 | subtracting days lands on a valid date exactly that many days earlier |
| Calendar.NextMonth | src/openData/getMonthlyRevenues.py:322-329 | the next month is a month 1..12 one step later, December wrapping to January |
| Calendar.NextQuarter | src/openData/getQuarterlyReports.py:963-970 | the next quarter is a quarter 1..4 one step later, 4 wrapping to 1 |
| Calendar.QuarterOfMonth | src/database/stock.py:1773 | (month−1)//3+1 is the quarter 1..4 containing the month |
| Calendar.ParseIsoFormat | src/utils/getTradingHoliday.py:277-284 | a valid date's ISO text parses back to it, also through the full fromisoformat reader |
| Calendar.FromIsoFormat | src/utils/getTradingHoliday.py:233 | text is read as a 'YYYY-MM-DD' or 'YYYYMMDD' date or as an ISO week date 'YYYY-Www[-D]' or 'YYYYWww[D]'; any other text fails, and a success is a valid date |
| Calendar.IsoWeekDate | src/utils/getTradingHoliday.py:233 | an ISO week date exists iff the year is 1..9999, the week is 1..52 (or 53 in a long ISO year), the day is 1..7 and the result is not past 9999-12-31; it lies `7*(week-1)+day-1` days after the Monday of week 1 |
| Calendar.Week1Monday | src/utils/getTradingHoliday.py:233 | week 1 starts on the Monday of the week that holds 4 January, at most three days from 1 January |
| Calendar.LongIsoYearHas53Weeks | src/utils/getTradingHoliday.py:233 | an ISO year has 53 weeks iff 1 January is a Thursday, or a Wednesday in a leap year, and 52 otherwise |
| Calendar.IsoWeekDateWeekday | src/utils/getTradingHoliday.py:233 | day d of an ISO week falls on weekday d-1, Monday being 0 |
| Calendar.EveryDateHasIsoWeek | src/utils/getTradingHoliday.py:233 | every valid date before the year 9999 has an ISO week date |
| Calendar.WeekSpellings | src/utils/getTradingHoliday.py:233 | the four week-date spellings of the same year, week and day read as the same date |
| Calendar.FirstWeekOf2024 | src/utils/getTradingHoliday.py:233 | '2024-W01-1' and '2024W01' both read as 1 January 2024 |
| Calendar.IsoFormatInjective | src/utils/getTradingHoliday.py:277-284 | two valid dates have the same ISO text iff they are equal |
| TradingHoliday.TableListsOnlyWeekdays | src/utils/getTradingHoliday.py:36-37 | every date in the holiday table is a valid weekday of 2019..2025 |
| TradingHoliday.TableRange | src/utils/getTradingHoliday.py:263-264 | the table's first and last years are 2019 and 2025 |
| TradingHoliday.HolidayOnDate | src/utils/getTradingHoliday.py:254-284 | weekends are holidays in any year; a weekday outside 2019..2025 is an error; otherwise it is a holiday iff listed |
| TradingHoliday.IsTradingHoliday | src/utils/getTradingHoliday.py:230-284 | a query of another type is not a holiday; a text query is read as date.fromisoformat reads it ('YYYY-MM-DD', 'YYYYMMDD' or an ISO week date) and fails when unreadable; a date or datetime query (or none, meaning today) follows the rule for its date |
| TradingHoliday.ListedIsoIffMember | src/utils/getTradingHoliday.py:277-284 | a date's ISO text is in the table iff the date is |
| TradingHoliday.TextQueryMatchesDate | src/utils/getTradingHoliday.py:231-246 | asking with a date's ISO text answers as asking with the date |
| TradingHoliday.ListedDatesAreHolidays | src/utils/getTradingHoliday.py:277-284 | every listed date is answered as a holiday |
| HistoryTally.CountsPartition | src/openData/getMonthlyRevenues.py:310-333 | present, downloaded and failed periods together are all the visited periods |
| HistoryTally.Tally | src/openData/getMonthlyRevenues.py:310-333 | adding a period's outcome keeps the downloaded and failed counters equal to the counts over the visited periods |
| Patterns.Search | src/utils/ass.py:55 | the search returns the left-most match position at or after the start, and none iff the pattern matches nowhere after it |
| Patterns.DigitsMatch | src/utils/ass.py:55 | a run of n digit tokens matches exactly n digits |
| Screening.AddLists | src/screening/operation.py:22-42 | the union fails iff a list lacks code, name or score; otherwise it has one row per code of either list, in code order, each with the sum of the code's scores and the name of its first occurrence |
| Screening.GroupByCodeIsGrouping | src/screening/operation.py:34-39 | grouping by code gives one row per distinct code with the summed score and first name |
| Screening.MinusLists | src/screening/operation.py:62-80 | the difference fails iff a list lacks a required column; otherwise it is the source rows filtered by "code not excluded": in source order, each kept row as often as in the source, excluded rows never |
| Screening.MinusEmptyIsIdentity | src/screening/operation.py:74-80 | subtracting an empty list returns the source rows unchanged |
| Screening.DropCodesMembers | src/screening/operation.py:74-80 | the row-by-row drop is the filter of the rows on "code not excluded": same rows, order and multiplicities |
| Screening.MinusThenAddCoversSource | src/screening/operation.py:22-80 | every code of the source is in the difference or in the excluded list |
| Screening.ListIndustrial | src/screening/list_industrial.py:18-55 | without industrial stocks the input is returned; with a non-empty input the result is a permutation of the merged rows, by score descending; otherwise every industrial stock with score 1 |
| Screening.MergeIndustrial | src/screening/list_industrial.py:33-39 | the merge keeps exactly the input rows whose code is industrial, each with its score plus one; a single row appears once per industrial row with its code |
| Screening.MergeIndustrialAppend | src/screening/list_industrial.py:36 | the merge works row by row, so merged rows keep the input order |
| Screening.CountListed | src/screening/list_industrial.py:36 | the number of matches for a code is its number of occurrences among the industrial codes |
| Screening.MergeUniqueIsFilter | src/screening/list_industrial.py:33-39 | with distinct industrial codes, the merge is the input filtered on industrial codes, in order, each kept row with one more point |
| Screening.GetTargetStocks | src/screening/helper.py:17-29 | a non-empty input is returned unchanged; otherwise every industrial stock with score 0 |
| Screening.SortByScore | src/screening/list_revenue.py:91-96 | the result is a permutation of the rows with scores in descending order |
| Screening.TargetsOf | src/screening/list_revenue.py:7-21 | a screen's targets are the input's codes with their names and scores, or every industrial stock with its name and no score |
| Screening.Screen | src/screening/list_revenue.py:42-96 | a screen's result is by score descending and is a permutation of the award rows of the target codes the rule selects, one per occurrence (incoming score, 0 if absent, plus the rule's score); with distinct target codes no code appears twice |
| Screening.Picks | src/screening/list_metrics.py:44-91 | the selected rows are the award rows of the target codes filtered by "the rule selects it", in target order, one per occurrence |
| Screening.UniqueCodesPermutation | src/screening/list_revenue.py:91-96 | reordering rows (the score sort) never makes two rows share a code |
| Series.Recent | src/screening/list_revenue.py:140-141 | the recent window is the last `limit` rows, or all of them when there are fewer |
| Series.DropMissing | src/screening/list_metrics.py:53 | dropping missing values is the filter on "present": the present values in order, each once per occurrence |
| Series.DropMissingCounts | src/screening/list_metrics.py:53 | each value is kept as often as it is present, and the length drops by the number of missing values |
| Series.DropNoneMissing | src/screening/list_metrics.py:53 | a series with no missing value is kept whole |
| Filtering.FilterCounts | src/screening/operation.py:74-80 | a boolean-mask filter keeps every element that passes, as often as it occurs, and nothing else |
| Filtering.FilterAppend | src/screening/operation.py:74-80 | a boolean-mask filter works element by element, so kept elements stay in their order |
| Filtering.FilterDistinct | src/screening/operation.py:74-80 | filtering a list without repeats gives a list without repeats |
| Filtering.FilterAll | src/screening/list_metrics.py:53 | a filter that every element passes keeps the list whole |
| Series.RisesEachStepIffIncreasing | src/screening/list_revenue.py:161-167 | rising at each step is the same as strictly increasing |
| Series.Max | src/screening/list_metrics.py:62 | the maximum is an element and no element exceeds it |
| Series.Min | src/screening/list_metrics.py:61 | the minimum is an element and no element is below it |
| Series.GrowthPercent | src/screening/list_revenue.py:176-182 | growth is 0 from a zero base and otherwise (last − first) × 100 over the base's magnitude; it is non-negative when the value did not fall, positive iff it rose |
| Series.RiseOf | src/screening/list_revenue.py:362-374 | a rise exists iff all values are present and strictly increasing, and it is last minus first |
| RevenueScreens.ListRevenue | src/screening/list_revenue.py:23-455 | a revenue screen's result is by score descending and a permutation of the award rows of the target codes its rule selects, one per occurrence; only target codes appear, and with distinct targets no code twice |
| RevenueScreens.ThresholdScreensRaiseScores | src/screening/list_revenue.py:231-240 | a stock chosen by a threshold screen ends up with a score above its incoming one |
| RevenueScreens.NewHigh | src/screening/list_revenue.py:56-79 | a new high needs enough rows and a positive lookback maximum beaten by the recent maximum; the score is the growth of the recent maximum over the lookback maximum |
| RevenueScreens.NewHighWitnesses | src/screening/list_revenue.py:65-79 | the new-high test is: lookback maximum positive and recent maximum above it |
| RevenueScreens.AvgGrowth | src/screening/list_revenue.py:123-182 | averages grow iff the m+1 averages exist and strictly increase; the score is the growth from the first to the last average |
| RevenueScreens.AverageSeries | src/screening/list_revenue.py:122-159 | MA3 and MA12 are the stored averages of the last m+1 rows, value for value; other widths are the means of the m+1 trailing windows of revenue and need m+width rows; the series has m+1 values |
| RevenueScreens.RollingMeans | src/screening/list_revenue.py:150-155 | each rolling value is the mean of its window |
| RevenueScreens.ColumnAbove | src/screening/list_revenue.py:231-240 | MoM/YoY above a threshold selects iff all n values are present and above it; the score is their sum less n times the threshold |
| RevenueScreens.SumExcess | src/screening/list_revenue.py:237-240 | the summed excess over a threshold is the sum less the threshold once per value |
| RevenueScreens.AccumGrowth | src/screening/list_revenue.py:339-376 | accumulated YoY growth selects iff the last m+1 values are present and strictly increasing; the score is last minus first |
| RevenueScreens.AccumAbove | src/screening/list_revenue.py:426-437 | accumulated YoY above a threshold selects iff the latest value is present and above it; the score is the excess |
| MetricsScreens.MinMaxRatio | src/screening/list_metrics.py:50-72 | the ratio screen selects iff some margin is present, the maximum is positive and min/max×100 is above the threshold; the score is the ratio less the threshold, at most 100 less the threshold |
| MetricsScreens.RatioPercent | src/screening/list_metrics.py:61-70 | the min/max ratio is at most 100 and positive iff the minimum is |
| MetricsScreens.RatioScreenNeedsPositiveMargins | src/screening/list_metrics.py:50-72 | with a non-negative threshold, a selected stock has only positive margins |
| MetricsScreens.RecentMax | src/screening/list_metrics.py:114-154 | recent-is-max selects iff the window is complete and the recent quarters hold its maximum; the score is 0 with no older quarters, 100 or 0 over a zero older maximum, else the growth of the recent maximum over the older one |
| MetricsScreens.RecentHoldsMax | src/screening/list_metrics.py:128-137 | the recent maximum reaches the window's maximum iff the maximum lies among the recent quarters |
| MetricsScreens.Growth | src/screening/list_metrics.py:196-218 | YoY/QoQ growth selects iff the m+1 values are present and strictly increasing; the score is last minus first |
| MetricsScreens.NetMarginAvg | src/screening/list_metrics.py:323-336 | the net-margin screen selects iff the mean of the present margins × 100 is above the threshold; the score is the excess |
| MetricsScreens.OprMarginMin | src/screening/list_metrics.py:381-393 | the operating-margin screen selects iff every present margin × 100 is above the threshold; the score is the minimum's excess |
| MetricsScreens.ListMetrics | src/screening/list_metrics.py:23-414 | a metrics screen fails only for recent-is-max with a zero window over some target; otherwise it is by score descending and a permutation of the award rows of the selected target codes, one per occurrence, with no code twice when the targets are distinct |
| PriceScreens.ListPriceGrowth | src/screening/list_price.py:27-132 | the price-growth screen fails iff a target's window has a date the month arithmetic cannot handle; otherwise it is by score descending and a permutation of the award rows of the picked target codes, one per occurrence, with no code twice when the targets are distinct |
| PriceScreens.GrowthOutcome | src/screening/list_price.py:59-118 | a stock is picked iff it has at least two rows, valid dates and a base row (the last one dated at or before n months before the latest) whose close is positive and grows by more than the threshold; the score is that growth |
| PriceScreens.LastOnOrBefore | src/screening/list_price.py:77-101 | the base row is the last row dated on or before the target, and none iff no row is |
| PriceScreens.MinusMonths | src/screening/list_price.py:77 | n months back lands in the month n earlier, on the same day or the month's last day |
| PriceScreens.MinusMonthsGoesBack | src/screening/list_price.py:77-87 | going back months never moves forward, and moves for a positive count |
| PriceScreens.Window | src/screening/list_price.py:48-57 | the price window holds exactly the rows dated in the range |
| PriceScreens.WindowOrdered | src/screening/list_price.py:48-57 | a window of date-ordered rows is still in date order |
| PriceScreens.OrderedWindowRoles | src/database/stock.py:756-762 | with rows in trade-date order, a window's last row is its newest and its base row is the newest row on or before the target |
| PriceScreens.ListPriceAboveAvg | src/screening/list_price.py:137-224 | the above-average screen fails only for a date too early to go back from; otherwise it is by score descending and a permutation of the award rows of the selected target codes, one per occurrence, with no code twice when the targets are distinct |
| PriceScreens.AboveAvgOutcome | src/screening/list_price.py:175-206 | a stock is selected iff it has prices, the mean of its recent monthly prices is positive and the latest close is above it; the score is the growth over the mean |
| LoadStock.TransformMonthly | src/load_stock.py:100-181 | one row per input row, latest first, each labelled `{year}/{MM}` with that row's year and month |
| LoadStock.LatestFirst | src/load_stock.py:125-126 | input in period order comes out in strictly descending period order |
| LoadStock.YearMonthRoundTrip | src/load_stock.py:117-119 | a `{year}/{MM}` label reads back as its year and month |
| LoadStock.TransformMonthlyAvgPrice | src/load_stock.py:100-129 | the monthly price table has the fixed column list and the input rows' values in reverse order |
| LoadStock.TransformMonthlyRevenue | src/load_stock.py:131-181 | the monthly revenue table has the fixed column list and the formatted input rows in reverse order |
| LoadStock.Pivot | src/load_stock.py:276-318 | the pivot fails iff present items meet a repeated period; otherwise its columns are 'Item' then the period labels, with one row per present item holding its value for each period |
| LoadStock.TransformQuarterly | src/load_stock.py:184-270 | an empty frame gives just the 'Item' column; otherwise the pivot, which fails iff present items meet a repeated period and else lists each present item's value per period |
| LoadStock.PresentAppend | src/load_stock.py:303-311 | the present items keep their order and multiplicity |
| LoadStock.PivotLatestFirst | src/load_stock.py:288-294 | the pivot's period columns are in strictly descending (year, quarter) order |
| LoadStock.SortedRows | src/load_stock.py:288-290 | the sorted periods are a permutation of the rows in non-increasing period order |
| LoadStock.PeriodLabelInjective | src/load_stock.py:292-294 | `{year}.Q{quarter}` labels of different periods differ |
| LoadStock.Distinct | src/load_stock.py:297-300 | duplicates are removed, every label is kept, and a duplicate-free list is unchanged |
| LoadStock.FormatNumber | src/load_stock.py:321-336 | a missing value is ''; an integer is its sign and digits grouped by commas in threes, reading back as the integer |
| LoadStock.SignedGroupedReadsBack | src/load_stock.py:333 | the grouped text has a leading '-' iff the value is negative, and removing the commas gives the plain decimal |
| LoadStock.GroupThousands | src/load_stock.py:333 | grouping digits in threes from the right only inserts commas |

## Left out

- HTTP fetching, file reading and writing, zip archives and text encodings: the fetched page, CSV table, file list, file times and header are parameters.
- pandas `read_csv`/`read_html` parsing: a read CSV file is a header and rows mapping columns to cells.
- The SQLite engine: tables are maps from primary key to row, and a rolled-back import is a `Failure`.
- The SQL window-function UPDATE path of `update_monthly_revenue` is not modelled separately. Only the pandas fallback it matches is modelled.
- Floating-point numerics: the ratios of `update_financial_metrics`, `round(x, 2)` on scores, and the float output of `format_100`, `format_percent` and `format_value`. Values and scores are exact `real`s, so rounding is ignored.
- RevenueDerived.PctChange: computes mom/yoy exactly over reals, not as pandas float64 percentages.
- `update_financial_metrics` as a whole: its only rules are float ratios and lags, which are the same shape as the revenue lags.
- QuarterlyReports.AdjustRatio: cells are text, a column shorter than its table reads as blank cells, and the first column stands for pandas' column labelled 0.
- QuarterlyReports.GuessSector: the failure carries the index error's message; `fetch_quarterly_reports` turns any failure into 'Failed to get reports', which is not modelled separately.
- LoadStock.FormatNumber: takes an integer or nothing. The `str(value)` fallback for non-numeric values, and the `int()` truncation of a float, are not modelled.
- Screening.SortByScore: pandas `sort_values` uses a non-stable quicksort. The model is a stable insertion sort and promises only descending order and a permutation.
- MetricsScreens.RatioPercent: states only the bound and the sign of min/max×100, not the identity ratio × max = min × 100.
- CsvImport.Batch: codes are taken as the text the file holds. `astype(str)` of a column pandas read as numbers is not modelled, so a code such as 0050 read as the number 50 and written as '50' is outside the model.
- CsvImport.Examine: the `\d` of the file-name patterns (src/database/stock.py:475, 842, 1329) also matches the non-ASCII Unicode decimal digits, which `int()` reads. The model's digit token reads only '0'..'9', so a name such as `prices_` followed by Arabic-Indic digits is skipped here but imported by the program.
- QuarterlyReports.SelectTables: models only the default `concat=True` path. With `concat=False` (src/openData/getQuarterlyReports.py:189-216) the result is a dict keyed by sector, in which a later '--' or 'bd_ci_min' table replaces an earlier one under the same key. No caller passes `concat=False`.
- Assistant.Basename: splits on '/' only, as posixpath does. On Windows `ntpath` also splits on a backslash, which the model does not.
- CsvImport.ReformatDate: reads only the 'YYYY-MM-DD' and 'YYYYMMDD' spellings. pandas `to_datetime` infers further formats, and from its first cell. A numeric cell is kept as it is, although pandas would read it as nanoseconds since 1970.
- A NaN CFI code is a missing cell that the listing never sees. The model takes codes as strings.
- Quarter values in stored reports are taken to be 1..4, as the tables' writers produce them.
- Preconditions state ranges the program's own callers always satisfy, not caller input: hour 0..23, minute and second 0..59, valid dates, the close-time defaults.
- `revenue_ma3`/`revenue_ma12` and the accumulated-YoY averages are never written by the code modelled, so they are optional input columns.
- The database helpers `get_industrial_stocks`, `get_recent_revenue_by_code`, `get_recent_financial_metrics_by_code` and `get_monthly_avg_prices_by_code`: src/database/stock.py here does not define them. Their results are input sequences, oldest to newest.
- `backup_file` renames into a name relative to the working directory, and zips. Only the name and the tally are modelled.
- `to_continue`, `spinner_*` and `wait`: these are interactive input, threads and sleeps. The answer to continue is a `proceed` parameter.
- The panels, `logger`, `ansiColors`, `getStockPrice.py`, `db_manager.py`, `main.py`, `index.py` and `list_method_a.py`: these are user interface, terminal plumbing, drivers and placeholders.
- `get_stocks`, `search_stocks` and the other single-query readers of stock.py: these are plain SELECTs, whose period encodings are modelled in PeriodKeys.

## Findings

| source | as written | input that shows it | evidently intended | confidence | as-written member | corrected member |
|---|---|---|---|---|---|---|
| src/database/stock.py:79-83 | the last-updated time is stored with strftime('%Y-%m-%d %H:%M:%S'), dropping microseconds, while the skip test at 491-493 compares the file's full modification time against it | a folder whose newest imported file has modification time 12:00:00.5: the stored time is 12:00:00, and 12:00:00.5 > 12:00:00, so the next run imports that file again | a second run over an unchanged folder writes nothing | not executed | CsvImport.NewestFileWrittenAgain | CsvImport.ReimportWritesNothing |
| src/openData/getQuarterlyReports.py:289 | the other-industry balance table, guessed by position, gets the label 'min' (also at 301), while the default sector list at 112 and the sectors users request use 'mim' | a balance sheet of table count 7, index 6, with current assets, fewer than 500 rows and no marker column, fetched with the default sectors: it is guessed 'min', which is neither requested nor 'bd_ci_min', so it is dropped | the other industry's balance sheet is kept whenever its sector is requested | not executed | QuarterlyReports.OtherBalanceDroppedAsWritten, QuarterlyReports.FetchStatementsAsWritten, QuarterlyReports.FetchDropsOtherBalance | QuarterlyReports.DefaultRequestKeepsAllSectors, QuarterlyReports.FetchStatements |
| src/openData/getQuarterlyReports.py:963-964 | the history loop is `while True` and leaves only when the quarter just visited equals the end quarter; the monthly loop at src/openData/getMonthlyRevenues.py:324-325 does the same with months | start_date='2099-01-01', or any date in the current quarter (month) | a start past the latest published period downloads nothing and returns | not executed | QuarterlyReports.QuarterLoopNeverExits, QuarterlyReports.DownloadFromTodaysQuarter, MonthlyRevenues.MonthLoopNeverExits, MonthlyRevenues.DownloadFromTodaysMonth | QuarterlyReports.StepQuarters, QuarterlyReports.DownloadHistory, MonthlyRevenues.StepMonths, MonthlyRevenues.DownloadHistory |

=== FILE: assistant.dfy ===
/** The date and file helpers of the utility module: the last market close day, the date in
    a file name, whether a downloaded file is stale, and the names and tally of backups.
    "Now" and file times are parameters. */
module Assistant {
  import opened Wrappers
  import opened Text
  import opened Calendar
  import opened Patterns

  // ---------------------------------------------------------------- market close day

  /** The close time as microseconds after midnight. */
  function CloseMicros(hour: int, minute: int): int {
    (hour * 3600 + minute * 60) * MicrosPerSecond
  }

  /** How many days back the last close lies, by weekday (Monday 0) and whether today's
      close has passed. */
  function DaysBack(weekday: int, afterClose: bool): nat
    requires 0 <= weekday < 7
  {
    if weekday < 5 && afterClose then 0
    else if weekday == 0 then 3
    else if weekday < 5 then 1
    else weekday - 4
  }

  /** The arithmetic of DaysBack: at most three days back, landing on a weekday, with only
      weekend days in between, and no step back exactly on a weekday after the close. */
  lemma DaysBackLands(w: int, afterClose: bool)
    requires 0 <= w < 7
    ensures DaysBack(w, afterClose) <= 3 && (w - DaysBack(w, afterClose)) % 7 < 5
    ensures DaysBack(w, afterClose) == 0 <==> w < 5 && afterClose
    ensures forall k :: 0 < k < DaysBack(w, afterClose) ==> WeekdayBack(w, k) >= 5
  {
    if w == 0 && !afterClose {
      assert WeekdayBack(w, 1) == 6 && WeekdayBack(w, 2) == 5 && WeekdayBack(w, 3) == 4;
    } else if w == 6 {
      assert WeekdayBack(w, 1) == 5;
    }
  }

  /** The weekday k days before weekday w. */
  function WeekdayBack(w: int, k: int): int {
    (w - k) % 7
  }

  /** get_last_market_close_day: today when it is a weekday strictly after the close,
      otherwise the latest earlier weekday. Every day skipped is a weekend day, except today
      itself when its close has not yet passed. */
  function LastMarketCloseDay(now: DateTime, closeHour: int, closeMinute: int): (d: Date)
    requires ValidDateTime(now) && 0 <= closeHour < 24 && 0 <= closeMinute < 60
    requires Ordinal(now.date) > 3
    ensures ValidDate(d) && !IsWeekend(d)
    ensures Ordinal(d) <= Ordinal(now.date) <= Ordinal(d) + 3
    ensures d == now.date <==> !IsWeekend(now.date) && now.micros > CloseMicros(closeHour, closeMinute)
    ensures forall k :: 0 < k < Ordinal(now.date) - Ordinal(d) ==> IsWeekend(MinusDays(now.date, k))
  {
    var w := Weekday(now.date);
    var after := now.micros > CloseMicros(closeHour, closeMinute);
    var n := DaysBack(w, after);
    DaysBackLands(w, after);
    StepBack(now.date, n);
    assert MinusDays(now.date, n) == now.date ==> Ordinal(MinusDays(now.date, n)) == Ordinal(now.date);
    MinusDays(now.date, n)
  }

  /** Stepping back over weekend days only, onto a weekday. */
  lemma StepBack(today: Date, n: nat)
    requires ValidDate(today) && Ordinal(today) > 3 && n <= 3
    requires (Weekday(today) - n) % 7 < 5
    requires forall k :: 0 < k < n ==> WeekdayBack(Weekday(today), k) >= 5
    ensures !IsWeekend(MinusDays(today, n))
    ensures n == 0 ==> MinusDays(today, n) == today
    ensures forall k :: 0 < k < n ==> IsWeekend(MinusDays(today, k))
  {
    WeekdayMinusDays(today, n);
    forall k | 0 < k < n ensures IsWeekend(MinusDays(today, k)) {
      WeekdayMinusDays(today, k);
      assert WeekdayBack(Weekday(today), k) >= 5;
    }
  }

  /** The returned text: year, month and day, the year less 1911 in the Minguo calendar, the
      separator between the fields. No separator and the empty one give the same text. */
  function CloseDayString(d: Date, minGuo: bool, sep: string): string
    requires ValidDate(d)
  {
    var year := if minGuo then d.year - 1911 else d.year;
    if sep == "" then IntToString(year) + Pad2(d.month) + Pad2(d.day)
    else IntToString(year) + sep + Pad2(d.month) + sep + Pad2(d.day)
  }

  /** Without a separator the fields are simply joined. */
  lemma CloseDayJoined(d: Date, minGuo: bool)
    requires ValidDate(d)
    ensures CloseDayString(d, minGuo, "") ==
      IntToString(if minGuo then d.year - 1911 else d.year) + (Pad2(d.month) + Pad2(d.day))
  {
  }

  /** Two-digit fields of a valid month and day. */
  lemma Pad2Digits(n: nat)
    requires n < 100
    ensures |Pad2(n)| == 2 && AllDigits(Pad2(n)) && ParseDigits(Pad2(n)) == n
  {
    NatToStringShort(n, 2, 100);
    ParseZeroFill(n, 2);
  }

  /** With a four-digit year and '-' as separator the text is the ISO date. */
  lemma CloseDayIsIso(d: Date)
    requires ValidDate(d) && 1000 <= d.year
    ensures CloseDayString(d, false, "-") == IsoFormat(d)
  {
    NatToStringLength(d.year, 4);
  }

  /** Without a separator the text is the 'YYYYMMDD' form, which reads back as the date. */
  lemma CloseDayParses(d: Date)
    requires ValidDate(d) && 1000 <= d.year
    ensures ParseIsoDate(CloseDayString(d, false, "")) == Success(d)
  {
    var y, m, dd := NatToString(d.year), Pad2(d.month), Pad2(d.day);
    CloseDayJoined(d, false);
    NatToStringLength(d.year, 4);
    ParseNatToString(d.year);
    Pad2Digits(d.month);
    Pad2Digits(d.day);
    ParseCompact(y, m, dd);
  }

  lemma ParseCompact(y: string, m: string, d: string)
    requires |y| == 4 && |m| == 2 && |d| == 2
    requires AllDigits(y) && AllDigits(m) && AllDigits(d)
    requires ValidDate(Date(ParseDigits(y), ParseDigits(m), ParseDigits(d)))
    ensures ParseIsoDate(y + (m + d)) == Success(Date(ParseDigits(y), ParseDigits(m), ParseDigits(d)))
  {
    var s := y + (m + d);
    JoinDigits(y, m, d);
    assert y + m + d == s;
    assert s[..4] == y && s[4..6] == m && s[6..] == d;
    assert IsoFields(s) == Some((y, m, d));
  }

  // ---------------------------------------------------------------- date in a file name

  /** r'_([0-9]{7,8}).csv' with n digits; the '.' is unescaped and matches any character. */
  function DatePattern(n: nat): seq<Tok> {
    Lits("_") + Digits(n) + [AnyChar] + Lits("csv")
  }

  /** The same pattern read character by character: '_', n digits, any character but a
      newline, then "csv". */
  predicate DateAt(s: string, i: nat, n: nat) {
    i + n + 5 <= |s| && s[i] == '_' && AllDigits(s[i + 1..i + 1 + n]) && s[i + n + 1] != '\n'
    && s[i + n + 2..i + n + 5] == "csv"
  }

  /** DateAt is where the token pattern matches. */
  lemma DateAtIsMatch(s: string, i: nat, n: nat)
    ensures DateAt(s, i, n) <==> MatchAt(s, i, DatePattern(n))
  {
    var p := DatePattern(n);
    assert |p| == n + 5;
    assert p[0] == Lit('_') && p[n + 1] == AnyChar;
    assert p[n + 2] == Lit('c') && p[n + 3] == Lit('s') && p[n + 4] == Lit('v');
    assert forall j :: 1 <= j <= n ==> p[j] == Digit;
    if i + n + 5 <= |s| {
      DigitsMatch(s, i + 1, n);
      var d := s[i + 1..i + 1 + n];
      if MatchAt(s, i, p) {
        assert TokMatches(p[0], s[i]) && TokMatches(p[n + 1], s[i + n + 1]);
        assert TokMatches(p[n + 2], s[i + n + 2]) && TokMatches(p[n + 3], s[i + n + 3]) && TokMatches(p[n + 4], s[i + n + 4]);
        forall j | 0 <= j < n ensures IsDigit(d[j]) {
          assert TokMatches(p[1 + j], s[i + 1 + j]);
        }
      }
      if DateAt(s, i, n) {
        forall j | 0 <= j < |p| ensures TokMatches(p[j], s[i + j]) {
          if 1 <= j <= n {
            assert s[i + j] == d[j - 1];
          } else if j >= n + 2 {
            assert s[i + j] == s[i + n + 2..i + n + 5][j - n - 2];
          }
        }
      }
    }
  }

  /** re.search: the leftmost position where the pattern matches, trying eight digits
      before seven there. */
  function DateMatch(s: string, from: nat): (r: Option<(nat, nat)>)
    ensures r.Some? ==> from <= r.value.0 && (r.value.1 == 8 || r.value.1 == 7) && DateAt(s, r.value.0, r.value.1)
    ensures r.Some? && r.value.1 == 7 ==> !DateAt(s, r.value.0, 8)
    ensures r.Some? ==> forall i :: from <= i < r.value.0 ==> !DateAt(s, i, 8) && !DateAt(s, i, 7)
    ensures r.None? ==> forall i :: from <= i ==> !DateAt(s, i, 8) && !DateAt(s, i, 7)
    decreases |s| - from
  {
    if from >= |s| then None
    else if DateAt(s, from, 8) then Some((from, 8))
    else if DateAt(s, from, 7) then Some((from, 7))
    else DateMatch(s, from + 1)
  }

  /** get_date_from_path_name: an eight-digit date as it is; a seven-digit Minguo date with
      its three-digit year plus 1911; no match raises. The result is always eight digits. */
  function DateFromPathName(path: string): (r: Result<string>)
    ensures r.Failure? <==> forall i :: !MatchAt(path, i, DatePattern(8)) && !MatchAt(path, i, DatePattern(7))
    ensures r.Success? ==> |r.value| == 8 && AllDigits(r.value)
  {
    match DateMatch(path, 0)
    case None =>
      assert forall i :: !MatchAt(path, i, DatePattern(8)) && !MatchAt(path, i, DatePattern(7)) by {
        forall i ensures !MatchAt(path, i, DatePattern(8)) && !MatchAt(path, i, DatePattern(7)) {
          DateAtIsMatch(path, i, 8);
          DateAtIsMatch(path, i, 7);
        }
      }
      Failure("Can't get date string from '" + path + "'")
    case Some((i, n)) =>
      DateAtIsMatch(path, i, n);
      var digits := path[i + 1..i + 1 + n];
      if n == 8 then Success(digits)
      else
        var minGuo := digits[..3];
        ParseDigitsBound(minGuo);
        var year := ParseDigits(minGuo) + 1911;
        NatToStringLength(year, 4);
        Success(NatToString(year) + digits[3..])
  }

  /** No '_' of `prefix` is followed by a digit, as in "STOCK_DAY_ALL" or "RSTA3104". */
  predicate NoDigitAfterUnderscore(prefix: string) {
    forall i :: 0 <= i < |prefix| - 1 && prefix[i] == '_' ==> !IsDigit(prefix[i + 1])
  }

  /** A name whose prefix has no '_' followed by a digit, before '_<digits>.csv', has its
      match at that last '_'. */
  lemma DateMatchAfter(prefix: string, digits: string)
    requires NoDigitAfterUnderscore(prefix) && AllDigits(digits) && (|digits| == 7 || |digits| == 8)
    ensures DateMatch(prefix + "_" + digits + ".csv", 0) == Some((|prefix|, |digits|))
  {
    PrefixSkipped(prefix, digits);
    DateAtSuffix(prefix, digits);
    FirstDateMatch(prefix + "_" + digits + ".csv", |prefix|, |digits|);
  }

  /** The first position where the pattern matches, with eight digits or else with seven, is
      what the search finds. */
  lemma FirstDateMatch(s: string, k: nat, n: nat)
    requires k < |s| && (n == 8 || n == 7) && DateAt(s, k, n) && (n == 7 ==> !DateAt(s, k, 8))
    requires forall i :: 0 <= i < k ==> !DateAt(s, i, 8) && !DateAt(s, i, 7)
    ensures DateMatch(s, 0) == Some((k, n))
  {
    DateMatchSkips(s, 0, k);
  }

  /** No match starts inside the prefix of such a name. */
  lemma PrefixSkipped(prefix: string, digits: string)
    requires NoDigitAfterUnderscore(prefix)
    ensures forall i :: 0 <= i < |prefix| ==> !DateAt(prefix + "_" + digits + ".csv", i, 8) && !DateAt(prefix + "_" + digits + ".csv", i, 7)
  {
    NoDateInPrefix(prefix, "_" + digits + ".csv");
    assert prefix + "_" + digits + ".csv" == prefix + ("_" + digits + ".csv");
  }

  /** No match starts inside such a prefix when what follows it does not start with a digit. */
  lemma NoDateInPrefix(prefix: string, rest: string)
    requires NoDigitAfterUnderscore(prefix) && |rest| > 0 && !IsDigit(rest[0])
    ensures forall i :: 0 <= i < |prefix| ==> !DateAt(prefix + rest, i, 8) && !DateAt(prefix + rest, i, 7)
  {
    var s := prefix + rest;
    forall i | 0 <= i < |prefix| ensures !DateAt(s, i, 8) && !DateAt(s, i, 7) {
      assert s[i] == prefix[i];
      assert !IsDigit(s[i + 1]) || s[i] != '_' by {
        if i + 1 < |prefix| { assert s[i + 1] == prefix[i + 1]; } else { assert s[i + 1] == rest[0]; }
      }
      if i + 8 <= |s| { assert s[i + 1..i + 8][0] == s[i + 1]; }
      if i + 9 <= |s| { assert s[i + 1..i + 9][0] == s[i + 1]; }
    }
  }

  /** The date pattern matches at the '_', with as many digits as there are. */
  lemma DateAtSuffix(prefix: string, digits: string)
    requires AllDigits(digits) && (|digits| == 7 || |digits| == 8)
    ensures |prefix| < |prefix + "_" + digits + ".csv"| && DateAt(prefix + "_" + digits + ".csv", |prefix|, |digits|)
    ensures |digits| == 7 ==> !DateAt(prefix + "_" + digits + ".csv", |prefix|, 8)
  {
    var s := prefix + "_" + digits + ".csv";
    var k, n := |prefix|, |digits|;
    assert s[k] == '_';
    assert s[k + 1..k + 1 + n] == digits;
    assert s[k + n + 1] == '.';
    assert s[k + n + 2..k + n + 5] == "csv";
    if n == 7 {
      var w := s[k + 1..k + 9];
      assert w[7] == '.';
      assert !AllDigits(w);
    }
  }

  /** Positions where neither pattern matches can be skipped. */
  lemma {:induction false} DateMatchSkips(s: string, lo: nat, hi: nat)
    requires lo <= hi <= |s|
    requires forall i :: lo <= i < hi ==> !DateAt(s, i, 8) && !DateAt(s, i, 7)
    ensures DateMatch(s, lo) == DateMatch(s, hi)
    decreases hi - lo
  {
    if lo < hi {
      DateMatchSkips(s, lo + 1, hi);
    }
  }

  /** What the parser returns for a name of the form prefix_<digits>.csv. */
  lemma DateFromNamed(prefix: string, digits: string)
    requires NoDigitAfterUnderscore(prefix) && AllDigits(digits) && (|digits| == 7 || |digits| == 8)
    ensures DateFromPathName(prefix + "_" + digits + ".csv") ==
      if |digits| == 8 then Success(digits)
      else Success(NatToString(ParseDigits(digits[..3]) + 1911) + digits[3..])
  {
    var s := prefix + "_" + digits + ".csv";
    DateMatchAfter(prefix, digits);
    assert s[|prefix| + 1..|prefix| + 1 + |digits|] == digits;
  }

  /** Three runs of digits joined are digits, and the first run and the rest can be cut
      out again. */
  lemma JoinDigits(a: string, b: string, c: string)
    requires AllDigits(a) && AllDigits(b) && AllDigits(c)
    ensures AllDigits(a + b + c) && (a + b + c)[..|a|] == a && (a + b + c)[|a|..] == b + c
  {
    var t := a + b + c;
    forall i | 0 <= i < |t| ensures IsDigit(t[i]) {
      if i < |a| { assert t[i] == a[i]; }
      else if i < |a| + |b| { assert t[i] == b[i - |a|]; }
      else { assert t[i] == c[i - |a| - |b|]; }
    }
    assert t[..|a|] == a;
    assert t[|a|..] == b + c;
  }

  /** The digits of a date without separator: a year of `width` digits, then two for the
      month and two for the day. */
  lemma DateDigits(y: nat, width: nat, d: Date)
    requires ValidDate(d) && 1 <= width && Pow10(width - 1) <= y < Pow10(width)
    ensures var t := NatToString(y) + Pad2(d.month) + Pad2(d.day);
      |t| == width + 4 && AllDigits(t) && t[..width] == NatToString(y) && t[width..] == Pad2(d.month) + Pad2(d.day)
  {
    var ys, ms, ds := NatToString(y), Pad2(d.month), Pad2(d.day);
    NatToStringLength(y, width);
    Pad2Digits(d.month);
    Pad2Digits(d.day);
    JoinDigits(ys, ms, ds);
  }

  /** An eight-digit market-close date in a file name reads back unchanged. */
  lemma PathDateRoundTrip(prefix: string, d: Date)
    requires ValidDate(d) && NoDigitAfterUnderscore(prefix) && 1000 <= d.year
    ensures DateFromPathName(prefix + "_" + CloseDayString(d, false, "") + ".csv") == Success(CloseDayString(d, false, ""))
  {
    DateDigits(d.year, 4, d);
    DateFromNamed(prefix, CloseDayString(d, false, ""));
  }

  /** A three-digit Minguo year followed by four digits reads back with the Gregorian year. */
  lemma MinGuoNamed(prefix: string, y: nat, rest: string)
    requires NoDigitAfterUnderscore(prefix) && 100 <= y < 1000 && AllDigits(rest) && |rest| == 4
    ensures DateFromPathName(prefix + "_" + (NatToString(y) + rest) + ".csv") == Success(NatToString(y + 1911) + rest)
  {
    var ys := NatToString(y);
    var digits := ys + rest;
    assert AllDigits(digits) && |digits| == 7 && digits[..3] == ys && digits[3..] == rest by {
      NatToStringLength(y, 3);
      JoinDigits(ys, rest, "");
      assert ys + rest + "" == digits;
    }
    assert ParseDigits(digits[..3]) == y by { ParseNatToString(y); }
    DateFromNamed(prefix, digits);
  }

  /** A seven-digit Minguo market-close date in a file name (a three-digit Minguo year)
      reads back as the same day's eight-digit Gregorian text. */
  lemma PathMinGuoDateRoundTrip(prefix: string, d: Date)
    requires ValidDate(d) && NoDigitAfterUnderscore(prefix) && 2011 <= d.year <= 2910
    ensures DateFromPathName(prefix + "_" + CloseDayString(d, true, "") + ".csv") == Success(CloseDayString(d, false, ""))
  {
    var rest := Pad2(d.month) + Pad2(d.day);
    Pad2Digits(d.month);
    Pad2Digits(d.day);
    JoinDigits(Pad2(d.month), Pad2(d.day), "");
    assert Pad2(d.month) + Pad2(d.day) + "" == rest;
    CloseDayJoined(d, true);
    CloseDayJoined(d, false);
    MinGuoNamed(prefix, d.year - 1911, rest);
  }

  // ---------------------------------------------------------------- stale files

  /** What the file system says of a path: its size and modification time, in microseconds
      of local time on the same scale as "now". None when it is not a file. */
  datatype FileStat = FileStat(size: nat, mtime: int)

  /** The daily update time as microseconds after midnight. */
  function UpdateOffset(hour: int, minute: int, second: int): int {
    ((hour * 60 + minute) * 60 + second) * MicrosPerSecond
  }

  /** file_is_old: a missing or empty file is old; otherwise, once today's update time has
      passed the file is old unless it is newer than that, and before it unless it is newer
      than yesterday's. */
  function FileIsOld(file: Option<FileStat>, now: int, hour: int, minute: int, second: int): bool
    requires 0 <= hour < 24 && 0 <= minute < 60 && 0 <= second < 60
  {
    match file
    case None => true
    case Some(f) =>
      if f.size == 0 then true
      else
        var last := now - now % MicrosPerDay + UpdateOffset(hour, minute, second);
        if now > last then !(f.mtime > last)
        else !(f.mtime > last - MicrosPerDay)
  }

  /** The latest update time before now: the one instant of the update time of day in the
      day that ends at now. */
  function LatestUpdate(now: int, hour: int, minute: int, second: int): (u: int)
    requires 0 <= hour < 24 && 0 <= minute < 60 && 0 <= second < 60
    ensures u % MicrosPerDay == UpdateOffset(hour, minute, second)
    ensures u < now <= u + MicrosPerDay
  {
    var off := UpdateOffset(hour, minute, second);
    UpdateOffsetInDay(hour, minute, second);
    DayInstant(now, off);
    var last := now - now % MicrosPerDay + off;
    if now > last then last else last - MicrosPerDay
  }

  /** The update time of day falls within the day. */
  lemma UpdateOffsetInDay(hour: int, minute: int, second: int)
    requires 0 <= hour < 24 && 0 <= minute < 60 && 0 <= second < 60
    ensures 0 <= UpdateOffset(hour, minute, second) < MicrosPerDay
  {
    var secs := (hour * 60 + minute) * 60 + second;
    assert 0 <= hour * 60 + minute < 1440;
    assert 0 <= secs < 86400;
  }

  /** The instant `off` into the day of `now` and the same instant a day earlier both lie
      `off` into their days, and `now` falls within a day of the first. */
  lemma DayInstant(now: int, off: int)
    requires 0 <= off < MicrosPerDay
    ensures var last := now - now % MicrosPerDay + off;
            last % MicrosPerDay == off && (last - MicrosPerDay) % MicrosPerDay == off &&
            last - MicrosPerDay < now < last + MicrosPerDay
  {
    var q := now / MicrosPerDay;
    assert now - now % MicrosPerDay == q * MicrosPerDay;
    assert now - now % MicrosPerDay + off == q * MicrosPerDay + off;
    assert now - now % MicrosPerDay + off - MicrosPerDay == (q - 1) * MicrosPerDay + off;
  }

  /** A non-empty file is old exactly when it is no newer than the latest update time that
      has passed, whichever instant of the update time of day that is. */
  lemma FileIsOldMeaning(f: FileStat, now: int, hour: int, minute: int, second: int, u: int)
    requires 0 <= hour < 24 && 0 <= minute < 60 && 0 <= second < 60 && f.size > 0
    requires u % MicrosPerDay == UpdateOffset(hour, minute, second) && u < now <= u + MicrosPerDay
    ensures FileIsOld(Some(f), now, hour, minute, second) <==> f.mtime <= u
  {
    var v := LatestUpdate(now, hour, minute, second);
    var a, b := u / MicrosPerDay, v / MicrosPerDay;
    assert u == a * MicrosPerDay + UpdateOffset(hour, minute, second);
    assert v == b * MicrosPerDay + UpdateOffset(hour, minute, second);
    assert u == v;
  }

  // ---------------------------------------------------------------- backups

  /** The last position of `c` in `s`. */
  function LastIndexOf(s: string, c: char): (r: Option<nat>)
    ensures r.Some? ==> r.value < |s| && s[r.value] == c && forall j :: r.value < j < |s| ==> s[j] != c
    ensures r.None? ==> forall j :: 0 <= j < |s| ==> s[j] != c
  {
    if |s| == 0 then None
    else if s[|s| - 1] == c then Some(|s| - 1)
    else LastIndexOf(s[..|s| - 1], c)
  }

  /** os.path.basename as posixpath defines it: only '/' separates; a backslash is an ordinary
      character of the name, as it is on POSIX systems. */
  function Basename(path: string): (r: string)
    ensures '/' !in r
  {
    match LastIndexOf(path, '/')
    case None => path
    case Some(i) => path[i + 1..]
  }

  /** os.path.splitext: the extension runs from the last '.', unless only dots come before
      it (a leading-dot name has no extension). */
  function SplitExt(base: string): (r: (string, string))
    ensures r.0 + r.1 == base
    ensures r.1 == "" || (r.1[0] == '.' && '.' !in r.1[1..] && exists j :: 0 <= j < |r.0| && r.0[j] != '.')
  {
    match LastIndexOf(base, '.')
    case None => (base, "")
    case Some(i) =>
      if exists j :: 0 <= j < i && base[j] != '.' then
        assert base[..i] + base[i..] == base;
        (base[..i], base[i..])
      else (base, "")
  }

  /** The time stamp of a backup: YYYYMMDD_HHMM of the file's modification time, the year
      unpadded. */
  function Stamp(t: DateTime): (s: string)
    requires ValidDateTime(t)
    ensures '.' !in s
  {
    var hour := t.micros / (3600 * MicrosPerSecond);
    var minute := t.micros / (60 * MicrosPerSecond) % 60;
    var year := NatToString(t.date.year);
    HourOfDay(t.micros);
    Pad2Digits(t.date.month);
    Pad2Digits(t.date.day);
    Pad2Digits(hour);
    Pad2Digits(minute);
    DigitsHaveNoDot(year, Pad2(t.date.month), Pad2(t.date.day));
    DigitsHaveNoDot(Pad2(hour), Pad2(minute), "");
    NoDotJoin(year + Pad2(t.date.month) + Pad2(t.date.day), "_", Pad2(hour) + Pad2(minute) + "");
    year + Pad2(t.date.month) + Pad2(t.date.day) + "_" + (Pad2(hour) + Pad2(minute) + "")
  }

  lemma HourOfDay(micros: int)
    requires 0 <= micros < MicrosPerDay
    ensures 0 <= micros / (3600 * MicrosPerSecond) < 24
  {
  }

  lemma NoDotJoin(a: string, b: string, c: string)
    requires '.' !in a && '.' !in b && '.' !in c
    ensures '.' !in a + b + c
  {
  }

  /** Digits are not dots. */
  lemma DigitsHaveNoDot(a: string, b: string, c: string)
    requires AllDigits(a) && AllDigits(b) && AllDigits(c)
    ensures '.' !in a + b + c
  {
    JoinDigits(a, b, c);
    var t := a + b + c;
    forall i | 0 <= i < |t| ensures t[i] != '.' {
      assert IsDigit(t[i]);
    }
  }

  /** backup_file's new name: '{name}_{YYYYMMDD}_{HHMM}{ext}'. */
  function BackupName(path: string, t: DateTime): string
    requires ValidDateTime(t)
  {
    var parts := SplitExt(Basename(path));
    parts.0 + "_" + Stamp(t) + parts.1
  }

  lemma LastIndexOfAppend(a: string, b: string, c: char)
    ensures LastIndexOf(a + b, c) == match LastIndexOf(b, c) case Some(i) => Some(|a| + i) case None => LastIndexOf(a, c)
    decreases |b|
  {
    if |b| > 0 {
      assert (a + b)[..|a + b| - 1] == a + b[..|b| - 1];
      LastIndexOfAppend(a, b[..|b| - 1], c);
    } else {
      assert a + b == a;
    }
  }

  /** The backup keeps the file's extension: splitting its name gives the stamped name and
      the original extension. */
  lemma BackupNameKeepsExtension(path: string, t: DateTime)
    requires ValidDateTime(t)
    ensures SplitExt(BackupName(path, t)) == (SplitExt(Basename(path)).0 + "_" + Stamp(t), SplitExt(Basename(path)).1)
  {
    var base := Basename(path);
    var name, ext := SplitExt(base).0, SplitExt(base).1;
    var tail := "_" + Stamp(t);
    assert '.' !in tail;
    assert BackupName(path, t) == name + tail + ext by {
      assert name + "_" + Stamp(t) == name + tail;
    }
    if ext == "" {
      assert name + tail + ext == name + tail;
      SplitExtNoDotTail(name, tail);
    } else {
      SplitExtAfterName(name, tail, ext);
    }
  }

  /** A name without extension keeps having none when a dot-free text is appended. */
  lemma SplitExtNoDotTail(name: string, tail: string)
    requires SplitExt(name).1 == "" && '.' !in tail
    ensures SplitExt(name + tail) == (name + tail, "")
  {
    LastIndexOfAppend(name, tail, '.');
    assert LastIndexOf(tail, '.') == None;
    var b := name + tail;
    match LastIndexOf(name, '.')
    case None =>
    case Some(i) =>
      assert forall j :: 0 <= j < i ==> b[j] == name[j];
  }

  /** A dot-free text inserted between a name and its extension leaves the extension. */
  lemma SplitExtAfterName(name: string, tail: string, ext: string)
    requires '.' !in tail && SplitExt(name + ext) == (name, ext) && ext != ""
    ensures SplitExt(name + tail + ext) == (name + tail, ext)
  {
    var head := name + tail;
    var b := head + ext;
    ExtLastDot(head, ext);
    assert exists j :: 0 <= j < |head| && b[j] != '.' by {
      var j :| 0 <= j < |name| && name[j] != '.';
      assert b[j] == name[j];
    }
    assert b[..|head|] == head && b[|head|..] == ext;
  }

  /** The dot that starts a dot-free extension is the last dot of the whole name. */
  lemma ExtLastDot(head: string, ext: string)
    requires ext != "" && ext[0] == '.' && '.' !in ext[1..]
    ensures LastIndexOf(head + ext, '.') == Some(|head|)
  {
    var rest := ext[1..];
    assert ext == [ext[0]] + rest;
    LastIndexOfAppend([ext[0]], rest, '.');
    LastIndexOfAppend(head, ext, '.');
  }

  /** What backup_file returns for one file. */
  datatype BackupResult = Done | Skipped | Failed

  /** The counts of skipped, failed and added files. */
  function Tally(rs: seq<BackupResult>): (r: (nat, nat, nat))
    ensures r.0 + r.1 + r.2 == |rs|
    ensures r.0 == 0 <==> Skipped !in rs
    ensures r.1 == 0 <==> Failed !in rs
  {
    if |rs| == 0 then (0, 0, 0)
    else
      var t := Tally(rs[..|rs| - 1]);
      assert rs == rs[..|rs| - 1] + [rs[|rs| - 1]];
      match rs[|rs| - 1]
      case Skipped => (t.0 + 1, t.1, t.2)
      case Failed => (t.0, t.1 + 1, t.2)
      case Done => (t.0, t.1, t.2 + 1)
  }

  /** The results gathered by backup_files, or None when the user declines to continue after
      a failure; `proceed[i]` is the answer the user would give after file i fails. */
  function Collect(rs: seq<BackupResult>, proceed: seq<bool>): (r: Option<seq<BackupResult>>)
    requires |proceed| == |rs|
    ensures r.None? <==> exists i :: 0 <= i < |rs| && rs[i] == Failed && !proceed[i]
    ensures r.None? ==> Failed in rs
    ensures r.Some? ==> r.value == rs
  {
    if |rs| == 0 then Some([])
    else if rs[0] == Failed && !proceed[0] then None
    else
      var later := Collect(rs[1..], proceed[1..]);
      assert (exists i :: 0 <= i < |rs| && rs[i] == Failed && !proceed[i]) <==>
             (exists i :: 0 <= i < |rs[1..]| && rs[1..][i] == Failed && !proceed[1..][i]) by {
        if exists i :: 0 <= i < |rs| && rs[i] == Failed && !proceed[i] {
          var i :| 0 <= i < |rs| && rs[i] == Failed && !proceed[i];
          assert rs[1..][i - 1] == rs[i] && proceed[1..][i - 1] == proceed[i];
        }
        if exists i :: 0 <= i < |rs[1..]| && rs[1..][i] == Failed && !proceed[1..][i] {
          var i :| 0 <= i < |rs[1..]| && rs[1..][i] == Failed && !proceed[1..][i];
          assert rs[i + 1] == rs[1..][i];
        }
      }
      match later
      case None => None
      case Some(t) =>
        assert rs == [rs[0]] + rs[1..];
        Some([rs[0]] + t)
  }

  /** backup_files succeeds exactly when every file was backed up: a stop after a failure,
      a failure and a skipped file each make it fail. */
  function BackupFiles(rs: seq<BackupResult>, proceed: seq<bool>): (ok: bool)
    requires |proceed| == |rs|
    ensures ok <==> forall i :: 0 <= i < |rs| ==> rs[i] == Done
  {
    match Collect(rs, proceed)
    case None => false
    case Some(results) =>
      var t := Tally(results);
      if t.1 > 0 then false
      else if t.0 > 0 then false
      else
        assert forall i :: 0 <= i < |rs| ==> rs[i] != Skipped && rs[i] != Failed;
        true
  }
}

=== FILE: calendar.dfy ===
/** The proleptic Gregorian calendar as Python's datetime module sees it. */
module Calendar {
  import opened Wrappers
  import opened Text

  /** A (year, month, day) triple; it need not be a real date (a file name can hold "2024-13-01"). */
  datatype Date = Date(year: int, month: int, day: int)

  /** A wall-clock instant: a date and the microseconds elapsed since its midnight. */
  datatype DateTime = DateTime(date: Date, micros: int)

  const MicrosPerSecond: int := 1000000
  const MicrosPerDay: int := 86400 * MicrosPerSecond

  predicate IsLeapYear(y: int) {
    y % 4 == 0 && (y % 100 != 0 || y % 400 == 0)
  }

  function DaysInMonth(y: int, m: int): (n: int)
    requires 1 <= m <= 12
    ensures 28 <= n <= 31
  {
    if m == 2 then (if IsLeapYear(y) then 29 else 28)
    else if m == 4 || m == 6 || m == 9 || m == 11 then 30
    else 31
  }

  function DaysInYear(y: int): int {
    if IsLeapYear(y) then 366 else 365
  }

  /** What date(y, m, d) accepts. */
  predicate ValidDate(d: Date) {
    1 <= d.year <= 9999 && 1 <= d.month <= 12 && 1 <= d.day <= DaysInMonth(d.year, d.month)
  }

  predicate ValidDateTime(t: DateTime) {
    ValidDate(t.date) && 0 <= t.micros < MicrosPerDay
  }

  /** Days in the years before `y`. */
  function DaysBeforeYear(y: int): int
    requires 1 <= y
  {
    var p := y - 1;
    365 * p + p / 4 - p / 100 + p / 400
  }

  /** Days in the months of year `y` before month `m`. */
  function DaysBeforeMonth(y: int, m: int): int
    requires 1 <= m <= 12
  {
    var before :=
      if m == 1 then 0 else if m == 2 then 31 else if m == 3 then 59 else if m == 4 then 90
      else if m == 5 then 120 else if m == 6 then 151 else if m == 7 then 181
      else if m == 8 then 212 else if m == 9 then 243 else if m == 10 then 273
      else if m == 11 then 304 else 334;
    before + (if m > 2 && IsLeapYear(y) then 1 else 0)
  }

  /** date.toordinal(): 0001-01-01 is day 1. */
  function Ordinal(d: Date): int
    requires ValidDate(d)
  {
    DaysBeforeYear(d.year) + DaysBeforeMonth(d.year, d.month) + d.day
  }

  /** date.weekday(): Monday is 0 and Sunday is 6. */
  function Weekday(d: Date): (w: int)
    requires ValidDate(d)
    ensures 0 <= w < 7
  {
    (Ordinal(d) + 6) % 7
  }

  predicate IsWeekend(d: Date)
    requires ValidDate(d)
  {
    Weekday(d) >= 5
  }

  lemma DaysBeforeNextYear(y: int)
    requires 1 <= y
    ensures DaysBeforeYear(y + 1) == DaysBeforeYear(y) + DaysInYear(y)
  {
    var p := y - 1;
    Quotient4(p);
    Quotient100(p);
    Quotient400(p);
  }

  /** Counting one further, each quotient grows by one exactly at a multiple of its divisor. */
  lemma Quotient4(p: int)
    ensures (p + 1) / 4 == p / 4 + (if (p + 1) % 4 == 0 then 1 else 0)
  {
  }

  lemma Quotient100(p: int)
    ensures (p + 1) / 100 == p / 100 + (if (p + 1) % 100 == 0 then 1 else 0)
  {
  }

  lemma Quotient400(p: int)
    ensures (p + 1) / 400 == p / 400 + (if (p + 1) % 400 == 0 then 1 else 0)
  {
  }

  /** date - timedelta(days=1). */
  function PrevDay(d: Date): (r: Date)
    requires ValidDate(d) && Ordinal(d) > 1
    ensures ValidDate(r)
    ensures Ordinal(r) == Ordinal(d) - 1
  {
    if d.day > 1 then Date(d.year, d.month, d.day - 1)
    else if d.month > 1 then Date(d.year, d.month - 1, DaysInMonth(d.year, d.month - 1))
    else
      DaysBeforeNextYear(d.year - 1);
      Date(d.year - 1, 12, 31)
  }

  /** date - timedelta(days=n). */
  function MinusDays(d: Date, n: nat): (r: Date)
    requires ValidDate(d) && Ordinal(d) > n
    ensures ValidDate(r)
    ensures Ordinal(r) == Ordinal(d) - n
    decreases n
  {
    if n == 0 then d else MinusDays(PrevDay(d), n - 1)
  }

  /** Going back `n` days from a day with weekday `w`: the weekday (w - n) mod 7. */
  lemma WeekdayMinusDays(d: Date, n: nat)
    requires ValidDate(d) && Ordinal(d) > n
    ensures Weekday(MinusDays(d, n)) == (Weekday(d) - n) % 7
  {
    var r := MinusDays(d, n);
    var o, o2 := Ordinal(d), Ordinal(r);
    assert Weekday(r) == (o2 + 6) % 7 && Weekday(d) == (o + 6) % 7;
    WeekdayShift(o, o2, n);
  }

  /** The weekday formula on day numbers: n days back shifts it by n modulo 7. */
  lemma WeekdayShift(o: int, o2: int, n: int)
    requires o2 == o - n
    ensures (o2 + 6) % 7 == ((o + 6) % 7 - n) % 7
  {
    ModShift(o + 6, n);
  }

  lemma ModShift(x: int, n: int)
    ensures (x - n) % 7 == (x % 7 - n) % 7
  {
    var q := x / 7;
    assert x - n == 7 * q + (x % 7 - n);
  }

  /** Chronological order of two triples, which for four-digit years is also the order of
      their 'YYYY-MM-DD' strings. */
  predicate DateLe(a: Date, b: Date) {
    a.year < b.year || (a.year == b.year && (a.month < b.month || (a.month == b.month && a.day <= b.day)))
  }

  predicate DateTimeLt(a: DateTime, b: DateTime) {
    (DateLe(a.date, b.date) && a.date != b.date) || (a.date == b.date && a.micros < b.micros)
  }

  /** A month counted from year 0: consecutive months get consecutive indices. */
  function MonthIndex(year: int, month: int): int {
    year * 12 + (month - 1)
  }

  /** A quarter counted from year 0: consecutive quarters get consecutive indices. */
  function QuarterIndex(year: int, quarter: int): int {
    year * 4 + (quarter - 1)
  }

  /** The month after (year, month): December rolls over to January of the next year. */
  function NextMonth(year: int, month: int): (r: (int, int))
    requires 1 <= month <= 12
    ensures 1 <= r.1 <= 12
    ensures MonthIndex(r.0, r.1) == MonthIndex(year, month) + 1
  {
    if month == 12 then (year + 1, 1) else (year, month + 1)
  }

  /** The quarter after (year, quarter): Q4 rolls over to Q1 of the next year. */
  function NextQuarter(year: int, quarter: int): (r: (int, int))
    requires 1 <= quarter <= 4
    ensures 1 <= r.1 <= 4
    ensures QuarterIndex(r.0, r.1) == QuarterIndex(year, quarter) + 1
  {
    if quarter == 4 then (year + 1, 1) else (year, quarter + 1)
  }

  /** The month `n` months after (year, month). */
  function MonthAfter(year: int, month: int, n: nat): (r: (int, int))
    requires 1 <= month <= 12
    ensures 1 <= r.1 <= 12
  {
    if n == 0 then (year, month)
    else
      var p := MonthAfter(year, month, n - 1);
      NextMonth(p.0, p.1)
  }

  /** Stepping `n` months forward adds `n` to the month index. */
  lemma {:induction false} MonthAfterIndex(year: int, month: int, n: nat)
    requires 1 <= month <= 12
    ensures MonthIndex(MonthAfter(year, month, n).0, MonthAfter(year, month, n).1) == MonthIndex(year, month) + n
  {
    if n > 0 {
      MonthAfterIndex(year, month, n - 1);
    }
  }

  /** The quarter `n` quarters after (year, quarter). */
  function QuarterAfter(year: int, quarter: int, n: nat): (r: (int, int))
    requires 1 <= quarter <= 4
    ensures 1 <= r.1 <= 4
  {
    if n == 0 then (year, quarter)
    else
      var p := QuarterAfter(year, quarter, n - 1);
      NextQuarter(p.0, p.1)
  }

  /** Stepping `n` quarters forward adds `n` to the quarter index. */
  lemma {:induction false} QuarterAfterIndex(year: int, quarter: int, n: nat)
    requires 1 <= quarter <= 4
    ensures QuarterIndex(QuarterAfter(year, quarter, n).0, QuarterAfter(year, quarter, n).1) == QuarterIndex(year, quarter) + n
  {
    if n > 0 {
      QuarterAfterIndex(year, quarter, n - 1);
    }
  }

  /** The quarter that contains a month: (month - 1) // 3 + 1. */
  function QuarterOfMonth(month: int): (q: int)
    requires 1 <= month <= 12
    ensures 1 <= q <= 4
    ensures 3 * (q - 1) < month <= 3 * q
  {
    (month - 1) / 3 + 1
  }

  /** d.isoformat(): 'YYYY-MM-DD'. */
  function IsoFormat(d: Date): string
    requires ValidDate(d)
  {
    ZeroFill(NatToString(d.year), 4) + "-" + Pad2(d.month) + "-" + Pad2(d.day)
  }

  /** The year, month and day fields of 'YYYY-MM-DD' or 'YYYYMMDD'. */
  function IsoFields(s: string): (r: Option<(string, string, string)>)
    ensures r.Some? ==> AllDigits(r.value.0) && AllDigits(r.value.1) && AllDigits(r.value.2)
  {
    if |s| == 10 && s[4] == '-' && s[7] == '-' && AllDigits(s[..4]) && AllDigits(s[5..7]) && AllDigits(s[8..])
    then Some((s[..4], s[5..7], s[8..]))
    else if |s| == 8 && AllDigits(s) then Some((s[..4], s[4..6], s[6..]))
    else None
  }

  /** A calendar date written 'YYYY-MM-DD' or 'YYYYMMDD', read as date.fromisoformat reads it. */
  function ParseIsoDate(s: string): (r: Result<Date>)
    ensures r.Success? ==> ValidDate(r.value)
  {
    match IsoFields(s)
    case None => Failure("Invalid isoformat string")
    case Some(f) =>
      var d := Date(ParseDigits(f.0), ParseDigits(f.1), ParseDigits(f.2));
      if ValidDate(d) then Success(d) else Failure("day is out of range for month")
  }

  /** Reading an ISO date string back gives the date it was written from. */
  lemma ParseIsoFormat(d: Date)
    requires ValidDate(d)
    ensures ParseIsoDate(IsoFormat(d)) == Success(d)
    ensures FromIsoFormat(IsoFormat(d)) == Success(d)
  {
    var y, m, dd := ZeroFill(NatToString(d.year), 4), Pad2(d.month), Pad2(d.day);
    NatToStringShort(d.year, 4, 10000);
    NatToStringShort(d.month, 2, 100);
    NatToStringShort(d.day, 2, 100);
    ParseZeroFill(d.year, 4);
    ParseZeroFill(d.month, 2);
    ParseZeroFill(d.day, 2);
    ParseExtended(y, m, dd);
  }

  lemma ParseExtended(y: string, m: string, d: string)
    requires |y| == 4 && |m| == 2 && |d| == 2
    requires AllDigits(y) && AllDigits(m) && AllDigits(d)
    requires ValidDate(Date(ParseDigits(y), ParseDigits(m), ParseDigits(d)))
    ensures ParseIsoDate(y + "-" + m + "-" + d) == Success(Date(ParseDigits(y), ParseDigits(m), ParseDigits(d)))
  {
    var s := y + "-" + m + "-" + d;
    assert s[..4] == y && s[5..7] == m && s[8..] == d;
    assert IsoFields(s) == Some((y, m, d));
  }

  /** Different dates have different ISO strings, so comparing the strings compares the dates. */
  lemma IsoFormatInjective(a: Date, b: Date)
    requires ValidDate(a) && ValidDate(b)
    ensures IsoFormat(a) == IsoFormat(b) <==> a == b
  {
    if IsoFormat(a) == IsoFormat(b) {
      ParseIsoFormat(a);
      ParseIsoFormat(b);
    }
  }

  /** The last day date() accepts, 9999-12-31, as a day number. */
  const MaxOrdinal: int := 3652059

  /** The month holding day `n` (counting from 0) of `year`, searching down from month `m`. */
  function MonthOf(year: int, n: int, m: int): (r: int)
    requires 1 <= m <= 12 && 0 <= n < DaysBeforeMonth(year, m) + DaysInMonth(year, m)
    ensures 1 <= r <= m && DaysBeforeMonth(year, r) <= n < DaysBeforeMonth(year, r) + DaysInMonth(year, r)
    decreases m
  {
    if m == 1 || DaysBeforeMonth(year, m) <= n then m else MonthOf(year, n, m - 1)
  }

  /** The day `n` days after January 1 of `year`, where `n` may run a month past either end of
      the year into the neighbouring one. */
  function YearDay(year: int, n: int): (r: Date)
    requires 1 <= year <= 9999 && -31 <= n < DaysInYear(year) + 31
    ensures year > 1 || n >= 0 ==> r.year >= 1
    ensures r.year <= year + 1 && (r.year == year + 1 <==> n >= DaysInYear(year))
    ensures 1 <= r.year <= 9999 ==> ValidDate(r) && Ordinal(r) == Ordinal(Date(year, 1, 1)) + n
  {
    if n < 0 then
      if year > 1 then
        DaysBeforeNextYear(year - 1);
        Date(year - 1, 12, 32 + n)
      else Date(0, 12, 32 + n)
    else if n >= DaysInYear(year) then
      DaysBeforeNextYear(year);
      Date(year + 1, 1, n - DaysInYear(year) + 1)
    else
      var m := MonthOf(year, n, 12);
      Date(year, m, n - DaysBeforeMonth(year, m) + 1)
  }

  /** The day number of the Monday that opens ISO week 1 of `year`: the Monday of the week that
      holds January 4, that is, of the week holding the year's first Thursday. */
  function Week1Monday(year: int): (o: int)
    requires 1 <= year <= 9999
    ensures (o + 6) % 7 == 0
    ensures o <= Ordinal(Date(year, 1, 4)) < o + 7
    ensures Ordinal(Date(year, 1, 1)) - 3 <= o <= Ordinal(Date(year, 1, 1)) + 3
  {
    var first := Ordinal(Date(year, 1, 1));
    assert Ordinal(Date(year, 1, 4)) == first + 3;
    WeekOneMonday(first)
  }

  /** The Monday within the seven days that end three days after day number `first`. */
  function WeekOneMonday(first: int): (o: int)
    ensures (o + 6) % 7 == 0
    ensures o <= first + 3 < o + 7
  {
    var w := (first + 6) % 7;
    var k := (first + 6) / 7;
    assert first + 6 == 7 * k + w;
    if w > 3 then first - w + 7 else first - w
  }

  /** An ISO year of 53 weeks: one that starts on a Thursday, or a leap year that starts on a
      Wednesday. */
  predicate LongIsoYear(year: int)
    requires 1 <= year <= 9999
  {
    var w := Weekday(Date(year, 1, 1));
    w == 3 || (w == 2 && IsLeapYear(year))
  }

  /** The ISO week date: day `day` (Monday 1 to Sunday 7) of week `week` (1 to 52, or 53 in a
      long year) of ISO year `year`, counted from the Monday of week 1; a day past 9999-12-31 is
      out of range. */
  function IsoWeekDate(year: int, week: int, day: int): (r: Result<Date>)
    ensures r.Success? <==>
      1 <= year <= 9999 && (1 <= week <= 52 || (week == 53 && LongIsoYear(year))) && 1 <= day <= 7
      && Week1Monday(year) + 7 * (week - 1) + day - 1 <= MaxOrdinal
    ensures r.Success? ==> ValidDate(r.value) && Ordinal(r.value) == Week1Monday(year) + 7 * (week - 1) + day - 1
  {
    if !(1 <= year <= 9999) then Failure("Invalid isoformat string")
    else if !(1 <= week <= 52 || (week == 53 && LongIsoYear(year))) then Failure("Invalid week")
    else if !(1 <= day <= 7) then Failure("Invalid weekday")
    else
      MondayOffset(Week1Monday(year), week, day);
      WeekDay(year, 7 * (week - 1) + day - 1)
  }

  /** The date `offset` days after the Monday of week 1 of `year`, for an offset within 53 weeks;
      a day past 9999-12-31 is out of range. */
  function WeekDay(year: int, offset: int): (r: Result<Date>)
    requires 1 <= year <= 9999 && 0 <= offset < 7 * 53
    ensures r.Success? <==> Week1Monday(year) + offset <= MaxOrdinal
    ensures r.Success? ==> ValidDate(r.value) && Ordinal(r.value) == Week1Monday(year) + offset
  {
    var first := Ordinal(Date(year, 1, 1));
    var n := Week1Monday(year) - first + offset;
    WeekDayInRange(year, offset);
    var d := YearDay(year, n);
    WithinMaxYear(year, n, d);
    if d.year <= 9999 then Success(d) else Failure("year 10000 is out of range")
  }

  /** An ISO week date falls on its weekday: day 1 is a Monday and day 7 a Sunday. */
  lemma IsoWeekDateWeekday(year: int, week: int, day: int)
    requires IsoWeekDate(year, week, day).Success?
    ensures Weekday(IsoWeekDate(year, week, day).value) == day - 1
  {
    var monday := Week1Monday(year);
    var v := IsoWeekDate(year, week, day).value;
    MondayOffset(monday, week, day);
    WeekdayOf(v, monday + 7 * (week - 1) + day - 1);
  }

  lemma WeekdayOf(d: Date, o: int)
    requires ValidDate(d) && Ordinal(d) == o
    ensures Weekday(d) == (o + 6) % 7
  {
  }

  /** Counting whole weeks and `day - 1` days on from a Monday lands on weekday `day - 1`. */
  lemma MondayOffset(monday: int, week: int, day: int)
    requires (monday + 6) % 7 == 0 && 1 <= day <= 7
    ensures (monday + 7 * (week - 1) + day - 1 + 6) % 7 == day - 1
  {
    var k := (monday + 6) / 7;
    assert monday + 7 * (week - 1) + day - 1 + 6 == 7 * (k + week - 1) + (day - 1);
  }

  /** A day reached from `year` stays within year 9999 iff its day number does. */
  /** Week 1 opens at most three days from 1 January, and in the year 1 on 1 January itself. */
  lemma WeekDayInRange(year: int, offset: int)
    requires 1 <= year <= 9999 && 0 <= offset < 7 * 53
    ensures var n := Week1Monday(year) - Ordinal(Date(year, 1, 1)) + offset;
      -31 <= n < DaysInYear(year) + 31 && (year > 1 || n >= 0)
  {
    if year == 1 {
      assert Week1Monday(1) == 1 == Ordinal(Date(1, 1, 1));
    }
  }

  lemma WithinMaxYear(year: int, n: int, d: Date)
    requires 1 <= year <= 9999 && -31 <= n < DaysInYear(year) + 31 && d == YearDay(year, n)
    requires year > 1 || n >= 0
    ensures d.year <= 9999 <==> Ordinal(Date(year, 1, 1)) + n <= MaxOrdinal
  {
    if year < 9999 {
      assert DaysBeforeYear(year) <= DaysBeforeYear(9998) by { DaysBeforeYearMonotone(year, 9998); }
    }
  }

  lemma {:induction false} DaysBeforeYearMonotone(a: int, b: int)
    requires 1 <= a <= b
    ensures DaysBeforeYear(a) <= DaysBeforeYear(b)
    decreases b - a
  {
    if a < b {
      DaysBeforeNextYear(a);
      DaysBeforeYearMonotone(a + 1, b);
    }
  }

  /** A year starts on weekday `w` and has `len` days: the next year's week 1 opens 53 weeks
      after this year's iff this year starts on a Thursday, or on a Wednesday and has 366 days. */
  lemma WeekOneMondayStep(first: int, len: int)
    requires len == 365 || len == 366
    ensures var w := (first + 6) % 7;
      WeekOneMonday(first + len) - WeekOneMonday(first) == if w == 3 || (w == 2 && len == 366) then 371 else 364
  {
    var w, k := (first + 6) % 7, (first + 6) / 7;
    var e := len - 364;
    assert first + 6 == 7 * k + w;
    if w + e < 7 {
      assert first + len + 6 == 7 * (k + 52) + (w + e);
    } else {
      assert first + len + 6 == 7 * (k + 53) + (w + e - 7);
    }
  }

  /** An ISO year has 53 weeks exactly when it is long, and 52 otherwise. */
  lemma LongIsoYearHas53Weeks(year: int)
    requires 1 <= year < 9999
    ensures Week1Monday(year + 1) - Week1Monday(year) == if LongIsoYear(year) then 7 * 53 else 7 * 52
  {
    var first := Ordinal(Date(year, 1, 1));
    DaysBeforeNextYear(year);
    assert Ordinal(Date(year + 1, 1, 1)) == first + DaysInYear(year);
    WeekOneMondayStep(first, DaysInYear(year));
  }

  /** Days in year `y` up to the end of month `m`. */
  lemma MonthEnds(y: int, m: int)
    requires 1 <= m <= 12
    ensures m < 12 ==> DaysBeforeMonth(y, m + 1) == DaysBeforeMonth(y, m) + DaysInMonth(y, m)
    ensures DaysBeforeMonth(y, m) + DaysInMonth(y, m) <= DaysInYear(y)
  {
  }

  lemma {:induction false} DaysBeforeMonthMonotone(y: int, a: int, b: int)
    requires 1 <= a < b <= 12
    ensures DaysBeforeMonth(y, a) + DaysInMonth(y, a) <= DaysBeforeMonth(y, b)
    decreases b - a
  {
    MonthEnds(y, a);
    if a + 1 < b {
      DaysBeforeMonthMonotone(y, a + 1, b);
    }
  }

  /** A valid date's day number lies within its year. */
  lemma OrdinalWithinYear(d: Date)
    requires ValidDate(d)
    ensures DaysBeforeYear(d.year) < Ordinal(d) <= DaysBeforeYear(d.year) + DaysInYear(d.year)
  {
    MonthEnds(d.year, d.month);
  }

  /** Different dates have different day numbers. */
  lemma OrdinalInjective(a: Date, b: Date)
    requires ValidDate(a) && ValidDate(b) && Ordinal(a) == Ordinal(b)
    ensures a == b
  {
    OrdinalWithinYear(a);
    OrdinalWithinYear(b);
    if a.year < b.year {
      DaysBeforeNextYear(a.year);
      DaysBeforeYearMonotone(a.year + 1, b.year);
      assert false;
    } else if b.year < a.year {
      DaysBeforeNextYear(b.year);
      DaysBeforeYearMonotone(b.year + 1, a.year);
      assert false;
    } else if a.month < b.month {
      DaysBeforeMonthMonotone(a.year, a.month, b.month);
      assert false;
    } else if b.month < a.month {
      DaysBeforeMonthMonotone(a.year, b.month, a.month);
      assert false;
    }
  }

  /** A day `offset` days into ISO year `year`, within the year's 52 or 53 weeks, is the week
      date of week `offset / 7 + 1` and weekday `offset % 7 + 1`. */
  lemma WeekOffsetDate(year: int, offset: int, d: Date)
    requires 1 <= year <= 9999 && ValidDate(d) && Ordinal(d) <= MaxOrdinal
    requires 0 <= offset < (if LongIsoYear(year) then 7 * 53 else 7 * 52)
    requires Ordinal(d) == Week1Monday(year) + offset
    ensures IsoWeekDate(year, offset / 7 + 1, offset % 7 + 1) == Success(d)
  {
    var week, day := offset / 7 + 1, offset % 7 + 1;
    assert offset == 7 * (week - 1) + day - 1;
    assert week == 53 ==> LongIsoYear(year);
    var r := IsoWeekDate(year, week, day);
    assert r.Success?;
    OrdinalInjective(r.value, d);
  }

  /** Every date before year 9999 is an ISO week date: a week and weekday of the calendar year,
      or of the year either side of it, name it. */
  lemma EveryDateHasIsoWeek(d: Date)
    requires ValidDate(d) && d.year < 9999
    ensures exists year, week, day :: IsoWeekDate(year, week, day) == Success(d)
  {
    if Ordinal(d) >= Week1Monday(d.year + 1) {
      InNextIsoYear(d);
    } else if Ordinal(d) < Week1Monday(d.year) {
      InPreviousIsoYear(d);
    } else {
      InOwnIsoYear(d);
    }
  }

  /** The facts about a date's day number that place it among the ISO years. */
  lemma DayNumberBounds(d: Date)
    requires ValidDate(d) && d.year < 9999
    ensures Ordinal(Date(d.year, 1, 1)) <= Ordinal(d) < Ordinal(Date(d.year + 1, 1, 1)) <= MaxOrdinal
  {
    OrdinalWithinYear(d);
    DaysBeforeNextYear(d.year);
    DaysBeforeYearMonotone(d.year + 1, 9999);
  }

  lemma InNextIsoYear(d: Date)
    requires ValidDate(d) && d.year < 9999 && Ordinal(d) >= Week1Monday(d.year + 1)
    ensures exists year, week, day :: IsoWeekDate(year, week, day) == Success(d)
  {
    DayNumberBounds(d);
    WeekOffsetDate(d.year + 1, Ordinal(d) - Week1Monday(d.year + 1), d);
  }

  lemma InPreviousIsoYear(d: Date)
    requires ValidDate(d) && d.year < 9999 && Ordinal(d) < Week1Monday(d.year)
    ensures exists year, week, day :: IsoWeekDate(year, week, day) == Success(d)
  {
    var y, o := d.year, Ordinal(d);
    assert y > 1 by {
      DayNumberBounds(d);
      assert Week1Monday(1) == 1;
    }
    PreviousIsoYearOffset(d);
    assert o <= MaxOrdinal by { DayNumberBounds(d); }
    WeekOffsetDate(y - 1, o - Week1Monday(y - 1), d);
  }

  /** A date before week 1 of its year lies within the previous ISO year's weeks. */
  lemma PreviousIsoYearOffset(d: Date)
    requires ValidDate(d) && 1 < d.year < 9999 && Ordinal(d) < Week1Monday(d.year)
    ensures 0 <= Ordinal(d) - Week1Monday(d.year - 1) < (if LongIsoYear(d.year - 1) then 7 * 53 else 7 * 52)
  {
    var y := d.year;
    DayNumberBounds(d);
    DaysBeforeNextYear(y - 1);
    assert Ordinal(Date(y - 1, 1, 1)) + DaysInYear(y - 1) == Ordinal(Date(y, 1, 1));
    LongIsoYearHas53Weeks(y - 1);
  }

  lemma InOwnIsoYear(d: Date)
    requires ValidDate(d) && d.year < 9999 && Week1Monday(d.year) <= Ordinal(d) < Week1Monday(d.year + 1)
    ensures exists year, week, day :: IsoWeekDate(year, week, day) == Success(d)
  {
    DayNumberBounds(d);
    LongIsoYearHas53Weeks(d.year);
    WeekOffsetDate(d.year, Ordinal(d) - Week1Monday(d.year), d);
  }

  /** The year, week and day of 'YYYY-Www-D', 'YYYYWwwD', 'YYYY-Www' or 'YYYYWww'; the two
      spellings without a day mean day 1. */
  function IsoWeekFields(s: string): Option<(int, int, int)> {
    if |s| == 10 && s[4] == '-' && s[5] == 'W' && s[8] == '-' && AllDigits(s[..4]) && AllDigits(s[6..8]) && AllDigits(s[9..])
    then Some((ParseDigits(s[..4]), ParseDigits(s[6..8]), ParseDigits(s[9..])))
    else if |s| == 8 && s[4] == '-' && s[5] == 'W' && AllDigits(s[..4]) && AllDigits(s[6..])
    then Some((ParseDigits(s[..4]), ParseDigits(s[6..]), 1))
    else if |s| == 8 && s[4] == 'W' && AllDigits(s[..4]) && AllDigits(s[5..7]) && AllDigits(s[7..])
    then Some((ParseDigits(s[..4]), ParseDigits(s[5..7]), ParseDigits(s[7..])))
    else if |s| == 7 && s[4] == 'W' && AllDigits(s[..4]) && AllDigits(s[5..])
    then Some((ParseDigits(s[..4]), ParseDigits(s[5..]), 1))
    else None
  }

  /** date.fromisoformat (Python 3.11 and later): a calendar date 'YYYY-MM-DD' or 'YYYYMMDD', or
      an ISO week date 'YYYY-Www-D', 'YYYYWwwD', 'YYYY-Www' or 'YYYYWww'. */
  function FromIsoFormat(s: string): (r: Result<Date>)
    ensures r.Success? ==> ValidDate(r.value)
    ensures IsoFields(s).Some? ==> r == ParseIsoDate(s)
    ensures IsoFields(s).None? && IsoWeekFields(s).None? ==> r.Failure?
  {
    if IsoFields(s).Some? then ParseIsoDate(s)
    else match IsoWeekFields(s)
      case None => Failure("Invalid isoformat string")
      case Some(f) => IsoWeekDate(f.0, f.1, f.2)
  }

  /** The four week spellings agree: with or without dashes, and without a day meaning Monday. */
  lemma WeekSpellings(y: string, w: string, d: string)
    requires |y| == 4 && |w| == 2 && |d| == 1 && AllDigits(y) && AllDigits(w) && AllDigits(d)
    ensures FromIsoFormat(y + "-W" + w + "-" + d) == IsoWeekDate(ParseDigits(y), ParseDigits(w), ParseDigits(d))
    ensures FromIsoFormat(y + "W" + w + d) == IsoWeekDate(ParseDigits(y), ParseDigits(w), ParseDigits(d))
    ensures FromIsoFormat(y + "-W" + w) == IsoWeekDate(ParseDigits(y), ParseDigits(w), 1)
    ensures FromIsoFormat(y + "W" + w) == IsoWeekDate(ParseDigits(y), ParseDigits(w), 1)
  {
    DashedWeekDay(y, w, d);
    CompactWeekDay(y, w, d);
    DashedWeek(y, w);
    CompactWeek(y, w);
  }

  lemma DashedWeekDay(y: string, w: string, d: string)
    requires |y| == 4 && |w| == 2 && |d| == 1 && AllDigits(y) && AllDigits(w) && AllDigits(d)
    ensures IsoFields(y + "-W" + w + "-" + d).None?
    ensures IsoWeekFields(y + "-W" + w + "-" + d) == Some((ParseDigits(y), ParseDigits(w), ParseDigits(d)))
  {
    var s := y + "-W" + w + "-" + d;
    assert s[..4] == y && s[6..8] == w && s[9..] == d && s[4] == '-' && s[5] == 'W' && s[8] == '-';
  }

  lemma CompactWeekDay(y: string, w: string, d: string)
    requires |y| == 4 && |w| == 2 && |d| == 1 && AllDigits(y) && AllDigits(w) && AllDigits(d)
    ensures IsoFields(y + "W" + w + d).None?
    ensures IsoWeekFields(y + "W" + w + d) == Some((ParseDigits(y), ParseDigits(w), ParseDigits(d)))
  {
    var s := y + "W" + w + d;
    assert s[..4] == y && s[5..7] == w && s[7..] == d && s[4] == 'W';
    assert !AllDigits(s) by { assert !IsDigit(s[4]); }
  }

  lemma DashedWeek(y: string, w: string)
    requires |y| == 4 && |w| == 2 && AllDigits(y) && AllDigits(w)
    ensures IsoFields(y + "-W" + w).None?
    ensures IsoWeekFields(y + "-W" + w) == Some((ParseDigits(y), ParseDigits(w), 1))
  {
    var s := y + "-W" + w;
    assert s[..4] == y && s[6..] == w && s[4] == '-' && s[5] == 'W';
    assert !AllDigits(s) by { assert !IsDigit(s[4]); }
  }

  lemma CompactWeek(y: string, w: string)
    requires |y| == 4 && |w| == 2 && AllDigits(y) && AllDigits(w)
    ensures IsoFields(y + "W" + w).None?
    ensures IsoWeekFields(y + "W" + w) == Some((ParseDigits(y), ParseDigits(w), 1))
  {
    var s := y + "W" + w;
    assert s[..4] == y && s[5..] == w && s[4] == 'W';
  }

  /** Week 1 of 2024 starts on Monday, January 1. */
  lemma FirstWeekOf2024()
    ensures FromIsoFormat("2024-W01-1") == Success(Date(2024, 1, 1))
    ensures FromIsoFormat("2024W01") == Success(Date(2024, 1, 1))
  {
    var long, short := "2024-W01-1", "2024W01";
    assert long[..4] == short[..4] == "2024" && long[6..8] == short[5..] == "01" && long[9..] == "1";
    assert "2024"[..3] == "202" && "202"[..2] == "20" && "20"[..1] == "2" && "2"[..0] == "";
    assert "01"[..1] == "0" && "0"[..0] == "" && "1"[..0] == "";
    assert IsoFields(long).None? && IsoFields(short).None?;
    assert IsoWeekFields(long) == IsoWeekFields(short) == Some((2024, 1, 1));
    Monday2024();
  }

  lemma Monday2024()
    ensures IsoWeekDate(2024, 1, 1) == Success(Date(2024, 1, 1))
  {
    assert DaysBeforeYear(2024) == 738885;
    assert Week1Monday(2024) == Ordinal(Date(2024, 1, 1)) == 738886;
    assert MonthOf(2024, 0, 12) == 1;
    assert YearDay(2024, 0) == Date(2024, 1, 1);
  }
}

=== FILE: csv_import.dfy ===
/** The incremental CSV importers of StockDatabase: each scans a folder, skips files that are
    not newer than the time recorded for its source, renames the CSV columns to table
    columns, and writes each file's rows with its table's write mode. */
module CsvImport {
  import opened Wrappers
  import opened Text
  import opened Calendar
  import opened Patterns
  import opened Storage
  import opened Filtering

  /** A CSV file as pandas reads it: the header and one row per line, each row mapping every
      header column to its cell (an empty cell is NULL). */
  datatype CsvTable = CsvTable(columns: seq<string>, rows: seq<Row>)

  /** A file of the folder, its modification time in microseconds, and its table or None
      when reading it fails. */
  datatype CsvFile = CsvFile(name: string, mtime: int, content: Option<CsvTable>)

  /** The four folder importers. A quarterly import has a file prefix, a target table
      (cumulative year-to-date or single quarter), the only-'ci' switch and its mapping. */
  datatype Source =
    | DailyPrices
    | OhlcPrices
    | MonthlyRevenue
    | QuarterlyReports(prefix: string, yearToDate: bool, onlyCi: bool, mapping: seq<(string, string)>)

  /** The table a source writes. */
  function TargetTable(src: Source): string {
    match src
    case DailyPrices => "daily_prices"
    case OhlcPrices => "daily_prices"
    case MonthlyRevenue => "monthly_revenue"
    case QuarterlyReports(_, ytd, _, _) => if ytd then "financial_ytd" else "financial_core"
  }

  /** The metadata entry that records how far a source has been imported. */
  function TrackingName(src: Source): string {
    match src
    case DailyPrices => "__prices"
    case OhlcPrices => "__abc_prices"
    case MonthlyRevenue => "monthly_revenue"
    case QuarterlyReports(prefix, _, _, _) => "__" + TargetTable(src) + "_" + prefix
  }

  /** CSV header to table column. */
  function ColumnMap(src: Source): seq<(string, string)> {
    match src
    case DailyPrices =>
      [("Code", "code"), ("Open", "open_price"), ("High", "high_price"), ("Low", "low_price"),
       ("Close", "close_price"), ("Volume", "volume")]
    case OhlcPrices =>
      [("Date", "trade_date"), ("Open", "open_price"), ("High", "high_price"), ("Low", "low_price"),
       ("Close", "close_price"), ("Volume", "volume")]
    case MonthlyRevenue => [("Code", "code"), ("Revenue", "revenue"), ("Note", "note")]
    case QuarterlyReports(_, _, _, mapping) => mapping
  }

  /** The columns the file name supplies. */
  function NameColumns(src: Source): seq<string> {
    match src
    case DailyPrices => ["trade_date"]
    case OhlcPrices => ["code"]
    case MonthlyRevenue => ["year", "month"]
    case QuarterlyReports(_, _, _, _) => ["year", "quarter"]
  }

  /** The columns a file must have after renaming, or it is passed over. */
  function Mandatory(src: Source): set<string> {
    match src
    case DailyPrices => {"code", "open_price", "high_price", "low_price", "close_price", "volume"}
    case OhlcPrices => {"trade_date", "open_price", "high_price", "low_price", "close_price", "volume"}
    case MonthlyRevenue => {"code", "revenue"}
    case QuarterlyReports(_, _, _, _) => {"code"}
  }

  /** The target table's NOT NULL columns. */
  function NotNull(src: Source): set<string> {
    match src
    case DailyPrices => {"code", "trade_date", "open_price", "high_price", "low_price", "close_price", "volume"}
    case OhlcPrices => {"code", "trade_date", "open_price", "high_price", "low_price", "close_price", "volume"}
    case MonthlyRevenue => {"code", "year", "month", "revenue"}
    case QuarterlyReports(_, _, _, _) => {"code", "year", "quarter"}
  }

  function PrimaryKey(src: Source): seq<string> {
    match src
    case DailyPrices => ["code", "trade_date"]
    case OhlcPrices => ["code", "trade_date"]
    case MonthlyRevenue => ["code", "year", "month"]
    case QuarterlyReports(_, _, _, _) => ["code", "year", "quarter"]
  }

  function DailyPattern(): seq<Tok> {
    Lits("prices_") + Digits(8) + Lits(".csv")
  }

  function RevenuePattern(): seq<Tok> {
    Lits("revenues_") + Digits(6) + Lits(".csv")
  }

  function QuarterPattern(prefix: string): seq<Tok> {
    Lits(prefix + "_") + Digits(4) + Lits("Q") + Digits(1) + Lits(".csv")
  }

  /** The OHLC file name is the whole of `<letters and digits>_prices.csv`. */
  function OhlcCode(name: string): (r: Option<string>)
    ensures r.Some? ==> |r.value| > 0 && name == r.value + "_prices.csv"
  {
    var suffix := "_prices.csv";
    if |name| <= |suffix| || !EndsWith(name, suffix) then None
    else
      var code := name[..|name| - |suffix|];
      if forall i :: 0 <= i < |code| ==> IsAsciiAlnum(code[i]) then
        assert name == code + suffix;
        Some(code)
      else None
  }

  /** The cells the file name supplies, or None when the name is not one of the source's:
      it must end in '.csv' and match the source's pattern. The daily trade date is
      written f'{year}-{month:02d}-{day:02d}' from the parsed numbers. */
  function NameCells(src: Source, name: string): (r: Option<Row>)
    ensures r.Some? ==> EndsWith(name, ".csv")
    ensures r.Some? ==> forall c :: c in NameColumns(src) <==> c in r.value
  {
    if !EndsWith(name, ".csv") then None
    else match src
      case DailyPrices => DailyNameCells(name)
      case OhlcPrices =>
        (match OhlcCode(name)
         case None => None
         case Some(code) => Some(map["code" := Text(code)]))
      case MonthlyRevenue => RevenueNameCells(name)
      case QuarterlyReports(prefix, _, _, _) => QuarterNameCells(prefix, name)
  }

  /** The trade date of a daily file name. */
  function DailyNameCells(name: string): (r: Option<Row>)
    ensures r.Some? ==> r.value.Keys == {"trade_date"}
  {
    match Search(name, DailyPattern(), 0)
    case None => None
    case Some(i) =>
      MatchedDigits(name, i, DailyPattern(), 7, 4);
      MatchedDigits(name, i, DailyPattern(), 11, 2);
      MatchedDigits(name, i, DailyPattern(), 13, 2);
      var y, m, d := ParseDigits(name[i + 7..i + 11]), ParseDigits(name[i + 11..i + 13]), ParseDigits(name[i + 13..i + 15]);
      Some(map["trade_date" := Text(NatToString(y) + "-" + Pad2(m) + "-" + Pad2(d))])
  }

  /** The year and month of a revenue file name. */
  function RevenueNameCells(name: string): (r: Option<Row>)
    ensures r.Some? ==> r.value.Keys == {"year", "month"}
  {
    match Search(name, RevenuePattern(), 0)
    case None => None
    case Some(i) =>
      MatchedDigits(name, i, RevenuePattern(), 9, 4);
      MatchedDigits(name, i, RevenuePattern(), 13, 2);
      Some(map["year" := Num(ParseDigits(name[i + 9..i + 13]) as real), "month" := Num(ParseDigits(name[i + 13..i + 15]) as real)])
  }

  /** The year and quarter of a quarterly report file name. */
  function QuarterNameCells(prefix: string, name: string): (r: Option<Row>)
    ensures r.Some? ==> r.value.Keys == {"year", "quarter"}
  {
    match Search(name, QuarterPattern(prefix), 0)
    case None => None
    case Some(i) =>
      var k := i + |prefix| + 1;
      MatchedDigits(name, i, QuarterPattern(prefix), |prefix| + 1, 4);
      MatchedDigits(name, i, QuarterPattern(prefix), |prefix| + 6, 1);
      Some(map["year" := Num(ParseDigits(name[k..k + 4]) as real), "quarter" := Num(ParseDigits(name[k + 5..k + 6]) as real)])
  }

  /** pandas rename: a header column listed in the mapping takes its table name, any other
      keeps its own. */
  function Renamed(mapping: seq<(string, string)>, c: string): string {
    if |mapping| == 0 then c
    else if mapping[0].0 == c then mapping[0].1
    else Renamed(mapping[1..], c)
  }

  function TargetNames(mapping: seq<(string, string)>): (r: set<string>)
    ensures forall d :: d in r <==> exists i :: 0 <= i < |mapping| && mapping[i].1 == d
  {
    set i | 0 <= i < |mapping| :: mapping[i].1
  }

  /** The columns the table takes from this source. */
  function UseColumns(src: Source): set<string> {
    (set c | c in NameColumns(src)) + TargetNames(ColumnMap(src))
  }

  /** The header once the name columns are added: a new column goes to the end, an existing
      one is overwritten in place. */
  function Header(src: Source, csv: CsvTable): seq<string> {
    csv.columns + seq(|NameColumns(src)|, i requires 0 <= i < |NameColumns(src)| => NameColumns(src)[i])
  }

  /** The columns kept: renamed header columns the table takes. */
  function Available(src: Source, header: seq<string>): (r: set<string>)
    ensures forall d :: d in r <==> d in UseColumns(src) && exists c :: c in header && Renamed(ColumnMap(src), c) == d
  {
    set c | c in header && Renamed(ColumnMap(src), c) in UseColumns(src) :: Renamed(ColumnMap(src), c)
  }

  /** The header column a kept column comes from: the first one renamed to it. */
  function SourceOf(mapping: seq<(string, string)>, header: seq<string>, d: string): (r: Option<string>)
    ensures r.Some? ==> r.value in header && Renamed(mapping, r.value) == d
    ensures r.None? ==> forall c :: c in header ==> Renamed(mapping, c) != d
  {
    if |header| == 0 then None
    else if Renamed(mapping, header[0]) == d then Some(header[0])
    else SourceOf(mapping, header[1..], d)
  }

  /** One CSV row as it goes to the table: name cells set, columns renamed, only the kept
      columns. */
  function Prepared(src: Source, header: seq<string>, row: Row, cells: Row): (r: Row)
    ensures r.Keys == Available(src, header)
  {
    var full := row + cells;
    map d | d in Available(src, header) ::
      match SourceOf(ColumnMap(src), header, d)
      case Some(c) => Lookup(full, c)
      case None => Null
  }

  /** Whether only_ci narrows this file to its 'ci' rows: a quarterly file with a Sector column. */
  predicate CiOnly(src: Source, csv: CsvTable) {
    src.QuarterlyReports? && src.onlyCi && "Sector" in csv.columns
  }

  predicate InCi(x: Row) {
    Lookup(x, "Sector") == Text("ci")
  }

  /** With only_ci and a Sector column, a quarterly file keeps its 'ci' rows only. */
  function SectorRows(src: Source, csv: CsvTable): (r: seq<Row>)
    ensures |r| <= |csv.rows|
    ensures forall x :: x in r <==> x in csv.rows && (!CiOnly(src, csv) || InCi(x))
  {
    if CiOnly(src, csv) then
      FilterCounts(csv.rows, InCi);
      Filter(csv.rows, InCi)
    else csv.rows
  }

  function PrepareAll(src: Source, header: seq<string>, rows: seq<Row>, cells: Row): (r: seq<Row>)
    ensures |r| == |rows| && forall i :: 0 <= i < |rows| ==> r[i] == Prepared(src, header, rows[i], cells)
  {
    seq(|rows|, i requires 0 <= i < |rows| => Prepared(src, header, rows[i], cells))
  }

  /** A prepared row that names its stock. */
  predicate HasCode(x: Row) {
    Lookup(x, "code") != Null
  }

  /** The rows a readable file contributes, or None when a mandatory column is missing.
      Rows without a code are dropped, except for OHLC files, whose code is the name's. */
  function Batch(src: Source, csv: CsvTable, cells: Row): (r: Option<seq<Row>>)
    ensures r.Some? <==> Mandatory(src) <= Available(src, Header(src, csv))
    ensures r.Some? ==> forall x :: x in r.value ==> x.Keys == Available(src, Header(src, csv))
    ensures r.Some? && !src.OhlcPrices? ==> forall x :: x in r.value ==> HasCode(x)
    ensures r.Some? ==> forall x :: x in r.value ==>
      exists i :: 0 <= i < |csv.rows| && (!CiOnly(src, csv) || InCi(csv.rows[i])) && x == Prepared(src, Header(src, csv), csv.rows[i], cells)
    ensures r.Some? ==> forall i :: 0 <= i < |csv.rows| && (!CiOnly(src, csv) || InCi(csv.rows[i]))
                                    && (src.OhlcPrices? || HasCode(Prepared(src, Header(src, csv), csv.rows[i], cells))) ==>
      Prepared(src, Header(src, csv), csv.rows[i], cells) in r.value
  {
    var header := Header(src, csv);
    if !(Mandatory(src) <= Available(src, header)) then None
    else
      var prepared := PrepareAll(src, header, SectorRows(src, csv), cells);
      PreparedMembers(src, csv, cells);
      FilterCounts(prepared, HasCode);
      Some(Kept(src, csv, cells))
  }

  /** The prepared rows of a file are those of its lines of the kept sector. */
  lemma PreparedMembers(src: Source, csv: CsvTable, cells: Row)
    ensures var prepared := PrepareAll(src, Header(src, csv), SectorRows(src, csv), cells);
      forall x :: x in prepared <==>
        exists i :: 0 <= i < |csv.rows| && (!CiOnly(src, csv) || InCi(csv.rows[i])) && x == Prepared(src, Header(src, csv), csv.rows[i], cells)
  {
    var header := Header(src, csv);
    var prepared := PrepareAll(src, header, SectorRows(src, csv), cells);
    forall x | x in prepared ensures exists i :: 0 <= i < |csv.rows| && (!CiOnly(src, csv) || InCi(csv.rows[i])) && x == Prepared(src, header, csv.rows[i], cells) {
      var k :| 0 <= k < |prepared| && prepared[k] == x;
      var y := SectorRows(src, csv)[k];
      assert y in SectorRows(src, csv);
      var i :| 0 <= i < |csv.rows| && csv.rows[i] == y;
    }
    forall i | 0 <= i < |csv.rows| && (!CiOnly(src, csv) || InCi(csv.rows[i])) ensures Prepared(src, header, csv.rows[i], cells) in prepared {
      assert csv.rows[i] in SectorRows(src, csv);
      var k :| 0 <= k < |SectorRows(src, csv)| && SectorRows(src, csv)[k] == csv.rows[i];
      assert prepared[k] == Prepared(src, header, csv.rows[i], cells);
    }
  }

  /** The rows of a file with the mandatory columns: its prepared rows of the kept sector,
      without those that lack a code unless the file is an OHLC file. */
  function Kept(src: Source, csv: CsvTable, cells: Row): seq<Row> {
    var prepared := PrepareAll(src, Header(src, csv), SectorRows(src, csv), cells);
    if src.OhlcPrices? then prepared else Filter(prepared, HasCode)
  }

  /** A file's rows go to the table in file order: the batch of two runs of lines is the
      batch of the first run followed by the batch of the second. */
  lemma BatchInFileOrder(src: Source, columns: seq<string>, a: seq<Row>, b: seq<Row>, cells: Row)
    requires Batch(src, CsvTable(columns, a), cells).Some?
    ensures Batch(src, CsvTable(columns, a + b), cells) ==
      Some(Batch(src, CsvTable(columns, a), cells).value + Batch(src, CsvTable(columns, b), cells).value)
  {
    KeptInFileOrder(src, columns, a, b, cells);
  }

  lemma KeptInFileOrder(src: Source, columns: seq<string>, a: seq<Row>, b: seq<Row>, cells: Row)
    ensures Kept(src, CsvTable(columns, a + b), cells) == Kept(src, CsvTable(columns, a), cells) + Kept(src, CsvTable(columns, b), cells)
  {
    var ca, cb, cab := CsvTable(columns, a), CsvTable(columns, b), CsvTable(columns, a + b);
    var header := Header(src, cab);
    assert Header(src, ca) == header && Header(src, cb) == header;
    SectorRowsAppend(src, columns, a, b);
    var sa, sb := SectorRows(src, ca), SectorRows(src, cb);
    PrepareAllAppend(src, header, sa, sb, cells);
    if !src.OhlcPrices? {
      FilterAppend(PrepareAll(src, header, sa, cells), PrepareAll(src, header, sb, cells), HasCode);
    }
  }

  lemma SectorRowsAppend(src: Source, columns: seq<string>, a: seq<Row>, b: seq<Row>)
    ensures SectorRows(src, CsvTable(columns, a + b)) == SectorRows(src, CsvTable(columns, a)) + SectorRows(src, CsvTable(columns, b))
  {
    if CiOnly(src, CsvTable(columns, a + b)) {
      FilterAppend(a, b, InCi);
    }
  }

  lemma PrepareAllAppend(src: Source, header: seq<string>, a: seq<Row>, b: seq<Row>, cells: Row)
    ensures PrepareAll(src, header, a + b, cells) == PrepareAll(src, header, a, cells) + PrepareAll(src, header, b, cells)
  {
    var l, r := PrepareAll(src, header, a + b, cells), PrepareAll(src, header, a, cells) + PrepareAll(src, header, b, cells);
    forall i | 0 <= i < |l| ensures l[i] == r[i] {
      if i < |a| { assert (a + b)[i] == a[i]; } else { assert (a + b)[i] == b[i - |a|]; }
    }
  }

  /** pandas Timestamps run from 1677-09-21 00:12:43 to 2262-04-11 23:47:16, so a date at
      midnight fits from 1677-09-22 to 2262-04-11. */
  predicate InTimestampRange(d: Date) {
    DateLe(Date(1677, 9, 22), d) && DateLe(d, Date(2262, 4, 11))
  }

  /** A trade date in the stored 'YYYY-MM-DD' form. */
  predicate CanonicalDate(s: string) {
    ParseIsoDate(s).Success? && IsoFormat(ParseIsoDate(s).value) == s
  }

  /** pd.to_datetime(cell).strftime('%Y-%m-%d') for one OHLC trade-date cell: NULL stays
      NULL (NaT formats to NaN), a date text outside the Timestamp range or not a date
      raises, and any other date text is rewritten 'YYYY-MM-DD'. */
  function ReformatDate(v: Value): (r: Result<Value>)
    ensures v.Null? ==> r == Success(Null)
    ensures v.Num? ==> r == Success(v)
    ensures v.Text? ==> (r.Success? <==> ParseIsoDate(v.s).Success? && InTimestampRange(ParseIsoDate(v.s).value))
    ensures v.Text? && r.Success? ==> r.value.Text? && CanonicalDate(r.value.s) && ParseIsoDate(r.value.s) == ParseIsoDate(v.s)
  {
    match v
    case Text(s) =>
      (match ParseIsoDate(s)
       case Failure(e) => Failure(e)
       case Success(d) =>
         ParseIsoFormat(d);
         if InTimestampRange(d) then Success(Text(IsoFormat(d))) else Failure("Out of bounds nanosecond timestamp"))
    case _ => Success(v)
  }

  /** Reformatting a reformatted date changes nothing, so an OHLC file written from the
      table imports back to the same dates. */
  lemma ReformatDateIdempotent(v: Value)
    requires ReformatDate(v).Success?
    ensures ReformatDate(ReformatDate(v).value) == ReformatDate(v)
  {
    if v.Text? {
      var d := ParseIsoDate(v.s).value;
      ParseIsoFormat(d);
    }
  }

  function WithDate(x: Row, v: Value): Row {
    x["trade_date" := v]
  }

  /** The trade-date column reformatted; the first cell that cannot be read fails the file. */
  function ReformatDates(rows: seq<Row>): (r: Result<seq<Row>>)
    ensures r.Success? <==> forall i :: 0 <= i < |rows| ==> ReformatDate(Lookup(rows[i], "trade_date")).Success?
    ensures r.Success? ==> |r.value| == |rows|
    ensures r.Success? ==> forall i :: 0 <= i < |rows| ==>
      r.value[i] == WithDate(rows[i], ReformatDate(Lookup(rows[i], "trade_date")).value)
  {
    if |rows| == 0 then Success([])
    else
      var v :- ReformatDate(Lookup(rows[0], "trade_date"));
      var rest :- ReformatDates(rows[1..]);
      assert forall i :: 1 <= i < |rows| ==> rows[1..][i - 1] == rows[i];
      Success([WithDate(rows[0], v)] + rest)
  }

  /** The rows a file writes once its trade dates are reformatted (OHLC files only). */
  function Dated(src: Source, rows: seq<Row>): (r: Result<seq<Row>>)
    ensures !src.OhlcPrices? ==> r == Success(rows)
    ensures r.Success? ==> |r.value| == |rows| && forall i :: 0 <= i < |rows| ==> r.value[i].Keys == rows[i].Keys + (if src.OhlcPrices? then {"trade_date"} else {})
    ensures r.Success? && src.OhlcPrices? ==> forall i :: 0 <= i < |rows| ==>
      var v := Lookup(r.value[i], "trade_date");
      (v.Null? <==> Lookup(rows[i], "trade_date").Null?) && (v.Text? ==> CanonicalDate(v.s))
  {
    if src.OhlcPrices? then ReformatDates(rows) else Success(rows)
  }

  /** A row NULL in a NOT NULL column makes executemany raise IntegrityError. */
  predicate Violates(src: Source, rows: seq<Row>) {
    exists i, c :: 0 <= i < |rows| && c in NotNull(src) && Lookup(rows[i], c) == Null
  }

  /** The table so far, the rows written and the newest modification time among the files
      written. */
  datatype ImportState = ImportState(table: Table, imported: nat, lastMod: Option<int>)

  /** What the loop makes of one file: pass it over, fail on it, or write its rows (with the
      columns they carry and the file's time). */
  datatype FileOutcome = Passed | Broken(message: string) | Rows(rows: seq<Row>, avail: set<string>, mtime: int)

  /** A file is written only when its name is the source's, it is newer than the recorded
      time, it reads, and it has the mandatory columns; it breaks the import when an OHLC
      trade date cannot be read or one of its rows is NULL in a NOT NULL column. */
  function Examine(src: Source, recorded: Option<int>, f: CsvFile): (o: FileOutcome)
    ensures !o.Passed? ==> NameCells(src, f.name).Some? && f.content.Some?
                           && (recorded.None? || f.mtime > recorded.value)
                           && Mandatory(src) <= Available(src, Header(src, f.content.value))
    ensures !o.Passed? ==> var rows := Batch(src, f.content.value, NameCells(src, f.name).value).value;
                           (o.Broken? <==> Dated(src, rows).Failure? || Violates(src, Dated(src, rows).value))
    ensures o.Rows? ==> o.mtime == f.mtime && !Violates(src, o.rows)
                        && o.avail == Available(src, Header(src, f.content.value))
                        && o.rows == Dated(src, Batch(src, f.content.value, NameCells(src, f.name).value).value).value
  {
    match NameCells(src, f.name)
    case None => Passed
    case Some(cells) =>
      if recorded.Some? && f.mtime <= recorded.value then Passed
      else match f.content
        case None => Passed
        case Some(csv) =>
          match Batch(src, csv, cells)
          case None => Passed
          case Some(rows) =>
            match Dated(src, rows)
            case Failure(e) => Broken(e)
            case Success(dated) =>
              if Violates(src, dated) then Broken("NOT NULL constraint failed")
              else Rows(dated, Available(src, Header(src, csv)), f.mtime)
  }

  /** Every trade date an OHLC file writes is a stored 'YYYY-MM-DD' text. */
  lemma OhlcDatesCanonical(recorded: Option<int>, f: CsvFile)
    requires Examine(OhlcPrices, recorded, f).Rows?
    ensures forall x :: x in Examine(OhlcPrices, recorded, f).rows && Lookup(x, "trade_date").Text? ==>
      CanonicalDate(Lookup(x, "trade_date").s)
  {
    var o := Examine(OhlcPrices, recorded, f);
    forall x | x in o.rows && Lookup(x, "trade_date").Text? ensures CanonicalDate(Lookup(x, "trade_date").s) {
      var i :| 0 <= i < |o.rows| && o.rows[i] == x;
    }
  }

  /** Only the recorded time depends on earlier imports: a file passed over stays passed
      over when the recorded time moves forward, and so does any file no newer than it. */
  lemma ExamineLater(src: Source, before: Option<int>, after: int, f: CsvFile)
    requires before.None? || before.value <= after
    ensures Examine(src, before, f).Passed? ==> Examine(src, Some(after), f).Passed?
    ensures f.mtime <= after ==> Examine(src, Some(after), f).Passed?
  {
  }

  /** Two recorded times that a file is newer than treat it alike. */
  lemma ExamineNewer(src: Source, a: Option<int>, b: Option<int>, f: CsvFile)
    requires a.None? || f.mtime > a.value
    requires b.None? || f.mtime > b.value
    ensures Examine(src, a, f) == Examine(src, b, f)
  {
  }

  function Outcomes(src: Source, recorded: Option<int>, files: seq<CsvFile>): (r: seq<FileOutcome>)
    ensures |r| == |files| && forall i :: 0 <= i < |files| ==> r[i] == Examine(src, recorded, files[i])
  {
    seq(|files|, i requires 0 <= i < |files| => Examine(src, recorded, files[i]))
  }

  function Later(a: Option<int>, t: int): (r: int)
    ensures r >= t && (a.Some? ==> r >= a.value) && (r == t || (a.Some? && r == a.value))
  {
    if a.None? || t > a.value then t else a.value
  }

  /** The write a batch gets: INSERT OR REPLACE, or for quarterly reports an upsert of the
      non-key columns present, which is INSERT OR IGNORE when there are none. */
  function Write(src: Source, t: Table, rows: seq<Row>, avail: set<string>): Table {
    if src.QuarterlyReports? then
      var cols := avail - {"code", "year", "quarter"};
      if cols == {} then Ignore(t, PrimaryKey(src), rows) else Upsert(t, PrimaryKey(src), rows, cols)
    else Replace(t, PrimaryKey(src), rows)
  }

  /** The loop over the folder's files in listing order; a failure aborts it. */
  function Run(src: Source, t: Table, outs: seq<FileOutcome>): (r: Result<ImportState>)
  {
    if |outs| == 0 then Success(ImportState(t, 0, None))
    else
      var st :- Run(src, t, outs[..|outs| - 1]);
      match outs[|outs| - 1]
      case Passed => Success(st)
      case Broken(message) => Failure(message)
      case Rows(rows, avail, mtime) =>
        Success(ImportState(Write(src, st.table, rows, avail), st.imported + |rows|, Some(Later(st.lastMod, mtime))))
  }

  /** The newest time among the written files. */
  function NewestOf(outs: seq<FileOutcome>): (r: Option<int>)
    ensures r.None? <==> forall i :: 0 <= i < |outs| ==> !outs[i].Rows?
    ensures r.Some? ==> (exists i :: 0 <= i < |outs| && outs[i].Rows? && outs[i].mtime == r.value)
                        && forall i :: 0 <= i < |outs| && outs[i].Rows? ==> outs[i].mtime <= r.value
  {
    if |outs| == 0 then None
    else
      var p := outs[..|outs| - 1];
      assert forall i :: 0 <= i < |p| ==> p[i] == outs[i];
      var o := outs[|outs| - 1];
      if o.Rows? then Some(Later(NewestOf(p), o.mtime)) else NewestOf(p)
  }

  /** How many rows the written files hold. */
  function WrittenCount(outs: seq<FileOutcome>): nat {
    if |outs| == 0 then 0
    else WrittenCount(outs[..|outs| - 1]) + (if outs[|outs| - 1].Rows? then |outs[|outs| - 1].rows| else 0)
  }

  /** The primary keys of every row of every written file. */
  function WrittenKeys(src: Source, outs: seq<FileOutcome>): set<seq<Value>> {
    set i, j | 0 <= i < |outs| && outs[i].Rows? && 0 <= j < |outs[i].rows| :: KeyOf(outs[i].rows[j], PrimaryKey(src))
  }

  lemma WrittenKeysSnoc(src: Source, outs: seq<FileOutcome>)
    requires |outs| > 0
    ensures var p, o := outs[..|outs| - 1], outs[|outs| - 1];
            WrittenKeys(src, outs) == WrittenKeys(src, p) + (if o.Rows? then BatchKeys(o.rows, PrimaryKey(src)) else {})
  {
    var p, o := outs[..|outs| - 1], outs[|outs| - 1];
    assert forall i :: 0 <= i < |p| ==> p[i] == outs[i];
    forall k | k in WrittenKeys(src, outs)
      ensures k in WrittenKeys(src, p) + (if o.Rows? then BatchKeys(o.rows, PrimaryKey(src)) else {})
    {
      var i, j :| 0 <= i < |outs| && outs[i].Rows? && 0 <= j < |outs[i].rows| && KeyOf(outs[i].rows[j], PrimaryKey(src)) == k;
      if i < |p| {
        assert p[i].rows[j] == outs[i].rows[j];
      }
    }
  }

  /** Every write keeps the table's keys and adds the batch's. */
  lemma WriteKeys(src: Source, t: Table, rows: seq<Row>, avail: set<string>)
    ensures Write(src, t, rows, avail).Keys == t.Keys + BatchKeys(rows, PrimaryKey(src))
  {
    ReplaceLastWins(t, PrimaryKey(src), rows);
    IgnoreFirstWins(t, PrimaryKey(src), rows);
    UpsertKeys(t, PrimaryKey(src), rows, avail - {"code", "year", "quarter"});
  }

  /** The loop fails exactly when some file breaks it; when it succeeds, it keeps the time of
      the newest file written, counts the rows of the written files, holds a row under every
      key they carry and no other new key, and with nothing written it leaves the table as
      it was. */
  lemma RunOutcome(src: Source, t: Table, outs: seq<FileOutcome>)
    ensures Run(src, t, outs).Failure? <==> exists i :: 0 <= i < |outs| && outs[i].Broken?
    ensures Run(src, t, outs).Success? ==> Run(src, t, outs).value.lastMod == NewestOf(outs)
    ensures Run(src, t, outs).Success? ==> Run(src, t, outs).value.imported == WrittenCount(outs)
    ensures Run(src, t, outs).Success? ==> Run(src, t, outs).value.table.Keys == t.Keys + WrittenKeys(src, outs)
    ensures Run(src, t, outs).Success? && NewestOf(outs).None? ==> Run(src, t, outs).value == ImportState(t, 0, None)
  {
    RunCounts(src, t, outs);
    RunKeys(src, t, outs);
  }

  lemma {:induction false} RunCounts(src: Source, t: Table, outs: seq<FileOutcome>)
    ensures Run(src, t, outs).Failure? <==> exists i :: 0 <= i < |outs| && outs[i].Broken?
    ensures Run(src, t, outs).Success? ==> Run(src, t, outs).value.lastMod == NewestOf(outs)
    ensures Run(src, t, outs).Success? ==> Run(src, t, outs).value.imported == WrittenCount(outs)
    ensures Run(src, t, outs).Success? && NewestOf(outs).None? ==> Run(src, t, outs).value == ImportState(t, 0, None)
  {
    if |outs| > 0 {
      var p := outs[..|outs| - 1];
      RunCounts(src, t, p);
      assert forall i :: 0 <= i < |p| ==> p[i] == outs[i];
    }
  }

  lemma {:induction false} RunKeys(src: Source, t: Table, outs: seq<FileOutcome>)
    ensures Run(src, t, outs).Success? ==> Run(src, t, outs).value.table.Keys == t.Keys + WrittenKeys(src, outs)
  {
    if |outs| > 0 {
      var p := outs[..|outs| - 1];
      RunKeys(src, t, p);
      WrittenKeysSnoc(src, outs);
      var o := outs[|outs| - 1];
      if o.Rows? && Run(src, t, p).Success? {
        WriteKeys(src, Run(src, t, p).value.table, o.rows, o.avail);
      }
    } else {
      assert WrittenKeys(src, outs) == {};
    }
  }

  /** What the loop makes of each file, given the time recorded for the source. */
  function Plan(src: Source, meta: Metadata, files: seq<CsvFile>): (r: seq<FileOutcome>)
    ensures |r| == |files|
  {
    Outcomes(src, GetTableUpdatedTime(meta, TrackingName(src)), files)
  }

  /** An import over the folder: the new table, metadata and number of rows written, or the
      error that rolls the whole import back. When a file was written, the source's entry
      is set to the newest written time, and the target table's entry is raised to it
      (monthly revenue tracks itself, so it only sets). */
  function ImportFolder(src: Source, fmt: TimeFormat, t: Table, meta: Metadata, files: seq<CsvFile>): (r: Result<(Table, Metadata, nat)>)
    ensures r.Failure? <==> exists i :: 0 <= i < |files| && Plan(src, meta, files)[i].Broken?
    ensures r.Success? && NewestOf(Plan(src, meta, files)).None? ==> r.value == (t, meta, 0)
    ensures r.Success? ==> r.value.2 == WrittenCount(Plan(src, meta, files))
    ensures r.Success? ==> r.value.0.Keys == t.Keys + WrittenKeys(src, Plan(src, meta, files))
    ensures r.Success? && NewestOf(Plan(src, meta, files)).Some? ==>
      TrackingName(src) in r.value.1 && r.value.1[TrackingName(src)] == StoredTime(fmt, NewestOf(Plan(src, meta, files)).value)
  {
    var outs := Plan(src, meta, files);
    RunOutcome(src, t, outs);
    var st :- Run(src, t, outs);
    match st.lastMod
    case None => Success((t, meta, 0))
    case Some(last) =>
      var m := SetTableUpdatedTime(fmt, meta, TrackingName(src), last);
      TrackingIsNotTarget(src);
      var m' := if src.MonthlyRevenue? then m else UpdateTableTime(fmt, m, TargetTable(src), last);
      Success((st.table, m', st.imported))
  }

  /** A source's tracking entry is never its target table's own entry, except for monthly
      revenue, which tracks itself. */
  lemma TrackingIsNotTarget(src: Source)
    ensures src.MonthlyRevenue? <==> TrackingName(src) == TargetTable(src)
  {
    if src.QuarterlyReports? {
      assert TrackingName(src)[0] == '_';
    }
  }

  /** As the source writes it, the recorded time loses its fraction of a second, so the
      newest file of an import is newer than the record it leaves: whenever that file's
      time is not a whole second, the next import over the same folder writes it again. */
  lemma NewestFileWrittenAgain(src: Source, t: Table, meta: Metadata, files: seq<CsvFile>)
    requires ImportFolder(src, WholeSeconds, t, meta, files).Success?
    requires NewestOf(Plan(src, meta, files)).Some?
    requires NewestOf(Plan(src, meta, files)).value % MicrosPerSecond != 0
    ensures exists i :: 0 <= i < |files| && Plan(src, ImportFolder(src, WholeSeconds, t, meta, files).value.1, files)[i].Rows?
  {
    var outs := Plan(src, meta, files);
    var after := ImportFolder(src, WholeSeconds, t, meta, files).value.1;
    var m := NewestOf(outs).value;
    var i :| 0 <= i < |outs| && outs[i].Rows? && outs[i].mtime == m;
    var stored := StoredTime(WholeSeconds, m);
    assert stored < m;
    assert GetTableUpdatedTime(after, TrackingName(src)) == Some(stored);
    ExamineNewer(src, GetTableUpdatedTime(meta, TrackingName(src)), Some(stored), files[i]);
    assert Plan(src, after, files)[i] == outs[i];
  }

  /** With the time recorded to the microsecond, importing the same folder again writes
      nothing and changes nothing: every file written the first time is no newer than the
      record, and every file passed over is passed over again. */
  lemma ReimportWritesNothing(src: Source, t: Table, meta: Metadata, files: seq<CsvFile>)
    requires ImportFolder(src, WithMicroseconds, t, meta, files).Success?
    ensures var after := ImportFolder(src, WithMicroseconds, t, meta, files).value;
            ImportFolder(src, WithMicroseconds, after.0, after.1, files) == Success((after.0, after.1, 0))
  {
    var after := ImportFolder(src, WithMicroseconds, t, meta, files).value;
    AgainPassed(src, t, meta, files);
    NothingPlannedWritesNothing(src, after.0, after.1, files);
  }

  /** After an import with exact times, every file is passed over. */
  lemma AgainPassed(src: Source, t: Table, meta: Metadata, files: seq<CsvFile>)
    requires ImportFolder(src, WithMicroseconds, t, meta, files).Success?
    ensures var after := ImportFolder(src, WithMicroseconds, t, meta, files).value;
            forall i :: 0 <= i < |files| ==> Plan(src, after.1, files)[i].Passed?
  {
    if NewestOf(Plan(src, meta, files)).None? {
      NothingWritten(src, t, meta, files);
    } else {
      SomethingWritten(src, t, meta, files);
    }
  }

  lemma NothingWritten(src: Source, t: Table, meta: Metadata, files: seq<CsvFile>)
    requires ImportFolder(src, WithMicroseconds, t, meta, files).Success?
    requires NewestOf(Plan(src, meta, files)).None?
    ensures ImportFolder(src, WithMicroseconds, t, meta, files).value.1 == meta
    ensures forall i :: 0 <= i < |files| ==> Plan(src, meta, files)[i].Passed?
  {
    var outs := Plan(src, meta, files);
    assert forall i :: 0 <= i < |outs| ==> !outs[i].Broken?;
  }

  lemma SomethingWritten(src: Source, t: Table, meta: Metadata, files: seq<CsvFile>)
    requires ImportFolder(src, WithMicroseconds, t, meta, files).Success?
    requires NewestOf(Plan(src, meta, files)).Some?
    ensures var after := ImportFolder(src, WithMicroseconds, t, meta, files).value;
            forall i :: 0 <= i < |files| ==> Plan(src, after.1, files)[i].Passed?
  {
    RecordsNewest(src, t, meta, files);
    PassedAfter(src, meta, ImportFolder(src, WithMicroseconds, t, meta, files).value.1, files);
  }

  /** A successful import that wrote files records the newest one's time. */
  lemma RecordsNewest(src: Source, t: Table, meta: Metadata, files: seq<CsvFile>)
    requires ImportFolder(src, WithMicroseconds, t, meta, files).Success?
    requires NewestOf(Plan(src, meta, files)).Some?
    ensures forall i :: 0 <= i < |files| ==> !Plan(src, meta, files)[i].Broken?
    ensures GetTableUpdatedTime(ImportFolder(src, WithMicroseconds, t, meta, files).value.1, TrackingName(src))
      == NewestOf(Plan(src, meta, files))
  {
  }

  /** The newest written file is newer than the time recorded before. */
  lemma NewestIsNewer(src: Source, meta: Metadata, files: seq<CsvFile>)
    requires NewestOf(Plan(src, meta, files)).Some?
    ensures var before := GetTableUpdatedTime(meta, TrackingName(src));
            before.None? || before.value <= NewestOf(Plan(src, meta, files)).value
  {
    var outs := Plan(src, meta, files);
    var j :| 0 <= j < |outs| && outs[j].Rows? && outs[j].mtime == NewestOf(outs).value;
  }

  /** Once the recorded time is the newest written file's, every file is passed over. */
  lemma PassedAfter(src: Source, meta: Metadata, later: Metadata, files: seq<CsvFile>)
    requires forall i :: 0 <= i < |files| ==> !Plan(src, meta, files)[i].Broken?
    requires NewestOf(Plan(src, meta, files)).Some?
    requires GetTableUpdatedTime(later, TrackingName(src)) == NewestOf(Plan(src, meta, files))
    ensures forall i :: 0 <= i < |files| ==> Plan(src, later, files)[i].Passed?
  {
    var m := NewestOf(Plan(src, meta, files)).value;
    var before := GetTableUpdatedTime(meta, TrackingName(src));
    NewestIsNewer(src, meta, files);
    forall i | 0 <= i < |files| ensures Plan(src, later, files)[i].Passed? {
      ExamineLater(src, before, m, files[i]);
    }
  }

  /** When every file is passed over the import leaves the table and the metadata alone. */
  lemma NothingPlannedWritesNothing(src: Source, t: Table, meta: Metadata, files: seq<CsvFile>)
    requires forall i :: 0 <= i < |files| ==> Plan(src, meta, files)[i].Passed?
    ensures ImportFolder(src, WithMicroseconds, t, meta, files) == Success((t, meta, 0))
  {
    assert NewestOf(Plan(src, meta, files)).None?;
  }
}

=== FILE: daily_prices.dfy ===
/** The daily-price downloaders' pure rules: the file name in a Content-Disposition header,
    the clean-up of the TPEx quote file, and the joining of the two exchanges' prices. */
module DailyPrices {
  import opened Wrappers
  import opened Text
  import opened Calendar
  import Assistant

  // ---------------------------------------------------------------- download file name

  /** The text before the name in the header's quoted `filename` parameter (a simplified,
      quoted-only reading of section 4.1 of RFC 6266). */
  const FilenameKey: string := "filename=\""

  /** The index of the first newline at or after `i`, or |s|. */
  function LineEnd(s: string, i: nat): (e: nat)
    requires i <= |s|
    ensures i <= e <= |s| && (e < |s| ==> s[e] == '\n')
    ensures forall j :: i <= j < e ==> s[j] != '\n'
    decreases |s| - i
  {
    if i == |s| || s[i] == '\n' then i else LineEnd(s, i + 1)
  }

  /** The last '"' in s[lo..hi], if any. */
  function LastQuote(s: string, lo: nat, hi: nat): (r: Option<nat>)
    requires lo <= hi <= |s|
    ensures r.Some? ==> lo <= r.value < hi && s[r.value] == '"' && forall j :: r.value < j < hi ==> s[j] != '"'
    ensures r.None? ==> forall j :: lo <= j < hi ==> s[j] != '"'
    decreases hi - lo
  {
    if hi == lo then None else if s[hi - 1] == '"' then Some(hi - 1) else LastQuote(s, lo, hi - 1)
  }

  /** The pattern filename="(.+)" tried at position p: the key, then the longest capture of
      one or more characters other than a newline that is followed by '"'. */
  function FilenameAt(s: string, p: nat): Option<string> {
    var start := p + |FilenameKey|;
    if start <= |s| && s[p..start] == FilenameKey then
      var e := LineEnd(s, start);
      if e < start + 1 then None
      else match LastQuote(s, start + 1, e)
        case None => None
        case Some(q) => Some(s[start..q])
    else None
  }

  /** A match is the key followed by at least one character, up to the last '"' on the key's
      line; there is none when that line holds no '"' after the key's first character. */
  lemma FilenameAtMeaning(s: string, p: nat)
    ensures FilenameAt(s, p).Some? ==> var name, start := FilenameAt(s, p).value, p + |FilenameKey|;
      start + |name| < |s| && s[p..start] == FilenameKey && |name| >= 1 && name == s[start..start + |name|] &&
      s[start + |name|] == '"' && (forall j :: start <= j < start + |name| ==> s[j] != '\n') &&
      (forall j :: start + |name| < j < LineEnd(s, start) ==> s[j] != '"')
    ensures FilenameAt(s, p).None? && p + |FilenameKey| <= |s| && s[p..p + |FilenameKey|] == FilenameKey ==>
      forall j :: p + |FilenameKey| < j < LineEnd(s, p + |FilenameKey|) ==> s[j] != '"'
  {
  }

  /** re.findall(...)[0]: the capture at the leftmost position where the pattern matches. */
  function FindFilename(s: string, p: nat): (r: Option<string>)
    ensures r.Some? ==> exists i :: p <= i && FilenameAt(s, i) == r && forall j :: p <= j < i ==> FilenameAt(s, j).None?
    ensures r.None? ==> forall i :: p <= i ==> FilenameAt(s, i).None?
    decreases |s| + 1 - p
  {
    if p > |s| then
      assert forall i :: p <= i ==> FilenameAt(s, i).None?;
      None
    else match FilenameAt(s, p)
      case Some(n) => Some(n)
      case None => FindFilename(s, p + 1)
  }

  /** The saved file's name from the Content-Disposition header ("" when there is none). */
  function FileNameFromHeader(header: string): (r: Result<string>)
    ensures |header| == 0 ==> r == Failure("Can't get the file name. No 'Content-Disposition' header")
    ensures |header| > 0 && r.Failure? ==>
      r.error == "Can't get the file name. Not found 'filename=' in 'Content-Disposition' header" &&
      forall i :: FilenameAt(header, i).None?
    ensures r.Success? ==> |r.value| >= 1 && exists i :: FilenameAt(header, i) == Some(r.value) && forall j :: j < i ==> FilenameAt(header, j).None?
  {
    if |header| == 0 then Failure("Can't get the file name. No 'Content-Disposition' header")
    else match FindFilename(header, 0)
      case None => Failure("Can't get the file name. Not found 'filename=' in 'Content-Disposition' header")
      case Some(name) => Success(name)
  }

  lemma {:induction false} FindFilenameSkips(s: string, lo: nat, hi: nat)
    requires lo <= hi
    requires forall i :: lo <= i < hi ==> FilenameAt(s, i).None?
    ensures FindFilename(s, lo) == FindFilename(s, hi)
    decreases hi - lo
  {
    if lo < hi {
      assert FilenameAt(s, lo).None?;
      FindFilenameStep(s, lo);
      FindFilenameSkips(s, lo + 1, hi);
    }
  }

  /** Searching from a position where the pattern does not match is searching from the next. */
  lemma FindFilenameStep(s: string, p: nat)
    requires FilenameAt(s, p).None?
    ensures FindFilename(s, p) == FindFilename(s, p + 1)
  {
  }

  /** A header that quotes a name without '"' or newline, after text without an 'f' and before
      text without '"', yields that name. */
  lemma FileNameRoundTrip(lead: string, name: string, tail: string)
    requires 'f' !in lead && |name| >= 1 && '"' !in name && '\n' !in name && '"' !in tail
    ensures FileNameFromHeader(lead + FilenameKey + name + "\"" + tail) == Success(name)
  {
    var s := lead + (FilenameKey + name + "\"" + tail);
    assert s == lead + FilenameKey + name + "\"" + tail;
    NoKeyInLead(lead, FilenameKey + name + "\"" + tail);
    FindFilenameSkips(s, 0, |lead|);
    KeyThenName(lead, name, tail);
  }

  /** No match starts inside text without an 'f'. */
  lemma NoKeyInLead(lead: string, rest: string)
    requires 'f' !in lead
    ensures forall i :: 0 <= i < |lead| ==> FilenameAt(lead + rest, i).None?
  {
    var s := lead + rest;
    var k := |FilenameKey|;
    forall i | 0 <= i < |lead| ensures FilenameAt(s, i).None? {
      assert s[i] == lead[i];
      if i + k <= |s| { assert s[i..i + k][0] == s[i]; }
    }
  }

  /** Right after the lead, the pattern captures the name. */
  lemma KeyThenName(lead: string, name: string, tail: string)
    requires |name| >= 1 && '"' !in name && '\n' !in name && '"' !in tail
    ensures FilenameAt(lead + FilenameKey + name + "\"" + tail, |lead|) == Some(name)
  {
    var s := lead + FilenameKey + name + "\"" + tail;
    var start := |lead| + |FilenameKey|;
    var q := start + |name|;
    assert s[|lead|..start] == FilenameKey;
    assert s[start..q] == name;
    assert s[q] == '"';
    assert forall j :: start <= j < q ==> s[j] == name[j - start];
    var e := LineEnd(s, start);
    assert e > q;
    assert forall j :: q < j < e ==> s[j] == tail[j - q - 1];
    var r := LastQuote(s, start + 1, e);
    assert r == Some(q);
  }

  // ---------------------------------------------------------------- TPEx quote file

  /** The lines before the first blank line: the line iterator yields each line with its
      newline, so a blank line is "\n". */
  function UntilBlank(lines: seq<string>): (r: seq<string>)
    ensures |r| <= |lines| && r == lines[..|r|]
    ensures forall i :: 0 <= i < |r| ==> r[i] != "\n"
    ensures |r| < |lines| ==> lines[|r|] == "\n"
  {
    if |lines| == 0 || lines[0] == "\n" then [] else [lines[0]] + UntilBlank(lines[1..])
  }

  /** The quote lines of the file: after the title and date lines, up to the first blank
      line; the tables and totals after it are dropped. */
  function DataLines(lines: seq<string>): (r: seq<string>)
    ensures |lines| <= 2 ==> r == []
    ensures |lines| > 2 ==> 2 + |r| <= |lines| && r == lines[2..2 + |r|] && (2 + |r| < |lines| ==> lines[2 + |r|] == "\n")
    ensures forall i :: 0 <= i < |r| ==> r[i] != "\n"
  {
    if |lines| <= 2 then [] else UntilBlank(lines[2..])
  }

  predicate NoQuote(s: string) {
    '"' !in s
  }

  function Quoted(f: string): string {
    "\"" + f + "\""
  }

  /** The placeholders the file uses for a missing price: '" ?-{3} ?"' without its quotes. */
  predicate IsDashField(f: string) {
    f == "---" || f == " ---" || f == "--- " || f == " --- "
  }

  /** `x` is wholly matched by [0-9]{1,3}(,[0-9]{3})+: one to three digits, then at least one
      comma followed by three digits. Counting from the end, every fourth character is the
      comma. */
  predicate GroupedInteger(x: string) {
    |x| >= 5 && |x| % 4 != 0 &&
    forall i :: 0 <= i < |x| ==> if (|x| - i) % 4 == 0 then x[i] == ',' else IsDigit(x[i])
  }

  /** `x` is wholly matched by [0-9]{1,3}(,[0-9]{3})+(\.[0-9]+)?: a number with thousands
      groups and an optional fraction. */
  predicate IsGroupedNumber(x: string) {
    GroupedInteger(x) || exists k :: 0 < k < |x| - 1 && x[k] == '.' && GroupedInteger(x[..k]) && AllDigits(x[k + 1..])
  }

  /** The two substitutions applied to each line. */
  datatype Rule = Dashes | Grouped

  /** The contents of a quoted field the rule's pattern matches. Each pattern begins and ends
      with '"' and holds no '"' in between, so a match at a '"' ends at the next '"', and it
      exists exactly when the text between satisfies this predicate. */
  predicate Accept(rule: Rule, x: string) {
    match rule
    case Dashes => IsDashField(x)
    case Grouped => IsGroupedNumber(x)
  }

  /** The replacement of an accepted field's contents: "0" for a placeholder, the number
      without its commas for a grouped number. */
  function Rewrite(rule: Rule, x: string): string {
    match rule
    case Dashes => "0"
    case Grouped => Without(x, ',')
  }

  /** The first '"' at or after i. */
  function FirstQuote(s: string, i: nat): (r: Option<nat>)
    ensures r.Some? ==> i <= r.value < |s| && s[r.value] == '"' && forall j :: i <= j < r.value ==> s[j] != '"'
    ensures r.None? ==> forall j :: i <= j < |s| ==> s[j] != '"'
    decreases |s| - i
  {
    if i >= |s| then None else if s[i] == '"' then Some(i) else FirstQuote(s, i + 1)
  }

  /** The length of the rule's match at the start of s, 0 when there is none. */
  function MatchLength(rule: Rule, s: string): (n: nat)
    ensures n == 0 || (2 <= n <= |s| && s[0] == '"' && s[n - 1] == '"' && NoQuote(s[1..n - 1]) && Accept(rule, s[1..n - 1]))
    ensures n == 0 && |s| > 0 && s[0] == '"' ==> forall q :: 1 <= q < |s| && s[q] == '"' && NoQuote(s[1..q]) ==> !Accept(rule, s[1..q])
  {
    if |s| == 0 || s[0] != '"' then 0
    else match FirstQuote(s, 1)
      case None => 0
      case Some(q) =>
        assert forall q' :: 1 <= q' < |s| && s[q'] == '"' && NoQuote(s[1..q']) ==> q' == q;
        assert NoQuote(s[1..q]) by {
          forall j | 0 <= j < q - 1 ensures s[1..q][j] != '"' { assert s[1..q][j] == s[j + 1]; }
        }
        if Accept(rule, s[1..q]) then q + 1 else 0
  }

  /** re.sub with the rule's pattern: scanning from the left, each match is replaced by its
      rewritten field and scanning resumes after it. */
  function Substitute(rule: Rule, s: string): string
    decreases |s|
  {
    if |s| == 0 then ""
    else
      var n := MatchLength(rule, s);
      if n > 0 then Quoted(Rewrite(rule, s[1..n - 1])) + Substitute(rule, s[n..])
      else [s[0]] + Substitute(rule, s[1..])
  }

  /** A line after both substitutions. */
  function CleanLine(line: string): string {
    Substitute(Grouped, Substitute(Dashes, line))
  }

  /** re.match(r'"7[0-3][0-9]{3}[0-9PUTFQ]', line): the line starts with a quoted warrant
      code. */
  predicate IsWarrantLine(line: string) {
    |line| >= 7 && line[0] == '"' && line[1] == '7' && '0' <= line[2] <= '3' && AllDigits(line[3..6]) &&
    (IsDigit(line[6]) || line[6] in "PUTFQ")
  }

  /** A warrant's code: 7, a digit 0..3, three digits, then a digit or one of P, U, T, F, Q. */
  predicate IsWarrantCode(code: string) {
    |code| >= 6 && code[0] == '7' && '0' <= code[1] <= '3' && AllDigits(code[2..5]) &&
    (IsDigit(code[5]) || code[5] in "PUTFQ")
  }

  /** Every quote line after both substitutions, in order. */
  function CleanLines(body: seq<string>): (r: seq<string>)
    ensures |r| == |body| && forall i :: 0 <= i < |body| ==> r[i] == CleanLine(body[i])
  {
    seq(|body|, i requires 0 <= i < |body| => CleanLine(body[i]))
  }

  /** The lines written: the cleaned quote lines in order, leaving out warrants unless they
      are asked for. */
  function CleanTpex(lines: seq<string>, includeWarrant: bool): (r: seq<string>)
    ensures includeWarrant ==> r == CleanLines(DataLines(lines))
    ensures !includeWarrant ==> forall k :: 0 <= k < |r| ==> !IsWarrantLine(r[k])
    ensures forall k :: 0 <= k < |r| ==> r[k] in CleanLines(DataLines(lines))
    ensures forall i :: 0 <= i < |DataLines(lines)| && !IsWarrantLine(CleanLine(DataLines(lines)[i])) ==>
      CleanLine(DataLines(lines)[i]) in r
  {
    var cleaned := CleanLines(DataLines(lines));
    assert forall i :: 0 <= i < |DataLines(lines)| ==> CleanLine(DataLines(lines)[i]) == cleaned[i];
    KeepLines(cleaned, includeWarrant)
  }

  /** The lines to write, in order: all of them, or those that are not a warrant's. */
  function KeepLines(cleaned: seq<string>, includeWarrant: bool): (r: seq<string>)
    ensures includeWarrant ==> r == cleaned
    ensures !includeWarrant ==> forall k :: 0 <= k < |r| ==> !IsWarrantLine(r[k])
    ensures forall k :: 0 <= k < |r| ==> r[k] in cleaned
    ensures forall i :: 0 <= i < |cleaned| && !IsWarrantLine(cleaned[i]) ==> cleaned[i] in r
  {
    if |cleaned| == 0 then []
    else
      var n := |cleaned| - 1;
      var init := KeepLines(cleaned[..n], includeWarrant);
      assert cleaned == cleaned[..n] + [cleaned[n]];
      if includeWarrant || !IsWarrantLine(cleaned[n]) then init + [cleaned[n]] else init
  }

  /** Keeping two stretches of lines keeps each in turn: the input order is kept. */
  lemma {:induction false} KeepLinesAppend(a: seq<string>, b: seq<string>, includeWarrant: bool)
    ensures KeepLines(a + b, includeWarrant) == KeepLines(a, includeWarrant) + KeepLines(b, includeWarrant)
    decreases |b|
  {
    if |b| == 0 {
      assert a + b == a;
    } else {
      var n := |b| - 1;
      assert (a + b)[..|a| + n] == a + b[..n] && (a + b)[|a| + n] == b[n];
      KeepLinesAppend(a, b[..n], includeWarrant);
    }
  }

  // ---------------------------------------------------------------- field-by-field cleaning

  /** A CSV record of quoted fields separated by commas and ended by a newline. */
  function Record(fields: seq<string>): string {
    JoinQuoted(fields) + "\n"
  }

  function JoinQuoted(fields: seq<string>): string {
    if |fields| == 0 then ""
    else if |fields| == 1 then Quoted(fields[0])
    else Quoted(fields[0]) + "," + JoinQuoted(fields[1..])
  }

  /** What may follow a field's closing quote in a record. */
  predicate Separated(t: string) {
    |t| == 0 || t[0] == ',' || t[0] == '\n'
  }

  /** A field's contents after one rule. */
  function RewriteField(rule: Rule, f: string): string {
    if Accept(rule, f) then Rewrite(rule, f) else f
  }

  function RewriteFields(rule: Rule, fields: seq<string>): (r: seq<string>)
    ensures |r| == |fields| && forall i :: 0 <= i < |r| ==> r[i] == RewriteField(rule, fields[i])
  {
    seq(|fields|, i requires 0 <= i < |fields| => RewriteField(rule, fields[i]))
  }

  /** A field's contents after both rules. */
  function CleanField(f: string): string {
    RewriteField(Grouped, RewriteField(Dashes, f))
  }

  /** Neither pattern accepts contents that begin with a comma or a newline, or are empty. */
  lemma AcceptLeads(rule: Rule, x: string)
    requires Accept(rule, x)
    ensures |x| > 0 && x[0] != ',' && x[0] != '\n'
  {
    if rule == Grouped && !GroupedInteger(x) {
      var k :| 0 < k < |x| - 1 && x[k] == '.' && GroupedInteger(x[..k]) && AllDigits(x[k + 1..]);
      assert x[..k][0] == x[0];
    }
  }

  /** Text without quotes is copied through. */
  lemma {:induction false} SkipUnquoted(rule: Rule, u: string, v: string)
    requires NoQuote(u)
    ensures Substitute(rule, u + v) == u + Substitute(rule, v)
    decreases |u|
  {
    if |u| > 0 {
      var s := u + v;
      assert s[0] == u[0] && s[1..] == u[1..] + v;
      UnquotedStep(rule, s);
      SkipUnquoted(rule, u[1..], v);
      assert [u[0]] + u[1..] == u;
    } else {
      assert u + v == v;
    }
  }

  /** A character other than '"' starts no match and is copied. */
  lemma UnquotedStep(rule: Rule, s: string)
    requires |s| > 0 && s[0] != '"'
    ensures Substitute(rule, s) == [s[0]] + Substitute(rule, s[1..])
  {
    assert MatchLength(rule, s) == 0;
  }

  /** A closing quote followed by a separator starts no match. */
  lemma ClosingQuote(rule: Rule, t: string)
    requires Separated(t)
    ensures Substitute(rule, "\"" + t) == "\"" + Substitute(rule, t)
  {
    var s := "\"" + t;
    forall x | Accept(rule, x) ensures |x| > 0 && x[0] != ',' && x[0] != '\n' {
      AcceptLeads(rule, x);
    }
    forall m | 1 < m <= |s| ensures s[1..m][0] == t[0] { }
    assert MatchLength(rule, s) == 0;
    assert s[1..] == t;
  }

  /** At a quoted field without quotes inside, the rule matches the whole field exactly when it
      accepts the contents, and matches nothing otherwise. */
  lemma MatchOfQuoted(rule: Rule, f: string, t: string)
    requires NoQuote(f)
    ensures MatchLength(rule, Quoted(f) + t) == if Accept(rule, f) then |f| + 2 else 0
  {
    var s := Quoted(f) + t;
    var q := |f| + 1;
    assert s[0] == '"' && s[q] == '"' && s[1..q] == f;
    assert forall j :: 1 <= j < q ==> s[j] == f[j - 1];
    FirstQuoteAt(s, 1, q);
  }

  /** A '"' with none before it from i on is the first quote from i. */
  lemma {:induction false} FirstQuoteAt(s: string, i: nat, q: nat)
    requires i <= q < |s| && s[q] == '"' && forall j :: i <= j < q ==> s[j] != '"'
    ensures FirstQuote(s, i) == Some(q)
    decreases q - i
  {
    if i < q {
      FirstQuoteAt(s, i + 1, q);
    }
  }

  /** One quoted field followed by a separator is rewritten on its own. */
  lemma FieldStep(rule: Rule, f: string, t: string)
    requires NoQuote(f) && Separated(t)
    ensures Substitute(rule, Quoted(f) + t) == Quoted(RewriteField(rule, f)) + Substitute(rule, t)
  {
    MatchOfQuoted(rule, f, t);
    if Accept(rule, f) {
      AcceptedField(rule, f, t);
    } else {
      RejectedField(rule, f, t);
    }
  }

  lemma AcceptedField(rule: Rule, f: string, t: string)
    requires NoQuote(f) && MatchLength(rule, Quoted(f) + t) == |f| + 2
    ensures Substitute(rule, Quoted(f) + t) == Quoted(Rewrite(rule, f)) + Substitute(rule, t)
  {
    var s := Quoted(f) + t;
    assert s[1..|f| + 1] == f && s[|f| + 2..] == t;
  }

  lemma RejectedField(rule: Rule, f: string, t: string)
    requires NoQuote(f) && Separated(t) && MatchLength(rule, Quoted(f) + t) == 0
    ensures Substitute(rule, Quoted(f) + t) == Quoted(f) + Substitute(rule, t)
  {
    var s := Quoted(f) + t;
    calc {
      Substitute(rule, s);
      [s[0]] + Substitute(rule, s[1..]);
      { assert s[1..] == f + ("\"" + t); }
      "\"" + Substitute(rule, f + ("\"" + t));
      { SkipUnquoted(rule, f, "\"" + t); }
      "\"" + (f + Substitute(rule, "\"" + t));
      { ClosingQuote(rule, t); }
      "\"" + (f + ("\"" + Substitute(rule, t)));
      Quoted(f) + Substitute(rule, t);
    }
  }

  /** On a record of fields without quotes a rule acts field by field: accepted fields are
      rewritten and every other field, and the separators, stay as they are. */
  lemma {:induction false} SubstituteRecord(rule: Rule, fields: seq<string>)
    requires forall i :: 0 <= i < |fields| ==> NoQuote(fields[i])
    ensures Substitute(rule, Record(fields)) == Record(RewriteFields(rule, fields))
    decreases |fields|
  {
    if |fields| == 0 {
      NewlineKept(rule);
    } else if |fields| == 1 {
      LastField(rule, fields[0]);
      assert Record(RewriteFields(rule, fields)) == Quoted(RewriteField(rule, fields[0])) + "\n";
    } else {
      var rest := fields[1..];
      var out := RewriteFields(rule, fields);
      assert Substitute(rule, Record(rest)) == Record(out[1..]) by {
        SubstituteRecord(rule, rest);
        assert RewriteFields(rule, rest) == out[1..];
      }
      assert Substitute(rule, Record(fields)) == Quoted(out[0]) + ("," + Substitute(rule, Record(rest))) by {
        RecordCons(fields);
        InnerField(rule, fields[0], Record(rest));
      }
      RecordCons(out);
    }
  }

  /** A record of two or more fields is its first field, a comma and the record of the rest. */
  lemma RecordCons(fields: seq<string>)
    requires |fields| >= 2
    ensures Record(fields) == Quoted(fields[0]) + ("," + Record(fields[1..]))
  {
  }

  lemma NewlineKept(rule: Rule)
    ensures Substitute(rule, "\n") == "\n"
  {
    SkipUnquoted(rule, "\n", "");
    assert "\n" + "" == "\n";
  }

  /** The last field of a record, followed by its newline. */
  lemma LastField(rule: Rule, f: string)
    requires NoQuote(f)
    ensures Substitute(rule, Quoted(f) + "\n") == Quoted(RewriteField(rule, f)) + "\n"
  {
    FieldStep(rule, f, "\n");
    NewlineKept(rule);
  }

  /** A field followed by a comma and the rest of the record. */
  lemma InnerField(rule: Rule, f: string, rest: string)
    requires NoQuote(f)
    ensures Substitute(rule, Quoted(f) + ("," + rest)) == Quoted(RewriteField(rule, f)) + ("," + Substitute(rule, rest))
  {
    FieldStep(rule, f, "," + rest);
    SkipUnquoted(rule, ",", rest);
  }

  /** The cleaned form of a record of fields without quotes is the record of the cleaned
      fields. */
  lemma CleanRecord(fields: seq<string>)
    requires forall i :: 0 <= i < |fields| ==> NoQuote(fields[i])
    ensures CleanLine(Record(fields)) == Record(seq(|fields|, i requires 0 <= i < |fields| => CleanField(fields[i])))
  {
    var mid := RewriteFields(Dashes, fields);
    assert CleanLine(Record(fields)) == Substitute(Grouped, Record(mid)) by {
      SubstituteRecord(Dashes, fields);
    }
    assert Substitute(Grouped, Record(mid)) == Record(RewriteFields(Grouped, mid)) by {
      DashesKeepNoQuote(fields);
      SubstituteRecord(Grouped, mid);
    }
    assert RewriteFields(Grouped, mid) == seq(|fields|, i requires 0 <= i < |fields| => CleanField(fields[i]));
  }

  /** Rewriting placeholders to "0" brings in no quote. */
  lemma DashesKeepNoQuote(fields: seq<string>)
    requires forall i :: 0 <= i < |fields| ==> NoQuote(fields[i])
    ensures forall i :: 0 <= i < |fields| ==> NoQuote(RewriteFields(Dashes, fields)[i])
  {
    forall i | 0 <= i < |fields| ensures NoQuote(RewriteFields(Dashes, fields)[i]) {
      assert "0"[0] != '"';
    }
  }

  /** A record is a warrant's exactly when its first field is a warrant code. */
  lemma WarrantByCode(fields: seq<string>)
    requires |fields| > 0
    ensures IsWarrantLine(Record(fields)) <==> IsWarrantCode(fields[0])
  {
    var line, code := Record(fields), fields[0];
    var q := |code| + 1;
    assert line[0] == '"' && line[q] == '"';
    assert forall j :: 1 <= j < q ==> line[j] == code[j - 1];
    if |code| >= 6 {
      assert line[3..6] == code[2..5];
    } else if 3 <= q < 6 && |line| >= 7 {
      assert line[3..6][q - 3] == '"';
    }
  }

  /** Cleaning never touches a warrant code, so it never changes which lines are warrants'. */
  lemma CleanKeepsWarrantCode(code: string)
    requires IsWarrantCode(code)
    ensures CleanField(code) == code
  {
    assert !IsDashField(code) by { assert code[0] == '7'; }
    assert forall j :: 1 <= j < 6 ==> code[j] != '.' && code[j] != ',' by {
      forall j | 2 <= j < 5 ensures IsDigit(code[j]) { assert code[2..5][j - 2] == code[j]; }
    }
    NoEarlyCommaNotGrouped(code);
  }

  /** A text whose second to sixth characters are neither commas nor points is not a grouped
      number: a grouped integer has a comma among its first four characters. */
  lemma NoEarlyCommaNotGrouped(x: string)
    requires |x| >= 6 && forall j :: 1 <= j < 6 ==> x[j] != '.' && x[j] != ','
    ensures !IsGroupedNumber(x)
  {
    EarlyComma(x);
    forall k | 0 < k < |x| - 1 && x[k] == '.' ensures !GroupedInteger(x[..k]) {
      assert x[..k][1..4] == x[1..4];
      EarlyComma(x[..k]);
    }
  }

  /** Every grouped integer has a comma at index |x| % 4, one of the first four. */
  lemma EarlyComma(y: string)
    requires |y| >= 4 && y[1] != ',' && y[2] != ',' && y[3] != ','
    ensures !GroupedInteger(y)
  {
    var h := |y| % 4;
    assert (|y| - h) % 4 == 0;
  }

  // ---------------------------------------------------------------- joining the markets

  /** Both exchanges' prices are joined only when their files are of the same date; the
      failure is reported as "Failed to get prices". */
  function CombinePrices<T>(twse: seq<T>, twseDate: string, tpex: seq<T>, tpexDate: string): (r: Result<(seq<T>, string)>)
    ensures r.Success? <==> twseDate == tpexDate
    ensures r.Success? ==> r.value.1 == twseDate && |r.value.0| == |twse| + |tpex|
    ensures r.Success? ==> r.value.0[..|twse|] == twse && r.value.0[|twse|..] == tpex
    ensures r.Failure? ==> r.error == "Failed to get prices"
  {
    if twseDate == tpexDate then Success((twse + tpex, twseDate)) else Failure("Failed to get prices")
  }

  /** The exchange named in the warning when the dates differ. */
  function LaggingExchange(twseDate: string, tpexDate: string): string {
    if LexLess(tpexDate, twseDate) then "TPEx" else "TWSE"
  }

  /** For two different 'YYYYMMDD' dates the warning names the exchange whose file is older. */
  lemma LaggingIsOlder(twseDate: string, tpexDate: string)
    requires |twseDate| == 8 && |tpexDate| == 8 && AllDigits(twseDate) && AllDigits(tpexDate) && twseDate != tpexDate
    ensures LaggingExchange(twseDate, tpexDate) == "TPEx" <==> ParseDigits(tpexDate) < ParseDigits(twseDate)
    ensures LaggingExchange(twseDate, tpexDate) == "TWSE" <==> ParseDigits(twseDate) < ParseDigits(tpexDate)
  {
    LexLessDigits(tpexDate, twseDate);
    LexLessDigits(twseDate, tpexDate);
    LexLessTotal(twseDate, tpexDate);
  }

  /** The two downloads of the same trading day, TWSE's named with the Gregorian date and
      TPEx's with the Minguo one, carry the same date, so their prices are joined. */
  lemma SameDayJoins<T>(d: Date, twse: seq<T>, tpex: seq<T>)
    requires ValidDate(d) && 2011 <= d.year <= 2910
    ensures var twseDate := Assistant.DateFromPathName("STOCK_DAY_ALL_" + Assistant.CloseDayString(d, false, "") + ".csv");
            var tpexDate := Assistant.DateFromPathName("RSTA3104_" + Assistant.CloseDayString(d, true, "") + ".csv");
            twseDate.Success? && twseDate == tpexDate &&
            CombinePrices(twse, twseDate.value, tpex, tpexDate.value).Success?
  {
    TwseNameDate(d);
    TpexNameDate(d);
  }

  lemma TwseNameDate(d: Date)
    requires ValidDate(d) && 1000 <= d.year
    ensures Assistant.DateFromPathName("STOCK_DAY_ALL_" + Assistant.CloseDayString(d, false, "") + ".csv")
      == Success(Assistant.CloseDayString(d, false, ""))
  {
    var prefix := "STOCK_DAY_ALL";
    assert Assistant.NoDigitAfterUnderscore(prefix) by {
      forall i | 0 <= i < |prefix| - 1 && prefix[i] == '_' ensures !IsDigit(prefix[i + 1]) {
        assert i == 5 || i == 9;
      }
    }
    Assistant.PathDateRoundTrip(prefix, d);
    assert prefix + "_" == "STOCK_DAY_ALL_";
  }

  lemma TpexNameDate(d: Date)
    requires ValidDate(d) && 2011 <= d.year <= 2910
    ensures Assistant.DateFromPathName("RSTA3104_" + Assistant.CloseDayString(d, true, "") + ".csv")
      == Success(Assistant.CloseDayString(d, false, ""))
  {
    var prefix := "RSTA3104";
    assert Assistant.NoDigitAfterUnderscore(prefix) by {
      forall i | 0 <= i < |prefix| - 1 ensures prefix[i] != '_' { }
    }
    Assistant.PathMinGuoDateRoundTrip(prefix, d);
    assert prefix + "_" == "RSTA3104_";
  }
}

=== FILE: filtering.dfy ===
/** Keeping the elements of a sequence that pass a test, in their order: what a boolean mask
    (`df[mask]`) or a skipping loop does to a list. */
module Filtering {
  /** The elements of `s` that pass `keep`, in their order (FilterCounts, FilterAppend). */
  function Filter<T(==,!new)>(s: seq<T>, keep: T -> bool): (r: seq<T>)
    ensures |r| <= |s|
  {
    if |s| == 0 then []
    else (if keep(s[0]) then [s[0]] else []) + Filter(s[1..], keep)
  }

  /** Every kept element passes, and each element that passes is kept as often as it occurs. */
  lemma {:induction false} FilterCounts<T(!new)>(s: seq<T>, keep: T -> bool)
    ensures forall i :: 0 <= i < |Filter(s, keep)| ==> keep(Filter(s, keep)[i])
    ensures forall x :: x in Filter(s, keep) <==> x in s && keep(x)
    ensures forall x :: multiset(Filter(s, keep))[x] == if keep(x) then multiset(s)[x] else 0
  {
    if |s| > 0 {
      FilterCounts(s[1..], keep);
      assert s == [s[0]] + s[1..];
    }
  }

  /** Filtering a concatenation filters each part, so the kept elements stay in their order. */
  lemma {:induction false} FilterAppend<T(!new)>(a: seq<T>, b: seq<T>, keep: T -> bool)
    ensures Filter(a + b, keep) == Filter(a, keep) + Filter(b, keep)
  {
    if |a| == 0 {
      assert a + b == b;
      assert Filter(a, keep) == [];
    } else {
      var head := if keep(a[0]) then [a[0]] else [];
      assert (a + b)[0] == a[0] && (a + b)[1..] == a[1..] + b;
      assert Filter(a + b, keep) == head + Filter(a[1..] + b, keep);
      FilterAppend(a[1..], b, keep);
      assert Filter(a, keep) == head + Filter(a[1..], keep);
    }
  }

  /** A sequence whose every element passes is kept whole. */
  lemma {:induction false} FilterAll<T(!new)>(s: seq<T>, keep: T -> bool)
    requires forall i :: 0 <= i < |s| ==> keep(s[i])
    ensures Filter(s, keep) == s
  {
    if |s| > 0 {
      FilterAll(s[1..], keep);
    }
  }

  /** No element occurs twice. */
  predicate Distinct<T(==)>(s: seq<T>) {
    forall i, j :: 0 <= i < j < |s| ==> s[i] != s[j]
  }

  /** Filtering a sequence without repeats gives one without repeats. */
  lemma {:induction false} FilterDistinct<T(!new)>(s: seq<T>, keep: T -> bool)
    requires Distinct(s)
    ensures Distinct(Filter(s, keep))
  {
    if |s| > 0 {
      var rest := Filter(s[1..], keep);
      assert Distinct(s[1..]) by {
        forall i, j | 0 <= i < j < |s[1..]| ensures s[1..][i] != s[1..][j] {
          assert s[1..][i] == s[i + 1] && s[1..][j] == s[j + 1];
        }
      }
      FilterDistinct(s[1..], keep);
      FilterCounts(s[1..], keep);
      assert s[0] !in s[1..] by {
        forall k | 0 <= k < |s[1..]| ensures s[1..][k] != s[0] {
          assert s[1..][k] == s[k + 1];
        }
      }
      assert s[0] !in rest;
    }
  }

  /** Every element is smaller than the ones after it. */
  predicate Increasing(s: seq<int>) {
    forall i, j :: 0 <= i < j < |s| ==> s[i] < s[j]
  }

  /** Filtering a strictly increasing sequence keeps it strictly increasing: the kept elements
      stay in their order. */
  lemma {:induction false} FilterIncreasing(s: seq<int>, keep: int -> bool)
    requires Increasing(s)
    ensures Increasing(Filter(s, keep))
  {
    if |s| > 0 {
      var rest := Filter(s[1..], keep);
      assert Increasing(s[1..]) by {
        forall i, j | 0 <= i < j < |s[1..]| ensures s[1..][i] < s[1..][j] {
          assert s[1..][i] == s[i + 1] && s[1..][j] == s[j + 1];
        }
      }
      FilterIncreasing(s[1..], keep);
      assert Above(s[1..], s[0]) by {
        forall i | 0 <= i < |s[1..]| ensures s[0] < s[1..][i] { assert s[1..][i] == s[i + 1]; }
      }
      FilterAbove(s[1..], keep, s[0]);
      if keep(s[0]) {
        var r := [s[0]] + rest;
        assert Filter(s, keep) == r;
        forall i, j | 0 <= i < j < |r| ensures r[i] < r[j] {
          assert r[j] == rest[j - 1];
          if i > 0 { assert r[i] == rest[i - 1]; }
        }
      } else {
        assert Filter(s, keep) == rest;
      }
    }
  }

  /** Every element is above `lo`. */
  predicate Above(s: seq<int>, lo: int) {
    forall i :: 0 <= i < |s| ==> lo < s[i]
  }

  /** Filtering keeps a lower bound every element has. */
  lemma {:induction false} FilterAbove(s: seq<int>, keep: int -> bool, lo: int)
    requires Above(s, lo)
    ensures Above(Filter(s, keep), lo)
  {
    if |s| > 0 {
      assert Above(s[1..], lo) by {
        forall i | 0 <= i < |s[1..]| ensures lo < s[1..][i] { assert s[1..][i] == s[i + 1]; }
      }
      FilterAbove(s[1..], keep, lo);
      if keep(s[0]) {
        var r := [s[0]] + Filter(s[1..], keep);
        assert Filter(s, keep) == r;
        forall k | 0 <= k < |r| ensures lo < r[k] {
          if k > 0 { assert r[k] == Filter(s[1..], keep)[k - 1]; }
        }
      } else {
        assert Filter(s, keep) == Filter(s[1..], keep);
      }
    }
  }
}

=== FILE: financial_core.dfy ===
/** update_financial_core_from_ytd and verify_financial_data: single-quarter financials
    derived from cumulative year-to-date reports, and the check for missing quarters. */
module FinancialCore {
  import opened Wrappers
  import opened Calendar

  /** The columns of one report; a missing column or a NULL cell is None. */
  type Values = map<string, Option<real>>

  function Get(v: Values, c: string): Option<real> {
    if c in v then v[c] else None
  }

  /** The columns the conversion writes. Flow columns accumulate over the year, so a single
      quarter is the difference of two cumulative reports; stock columns are a snapshot at
      the end of the period and are copied. */
  datatype Columns = Columns(flow: seq<string>, stock: seq<string>)

  const Financial: Columns := Columns(
    ["opr_revenue", "opr_costs", "gross_profit", "opr_expenses", "opr_profit", "non_opr_income",
     "pre_tax_income", "income_tax", "net_income", "eps",
     "opr_cash_flow", "inv_cash_flow", "fin_cash_flow", "divs_paid"],
    ["curr_assets", "non_curr_assets", "total_assets", "curr_liabs", "non_curr_liabs", "total_liabs",
     "total_equity", "book_value",
     "accts_receiv", "accts_notes_receiv", "inventory", "prepaid", "accts_pay", "accts_notes_pay",
     "st_loans", "lt_loans", "bonds_pay", "ret_earnings",
     "cash_equivs"])

  /** The flow columns whose absence the check reports: all but 'divs_paid'. */
  const WarningCols: seq<string> := Financial.flow[..|Financial.flow| - 1]

  /** One stock's cumulative reports, keyed by (year, quarter). */
  type Reports = map<(int, int), Values>

  /** current - previous, NULL when either is. */
  function Diff(cur: Option<real>, prev: Option<real>): (r: Option<real>)
    ensures r.Some? <==> cur.Some? && prev.Some?
    ensures r.Some? ==> r.value + prev.value == cur.value
  {
    if cur.Some? && prev.Some? then Some(cur.value - prev.value) else None
  }

  /** The Q1 record: every flow and stock column as reported. */
  function Copied(cols: Columns, cur: Values): (r: Values)
    ensures forall c :: c in r <==> c in cols.flow || c in cols.stock
    ensures forall c :: c in r ==> r[c] == Get(cur, c)
  {
    map c | c in cols.flow + cols.stock :: Get(cur, c)
  }

  /** The record of a later quarter: stock columns as reported, flow columns the difference
      from the previous quarter's cumulative report. */
  function Differenced(cols: Columns, cur: Values, prev: Values): (r: Values)
    ensures forall c :: c in r <==> c in cols.flow || c in cols.stock
    ensures forall c :: c in cols.flow ==> r[c] == Diff(Get(cur, c), Get(prev, c))
    ensures forall c :: c in cols.stock && c !in cols.flow ==> r[c] == Get(cur, c)
  {
    map c | c in cols.flow + cols.stock :: if c in cols.flow then Diff(Get(cur, c), Get(prev, c)) else Get(cur, c)
  }

  /** A quarter gets a single-quarter record when it is Q1, or when the cumulative report of
      the quarter before it in the same year exists. */
  predicate Derivable(ytd: Reports, p: (int, int)) {
    p in ytd && (p.1 == 1 || (p.0, p.1 - 1) in ytd)
  }

  /** The single-quarter records of one stock. */
  function CoreFromYtd(cols: Columns, ytd: Reports): (core: Reports)
    ensures forall p :: p in core <==> Derivable(ytd, p)
    ensures forall p :: p in core && p.1 == 1 ==> p in ytd && core[p] == Copied(cols, ytd[p])
    ensures forall p :: p in core && p.1 != 1 ==>
      p in ytd && (p.0, p.1 - 1) in ytd && core[p] == Differenced(cols, ytd[p], ytd[(p.0, p.1 - 1)])
  {
    map p | p in ytd.Keys && Derivable(ytd, p) ::
      if p.1 == 1 then Copied(cols, ytd[p]) else Differenced(cols, ytd[p], ytd[(p.0, p.1 - 1)])
  }

  /** The sum of a column over quarters 1..q of a year, None when any term is. */
  function QuarterSum(core: Reports, year: int, q: nat, c: string): Option<real> {
    if q == 0 then Some(0.0)
    else if (year, q) !in core then None
    else
      var s := QuarterSum(core, year, q - 1, c);
      var v := Get(core[(year, q)], c);
      if s.Some? && v.Some? then Some(s.value + v.value) else None
  }

  /** Single-quarter values that are the differences of cumulative ones sum to the last
      cumulative value. */
  lemma {:induction false} Telescope(core: Reports, ytd: Reports, year: int, q: nat, c: string)
    requires 1 <= q
    requires forall k :: 1 <= k <= q ==> (year, k) in ytd && Get(ytd[(year, k)], c).Some? && (year, k) in core
    requires Get(core[(year, 1)], c) == Get(ytd[(year, 1)], c)
    requires forall k :: 2 <= k <= q ==> Get(core[(year, k)], c) == Diff(Get(ytd[(year, k)], c), Get(ytd[(year, k - 1)], c))
    ensures QuarterSum(core, year, q, c) == Get(ytd[(year, q)], c)
  {
    if q == 1 {
      assert QuarterSum(core, year, 0, c) == Some(0.0);
    } else {
      Telescope(core, ytd, year, q - 1, c);
    }
  }

  /** The derived quarters add back up: when the year's cumulative reports for Q1..Qq all
      carry a flow column, the single-quarter values of Q1..Qq sum to the cumulative Qq. */
  lemma QuartersSumToYtd(cols: Columns, ytd: Reports, year: int, q: nat, c: string)
    requires c in cols.flow && 1 <= q
    requires forall k :: 1 <= k <= q ==> (year, k) in ytd && Get(ytd[(year, k)], c).Some?
    ensures QuarterSum(CoreFromYtd(cols, ytd), year, q, c) == Get(ytd[(year, q)], c)
  {
    var core := CoreFromYtd(cols, ytd);
    forall k | 1 <= k <= q ensures (year, k) in core && Get(core[(year, k)], c) == CoreValue(ytd, year, k, c) {
      CoreCell(cols, ytd, year, k, c);
    }
    Telescope(core, ytd, year, q, c);
  }

  /** What the single-quarter record holds in a flow column: Q1's cumulative value, or the
      difference from the quarter before. */
  function CoreValue(ytd: Reports, year: int, k: int, c: string): Option<real>
    requires (year, k) in ytd && (k == 1 || (year, k - 1) in ytd)
  {
    if k == 1 then Get(ytd[(year, k)], c) else Diff(Get(ytd[(year, k)], c), Get(ytd[(year, k - 1)], c))
  }

  lemma CoreCell(cols: Columns, ytd: Reports, year: int, k: int, c: string)
    requires c in cols.flow && (year, k) in ytd && (k == 1 || (year, k - 1) in ytd)
    ensures (year, k) in CoreFromYtd(cols, ytd) && Get(CoreFromYtd(cols, ytd)[(year, k)], c) == CoreValue(ytd, year, k, c)
  {
    assert Derivable(ytd, (year, k));
  }

  /** One cumulative report as the query returns it, in (code, year, quarter) order. */
  datatype Report = Report(year: int, quarter: int, values: Values)

  /** What the check reports: a quarter with no report, or a report missing a column. */
  datatype Warning = NoData(year: int, quarter: int) | MissingValue(year: int, quarter: int, col: string)

  predicate InQuarterOrder(group: seq<Report>) {
    && (forall i :: 0 <= i < |group| ==> 1 <= group[i].quarter <= 4)
    && (forall i, j :: 0 <= i < j < |group| ==> QuarterIndex(group[i].year, group[i].quarter) < QuarterIndex(group[j].year, group[j].quarter))
  }

  /** The report of a period, if the group has one. */
  function Find(group: seq<Report>, year: int, quarter: int): (r: Option<Values>)
    ensures r.None? <==> forall i :: 0 <= i < |group| ==> (group[i].year, group[i].quarter) != (year, quarter)
    ensures r.Some? ==> exists i :: 0 <= i < |group| && group[i] == Report(year, quarter, r.value)
  {
    if |group| == 0 then None
    else if group[0].year == year && group[0].quarter == quarter then Some(group[0].values)
    else
      var r := Find(group[1..], year, quarter);
      if r.Some? then
        var i :| 0 <= i < |group[1..]| && group[1..][i] == Report(year, quarter, r.value);
        assert group[i + 1] == Report(year, quarter, r.value);
        r
      else
        assert forall i :: 1 <= i < |group| ==> group[i] == group[1..][i - 1];
        r
  }

  /** The period with a given quarter index. */
  function FromIndex(k: int): (p: (int, int))
    ensures 1 <= p.1 <= 4 && QuarterIndex(p.0, p.1) == k
  {
    (k / 4, k % 4 + 1)
  }

  /** The warnings a group must get: every period from its first to its last report either
      has no report, or has one missing a flow column. */
  predicate Expected(group: seq<Report>, w: Warning)
    requires |group| > 0
  {
    var lo := QuarterIndex(group[0].year, group[0].quarter);
    var hi := QuarterIndex(group[|group| - 1].year, group[|group| - 1].quarter);
    && 1 <= w.quarter <= 4
    && lo <= QuarterIndex(w.year, w.quarter) <= hi
    && match w
       case NoData(y, q) => Find(group, y, q).None?
       case MissingValue(y, q, c) => Find(group, y, q).Some? && c in WarningCols && Get(Find(group, y, q).value, c).None?
  }

  /** verify_financial_data for one stock: it walks every (year, quarter) from the first
      report to the last, stepping Q4 to Q1 of the next year, and reports each period without
      a report and each flow column a report lacks. */
  method VerifyGroup(group: seq<Report>) returns (warnings: seq<Warning>, visited: nat)
    requires |group| > 0 && InQuarterOrder(group)
    ensures forall w :: w in warnings <==> Expected(group, w)
    ensures visited == QuarterIndex(group[|group| - 1].year, group[|group| - 1].quarter) - QuarterIndex(group[0].year, group[0].quarter) + 1
  {
    var endYear, endQ := group[|group| - 1].year, group[|group| - 1].quarter;
    var lo := QuarterIndex(group[0].year, group[0].quarter);
    var hi := QuarterIndex(endYear, endQ);
    if |group| > 1 {
      assert lo < hi;
    }
    var year, q := group[0].year, group[0].quarter;
    warnings, visited := [], 0;
    while year < endYear || (year == endYear && q <= endQ)
      invariant 1 <= q <= 4
      invariant lo <= QuarterIndex(year, q) <= hi + 1
      invariant visited == QuarterIndex(year, q) - lo
      invariant forall w :: w in warnings <==> Expected(group, w) && QuarterIndex(w.year, w.quarter) < QuarterIndex(year, q)
      decreases hi - QuarterIndex(year, q)
    {
      var found := Find(group, year, q);
      match found {
        case None =>
          NoDataStep(group, warnings, year, q);
          warnings := warnings + [NoData(year, q)];
        case Some(row) =>
          warnings := WarnMissing(warnings, year, q, row);
          ReportStep(group, warnings, year, q, row);
      }
      var next := NextQuarter(year, q);
      year, q := next.0, next.1;
      visited := visited + 1;
    }
  }

  /** The warnings for the flow columns a period's report lacks, in column order, after
      those already gathered. */
  method WarnMissing(warnings: seq<Warning>, year: int, q: int, row: Values) returns (r: seq<Warning>)
    ensures forall w :: w in r <==>
      w in warnings || (w.MissingValue? && w.year == year && w.quarter == q && w.col in WarningCols && Get(row, w.col).None?)
  {
    r := warnings;
    var j := 0;
    while j < |WarningCols|
      invariant 0 <= j <= |WarningCols|
      invariant forall w :: w in r <==>
        w in warnings || (w.MissingValue? && w.year == year && w.quarter == q && w.col in WarningCols[..j] && Get(row, w.col).None?)
    {
      if Get(row, WarningCols[j]).None? {
        r := r + [MissingValue(year, q, WarningCols[j])];
      }
      assert WarningCols[..j + 1] == WarningCols[..j] + [WarningCols[j]];
      j := j + 1;
    }
    assert WarningCols[..j] == WarningCols;
  }

  /** A period without a report adds its one warning to those of the earlier periods. */
  lemma NoDataStep(group: seq<Report>, warnings: seq<Warning>, year: int, q: int)
    requires |group| > 0 && 1 <= q <= 4 && Find(group, year, q).None?
    requires QuarterIndex(group[0].year, group[0].quarter) <= QuarterIndex(year, q)
    requires QuarterIndex(year, q) <= QuarterIndex(group[|group| - 1].year, group[|group| - 1].quarter)
    requires forall w :: w in warnings <==> Expected(group, w) && QuarterIndex(w.year, w.quarter) < QuarterIndex(year, q)
    ensures forall w :: w in warnings + [NoData(year, q)] <==>
      Expected(group, w) && QuarterIndex(w.year, w.quarter) < QuarterIndex(year, q) + 1
  {
    assert Expected(group, NoData(year, q));
  }

  /** A period with a report adds a warning for each flow column it lacks to those of the
      earlier periods. */
  lemma ReportStep(group: seq<Report>, warnings: seq<Warning>, year: int, q: int, row: Values)
    requires |group| > 0 && 1 <= q <= 4 && Find(group, year, q) == Some(row)
    requires QuarterIndex(group[0].year, group[0].quarter) <= QuarterIndex(year, q)
    requires QuarterIndex(year, q) <= QuarterIndex(group[|group| - 1].year, group[|group| - 1].quarter)
    requires forall w :: w in warnings <==>
      (Expected(group, w) && QuarterIndex(w.year, w.quarter) < QuarterIndex(year, q))
      || (w.MissingValue? && w.year == year && w.quarter == q && w.col in WarningCols && Get(row, w.col).None?)
    ensures forall w :: w in warnings <==>
      Expected(group, w) && QuarterIndex(w.year, w.quarter) < QuarterIndex(year, q) + 1
  {
  }
}

=== FILE: history_tally.dfy ===
/** The bookkeeping shared by the history downloaders, which walk period by period from a start
    period to the latest published one. */
module HistoryTally {
  /** What happened to one period: its file was already there (and not empty), it was fetched
      and saved, or fetching or saving raised. */
  datatype Outcome = Present | Downloaded | Failed

  /** How many of `periods` had outcome `o`. */
  function Count(periods: seq<(int, int)>, outcome: ((int, int)) -> Outcome, o: Outcome): (n: nat)
    ensures n <= |periods|
  {
    if |periods| == 0 then 0
    else Count(periods[..|periods| - 1], outcome, o) + (if outcome(periods[|periods| - 1]) == o then 1 else 0)
  }

  lemma CountAppend(periods: seq<(int, int)>, p: (int, int), outcome: ((int, int)) -> Outcome, o: Outcome)
    ensures Count(periods + [p], outcome, o) == Count(periods, outcome, o) + (if outcome(p) == o then 1 else 0)
  {
    assert (periods + [p])[..|periods|] == periods;
  }

  /** Record one more period: its outcome bumps the downloaded or the failed count. */
  method Tally(periods: seq<(int, int)>, p: (int, int), outcome: ((int, int)) -> Outcome, downloaded: nat, failed: nat)
    returns (periods': seq<(int, int)>, downloaded': nat, failed': nat)
    requires downloaded == Count(periods, outcome, Downloaded) && failed == Count(periods, outcome, Failed)
    ensures periods' == periods + [p]
    ensures downloaded' == Count(periods', outcome, Downloaded) && failed' == Count(periods', outcome, Failed)
  {
    downloaded', failed' := downloaded, failed;
    var o := outcome(p);
    if o == Downloaded {
      downloaded' := downloaded + 1;
    } else if o == Failed {
      failed' := failed + 1;
    }
    CountAppend(periods, p, outcome, Downloaded);
    CountAppend(periods, p, outcome, Failed);
    periods' := periods + [p];
  }

  /** Every period has exactly one outcome, so the three counts add up to the number of periods. */
  lemma {:induction false} CountsPartition(periods: seq<(int, int)>, outcome: ((int, int)) -> Outcome)
    ensures Count(periods, outcome, Present) + Count(periods, outcome, Downloaded) + Count(periods, outcome, Failed) == |periods|
    decreases |periods|
  {
    if |periods| > 0 {
      CountsPartition(periods[..|periods| - 1], outcome);
    }
  }
}

=== FILE: list_metrics.dfy ===
/** The six financial-metrics screens over a stock's recent quarters. */
module MetricsScreens {
  import opened Wrappers
  import opened Series
  import opened Screening
  import opened Filtering

  /** One row of the quarterly financial metrics, each a nullable ratio (0.15 is 15 %). */
  datatype MetricsQuarter = MetricsQuarter(
    year: int, quarter: int,
    oprMargin: Option<real>, oprMarginYoy: Option<real>, oprMarginQoq: Option<real>,
    netMargin: Option<real>)

  /** A stock's metrics history, oldest quarter first; the last `limit` rows of it are what
      get_recent_financial_metrics_by_code(code, limit) returns. */
  type MetricsDb = string -> seq<MetricsQuarter>

  datatype MetricsRule =
    | MinMaxRatioAbove(n: nat, threshold: real)
    | RecentIsMax(n: nat, m: nat)
    | YoyGrowth(n: nat, m: nat)
    | QoqGrowth(n: nat, m: nat)
    | NetMarginAvgAbove(n: nat, threshold: real)
    | OprMarginMinAbove(n: nat, threshold: real)

  function OprMargins(w: seq<MetricsQuarter>): (r: seq<Option<real>>)
    ensures |r| == |w| && forall i :: 0 <= i < |w| ==> r[i] == w[i].oprMargin
  {
    seq(|w|, i requires 0 <= i < |w| => w[i].oprMargin)
  }

  function YoyColumn(w: seq<MetricsQuarter>): (r: seq<Option<real>>)
    ensures |r| == |w| && forall i :: 0 <= i < |w| ==> r[i] == w[i].oprMarginYoy
  {
    seq(|w|, i requires 0 <= i < |w| => w[i].oprMarginYoy)
  }

  function QoqColumn(w: seq<MetricsQuarter>): (r: seq<Option<real>>)
    ensures |r| == |w| && forall i :: 0 <= i < |w| ==> r[i] == w[i].oprMarginQoq
  {
    seq(|w|, i requires 0 <= i < |w| => w[i].oprMarginQoq)
  }

  function NetMargins(w: seq<MetricsQuarter>): (r: seq<Option<real>>)
    ensures |r| == |w| && forall i :: 0 <= i < |w| ==> r[i] == w[i].netMargin
  {
    seq(|w|, i requires 0 <= i < |w| => w[i].netMargin)
  }

  /** min / max as a percentage: never above 100 when the maximum is positive, since the
      minimum never exceeds the maximum. */
  function RatioPercent(vals: seq<real>): (r: real)
    requires |vals| > 0 && Max(vals) > 0.0
    ensures r <= 100.0
    ensures r > 0.0 <==> Min(vals) > 0.0
  {
    var lo, hi := Min(vals), Max(vals);
    assert lo <= hi by { var i :| 0 <= i < |vals| && vals[i] == lo; }
    RatioBound(lo, hi);
    lo / hi * 100.0
  }

  lemma RatioBound(lo: real, hi: real)
    requires 0.0 < hi && lo <= hi
    ensures lo / hi * 100.0 <= 100.0
    ensures lo / hi * 100.0 > 0.0 <==> lo > 0.0
  {
    assert lo / hi <= 1.0;
  }

  /** Operating-margin stability: over the last `n` quarters the smallest present margin is
      more than `threshold` percent of the largest, which must be positive. */
  function MinMaxRatio(h: seq<MetricsQuarter>, n: nat, threshold: real): (r: Option<real>)
    ensures r.Some? <==> |h| >= n && |DropMissing(OprMargins(Recent(h, n)))| > 0
                         && Max(Scale(DropMissing(OprMargins(Recent(h, n))), 100.0)) > 0.0
                         && RatioPercent(Scale(DropMissing(OprMargins(Recent(h, n))), 100.0)) > threshold
    ensures r.Some? ==> 0.0 < r.value <= 100.0 - threshold
    ensures r.Some? ==> r.value + threshold == RatioPercent(Scale(DropMissing(OprMargins(Recent(h, n))), 100.0))
  {
    var valid := DropMissing(OprMargins(Recent(h, n)));
    if |h| < n || |valid| == 0 then None
    else
      var pct := Scale(valid, 100.0);
      if Max(pct) <= 0.0 then None
      else
        var ratio := RatioPercent(pct);
        if ratio > threshold then Some(ratio - threshold) else None
  }

  /** The part of the window the source calls recent: the last `n` rows, or all of them when
      `n` is 0, since a slice from -0 starts at the front. */
  function RecentCount(n: nat, limit: nat): (k: nat)
    requires n <= limit
    ensures k <= limit
    ensures k == 0 <==> limit == 0
  {
    if n == 0 then limit else n
  }

  function Limit(n: nat, m: nat): (l: nat)
    ensures n <= l && m <= l && (l == n || l == m)
  {
    if n < m then m else n
  }

  /** The latest `n` quarters hold the best operating margin of the last max(n, m). The
      score is how far that best margin exceeds the best of the older quarters in the
      window, in percent of it; 100 when the older best is 0 and the recent one positive. */
  function RecentMax(h: seq<MetricsQuarter>, n: nat, m: nat): (r: Option<real>)
    requires Limit(n, m) > 0
    ensures r.Some? <==> |h| >= Limit(n, m) && AllPresent(OprMargins(Recent(h, Limit(n, m))))
                         && MaxWithin(Present(OprMargins(Recent(h, Limit(n, m)))), Limit(n, m) - RecentCount(n, Limit(n, m)))
    ensures r.Some? ==> r.value >= 0.0
    ensures r.Some? && RecentCount(n, Limit(n, m)) == Limit(n, m) ==> r.value == 0.0
    ensures r.Some? && RecentCount(n, Limit(n, m)) < Limit(n, m) ==>
      var vals := Present(OprMargins(Recent(h, Limit(n, m))));
      var others := vals[..Limit(n, m) - RecentCount(n, Limit(n, m))];
      var recent := vals[Limit(n, m) - RecentCount(n, Limit(n, m))..];
      && (Max(others) == 0.0 ==> r.value == if Max(recent) > 0.0 then 100.0 else 0.0)
      && (Max(others) != 0.0 ==> r.value == GrowthPercent(Max(others), Max(recent)))
  {
    var limit := Limit(n, m);
    var col := OprMargins(Recent(h, limit));
    if |h| < limit || !AllPresent(col) then None
    else
      var vals := Present(col);
      var k := RecentCount(n, limit);
      var recent := vals[limit - k..];
      var others := vals[..limit - k];
      var maxRecent, maxAll := Max(recent), Max(vals);
      RecentHoldsMax(vals, limit - k);
      if maxRecent >= maxAll then
        if |others| == 0 then Some(0.0)
        else
          var maxOthers := Max(others);
          assert maxOthers <= maxRecent by {
            var i :| 0 <= i < |others| && others[i] == maxOthers;
            assert vals[i] <= maxAll;
          }
          if maxOthers == 0.0 then Some(if maxRecent > 0.0 then 100.0 else 0.0)
          else Some(GrowthPercent(maxOthers, maxRecent))
      else None
  }

  /** Some value at or after `start` is at least every value. */
  predicate MaxWithin(vals: seq<real>, start: nat) {
    exists i :: start <= i < |vals| && forall j :: 0 <= j < |vals| ==> vals[j] <= vals[i]
  }

  lemma RecentHoldsMax(vals: seq<real>, start: nat)
    requires start < |vals|
    ensures Max(vals[start..]) >= Max(vals) <==> MaxWithin(vals, start)
  {
    var recent := vals[start..];
    if Max(recent) >= Max(vals) {
      var i :| 0 <= i < |recent| && recent[i] == Max(recent);
      assert forall j :: 0 <= j < |vals| ==> vals[j] <= vals[start + i];
    }
    if MaxWithin(vals, start) {
      var i :| start <= i < |vals| && forall j :: 0 <= j < |vals| ==> vals[j] <= vals[i];
      var a :| 0 <= a < |vals| && vals[a] == Max(vals);
      assert recent[i - start] == vals[i];
    }
  }

  /** A margin growth rate rises every quarter for `m` quarters; the score is its total rise. */
  function Growth(h: seq<MetricsQuarter>, col: seq<Option<real>>, m: nat): (r: Option<real>)
    requires col == YoyColumn(Recent(h, m + 1)) || col == QoqColumn(Recent(h, m + 1))
    ensures r.Some? <==> |h| > m && AllPresent(col) && StrictlyIncreasing(Present(col))
    ensures r.Some? ==> r.value >= 0.0 && (m > 0 ==> r.value > 0.0)
    ensures r.Some? ==> r.value == col[m].value - col[0].value
  {
    if |h| < m + 1 then None else RiseOf(col)
  }

  /** The mean of the present net margins of the last `n` quarters, in percent, exceeds the
      threshold; the score is the excess. */
  function NetMarginAvg(h: seq<MetricsQuarter>, n: nat, threshold: real): (r: Option<real>)
    ensures r.Some? <==> |h| >= n && |DropMissing(NetMargins(Recent(h, n)))| > 0
                         && Mean(Scale(DropMissing(NetMargins(Recent(h, n))), 100.0)) > threshold
    ensures r.Some? ==> r.value > 0.0
    ensures r.Some? ==> r.value + threshold == Mean(Scale(DropMissing(NetMargins(Recent(h, n))), 100.0))
  {
    var valid := DropMissing(NetMargins(Recent(h, n)));
    if |h| < n || |valid| == 0 then None
    else
      var avg := Mean(Scale(valid, 100.0));
      if avg > threshold then Some(avg - threshold) else None
  }

  /** Every present operating margin of the last `n` quarters, in percent, exceeds the
      threshold; the score is how far the smallest one does. */
  function OprMarginMin(h: seq<MetricsQuarter>, n: nat, threshold: real): (r: Option<real>)
    ensures r.Some? <==> |h| >= n && |DropMissing(OprMargins(Recent(h, n)))| > 0
                         && forall v :: v in DropMissing(OprMargins(Recent(h, n))) ==> v * 100.0 > threshold
    ensures r.Some? ==> r.value > 0.0
    ensures r.Some? ==> r.value + threshold == Min(Scale(DropMissing(OprMargins(Recent(h, n))), 100.0))
  {
    var valid := DropMissing(OprMargins(Recent(h, n)));
    if |h| < n || |valid| == 0 then None
    else
      var pct := Scale(valid, 100.0);
      var lo := Min(pct);
      assert lo > threshold <==> forall v :: v in valid ==> v * 100.0 > threshold by {
        if lo > threshold {
          forall v | v in valid ensures v * 100.0 > threshold {
            var i :| 0 <= i < |valid| && valid[i] == v;
            assert pct[i] >= lo;
          }
        } else {
          var i :| 0 <= i < |pct| && pct[i] == lo;
          assert valid[i] in valid;
        }
      }
      if lo > threshold then Some(lo - threshold) else None
  }

  function Evaluate(rule: MetricsRule, h: seq<MetricsQuarter>): Option<real> {
    match rule
    case MinMaxRatioAbove(n, threshold) => MinMaxRatio(h, n, threshold)
    case RecentIsMax(n, m) => if Limit(n, m) == 0 then None else RecentMax(h, n, m)
    case YoyGrowth(_, m) => Growth(h, YoyColumn(Recent(h, m + 1)), m)
    case QoqGrowth(_, m) => Growth(h, QoqColumn(Recent(h, m + 1)), m)
    case NetMarginAvgAbove(n, threshold) => NetMarginAvg(h, n, threshold)
    case OprMarginMinAbove(n, threshold) => OprMarginMin(h, n, threshold)
  }

  /** The score a metrics screen gives each code, if it passes. */
  function MetricsEval(rule: MetricsRule, db: MetricsDb): string -> Option<real> {
    c => Evaluate(rule, db(c))
  }

  /** A metrics screen over the targets. The recent-is-max screen with an empty window fails
      on the first target, as max() of nothing raises. */
  function ListMetrics(rule: MetricsRule, t: Targets, db: MetricsDb): (r: Result<seq<Scored>>)
    ensures r.Failure? <==> rule == RecentIsMax(0, 0) && |t.codes| > 0
    ensures r.Success? ==> IsScreenOf(r.value, t, MetricsEval(rule, db))
    ensures r.Success? && Distinct(t.codes) ==> UniqueCodes(r.value)
    ensures r.Success? ==> ByScoreDescending(r.value)
    ensures r.Success? ==> forall y :: y in r.value <==>
      exists c :: c in t.codes && Evaluate(rule, db(c)).Some? && y == Award(t, c, Evaluate(rule, db(c)).value)
  {
    if rule.RecentIsMax? && Limit(rule.n, rule.m) == 0 && |t.codes| > 0 then
      Failure("max() arg is an empty sequence")
    else
      MetricsPicks(rule, t, db);
      Success(Screen(t, MetricsEval(rule, db)))
  }

  /** The screen holds one row per code the rule scores, with that score added. */
  lemma MetricsPicks(rule: MetricsRule, t: Targets, db: MetricsDb)
    ensures forall y :: y in Screen(t, MetricsEval(rule, db)) <==>
      exists c :: c in t.codes && Evaluate(rule, db(c)).Some? && y == Award(t, c, Evaluate(rule, db(c)).value)
  {
    var eval := MetricsEval(rule, db);
    assert forall c :: eval(c) == Evaluate(rule, db(c));
  }

  /** A stability ratio screen only ever passes a stock whose present margins are all
      positive, because the ratio is positive only when the smallest margin is. */
  lemma RatioScreenNeedsPositiveMargins(h: seq<MetricsQuarter>, n: nat, threshold: real)
    requires threshold >= 0.0 && MinMaxRatio(h, n, threshold).Some?
    ensures forall v :: v in DropMissing(OprMargins(Recent(h, n))) ==> v > 0.0
  {
    var valid := DropMissing(OprMargins(Recent(h, n)));
    var pct := Scale(valid, 100.0);
    forall v | v in valid ensures v > 0.0 {
      var i :| 0 <= i < |valid| && valid[i] == v;
      assert pct[i] >= Min(pct) > 0.0;
    }
  }
}

=== FILE: list_price.dfy ===
/** The two price screens: growth over the last months, and the latest close against the
    average of recent monthly average prices. */
module PriceScreens {
  import opened Wrappers
  import opened Series
  import opened Calendar
  import opened Screening
  import opened Filtering

  /** A daily_prices row as the screens read it. Trade dates are stored as zero-padded
      'YYYY-MM-DD' text taken from a file name, so the triple need not be a real date;
      comparing the stored text compares the triples in `DateLe` order. */
  datatype PriceRow = PriceRow(tradeDate: Date, close: real)

  /** A row of the monthly average prices; the price may be missing. */
  datatype MonthlyPrice = MonthlyPrice(year: int, month: int, price: Option<real>)

  /** A stock's daily rows, which get_prices_by_code returns ordered by trade date
      (OrderedByDate; a window keeps that order, WindowOrdered, so its last row is the newest
      and its base row the newest before the target, OrderedWindowRoles). */
  type PriceDb = string -> seq<PriceRow>

  /** What get_monthly_avg_prices_by_code returns for a stock, oldest month first. */
  type MonthlyDb = string -> seq<MonthlyPrice>

  /** What a screen makes of one stock: pass it over, pick it with a score, or raise. */
  datatype Outcome = Skip | Pick(score: real) | Raise(message: string)

  function Picked(o: Outcome): (r: Option<real>)
    ensures r.Some? <==> o.Pick?
  {
    if o.Pick? then Some(o.score) else None
  }

  /** date - relativedelta(months=k): the same day `k` months earlier, moved back to the
      month's last day when that month is shorter; None where that falls before year 1. */
  function MinusMonths(d: Date, k: nat): (r: Option<Date>)
    requires ValidDate(d)
    ensures r.Some? <==> MonthIndex(d.year, d.month) - k >= 12
    ensures r.Some? ==> ValidDate(r.value) && MonthIndex(r.value.year, r.value.month) == MonthIndex(d.year, d.month) - k
    ensures r.Some? ==> r.value.day <= d.day && (r.value.day < d.day ==> r.value.day == DaysInMonth(r.value.year, r.value.month))
  {
    var total := MonthIndex(d.year, d.month) - k;
    if total < 12 then None
    else
      var y, m := total / 12, total % 12 + 1;
      var last := DaysInMonth(y, m);
      Some(Date(y, m, if d.day <= last then d.day else last))
  }

  /** Going back some months never moves a date forward. */
  lemma MinusMonthsGoesBack(d: Date, k: nat)
    requires ValidDate(d) && MinusMonths(d, k).Some?
    ensures DateLe(MinusMonths(d, k).value, d)
    ensures k > 0 ==> MinusMonths(d, k).value != d
  {
  }

  /** The rows get_prices_by_code(code, start, end) returns: those dated start..end
      inclusive, in stored order. */
  function Window(rows: seq<PriceRow>, start: Date, end: Date): (w: seq<PriceRow>)
    ensures forall x :: x in w <==> x in rows && DateLe(start, x.tradeDate) && DateLe(x.tradeDate, end)
    ensures |w| <= |rows|
  {
    if |rows| == 0 then []
    else
      var x := rows[0];
      assert forall y :: y in rows <==> y == x || y in rows[1..] by { assert rows == [x] + rows[1..]; }
      (if DateLe(start, x.tradeDate) && DateLe(x.tradeDate, end) then [x] else []) + Window(rows[1..], start, end)
  }

  /** Rows in trade-date order, as get_prices_by_code returns them. */
  predicate OrderedByDate(rows: seq<PriceRow>) {
    forall i, j :: 0 <= i < j < |rows| ==> DateLe(rows[i].tradeDate, rows[j].tradeDate)
  }

  /** A window of date-ordered rows is still in date order. */
  lemma {:induction false} WindowOrdered(rows: seq<PriceRow>, start: Date, end: Date)
    requires OrderedByDate(rows)
    ensures OrderedByDate(Window(rows, start, end))
  {
    if |rows| > 0 {
      var x, rest := rows[0], rows[1..];
      assert OrderedByDate(rest) by {
        forall i, j | 0 <= i < j < |rest| ensures DateLe(rest[i].tradeDate, rest[j].tradeDate) {
          assert rest[i] == rows[i + 1] && rest[j] == rows[j + 1];
        }
      }
      WindowOrdered(rest, start, end);
      var w := Window(rest, start, end);
      forall k | 0 <= k < |w| ensures DateLe(x.tradeDate, w[k].tradeDate) {
        assert w[k] in rest;
        var i :| 0 <= i < |rest| && rest[i] == w[k];
        assert rows[i + 1] == w[k];
      }
    }
  }

  /** The last row dated on or before `target`, if any. */
  function LastOnOrBefore(rows: seq<PriceRow>, target: Date): (r: Option<nat>)
    ensures r.Some? ==> r.value < |rows| && DateLe(rows[r.value].tradeDate, target)
    ensures r.Some? ==> forall i :: r.value < i < |rows| ==> !DateLe(rows[i].tradeDate, target)
    ensures r.None? <==> forall i :: 0 <= i < |rows| ==> !DateLe(rows[i].tradeDate, target)
  {
    if |rows| == 0 then None
    else if DateLe(rows[|rows| - 1].tradeDate, target) then Some(|rows| - 1)
    else LastOnOrBefore(rows[..|rows| - 1], target)
  }

  predicate AllDatesValid(w: seq<PriceRow>) {
    forall i :: 0 <= i < |w| ==> ValidDate(w[i].tradeDate)
  }

  /** Row `b` is the last row of `w` dated on or before `target`. */
  predicate BaseRow(w: seq<PriceRow>, b: int, target: Date) {
    && 0 <= b < |w| && DateLe(w[b].tradeDate, target)
    && forall i :: b < i < |w| ==> !DateLe(w[i].tradeDate, target)
  }

  lemma BaseRowUnique(w: seq<PriceRow>, b: int, c: int, target: Date)
    requires BaseRow(w, b, target) && BaseRow(w, c, target)
    ensures b == c
  {
  }

  /** The window has a latest row and a base row `n` months before it, all dates are valid,
      and the base close is positive and grows by more than `threshold` percent. */
  predicate GrowsAbove(w: seq<PriceRow>, n: nat, threshold: real) {
    && |w| >= 2 && ValidDate(w[|w| - 1].tradeDate) && AllDatesValid(w)
    && MinusMonths(w[|w| - 1].tradeDate, n).Some?
    && exists b :: 0 <= b < |w| && BaseRow(w, b, MinusMonths(w[|w| - 1].tradeDate, n).value) && w[b].close > 0.0
                   && GrowthPercent(w[b].close, w[|w| - 1].close) > threshold
  }

  /** With the rows in trade-date order, as the query returns them, a window's last row is its
      newest row and its base row is the newest row on or before the target. */
  lemma OrderedWindowRoles(rows: seq<PriceRow>, start: Date, end: Date, b: int, target: Date)
    requires OrderedByDate(rows)
    requires BaseRow(Window(rows, start, end), b, target)
    ensures var w := Window(rows, start, end);
            forall i :: 0 <= i < |w| ==> DateLe(w[i].tradeDate, w[|w| - 1].tradeDate)
    ensures var w := Window(rows, start, end);
            forall i :: 0 <= i < |w| && DateLe(w[i].tradeDate, target) ==> DateLe(w[i].tradeDate, w[b].tradeDate)
  {
    WindowOrdered(rows, start, end);
    var w := Window(rows, start, end);
    forall i | 0 <= i < |w| ensures DateLe(w[i].tradeDate, w[|w| - 1].tradeDate) {
      if i < |w| - 1 { assert 0 <= i < |w| - 1 < |w|; }
    }
    forall i | 0 <= i < |w| && DateLe(w[i].tradeDate, target) ensures DateLe(w[i].tradeDate, w[b].tradeDate) {
      if i < b { assert 0 <= i < b < |w|; }
    }
  }

  /** Price growth of one stock over its window: the latest close against the close of the
      last row at least `n` months older than the latest row. */
  function GrowthOutcome(w: seq<PriceRow>, n: nat, threshold: real): (o: Outcome)
    ensures o.Pick? <==> GrowsAbove(w, n, threshold)
    ensures o.Pick? ==> |w| >= 2 && ValidDate(w[|w| - 1].tradeDate) && o.score > threshold
    ensures o.Raise? <==> |w| >= 2 && ValidDate(w[|w| - 1].tradeDate)
                          && (!AllDatesValid(w) || MinusMonths(w[|w| - 1].tradeDate, n).None?)
    ensures o.Pick? ==> exists b :: 0 <= b < |w| && w[b].close > 0.0
                          && DateLe(w[b].tradeDate, MinusMonths(w[|w| - 1].tradeDate, n).value)
                          && (forall i :: b < i < |w| ==> !DateLe(w[i].tradeDate, MinusMonths(w[|w| - 1].tradeDate, n).value))
                          && o.score == GrowthPercent(w[b].close, w[|w| - 1].close)
  {
    if |w| < 2 then Skip
    else
      var latest := w[|w| - 1];
      if !ValidDate(latest.tradeDate) then Skip
      else match MinusMonths(latest.tradeDate, n)
        case None => Raise("year is out of range")
        case Some(target) =>
          if !AllDatesValid(w) then Raise("day is out of range for month")
          else match LastOnOrBefore(w, target)
            case None => Skip
            case Some(b) =>
              assert BaseRow(w, b, target);
              assert forall c :: BaseRow(w, c, target) ==> c == b by {
                forall c | BaseRow(w, c, target) ensures c == b { BaseRowUnique(w, b, c, target); }
              }
              var base := w[b].close;
              if base <= 0.0 then Skip
              else
                var growth := GrowthPercent(base, latest.close);
                if growth > threshold then Pick(growth) else Skip
  }

  /** Whether and how high the growth screen picks each code, given its window. */
  function GrowthEval(db: PriceDb, start: Date, today: Date, n: nat, threshold: real): string -> Option<real> {
    c => Picked(GrowthOutcome(Window(db(c), start, today), n, threshold))
  }

  /** list_price_growth: the window reaches back `n + 2` months from today. */
  function ListPriceGrowth(t: Targets, db: PriceDb, today: Date, n: nat, threshold: real): (r: Result<seq<Scored>>)
    requires ValidDate(today)
    ensures |t.codes| == 0 ==> r == Success([])
    ensures |t.codes| > 0 && MinusMonths(today, n + 2).None? ==> r.Failure?
    ensures |t.codes| > 0 && MinusMonths(today, n + 2).Some? ==>
      (r.Failure? <==> exists c :: c in t.codes && GrowthOutcome(Window(db(c), MinusMonths(today, n + 2).value, today), n, threshold).Raise?)
    ensures r.Success? && |t.codes| > 0 ==> IsScreenOf(r.value, t, GrowthEval(db, MinusMonths(today, n + 2).value, today, n, threshold))
    ensures r.Success? && Distinct(t.codes) ==> UniqueCodes(r.value)
    ensures r.Success? ==> ByScoreDescending(r.value)
    ensures r.Success? && |t.codes| > 0 ==> forall y :: y in r.value <==>
      exists c :: c in t.codes && GrowthOutcome(Window(db(c), MinusMonths(today, n + 2).value, today), n, threshold).Pick?
                  && y == Award(t, c, GrowthOutcome(Window(db(c), MinusMonths(today, n + 2).value, today), n, threshold).score)
  {
    if |t.codes| == 0 then Success([])
    else match MinusMonths(today, n + 2)
      case None => Failure("year is out of range")
      case Some(start) =>
        var outcome := c => GrowthOutcome(Window(db(c), start, today), n, threshold);
        if exists c :: c in t.codes && outcome(c).Raise? then Failure("invalid trade date")
        else
          GrowthPicks(t, db, start, today, n, threshold);
          Success(Screen(t, GrowthEval(db, start, today, n, threshold)))
  }

  /** The growth screen holds one row per code whose outcome is a pick, scored by that pick. */
  lemma GrowthPicks(t: Targets, db: PriceDb, start: Date, today: Date, n: nat, threshold: real)
    ensures forall y :: y in Screen(t, GrowthEval(db, start, today, n, threshold)) <==>
      exists c :: c in t.codes && GrowthOutcome(Window(db(c), start, today), n, threshold).Pick?
                  && y == Award(t, c, GrowthOutcome(Window(db(c), start, today), n, threshold).score)
  {
    var eval := GrowthEval(db, start, today, n, threshold);
    forall c ensures eval(c).Some? <==> GrowthOutcome(Window(db(c), start, today), n, threshold).Pick?
      ensures eval(c).Some? ==> eval(c).value == GrowthOutcome(Window(db(c), start, today), n, threshold).score
    {
    }
  }

  function Prices(ms: seq<MonthlyPrice>): (r: seq<Option<real>>)
    ensures |r| == |ms| && forall i :: 0 <= i < |ms| ==> r[i] == ms[i].price
  {
    seq(|ms|, i requires 0 <= i < |ms| => ms[i].price)
  }

  /** The latest daily close is above the mean of the last `n` present monthly averages,
      which must be positive; the score is the percentage above it. */
  function AboveAvgOutcome(daily: seq<PriceRow>, monthly: seq<MonthlyPrice>, n: nat): (r: Option<real>)
    ensures r.Some? <==> |daily| > 0 && |DropMissing(Prices(Recent(monthly, n)))| > 0
                         && 0.0 < Mean(DropMissing(Prices(Recent(monthly, n)))) < daily[|daily| - 1].close
    ensures r.Some? ==> r.value > 0.0
    ensures r.Some? ==> r.value == GrowthPercent(Mean(DropMissing(Prices(Recent(monthly, n)))), daily[|daily| - 1].close)
  {
    var present := DropMissing(Prices(Recent(monthly, n)));
    if |daily| == 0 || |present| == 0 then None
    else
      var avg := Mean(present);
      var latest := daily[|daily| - 1].close;
      if avg <= 0.0 || latest <= avg then None else Some(GrowthPercent(avg, latest))
  }

  /** A stock's outcome with the latest close taken from its daily rows of the last 30 days. */
  function AboveAvgScore(daily: seq<PriceRow>, monthly: seq<MonthlyPrice>, today: Date, n: nat): Option<real>
    requires ValidDate(today) && Ordinal(today) > 30
  {
    AboveAvgOutcome(Window(daily, MinusDays(today, 30), today), monthly, n)
  }

  /** The above-average score of each code. */
  function AboveAvgEval(db: PriceDb, monthly: MonthlyDb, today: Date, n: nat): string -> Option<real>
    requires ValidDate(today) && Ordinal(today) > 30
  {
    c => AboveAvgScore(db(c), monthly(c), today, n)
  }

  /** list_price_above_avg: the latest close comes from the last 30 days of daily rows. */
  function ListPriceAboveAvg(t: Targets, db: PriceDb, monthly: MonthlyDb, today: Date, n: nat): (r: Result<seq<Scored>>)
    requires ValidDate(today)
    ensures r.Failure? <==> |t.codes| > 0 && (MinusMonths(today, n + 2).None? || Ordinal(today) <= 30)
    ensures r.Success? && |t.codes| > 0 ==> Ordinal(today) > 30 && IsScreenOf(r.value, t, AboveAvgEval(db, monthly, today, n))
    ensures r.Success? && Distinct(t.codes) ==> UniqueCodes(r.value)
    ensures r.Success? ==> ByScoreDescending(r.value)
    ensures r.Success? && |t.codes| > 0 ==> Ordinal(today) > 30 && forall y :: y in r.value <==>
      exists c :: c in t.codes && AboveAvgScore(db(c), monthly(c), today, n).Some?
                  && y == Award(t, c, AboveAvgScore(db(c), monthly(c), today, n).value)
  {
    if |t.codes| == 0 then Success([])
    else if MinusMonths(today, n + 2).None? || Ordinal(today) <= 30 then Failure("date value out of range")
    else
      var eval := AboveAvgEval(db, monthly, today, n);
      assert forall c :: eval(c) == AboveAvgScore(db(c), monthly(c), today, n);
      Success(Screen(t, eval))
  }
}

=== FILE: list_revenue.dfy ===
/** The six monthly-revenue screens. Each looks at the most recent months of every target
    stock, decides whether the stock passes and, if so, what score it earns on top of its
    incoming score. */
module RevenueScreens {
  import opened Wrappers
  import opened Series
  import opened Screening
  import opened Filtering

  /** One row of the monthly_revenue table. `revenue` is an INTEGER NOT NULL column; the
      others are nullable REAL columns. */
  datatype RevenueMonth = RevenueMonth(
    year: int, month: int, revenue: int,
    ma3: Option<real>, ma12: Option<real>,
    mom: Option<real>, yoy: Option<real>, ytdYoy: Option<real>)

  /** A stock's revenue history, oldest month first; the last `limit` rows of it are what
      get_recent_revenue_by_code(code, limit) returns. */
  type RevenueDb = string -> seq<RevenueMonth>

  /** The screens and their parameters. */
  datatype RevenueRule =
    | HitNewHigh(recentMonths: nat, lookbackMonths: nat)
    | AvgRevenueGrowth(maType: nat, months: nat)
    | MomAbove(n: nat, threshold: real)
    | YoyAbove(n: nat, threshold: real)
    | AccumYoyGrowth(nAccum: nat, months: nat)
    | AccumYoyAbove(n: nat, threshold: real)

  function Revenues(w: seq<RevenueMonth>): (r: seq<real>)
    ensures |r| == |w|
    ensures forall i :: 0 <= i < |w| ==> r[i] == w[i].revenue as real
  {
    seq(|w|, i requires 0 <= i < |w| => w[i].revenue as real)
  }

  /** Some month of the recent part earns more than every month of the lookback part, and
      some month of the lookback part earns something: the new-high condition. */
  predicate NewHighIn(w: seq<RevenueMonth>, lookback: nat)
    requires lookback <= |w|
  {
    (exists j :: 0 <= j < lookback && w[j].revenue > 0)
    && exists i :: lookback <= i < |w| && forall j :: 0 <= j < lookback ==> w[j].revenue < w[i].revenue
  }

  /** Revenue hits a new high: the best of the last `recent` months beats the best of the
      `lookback` months before them, which must be positive. The score is the percentage
      by which it beats it. */
  function NewHigh(h: seq<RevenueMonth>, recent: nat, lookback: nat): (r: Option<real>)
    ensures r.Some? <==> |h| >= recent + lookback && NewHighIn(Recent(h, recent + lookback), lookback)
    ensures r.Some? ==> r.value > 0.0
    ensures r.Some? ==>
      && 0 < lookback < recent + lookback
      && r.value == GrowthPercent(Max(Revenues(Recent(h, recent + lookback)[..lookback])), Max(Revenues(Recent(h, recent + lookback)[lookback..])))
  {
    var total := recent + lookback;
    var w := Recent(h, total);
    if |h| < total || lookback == 0 || recent == 0 then
      None
    else
      var before, after := Revenues(w[..lookback]), Revenues(w[lookback..]);
      var lmax, rmax := Max(before), Max(after);
      NewHighWitnesses(w, lookback, before, after);
      if lmax <= 0.0 || rmax <= lmax then None
      else Some(GrowthPercent(lmax, rmax))
  }

  lemma NewHighWitnesses(w: seq<RevenueMonth>, lookback: nat, before: seq<real>, after: seq<real>)
    requires 0 < lookback < |w|
    requires before == Revenues(w[..lookback]) && after == Revenues(w[lookback..])
    ensures NewHighIn(w, lookback) <==> Max(before) > 0.0 && Max(after) > Max(before)
  {
    if Max(before) > 0.0 && Max(after) > Max(before) {
      NewHighFromMax(w, lookback, before, after);
    }
    if NewHighIn(w, lookback) {
      MaxFromNewHigh(w, lookback, before, after);
    }
  }

  /** The maxima witness the new-high condition: the month holding the recent maximum beats
      every lookback month, and the month holding the lookback maximum earns something. */
  lemma NewHighFromMax(w: seq<RevenueMonth>, lookback: nat, before: seq<real>, after: seq<real>)
    requires 0 < lookback < |w|
    requires before == Revenues(w[..lookback]) && after == Revenues(w[lookback..])
    requires Max(before) > 0.0 && Max(after) > Max(before)
    ensures NewHighIn(w, lookback)
  {
    var lmax, rmax := Max(before), Max(after);
    var j :| 0 <= j < |before| && before[j] == lmax;
    var i :| 0 <= i < |after| && after[i] == rmax;
    assert w[j].revenue > 0;
    forall k | 0 <= k < lookback ensures w[k].revenue < w[lookback + i].revenue {
      assert before[k] <= lmax;
    }
  }

  /** A month that beats every lookback month beats their maximum, and a lookback month that
      earns something makes the maximum positive. */
  lemma MaxFromNewHigh(w: seq<RevenueMonth>, lookback: nat, before: seq<real>, after: seq<real>)
    requires 0 < lookback < |w|
    requires before == Revenues(w[..lookback]) && after == Revenues(w[lookback..])
    requires NewHighIn(w, lookback)
    ensures Max(before) > 0.0 && Max(after) > Max(before)
  {
    var lmax := Max(before);
    var j :| 0 <= j < lookback && w[j].revenue > 0;
    assert before[j] > 0.0;
    var i :| lookback <= i < |w| && forall k :: 0 <= k < lookback ==> w[k].revenue < w[i].revenue;
    var k :| 0 <= k < |before| && before[k] == lmax;
    assert w[k].revenue < w[i].revenue;
    assert after[i - lookback] > lmax;
  }

  /** The `count` trailing means of windows of `width` revenues: what
      revenue.rolling(width).mean().tail(count) holds once enough rows are there. */
  function RollingMeans(revs: seq<real>, width: nat, count: nat): (r: seq<real>)
    requires width > 0 && |revs| == count + width - 1
    ensures |r| == count
    ensures forall i :: 0 <= i < count ==> r[i] == Mean(revs[i..i + width])
  {
    seq(count, i requires 0 <= i < count => Mean(revs[i..i + width]))
  }

  /** The `months + 1` moving averages the growth screen compares, oldest first, or None
      when the history is too short, a value is missing or the window is empty. MA3 and
      MA12 are read from their stored columns; any other width is computed from revenue. */
  function AverageSeries(h: seq<RevenueMonth>, maType: nat, months: nat): (r: Option<seq<real>>)
    ensures r.Some? ==> |r.value| == months + 1
    ensures maType == 3 ==> (r.Some? <==> |h| > months && AllPresent(MaColumn(Recent(h, months + 1), 3)))
    ensures maType == 12 ==> (r.Some? <==> |h| > months && AllPresent(MaColumn(Recent(h, months + 1), 12)))
    ensures maType != 3 && maType != 12 ==> (r.Some? <==> maType > 0 && |h| >= months + maType)
    ensures r.Some? && maType == 3 ==> forall i :: 0 <= i <= months ==> h[|h| - months - 1 + i].ma3 == Some(r.value[i])
    ensures r.Some? && maType == 12 ==> forall i :: 0 <= i <= months ==> h[|h| - months - 1 + i].ma12 == Some(r.value[i])
    ensures r.Some? && maType != 3 && maType != 12 ==>
      forall i :: 0 <= i <= months ==> r.value[i] == Mean(Revenues(Recent(h, months + maType))[i..i + maType])
  {
    if maType == 3 || maType == 12 then
      var w := Recent(h, months + 1);
      var col := MaColumn(w, maType);
      if |h| < months + 1 || !AllPresent(col) then None else Some(Present(col))
    else if maType == 0 || |h| < months + maType then None
    else
      var w := Recent(h, months + maType);
      Some(RollingMeans(Revenues(w), maType, months + 1))
  }

  function MaColumn(w: seq<RevenueMonth>, maType: nat): (r: seq<Option<real>>)
    ensures |r| == |w|
  {
    seq(|w|, i requires 0 <= i < |w| => if maType == 3 then w[i].ma3 else w[i].ma12)
  }

  /** Average revenue grows every month for `months` months; the score is the percentage
      growth from the first to the last average. */
  function AvgGrowth(h: seq<RevenueMonth>, maType: nat, months: nat): (r: Option<real>)
    ensures r.Some? <==> AverageSeries(h, maType, months).Some? && StrictlyIncreasing(AverageSeries(h, maType, months).value)
    ensures r.Some? ==> r.value >= 0.0
    ensures r.Some? ==> r.value == GrowthPercent(AverageSeries(h, maType, months).value[0], AverageSeries(h, maType, months).value[months])
  {
    match AverageSeries(h, maType, months)
    case None => None
    case Some(vals) =>
      RisesEachStepIffIncreasing(vals);
      if RisesEachStep(vals) then Some(GrowthPercent(vals[0], vals[|vals| - 1])) else None
  }

  function MomColumn(w: seq<RevenueMonth>): (r: seq<Option<real>>)
    ensures |r| == |w| && forall i :: 0 <= i < |w| ==> r[i] == w[i].mom
  {
    seq(|w|, i requires 0 <= i < |w| => w[i].mom)
  }

  function YoyColumn(w: seq<RevenueMonth>): (r: seq<Option<real>>)
    ensures |r| == |w| && forall i :: 0 <= i < |w| ==> r[i] == w[i].yoy
  {
    seq(|w|, i requires 0 <= i < |w| => w[i].yoy)
  }

  function AccumYoyColumn(w: seq<RevenueMonth>): (r: seq<Option<real>>)
    ensures |r| == |w| && forall i :: 0 <= i < |w| ==> r[i] == w[i].ytdYoy
  {
    seq(|w|, i requires 0 <= i < |w| => w[i].ytdYoy)
  }

  predicate AllAbove(col: seq<Option<real>>, threshold: real) {
    forall i :: 0 <= i < |col| ==> col[i].Some? && col[i].value > threshold
  }

  function Excess(vals: seq<real>, threshold: real): (r: seq<real>)
    ensures |r| == |vals| && forall i :: 0 <= i < |vals| ==> r[i] == vals[i] - threshold
  {
    seq(|vals|, i requires 0 <= i < |vals| => vals[i] - threshold)
  }

  /** Every one of the last `n` values is present and above the threshold; the score is
      the total excess over it, which is positive whenever `n` is. */
  function ColumnAbove(h: seq<RevenueMonth>, col: seq<Option<real>>, n: nat, threshold: real): (r: Option<real>)
    requires |col| == |Recent(h, n)|
    ensures r.Some? <==> |h| >= n && AllAbove(col, threshold)
    ensures r.Some? ==> r.value >= 0.0 && (n > 0 ==> r.value > 0.0)
    ensures r.Some? ==> r.value == Sum(Present(col)) - (n as real) * threshold
  {
    if |h| < n || !AllAbove(col, threshold) then None
    else
      var ex := Excess(Present(col), threshold);
      SumPositive(ex);
      SumExcess(Present(col), threshold);
      Some(Sum(ex))
  }

  /** The total excess over a threshold is the total less the threshold once per value. */
  lemma {:induction false} SumExcess(vals: seq<real>, threshold: real)
    ensures Sum(Excess(vals, threshold)) == Sum(vals) - (|vals| as real) * threshold
    decreases |vals|
  {
    if |vals| > 0 {
      var init := vals[..|vals| - 1];
      assert Excess(vals, threshold)[..|vals| - 1] == Excess(init, threshold);
      SumExcess(init, threshold);
    }
  }

  /** The stored year-to-date YoY rate grows every month for `months` months; the score is
      its total rise. */
  function AccumGrowth(h: seq<RevenueMonth>, months: nat): (r: Option<real>)
    ensures r.Some? <==> |h| > months && AllPresent(AccumYoyColumn(Recent(h, months + 1)))
                         && StrictlyIncreasing(Present(AccumYoyColumn(Recent(h, months + 1))))
    ensures r.Some? ==> r.value >= 0.0 && (months > 0 ==> r.value > 0.0)
    ensures r.Some? ==> var col := AccumYoyColumn(Recent(h, months + 1));
                        |col| == months + 1 && r.value == col[months].value - col[0].value
  {
    if |h| < months + 1 then None else RiseOf(AccumYoyColumn(Recent(h, months + 1)))
  }

  /** The latest year-to-date YoY rate is present and above the threshold; the score is the
      excess. */
  function AccumAbove(h: seq<RevenueMonth>, threshold: real): (r: Option<real>)
    ensures r.Some? <==> |h| > 0 && h[|h| - 1].ytdYoy.Some? && h[|h| - 1].ytdYoy.value > threshold
    ensures r.Some? ==> r.value == h[|h| - 1].ytdYoy.value - threshold && r.value > 0.0
  {
    if |h| == 0 then None
    else
      match h[|h| - 1].ytdYoy
      case None => None
      case Some(v) => if v > threshold then Some(v - threshold) else None
  }

  /** What one screen makes of one stock's history. */
  function Evaluate(rule: RevenueRule, h: seq<RevenueMonth>): Option<real> {
    match rule
    case HitNewHigh(recent, lookback) => NewHigh(h, recent, lookback)
    case AvgRevenueGrowth(maType, months) => AvgGrowth(h, maType, months)
    case MomAbove(n, threshold) => ColumnAbove(h, MomColumn(Recent(h, n)), n, threshold)
    case YoyAbove(n, threshold) => ColumnAbove(h, YoyColumn(Recent(h, n)), n, threshold)
    case AccumYoyGrowth(_, months) => AccumGrowth(h, months)
    case AccumYoyAbove(_, threshold) => AccumAbove(h, threshold)
  }

  /** The score a revenue screen gives each code, if it passes. */
  function RevenueEval(rule: RevenueRule, db: RevenueDb): string -> Option<real> {
    c => Evaluate(rule, db(c))
  }

  /** A revenue screen over the targets: the passing stocks with incoming score plus new
      score, highest first, one row per passing occurrence, and only target codes. */
  function ListRevenue(rule: RevenueRule, t: Targets, db: RevenueDb): (r: seq<Scored>)
    ensures IsScreenOf(r, t, RevenueEval(rule, db))
    ensures Distinct(t.codes) ==> UniqueCodes(r)
    ensures ByScoreDescending(r)
    ensures forall y :: y in r <==> exists c :: c in t.codes && Evaluate(rule, db(c)).Some? && y == Award(t, c, Evaluate(rule, db(c)).value)
    ensures forall y :: y in r ==> y.code in t.codes
    ensures |t.codes| == 0 ==> r == []
  {
    Screen(t, RevenueEval(rule, db))
  }

  /** A threshold screen never lowers a stock's score: each passing stock earns a positive
      amount over its incoming score. */
  lemma ThresholdScreensRaiseScores(rule: RevenueRule, t: Targets, db: RevenueDb, y: Scored)
    requires rule.MomAbove? || rule.YoyAbove? || rule.AccumYoyAbove?
    requires rule.n > 0 && y in ListRevenue(rule, t, db)
    ensures y.code in t.codes
    ensures y.score > (if y.code in t.scores then t.scores[y.code] else 0.0)
  {
    var c :| c in t.codes && Evaluate(rule, db(c)).Some? && y == Award(t, c, Evaluate(rule, db(c)).value);
  }
}

=== FILE: load_stock.dfy ===
/** The reshaping of stored rows into the tables the stock view shows: monthly rows labelled
    'YYYY/MM' and listed latest first, quarterly rows pivoted into one row per item with one
    column per quarter, and numbers written with thousands separators. */
module LoadStock {
  import opened Wrappers
  import opened Text
  import opened Sorting

  // ---------------------------------------------------------------- monthly tables

  /** A stored monthly row: its year and month and the values it carries. */
  datatype MonthRow<V> = MonthRow(year: int, month: nat, values: V)

  /** A table for display: its column names and its rows. */
  datatype Table<R> = Table(columns: seq<string>, rows: seq<R>)

  const PriceColumns: seq<string> := ["year_month", "price", "volume"]

  /** The monthly-revenue columns, spelled as the view expects them. */
  const RevenueColumns: seq<string> := [
    "year_month", "revence", "revence_mom", "revence_ly", "revence_yoy", "revence_ytd",
    "revence_ytd_yoy", "revenue_ma3", "revenue_ma12", "revenue_ytd_yoy_ma3", "revenue_ytd_yoy_ma12"
  ]

  /** str(year) + '/' + str(month).zfill(2). */
  function YearMonthLabel(year: int, month: nat): string {
    IntToString(year) + "/" + Pad2(month)
  }

  /** The first index of `c` in `s`. */
  function IndexOf(s: string, c: char): (r: Option<nat>)
    ensures r.Some? ==> r.value < |s| && s[r.value] == c && c !in s[..r.value]
    ensures r.None? ==> c !in s
  {
    if |s| == 0 then None
    else if s[0] == c then Some(0)
    else match IndexOf(s[1..], c)
      case None => None
      case Some(k) =>
        assert s[..k + 1] == [s[0]] + s[1..][..k];
        Some(k + 1)
  }

  /** Reads a 'YYYY/MM' label back into its year and month. */
  function ParseYearMonth(text: string): Option<(int, nat)> {
    match IndexOf(text, '/')
    case None => None
    case Some(k) =>
      var month := text[k + 1..];
      match ParseInt(text[..k])
      case None => None
      case Some(year) => if |month| > 0 && AllDigits(month) then Some((year, ParseDigits(month))) else None
  }

  /** A label reads back as the year and month it was made from, so different months always
      get different labels. */
  lemma YearMonthRoundTrip(year: int, month: nat)
    ensures ParseYearMonth(YearMonthLabel(year, month)) == Some((year, month))
  {
    var y, m := IntToString(year), Pad2(month);
    assert YearMonthLabel(year, month) == y + ['/'] + m;
    NoSlashInInt(year);
    ParseIntToString(year);
    ParseZeroFill(month, 2);
    ReadsBack(y, m, year, month);
  }

  /** A year text without a slash, a slash and a non-empty digit run read back as that year and month. */
  lemma ReadsBack(y: string, m: string, year: int, month: nat)
    requires '/' !in y && ParseInt(y) == Some(year)
    requires |m| > 0 && AllDigits(m) && ParseDigits(m) == month
    ensures ParseYearMonth(y + ['/'] + m) == Some((year, month))
  {
    SplitAtFirst(y, m, '/');
  }

  lemma NoSlashInInt(year: int)
    ensures '/' !in IntToString(year)
  {
    if year < 0 { assert IntToString(year)[1..] == NatToString(-year); }
  }

  /** The first `c` of a + [c] + b is the one after a, when a has none. */
  lemma SplitAtFirst(a: string, b: string, c: char)
    requires c !in a
    ensures var s := a + [c] + b; IndexOf(s, c) == Some(|a|) && s[..|a|] == a && s[|a| + 1..] == b
  {
    var s := a + [c] + b;
    assert s[|a|] == c && s[..|a|] == a;
    assert s[|a| + 1..] == b;
  }

  /** The month a row belongs to, counted in months. */
  function MonthKey(year: int, month: int): int {
    12 * year + month
  }

  /** A row as shown: its month's label and its displayed values. */
  function Entry<V, W>(row: MonthRow<V>, cells: V -> W): (string, W) {
    (YearMonthLabel(row.year, row.month), cells(row.values))
  }

  /** The rows latest first, each labelled with its month: the stored rows come oldest first,
      so this is their reverse. */
  function Relabel<V, W>(rows: seq<MonthRow<V>>, cells: V -> W): (r: seq<(string, W)>)
    ensures |r| == |rows|
    ensures forall i :: 0 <= i < |rows| ==> r[i] == Entry(rows[|rows| - 1 - i], cells)
  {
    seq(|rows|, i requires 0 <= i < |rows| => Entry(rows[|rows| - 1 - i], cells))
  }

  /** Monthly rows for display: the fixed columns whether or not there are rows, and the rows
      in reverse order. */
  function TransformMonthly<V, W>(rows: seq<MonthRow<V>>, columns: seq<string>, cells: V -> W): (r: Table<(string, W)>)
    ensures r.columns == columns && |r.rows| == |rows|
    ensures forall i :: 0 <= i < |rows| ==> ParseYearMonth(r.rows[i].0) == Some((rows[|rows| - 1 - i].year, rows[|rows| - 1 - i].month))
    ensures forall i :: 0 <= i < |rows| ==> r.rows[i].1 == cells(rows[|rows| - 1 - i].values)
  {
    var out := Relabel(rows, cells);
    assert forall i :: 0 <= i < |rows| ==> ParseYearMonth(out[i].0) == Some((rows[|rows| - 1 - i].year, rows[|rows| - 1 - i].month)) by {
      forall i | 0 <= i < |rows| ensures ParseYearMonth(out[i].0) == Some((rows[|rows| - 1 - i].year, rows[|rows| - 1 - i].month)) {
        YearMonthRoundTrip(rows[|rows| - 1 - i].year, rows[|rows| - 1 - i].month);
      }
    }
    Table(columns, out)
  }

  /** Stored rows come oldest first; shown, they run latest first. */
  lemma LatestFirst<V, W>(rows: seq<MonthRow<V>>, columns: seq<string>, cells: V -> W)
    requires forall i, j :: 0 <= i < j < |rows| ==> MonthKey(rows[i].year, rows[i].month) < MonthKey(rows[j].year, rows[j].month)
    ensures var shown := TransformMonthly(rows, columns, cells).rows;
      forall i, j :: 0 <= i < j < |shown| ==>
        ParseYearMonth(shown[i].0).Some? && ParseYearMonth(shown[j].0).Some? &&
        MonthKey(ParseYearMonth(shown[i].0).value.0, ParseYearMonth(shown[i].0).value.1) >
        MonthKey(ParseYearMonth(shown[j].0).value.0, ParseYearMonth(shown[j].0).value.1)
  {
    var shown := TransformMonthly(rows, columns, cells).rows;
    forall i, j | 0 <= i < j < |shown|
      ensures ParseYearMonth(shown[i].0).Some? && ParseYearMonth(shown[j].0).Some? &&
        MonthKey(ParseYearMonth(shown[i].0).value.0, ParseYearMonth(shown[i].0).value.1) >
        MonthKey(ParseYearMonth(shown[j].0).value.0, ParseYearMonth(shown[j].0).value.1)
    {
      var a, b := rows[|rows| - 1 - i], rows[|rows| - 1 - j];
      assert ParseYearMonth(shown[i].0) == Some((a.year, a.month));
      assert ParseYearMonth(shown[j].0) == Some((b.year, b.month));
    }
  }

  /** The monthly average prices: year_month, price and volume. */
  function TransformMonthlyAvgPrice<V>(rows: seq<MonthRow<V>>): (r: Table<(string, V)>)
    ensures r.columns == PriceColumns && |r.rows| == |rows|
    ensures forall i :: 0 <= i < |rows| ==> r.rows[i].1 == rows[|rows| - 1 - i].values
  {
    TransformMonthly(rows, PriceColumns, (v: V) => v)
  }

  /** The monthly revenues with the ratio columns formatted by `format`. */
  function TransformMonthlyRevenue<V, W>(rows: seq<MonthRow<V>>, format: V -> W): (r: Table<(string, W)>)
    ensures r.columns == RevenueColumns && |r.rows| == |rows|
    ensures forall i :: 0 <= i < |rows| ==> r.rows[i].1 == format(rows[|rows| - 1 - i].values)
  {
    TransformMonthly(rows, RevenueColumns, format)
  }

  // ---------------------------------------------------------------- quarterly pivot

  /** A stored quarterly row: its period and its value in each column. */
  datatype QuarterRow<V> = QuarterRow(year: int, quarter: int, cells: map<string, V>)

  /** Rows that share one set of columns, as a data frame's rows do. */
  datatype Frame<V> = Frame(columns: set<string>, rows: seq<QuarterRow<V>>)

  /** An item to show: the column it reads, the name it is shown under and its formatter. */
  datatype Item<!V> = Item(column: string, display: string, format: V -> string)

  /** Every row has exactly the frame's columns, and quarters run 1 to 4. */
  predicate WellFormed<V>(frame: Frame<V>) {
    forall i :: 0 <= i < |frame.rows| ==> frame.rows[i].cells.Keys == frame.columns && 1 <= frame.rows[i].quarter <= 4
  }

  /** str(year) + '.Q' + str(quarter). */
  function PeriodLabel(year: int, quarter: int): string {
    IntToString(year) + ".Q" + IntToString(quarter)
  }

  /** Quarters counted from year 0; with quarters 1 to 4 this orders by year, then quarter. */
  function QuarterKey(year: int, quarter: int): int {
    4 * year + quarter
  }

  /** The sort key: ascending in it is descending in (year, quarter). */
  function Latest<V>(row: QuarterRow<V>): real {
    -(QuarterKey(row.year, row.quarter) as real)
  }

  /** The rows sorted by (year, quarter) descending, latest first. */
  function SortedRows<V>(frame: Frame<V>): (r: seq<QuarterRow<V>>)
    requires WellFormed(frame)
    ensures multiset(r) == multiset(frame.rows) && |r| == |frame.rows|
    ensures forall i, j :: 0 <= i < j < |r| ==> QuarterKey(r[i].year, r[i].quarter) >= QuarterKey(r[j].year, r[j].quarter)
    ensures forall i :: 0 <= i < |r| ==> r[i] in frame.rows
  {
    var r := SortBy(frame.rows, Latest);
    assert forall i :: 0 <= i < |r| ==> r[i] in frame.rows by {
      forall i | 0 <= i < |r| ensures r[i] in frame.rows {
        assert r[i] in multiset(r);
      }
    }
    assert forall i, j :: 0 <= i < j < |r| ==> Latest(r[i]) <= Latest(r[j]);
    r
  }

  /** The period labels of the sorted rows. */
  function Labels<V>(rows: seq<QuarterRow<V>>): (r: seq<string>)
    ensures |r| == |rows| && forall i :: 0 <= i < |rows| ==> r[i] == PeriodLabel(rows[i].year, rows[i].quarter)
  {
    seq(|rows|, i requires 0 <= i < |rows| => PeriodLabel(rows[i].year, rows[i].quarter))
  }

  predicate NoDuplicates(s: seq<string>) {
    forall i, j :: 0 <= i < j < |s| ==> s[i] != s[j]
  }

  /** The keys of a dict filled in the order of `s`: each distinct value once, where it first
      appears. */
  function Distinct(s: seq<string>): (r: seq<string>)
    ensures NoDuplicates(r)
    ensures forall x :: x in r <==> x in s
    ensures NoDuplicates(s) ==> r == s
  {
    if |s| == 0 then []
    else
      var init, x := s[..|s| - 1], s[|s| - 1];
      assert s == init + [x];
      if x in init then Distinct(init) else Distinct(init) + [x]
  }

  /** The items whose column the frame has, in the given order. */
  function Present<V>(items: seq<Item<V>>, columns: set<string>): (r: seq<Item<V>>)
    ensures forall k :: 0 <= k < |r| ==> r[k] in items && r[k].column in columns
    ensures forall k :: 0 <= k < |items| && items[k].column in columns ==> items[k] in r
    ensures |r| <= |items|
  {
    if |items| == 0 then []
    else
      var rest := Present(items[1..], columns);
      if items[0].column in columns then [items[0]] + rest else rest
  }

  /** Present works item by item: the items of two runs are kept run by run, so the item
      order is kept and each item is kept as often as it occurs. */
  lemma {:induction false} PresentAppend<V>(a: seq<Item<V>>, b: seq<Item<V>>, columns: set<string>)
    ensures Present(a + b, columns) == Present(a, columns) + Present(b, columns)
  {
    if |a| == 0 {
      assert a + b == b;
    } else {
      assert (a + b)[0] == a[0] && (a + b)[1..] == a[1..] + b;
      PresentAppend(a[1..], b, columns);
    }
  }

  /** The text in `item`'s row under the column `period` is the item's formatted value in a
      stored row of that period. */
  ghost predicate CellOf<V>(frame: Frame<V>, item: Item<V>, period: string, text: string) {
    exists row :: row in frame.rows && PeriodLabel(row.year, row.quarter) == period &&
      item.column in row.cells && text == item.format(row.cells[item.column])
  }

  /** One item's row: its display name, then its formatted value in each sorted row. */
  function ItemRow<V>(item: Item<V>, sorted: seq<QuarterRow<V>>): (r: seq<string>)
    requires forall i :: 0 <= i < |sorted| ==> item.column in sorted[i].cells
    ensures |r| == 1 + |sorted| && r[0] == item.display
  {
    seq(1 + |sorted|, i requires 0 <= i <= |sorted| => if i == 0 then item.display else item.format(sorted[i - 1].cells[item.column]))
  }

  /** Every present item's row, in the items' order. */
  function ItemRows<V>(present: seq<Item<V>>, sorted: seq<QuarterRow<V>>): (r: seq<seq<string>>)
    requires forall k, i :: 0 <= k < |present| && 0 <= i < |sorted| ==> present[k].column in sorted[i].cells
    ensures |r| == |present| && forall k :: 0 <= k < |present| ==> r[k] == ItemRow(present[k], sorted)
  {
    seq(|present|, k requires 0 <= k < |present| => ItemRow(present[k], sorted))
  }

  /** The rows of `t` are those of the items `present`, in order: each starts with the item's
      display name, has one cell per column, and every later cell is that item's value in a
      stored row of the column's period. */
  ghost predicate Pivoted<V>(frame: Frame<V>, present: seq<Item<V>>, t: Table<seq<string>>) {
    && |t.columns| >= 1 && |t.rows| == |present|
    && (forall k :: 0 <= k < |t.rows| ==> |t.rows[k]| == |t.columns| && t.rows[k][0] == present[k].display)
    && (forall k, i :: 0 <= k < |t.rows| && 1 <= i < |t.columns| ==> CellOf(frame, present[k], t.columns[i], t.rows[k][i]))
  }

  /** The pivot: 'Item' then one column per period, latest first, and one row per item the
      frame has. Two rows of the same period make the dict's lists of unequal length, which the
      data frame constructor refuses, unless no item is present and every list is empty. */
  function Pivot<V>(frame: Frame<V>, items: seq<Item<V>>): (r: Result<Table<seq<string>>>)
    requires WellFormed(frame)
    ensures r.Failure? <==> |Present(items, frame.columns)| > 0 && !NoDuplicates(Labels(SortedRows(frame)))
    ensures r.Success? ==> r.value.columns == ["Item"] + Distinct(Labels(SortedRows(frame)))
    ensures r.Success? ==> Pivoted(frame, Present(items, frame.columns), r.value)
  {
    var sorted := SortedRows(frame);
    var labels := Labels(sorted);
    var present := Present(items, frame.columns);
    if |present| > 0 && !NoDuplicates(labels) then Failure("All arrays must be of the same length")
    else
      PresentInEveryRow(frame, present, sorted);
      var t := Table(["Item"] + Distinct(labels), ItemRows(present, sorted));
      assert |present| > 0 ==> Distinct(labels) == labels;
      HeaderLabels(sorted, t.columns);
      PivotTable(frame, present, sorted, t.columns);
      Success(t)
  }

  /** Under 'Item' and the period labels, or under any header when there is no item to show,
      the item rows line up with the items. */
  lemma PivotTable<V>(frame: Frame<V>, present: seq<Item<V>>, sorted: seq<QuarterRow<V>>, columns: seq<string>)
    requires forall i :: 0 <= i < |sorted| ==> sorted[i] in frame.rows
    requires forall k, i :: 0 <= k < |present| && 0 <= i < |sorted| ==> present[k].column in sorted[i].cells
    requires |columns| >= 1
    requires |present| > 0 ==>
      |columns| == 1 + |sorted| && forall i :: 1 <= i < |columns| ==> columns[i] == PeriodLabel(sorted[i - 1].year, sorted[i - 1].quarter)
    ensures Pivoted(frame, present, Table(columns, ItemRows(present, sorted)))
  {
    var rows := ItemRows(present, sorted);
    if |present| > 0 {
      forall k | 0 <= k < |rows| ensures |rows[k]| == |columns| && rows[k][0] == present[k].display {
        assert rows[k] == ItemRow(present[k], sorted);
      }
      forall k, i | 0 <= k < |rows| && 1 <= i < |columns| ensures CellOf(frame, present[k], columns[i], rows[k][i]) {
        PivotCell(frame, present, sorted, k, i, columns[i]);
        assert rows[k][i] == ItemRow(present[k], sorted)[i];
      }
    }
  }

  /** The header 'Item' followed by the labels names each sorted row's period in turn. */
  lemma HeaderLabels<V>(sorted: seq<QuarterRow<V>>, columns: seq<string>)
    ensures columns == ["Item"] + Labels(sorted) ==>
      |columns| == 1 + |sorted| && forall i :: 1 <= i < |columns| ==> columns[i] == PeriodLabel(sorted[i - 1].year, sorted[i - 1].quarter)
  {
    if columns == ["Item"] + Labels(sorted) {
      var labels := Labels(sorted);
      assert columns[1..] == labels;
      forall i | 1 <= i < |columns| ensures columns[i] == PeriodLabel(sorted[i - 1].year, sorted[i - 1].quarter) {
        assert columns[i] == columns[1..][i - 1];
      }
    }
  }

  /** A present item's column is in every row. */
  lemma PresentInEveryRow<V>(frame: Frame<V>, present: seq<Item<V>>, sorted: seq<QuarterRow<V>>)
    requires WellFormed(frame) && sorted == SortedRows(frame)
    requires forall k :: 0 <= k < |present| ==> present[k].column in frame.columns
    ensures forall k, i :: 0 <= k < |present| && 0 <= i < |sorted| ==> present[k].column in sorted[i].cells
  {
    forall k, i | 0 <= k < |present| && 0 <= i < |sorted| ensures present[k].column in sorted[i].cells {
      var j :| 0 <= j < |frame.rows| && frame.rows[j] == sorted[i];
    }
  }

  /** Each cell of an item's row holds the item's value in the stored row of its period. */
  lemma PivotCell<V>(frame: Frame<V>, present: seq<Item<V>>, sorted: seq<QuarterRow<V>>, k: nat, i: nat, period: string)
    requires forall i :: 0 <= i < |sorted| ==> sorted[i] in frame.rows
    requires forall k, i :: 0 <= k < |present| && 0 <= i < |sorted| ==> present[k].column in sorted[i].cells
    requires k < |present| && 1 <= i <= |sorted| && period == PeriodLabel(sorted[i - 1].year, sorted[i - 1].quarter)
    ensures CellOf(frame, present[k], period, ItemRow(present[k], sorted)[i])
  {
    var row, item := sorted[i - 1], present[k];
    assert item.column in row.cells;
    assert ItemRow(item, sorted)[i] == item.format(row.cells[item.column]);
    assert row in frame.rows;
  }

  /** With quarters 1 to 4, two periods have the same label exactly when they are the same
      period. */
  lemma PeriodLabelInjective(y1: int, q1: int, y2: int, q2: int)
    requires 1 <= q1 <= 4 && 1 <= q2 <= 4
    ensures PeriodLabel(y1, q1) == PeriodLabel(y2, q2) <==> y1 == y2 && q1 == q2
  {
    if PeriodLabel(y1, q1) == PeriodLabel(y2, q2) {
      var a, b := PeriodLabel(y1, q1), PeriodLabel(y2, q2);
      assert IntToString(q1) == [DigitChar(q1)] && IntToString(q2) == [DigitChar(q2)];
      assert a[|a| - 1] == DigitChar(q1) && b[|b| - 1] == DigitChar(q2);
      assert a[..|a| - 3] == IntToString(y1) && b[..|b| - 3] == IntToString(y2);
      IntToStringInjective(y1, y2);
    }
  }

  /** When the pivot succeeds with an item to show, its period columns run strictly latest
      first. */
  lemma PivotLatestFirst<V>(frame: Frame<V>, items: seq<Item<V>>)
    requires WellFormed(frame) && |Present(items, frame.columns)| > 0 && Pivot(frame, items).Success?
    ensures var sorted := SortedRows(frame);
      Pivot(frame, items).value.columns[1..] == Labels(sorted) &&
      forall i, j :: 0 <= i < j < |sorted| ==> QuarterKey(sorted[i].year, sorted[i].quarter) > QuarterKey(sorted[j].year, sorted[j].quarter)
  {
    assert NoDuplicates(Labels(SortedRows(frame)));
    DistinctPeriodsStrict(frame);
  }

  /** Sorted rows whose labels all differ are strictly latest first. */
  lemma DistinctPeriodsStrict<V>(frame: Frame<V>)
    requires WellFormed(frame) && NoDuplicates(Labels(SortedRows(frame)))
    ensures var sorted := SortedRows(frame);
      forall i, j :: 0 <= i < j < |sorted| ==> QuarterKey(sorted[i].year, sorted[i].quarter) > QuarterKey(sorted[j].year, sorted[j].quarter)
  {
    var sorted := SortedRows(frame);
    var labels := Labels(sorted);
    forall i, j | 0 <= i < j < |sorted|
      ensures QuarterKey(sorted[i].year, sorted[i].quarter) > QuarterKey(sorted[j].year, sorted[j].quarter)
    {
      var a :| 0 <= a < |frame.rows| && frame.rows[a] == sorted[i];
      var b :| 0 <= b < |frame.rows| && frame.rows[b] == sorted[j];
      assert labels[i] != labels[j];
      PeriodLabelInjective(sorted[i].year, sorted[i].quarter, sorted[j].year, sorted[j].quarter);
      QuarterKeyInjective(sorted[i].year, sorted[i].quarter, sorted[j].year, sorted[j].quarter);
    }
  }

  /** With quarters 1 to 4, different periods have different quarter counts. */
  lemma QuarterKeyInjective(y1: int, q1: int, y2: int, q2: int)
    requires 1 <= q1 <= 4 && 1 <= q2 <= 4
    ensures QuarterKey(y1, q1) == QuarterKey(y2, q2) <==> y1 == y2 && q1 == q2
  {
  }

  /** The quarterly tables: an empty frame gives just the 'Item' column. */
  function TransformQuarterly<V>(frame: Frame<V>, items: seq<Item<V>>): (r: Result<Table<seq<string>>>)
    requires WellFormed(frame)
    ensures |frame.rows| == 0 ==> r == Success(Table(["Item"], []))
    ensures |frame.rows| > 0 ==> r == Pivot(frame, items)
    ensures r.Failure? <==> |frame.rows| > 0 && |Present(items, frame.columns)| > 0 && !NoDuplicates(Labels(SortedRows(frame)))
    ensures |frame.rows| > 0 && r.Success? ==>
      r.value.columns == ["Item"] + Distinct(Labels(SortedRows(frame))) && Pivoted(frame, Present(items, frame.columns), r.value)
  {
    if |frame.rows| == 0 then Success(Table(["Item"], [])) else Pivot(frame, items)
  }

  // ---------------------------------------------------------------- number formatting

  /** Digits with a comma before every group of three counted from the right. */
  predicate ThousandsGrouped(s: string) {
    |s| % 4 != 0 &&
    forall i :: 0 <= i < |s| ==> if (|s| - i) % 4 == 0 then s[i] == ',' else IsDigit(s[i])
  }

  /** f'{n:,}' on the digits of a non-negative number. */
  function GroupThousands(d: string): (r: string)
    requires |d| >= 1 && AllDigits(d)
    ensures ThousandsGrouped(r)
    ensures Without(r, ',') == d
    decreases |d|
  {
    if |d| <= 3 then
      ShortGrouped(d);
      d
    else
      var head, tail := d[..|d| - 3], d[|d| - 3..];
      SplitDigits(d);
      var g := GroupThousands(head);
      GroupJoin(g, head, tail);
      g + "," + tail
  }

  lemma ShortGrouped(d: string)
    requires 1 <= |d| <= 3 && AllDigits(d)
    ensures ThousandsGrouped(d) && Without(d, ',') == d
  {
    NoCommaKept(d);
    ShortNoComma(d);
  }

  lemma ShortNoComma(d: string)
    requires 1 <= |d| <= 3 && AllDigits(d)
    ensures ThousandsGrouped(d)
  {
    var n := |d|;
    assert n % 4 == n;
    forall i | 0 <= i < n ensures if (n - i) % 4 == 0 then d[i] == ',' else IsDigit(d[i]) {
      var k := n - i;
      assert 1 <= k <= 3;
      assert k % 4 == k;
    }
  }

  lemma SplitDigits(d: string)
    requires |d| > 3 && AllDigits(d)
    ensures AllDigits(d[..|d| - 3]) && AllDigits(d[|d| - 3..]) && d[..|d| - 3] + d[|d| - 3..] == d
  {
  }

  lemma {:induction false} NoCommaKept(d: string)
    requires AllDigits(d)
    ensures Without(d, ',') == d
  {
    if |d| > 0 {
      NoCommaKept(d[..|d| - 1]);
      assert d[..|d| - 1] + [d[|d| - 1]] == d;
    }
  }

  /** One more group of three digits after a comma keeps the grouping and the digits. */
  lemma GroupJoin(g: string, head: string, tail: string)
    requires ThousandsGrouped(g) && Without(g, ',') == head && |tail| == 3 && AllDigits(tail)
    ensures ThousandsGrouped(g + "," + tail) && Without(g + "," + tail, ',') == head + tail
  {
    WithoutAppend(g + ",", tail, ',');
    WithoutAppend(g, ",", ',');
    NoCommaKept(tail);
    assert Without(",", ',') == [];
    GroupStep(g, tail);
  }

  lemma GroupStep(g: string, tail: string)
    requires ThousandsGrouped(g) && |tail| == 3 && AllDigits(tail)
    ensures ThousandsGrouped(g + "," + tail)
  {
    var r := g + "," + tail;
    forall i | 0 <= i < |r| ensures if (|r| - i) % 4 == 0 then r[i] == ',' else IsDigit(r[i]) {
      if i < |g| {
        assert r[i] == g[i] && (|r| - i) % 4 == (|g| - i) % 4;
      } else if i > |g| {
        assert r[i] == tail[i - |g| - 1];
      }
    }
  }

  /** The integer with its sign and with thousands separators. */
  function SignedGrouped(n: int): string {
    (if n < 0 then "-" else "") + GroupThousands(NatToString(if n < 0 then -n else n))
  }

  /** The separators aside, the text is str(n), and it reads back as n. */
  lemma SignedGroupedReadsBack(n: int)
    ensures |SignedGrouped(n)| > 0 && (SignedGrouped(n)[0] == '-' <==> n < 0)
    ensures ThousandsGrouped(if n < 0 then SignedGrouped(n)[1..] else SignedGrouped(n))
    ensures Without(SignedGrouped(n), ',') == IntToString(n)
    ensures ParseInt(Without(SignedGrouped(n), ',')) == Some(n)
  {
    var grouped := GroupThousands(NatToString(if n < 0 then -n else n));
    if n < 0 {
      NegativeGrouped(grouped);
      assert SignedGrouped(n) == "-" + grouped;
    } else {
      assert SignedGrouped(n) == grouped;
    }
    ParseIntToString(n);
  }

  /** A sign in front of grouped digits is kept when the separators are dropped. */
  lemma NegativeGrouped(grouped: string)
    requires ThousandsGrouped(grouped)
    ensures Without("-" + grouped, ',') == "-" + Without(grouped, ',')
    ensures ("-" + grouped)[1..] == grouped
  {
    WithoutAppend("-", grouped, ',');
    assert Without("-", ',') == Without("", ',') + "-";
  }

  /** format_number: an empty text for a missing value (NaN), otherwise the integer with its
      sign and with thousands separators. */
  function FormatNumber(value: Option<int>): (r: string)
    ensures value.None? ==> r == ""
    ensures value.Some? ==> |r| > 0 && (r[0] == '-' <==> value.value < 0)
    ensures value.Some? ==> ThousandsGrouped(if value.value < 0 then r[1..] else r)
    ensures value.Some? ==> ParseInt(Without(r, ',')) == value
  {
    match value
    case None => ""
    case Some(n) =>
      SignedGroupedReadsBack(n);
      SignedGrouped(n)
  }
}

=== FILE: monthly_revenues.dfy ===
/** The monthly-revenue fetcher's pure rules: request validation, the published file's name,
    the latest month with revenues, the local file name and the month-by-month history walk. */
module MonthlyRevenues {
  import opened Wrappers
  import opened Text
  import opened Calendar
  import opened HistoryTally
  import QuarterlyReports

  /** Where a month's revenues of a market are published: the market's exchange code and the
      file name. */
  datatype Source = Source(marketId: string, fileName: string)

  /** The published file of a month: 't21sc03_{Minguo year}_{month}.csv', the month without a
      leading zero. */
  function RemoteFileName(year: int, month: int): string
    requires year >= 1911 && month >= 0
  {
    "t21sc03_" + NatToString(year - 1911) + "_" + NatToString(month) + ".csv"
  }

  /** Check the arguments in the order the fetcher does and name the file to fetch. */
  function ValidateRequest(market: string, year: int, month: int): (r: Result<Source>)
    ensures r.Success? <==> QuarterlyReports.MarketId(market).Some? && year >= 2013 && 1 <= month <= 12
    ensures QuarterlyReports.MarketId(market).None? ==> r == Failure("Not support market '" + market + "'")
    ensures QuarterlyReports.MarketId(market).Some? && year < 1962 ==> r == Failure("Invalid year '" + IntToString(year) + "'")
    ensures QuarterlyReports.MarketId(market).Some? && 1962 <= year < 2013 ==>
      r == Failure("Only HTML data is available in '" + IntToString(year) + "' which not supported")
    ensures r.Success? ==> r.value == Source(QuarterlyReports.MarketId(market).value, RemoteFileName(year, month))
  {
    if QuarterlyReports.MarketId(market).None? then Failure("Not support market '" + market + "'")
    else if year < 1962 then Failure("Invalid year '" + IntToString(year) + "'")
    else if year < 2013 then Failure("Only HTML data is available in '" + IntToString(year) + "' which not supported")
    else if month < 1 || month > 12 then Failure("Invalid month '" + IntToString(month) + "'")
    else Success(Source(QuarterlyReports.MarketId(market).value, RemoteFileName(year, month)))
  }

  /** Two digit runs each followed by the same non-digit separator split the same way. */
  lemma {:induction false} SplitAfterDigits(a1: string, b1: string, a2: string, b2: string, sep: char)
    requires AllDigits(a1) && AllDigits(a2) && !IsDigit(sep)
    requires a1 + [sep] + b1 == a2 + [sep] + b2
    ensures a1 == a2 && b1 == b2
  {
    var s := a1 + [sep] + b1;
    assert s[|a1|] == sep && (a2 + [sep] + b2)[|a2|] == sep;
    assert |a1| == |a2|;
    assert a1 == s[..|a1|] == a2;
    assert b1 == s[|a1| + 1..] == b2;
  }

  /** Different months have different published file names. */
  lemma RemoteFileNameInjective(y1: int, m1: int, y2: int, m2: int)
    requires y1 >= 1911 && y2 >= 1911 && m1 >= 0 && m2 >= 0
    ensures RemoteFileName(y1, m1) == RemoteFileName(y2, m2) <==> y1 == y2 && m1 == m2
  {
    if RemoteFileName(y1, m1) == RemoteFileName(y2, m2) {
      NameSplits("t21sc03_", NatToString(y1 - 1911), NatToString(m1), NatToString(y2 - 1911), NatToString(m2), ".csv");
      NatToStringInjective(y1 - 1911, y2 - 1911);
      NatToStringInjective(m1, m2);
    }
  }

  /** A name made of a fixed prefix, a digit run, '_', a field and a fixed suffix gives back
      the digit run and the field. */
  lemma NameSplits(p: string, a1: string, b1: string, a2: string, b2: string, sfx: string)
    requires AllDigits(a1) && AllDigits(a2)
    requires p + a1 + "_" + b1 + sfx == p + a2 + "_" + b2 + sfx
    ensures a1 == a2 && b1 == b2
  {
    var x1, x2 := p + a1 + "_" + b1 + sfx, p + a2 + "_" + b2 + sfx;
    assert x1[|p|..|x1| - |sfx|] == a1 + ['_'] + b1;
    assert x2[|p|..|x2| - |sfx|] == a2 + ['_'] + b2;
    SplitAfterDigits(a1, b1, a2, b2, '_');
  }

  /** The month before the current one: the latest month whose revenues are published. */
  function LastRevenueYearMonth(today: Date): (r: (int, int))
    requires ValidDate(today)
    ensures 1 <= r.1 <= 12
    ensures MonthIndex(r.0, r.1) == MonthIndex(today.year, today.month) - 1
    ensures NextMonth(r.0, r.1) == (today.year, today.month)
  {
    if today.month == 1 then (today.year - 1, 12) else (today.year, today.month - 1)
  }

  /** The local copy of a month: 'revenues_{YYYY}{MM}.csv', the month zero-padded. */
  function LocalFileName(year: int, month: nat): string {
    "revenues_" + IntToString(year) + Pad2(month) + ".csv"
  }

  /** For four-digit years the six characters after the prefix read back as the year and the
      month, so the local names of different months differ. */
  lemma LocalFileNameRoundTrip(year: int, month: int)
    requires 1000 <= year <= 9999 && 1 <= month <= 12
    ensures var stamp := LocalFileName(year, month)[9..15];
            AllDigits(stamp) && ParseDigits(stamp[..4]) == year && ParseDigits(stamp[4..]) == month
  {
    var y, m := IntToString(year), Pad2(month);
    FourDigitYear(year);
    TwoDigitMonth(month);
    Middle("revenues_", y, m, ".csv");
  }

  lemma Middle(p: string, y: string, m: string, q: string)
    ensures (p + y + m + q)[|p|..|p| + |y| + |m|][..|y|] == y
    ensures (p + y + m + q)[|p|..|p| + |y| + |m|][|y|..] == m
  {
    assert (p + y + m + q)[|p|..|p| + |y| + |m|] == y + m;
  }

  lemma FourDigitYear(year: int)
    requires 1000 <= year <= 9999
    ensures |IntToString(year)| == 4 && AllDigits(IntToString(year)) && ParseDigits(IntToString(year)) == year
  {
    assert IntToString(year) == NatToString(year);
    assert Pow10(3) == 1000 && Pow10(4) == 10000;
    NatToStringLength(year, 4);
    ParseNatToString(year);
  }

  lemma TwoDigitMonth(month: int)
    requires 0 <= month < 100
    ensures |Pad2(month)| == 2 && AllDigits(Pad2(month)) && ParseDigits(Pad2(month)) == month
  {
    assert Pow10(2) == 100;
    NatToStringShort(month, 2, 100);
    ParseZeroFill(month, 2);
  }

  /** Two (year, month) pairs with months in 1..12 are the same month iff their indices agree. */
  lemma MonthIndexInjective(y1: int, m1: int, y2: int, m2: int)
    requires 1 <= m1 <= 12 && 1 <= m2 <= 12
    ensures MonthIndex(y1, m1) == MonthIndex(y2, m2) <==> y1 == y2 && m1 == m2
  {
  }

  /** Walk the months from (startYear, startMonth) to (endYear, endMonth), fetching each whose
      file is not already there, and count what happened. Returns the months in visiting order
      with the downloaded, failed and visited counts. A start past the end visits nothing,
      where the code as written never stops (MonthLoopNeverExits). */
  method StepMonths(startYear: int, startMonth: int, endYear: int, endMonth: int, outcome: ((int, int)) -> Outcome)
    returns (visited: seq<(int, int)>, downloaded: nat, failed: nat, count: nat)
    requires 1 <= startMonth <= 12 && 1 <= endMonth <= 12
    ensures count == |visited| ==
      if MonthIndex(startYear, startMonth) <= MonthIndex(endYear, endMonth)
      then MonthIndex(endYear, endMonth) - MonthIndex(startYear, startMonth) + 1 else 0
    ensures forall i :: 0 <= i < |visited| ==>
      1 <= visited[i].1 <= 12 && MonthIndex(visited[i].0, visited[i].1) == MonthIndex(startYear, startMonth) + i
    ensures |visited| > 0 ==> visited[0] == (startYear, startMonth) && visited[|visited| - 1] == (endYear, endMonth)
    ensures downloaded == Count(visited, outcome, Downloaded) && failed == Count(visited, outcome, Failed)
    ensures count - failed == Count(visited, outcome, Present) + Count(visited, outcome, Downloaded)
  {
    var first := MonthIndex(startYear, startMonth);
    var year, month := startYear, startMonth;
    visited, downloaded, failed, count := [], 0, 0, 0;
    if first > MonthIndex(endYear, endMonth) {
      return;
    }
    while true
      invariant 1 <= month <= 12
      invariant MonthIndex(year, month) == first + |visited| <= MonthIndex(endYear, endMonth)
      invariant count == |visited|
      invariant forall i :: 0 <= i < |visited| ==> 1 <= visited[i].1 <= 12 && MonthIndex(visited[i].0, visited[i].1) == first + i
      invariant |visited| == 0 ==> year == startYear && month == startMonth
      invariant |visited| > 0 ==> visited[0] == (startYear, startMonth)
      invariant downloaded == Count(visited, outcome, Downloaded) && failed == Count(visited, outcome, Failed)
      decreases MonthIndex(endYear, endMonth) - MonthIndex(year, month)
    {
      visited, downloaded, failed := Tally(visited, (year, month), outcome, downloaded, failed);
      count := count + 1;
      if year == endYear && month == endMonth {
        break;
      }
      MonthIndexInjective(year, month, endYear, endMonth);
      if month == 12 {
        year, month := year + 1, 1;
      } else {
        month := month + 1;
      }
    }
    CountsPartition(visited, outcome);
  }

  /** The history download: from the month of `start` to the month before `today`; nothing
      when `start` lies in today's month or later. */
  method DownloadHistory(start: Date, today: Date, outcome: ((int, int)) -> Outcome)
    returns (visited: seq<(int, int)>, downloaded: nat, failed: nat, count: nat)
    requires ValidDate(start) && ValidDate(today)
    ensures count == |visited| ==
      if MonthIndex(start.year, start.month) < MonthIndex(today.year, today.month)
      then MonthIndex(today.year, today.month) - MonthIndex(start.year, start.month) else 0
    ensures |visited| > 0 ==> visited[0] == (start.year, start.month) && visited[|visited| - 1] == LastRevenueYearMonth(today)
    ensures forall i :: 0 <= i < |visited| ==> 1 <= visited[i].1 <= 12
    ensures forall i :: 0 <= i < |visited| - 1 ==> visited[i + 1] == NextMonth(visited[i].0, visited[i].1)
    ensures downloaded == Count(visited, outcome, Downloaded) && failed == Count(visited, outcome, Failed)
  {
    var last := LastRevenueYearMonth(today);
    visited, downloaded, failed, count := StepMonths(start.year, start.month, last.0, last.1, outcome);
    forall i | 0 <= i < |visited| - 1 ensures visited[i + 1] == NextMonth(visited[i].0, visited[i].1) {
      var n := NextMonth(visited[i].0, visited[i].1);
      MonthIndexInjective(n.0, n.1, visited[i + 1].0, visited[i + 1].1);
    }
  }
  /** As written, the loop leaves only when the month it has just visited is the end month, so
      from a start past the end it never leaves: no month it reaches is the end. */
  lemma MonthLoopNeverExits(startYear: int, startMonth: int, endYear: int, endMonth: int, n: nat)
    requires 1 <= startMonth <= 12 && 1 <= endMonth <= 12
    requires MonthIndex(startYear, startMonth) > MonthIndex(endYear, endMonth)
    ensures MonthAfter(startYear, startMonth, n) != (endYear, endMonth)
  {
    MonthAfterIndex(startYear, startMonth, n);
  }

  /** A start date in today's month lies past the latest month published: the download as
      written never stops, and the corrected one visits nothing. */
  lemma DownloadFromTodaysMonth(start: Date, today: Date)
    requires ValidDate(start) && ValidDate(today)
    requires start.year == today.year && start.month == today.month
    ensures forall n: nat :: MonthAfter(start.year, start.month, n) != LastRevenueYearMonth(today)
  {
    var last := LastRevenueYearMonth(today);
    forall n: nat ensures MonthAfter(start.year, start.month, n) != last {
      MonthLoopNeverExits(start.year, start.month, last.0, last.1, n);
    }
  }
}

=== FILE: patterns.dfy ===
/** The fixed-shape regular expressions the file-name parsers use: literal characters,
    single digits and the '.' wildcard, found where re.search finds them (the leftmost place
    they match). */
module Patterns {
  import opened Wrappers
  import opened Text

  /** One position of a pattern: a literal character, an ASCII digit '0'..'9' (what [0-9]
      means; a \d is read the same way here, although Python's \d also matches the other
      Unicode decimal digits), or an unescaped '.' (any character but a newline). */
  datatype Tok = Lit(c: char) | Digit | AnyChar

  function Lits(s: string): (p: seq<Tok>)
    ensures |p| == |s| && forall i :: 0 <= i < |s| ==> p[i] == Lit(s[i])
  {
    seq(|s|, i requires 0 <= i < |s| => Lit(s[i]))
  }

  function Digits(n: nat): (p: seq<Tok>)
    ensures |p| == n && forall i :: 0 <= i < n ==> p[i] == Digit
  {
    seq(n, i => Digit)
  }

  predicate TokMatches(t: Tok, c: char) {
    match t
    case Lit(l) => c == l
    case Digit => IsDigit(c)
    case AnyChar => c != '\n'
  }

  predicate MatchAt(s: string, i: nat, p: seq<Tok>) {
    i + |p| <= |s| && forall j :: 0 <= j < |p| ==> TokMatches(p[j], s[i + j])
  }

  /** re.search from position `from`: the leftmost place at or after it where `p` matches. */
  function Search(s: string, p: seq<Tok>, from: nat): (r: Option<nat>)
    ensures r.Some? ==> from <= r.value && MatchAt(s, r.value, p)
    ensures r.Some? ==> forall i :: from <= i < r.value ==> !MatchAt(s, i, p)
    ensures r.None? ==> forall i :: from <= i ==> !MatchAt(s, i, p)
    decreases |s| - from
  {
    if from + |p| > |s| then None
    else if MatchAt(s, from, p) then Some(from)
    else Search(s, p, from + 1)
  }

  /** A match of literal text pins the characters down. */
  lemma LitsMatch(s: string, i: nat, lit: string)
    requires MatchAt(s, i, Lits(lit))
    ensures s[i..i + |lit|] == lit
  {
    var w, p := s[i..i + |lit|], Lits(lit);
    forall j | 0 <= j < |lit| ensures w[j] == lit[j] {
      assert TokMatches(p[j], s[i + j]);
    }
  }

  /** A run of digit tokens matches exactly where the text holds digits. */
  lemma DigitsMatch(s: string, i: nat, n: nat)
    requires i + n <= |s|
    ensures MatchAt(s, i, Digits(n)) <==> AllDigits(s[i..i + n])
  {
    var d, w := Digits(n), s[i..i + n];
    if MatchAt(s, i, d) {
      forall j | 0 <= j < n ensures IsDigit(w[j]) {
        assert TokMatches(d[j], s[i + j]);
      }
    }
    if AllDigits(w) {
      forall j | 0 <= j < |d| ensures TokMatches(d[j], s[i + j]) {
        assert w[j] == s[i + j];
      }
    }
  }

  /** The characters under a run of digit tokens of a match are digits. */
  lemma MatchedDigits(s: string, i: nat, p: seq<Tok>, off: nat, n: nat)
    requires MatchAt(s, i, p) && off + n <= |p|
    requires forall j :: off <= j < off + n ==> p[j] == Digit
    ensures AllDigits(s[i + off..i + off + n])
  {
    var w := s[i + off..i + off + n];
    forall j | 0 <= j < n ensures IsDigit(w[j]) {
      assert TokMatches(p[off + j], s[i + off + j]);
    }
  }
}

=== FILE: period_keys.dfy ===
/** The comparable period keys of StockDatabase: year*10 + quarter for financial reports
    and year*100 + month for monthly revenue, used in range queries and in the summary of
    the database. */
module PeriodKeys {
  import opened Wrappers
  import opened Text
  import opened Calendar

  /** year*10 + quarter. */
  function QuarterKey(year: int, quarter: int): int {
    year * 10 + quarter
  }

  /** year*100 + month. */
  function MonthKey(year: int, month: int): int {
    year * 100 + month
  }

  /** key // 10 and key % 10. For a positive divisor Python's floor division agrees with
      Dafny's Euclidean division, negative keys included. */
  function DecodeQuarterKey(k: int): (p: (int, int))
    ensures 0 <= p.1 < 10
    ensures QuarterKey(p.0, p.1) == k
  {
    (k / 10, k % 10)
  }

  function DecodeMonthKey(k: int): (p: (int, int))
    ensures 0 <= p.1 < 100
    ensures MonthKey(p.0, p.1) == k
  {
    (k / 100, k % 100)
  }

  /** A stored quarter is one digit, so decoding gives back the year and quarter. */
  lemma QuarterKeyRoundTrip(year: int, quarter: int)
    requires 0 <= quarter < 10
    ensures DecodeQuarterKey(QuarterKey(year, quarter)) == (year, quarter)
  {
    var p := DecodeQuarterKey(QuarterKey(year, quarter));
    assert (p.0 - year) * 10 == quarter - p.1;
  }

  lemma MonthKeyRoundTrip(year: int, month: int)
    requires 0 <= month < 100
    ensures DecodeMonthKey(MonthKey(year, month)) == (year, month)
  {
    var p := DecodeMonthKey(MonthKey(year, month));
    assert (p.0 - year) * 100 == month - p.1;
  }

  /** Key order is the (year, quarter) order, so BETWEEN on keys selects a span of periods. */
  lemma QuarterKeyOrder(y1: int, q1: int, y2: int, q2: int)
    requires 0 <= q1 < 10 && 0 <= q2 < 10
    ensures QuarterKey(y1, q1) <= QuarterKey(y2, q2) <==> y1 < y2 || (y1 == y2 && q1 <= q2)
  {
  }

  lemma MonthKeyOrder(y1: int, m1: int, y2: int, m2: int)
    requires 0 <= m1 < 100 && 0 <= m2 < 100
    ensures MonthKey(y1, m1) <= MonthKey(y2, m2) <==> y1 < y2 || (y1 == y2 && m1 <= m2)
  {
  }

  /** get_financial_by_code: the reports from the quarter of `start` to the quarter of `end`
      (today when no end is given), by key. */
  predicate InQuarterRange(start: Date, end: Date, year: int, quarter: int)
    requires 1 <= start.month <= 12 && 1 <= end.month <= 12
  {
    QuarterKey(start.year, QuarterOfMonth(start.month)) <= QuarterKey(year, quarter) <= QuarterKey(end.year, QuarterOfMonth(end.month))
  }

  /** A report of a real quarter is in the range exactly when its quarter lies between the
      quarters that contain the two dates. */
  lemma QuarterRangeMeaning(start: Date, end: Date, year: int, quarter: int)
    requires ValidDate(start) && ValidDate(end) && 1 <= quarter <= 4
    ensures InQuarterRange(start, end, year, quarter) <==>
      QuarterIndex(start.year, QuarterOfMonth(start.month)) <= QuarterIndex(year, quarter) <= QuarterIndex(end.year, QuarterOfMonth(end.month))
  {
    QuarterKeyOrder(start.year, QuarterOfMonth(start.month), year, quarter);
    QuarterKeyOrder(year, quarter, end.year, QuarterOfMonth(end.month));
  }

  /** get_revenue_by_code: the months from the month of `start` to the month of `end`. */
  predicate InMonthRange(start: Date, end: Date, year: int, month: int) {
    MonthKey(start.year, start.month) <= MonthKey(year, month) <= MonthKey(end.year, end.month)
  }

  lemma MonthRangeMeaning(start: Date, end: Date, year: int, month: int)
    requires ValidDate(start) && ValidDate(end) && 1 <= month <= 12
    ensures InMonthRange(start, end, year, month) <==>
      MonthIndex(start.year, start.month) <= MonthIndex(year, month) <= MonthIndex(end.year, end.month)
  {
    MonthKeyOrder(start.year, start.month, year, month);
    MonthKeyOrder(year, month, end.year, end.month);
  }

  /** The summary labels: '{key // 10}-Q{key % 10}' and '{key // 100}-{key % 100:02d}'. */
  function QuarterLabel(k: int): (s: string)
    ensures |s| >= 4 && s[|s| - 3..|s| - 1] == "-Q" && IsDigit(s[|s| - 1])
  {
    var p := DecodeQuarterKey(k);
    IntToString(p.0) + "-Q" + [DigitChar(p.1)]
  }

  function MonthLabel(k: int): (s: string)
    ensures |s| >= 4 && s[|s| - 3] == '-' && AllDigits(s[|s| - 2..])
  {
    var p := DecodeMonthKey(k);
    NatToStringShort(p.1, 2, 100);
    var mm := Pad2(p.1);
    assert |mm| == 2 && AllDigits(mm);
    var s := IntToString(p.0) + "-" + mm;
    assert s[|s| - 2..] == mm;
    s
  }

  /** The label of a stored quarter spells its year, '-Q' and its quarter digit. */
  lemma QuarterLabelOfKey(year: int, quarter: int)
    requires 0 <= quarter < 10
    ensures QuarterLabel(QuarterKey(year, quarter)) == IntToString(year) + "-Q" + [DigitChar(quarter)]
  {
    QuarterKeyRoundTrip(year, quarter);
  }

  /** The label of a stored month spells its year, '-' and its month on two digits. */
  lemma MonthLabelOfKey(year: int, month: int)
    requires 0 <= month < 100
    ensures MonthLabel(MonthKey(year, month)) == IntToString(year) + "-" + Pad2(month)
  {
    MonthKeyRoundTrip(year, month);
  }

  /** Different stored quarters get different labels, so the summary never shows two
      periods under one name. */
  lemma QuarterLabelInjective(y1: int, q1: int, y2: int, q2: int)
    requires 0 <= q1 < 10 && 0 <= q2 < 10
    ensures QuarterLabel(QuarterKey(y1, q1)) == QuarterLabel(QuarterKey(y2, q2)) <==> y1 == y2 && q1 == q2
  {
    QuarterLabelOfKey(y1, q1);
    QuarterLabelOfKey(y2, q2);
    var a, b := IntToString(y1) + "-Q" + [DigitChar(q1)], IntToString(y2) + "-Q" + [DigitChar(q2)];
    if a == b {
      assert a[|a| - 1] == DigitChar(q1) && b[|b| - 1] == DigitChar(q2);
      assert a[..|a| - 3] == IntToString(y1) && b[..|b| - 3] == IntToString(y2);
      IntToStringInjective(y1, y2);
    }
  }

  /** The smallest key of a table is the earliest period and the largest the latest. */
  lemma EarliestKeyIsEarliestMonth(periods: seq<(int, int)>, i: nat)
    requires i < |periods| && forall j :: 0 <= j < |periods| ==> 0 <= periods[j].1 < 100
    requires forall j :: 0 <= j < |periods| ==> MonthKey(periods[i].0, periods[i].1) <= MonthKey(periods[j].0, periods[j].1)
    ensures forall j :: 0 <= j < |periods| ==>
      periods[i].0 < periods[j].0 || (periods[i].0 == periods[j].0 && periods[i].1 <= periods[j].1)
  {
    forall j | 0 <= j < |periods|
      ensures periods[i].0 < periods[j].0 || (periods[i].0 == periods[j].0 && periods[i].1 <= periods[j].1)
    {
      MonthKeyOrder(periods[i].0, periods[i].1, periods[j].0, periods[j].1);
    }
  }
}

=== FILE: quarterly_reports.dfy ===
/** The quarterly financial-statement fetcher's pure rules: request validation, the guess of
    the industry sector each published table belongs to, which tables are kept, the renaming,
    dropping and ordering of columns, and the last quarter whose reports are due. */
module QuarterlyReports {
  import opened Wrappers
  import opened Text
  import opened Calendar
  import opened Sorting
  import opened ReportColumns
  import opened HistoryTally
  import opened Filtering

  /* ---------------------------------------------------------------- request */

  /** The exchange code the statement service uses for a market. */
  function MarketId(market: string): Option<string> {
    if market == "tse" then Some("sii")
    else if market == "otc" then Some("otc")
    else if market == "esb" then Some("rotc")
    else None
  }

  /** The service's table number for a statement. */
  function StatementId(statement: string): Option<string> {
    if statement == "income" then Some("04")
    else if statement == "balance" then Some("05")
    else if statement == "cash" then Some("20")
    else if statement == "ratio" then Some("06")
    else None
  }

  /** The `sectors` argument: nothing, a single sector name, or a list of them. */
  datatype SectorArg = NoSectors | OneSector(name: string) | SectorList(names: seq<string>)

  /** The six industry sectors: banking, securities, general, financial holding, insurance
      and other. */
  const AllSectors: seq<string> := ["basi", "bd", "ci", "fh", "ins", "mim"]

  /** The sectors a request asks for: all six when none is given, a single name wrapped. */
  function RequestedSectors(arg: SectorArg): (r: seq<string>)
    ensures arg.NoSectors? ==> forall s :: s in r <==> s in AllSectors
    ensures arg.OneSector? ==> forall s :: s in r <==> s == arg.name
    ensures arg.SectorList? ==> r == arg.names
  {
    match arg
    case NoSectors => AllSectors
    case OneSector(name) => [name]
    case SectorList(names) => names
  }

  /** The form fields of a statement query. */
  datatype Request = Request(marketId: string, dataId: string, year: string, season: string, sectors: seq<string>)

  /** Check the arguments in the order the fetcher does and build the query: the year is sent
      in the Minguo calendar and the quarter as a two-character season. */
  function ValidateRequest(market: string, year: int, quarter: int, statement: string, arg: SectorArg): (r: Result<Request>)
    ensures r.Success? <==> MarketId(market).Some? && year >= 2013 && 1 <= quarter <= 4 && StatementId(statement).Some?
    ensures MarketId(market).None? ==> r == Failure("Not support market '" + market + "'")
    ensures MarketId(market).Some? && year < 1962 ==> r == Failure("Invalid year '" + IntToString(year) + "'")
    ensures MarketId(market).Some? && 1962 <= year < 2013 ==> r == Failure("Old HTML format is not supported")
    ensures r.Success? ==>
      && r.value.marketId == MarketId(market).value
      && r.value.dataId == StatementId(statement).value
      && AllDigits(r.value.year) && ParseDigits(r.value.year) + 1911 == year
      && |r.value.season| == 2 && r.value.season[0] == '0' && IsDigit(r.value.season[1]) && DigitValue(r.value.season[1]) == quarter
      && r.value.sectors == RequestedSectors(arg)
  {
    if MarketId(market).None? then Failure("Not support market '" + market + "'")
    else if year < 1962 then Failure("Invalid year '" + IntToString(year) + "'")
    else if year < 2013 then Failure("Old HTML format is not supported")
    else if quarter < 1 || quarter > 4 then Failure("Invalid quarter '" + IntToString(quarter) + "'")
    else if StatementId(statement).None? then Failure("Not support statement '" + statement + "'")
    else
      ParseNatToString(year - 1911);
      Success(Request(MarketId(market).value, StatementId(statement).value,
                      NatToString(year - 1911), "0" + [DigitChar(quarter)], RequestedSectors(arg)))
  }

  /** Different accepted requests send different (year, season) fields. */
  lemma RequestDeterminesPeriod(m1: string, y1: int, q1: int, s1: string, m2: string, y2: int, q2: int, s2: string, a: SectorArg)
    requires ValidateRequest(m1, y1, q1, s1, a).Success? && ValidateRequest(m2, y2, q2, s2, a).Success?
    requires ValidateRequest(m1, y1, q1, s1, a).value.year == ValidateRequest(m2, y2, q2, s2, a).value.year
    requires ValidateRequest(m1, y1, q1, s1, a).value.season == ValidateRequest(m2, y2, q2, s2, a).value.season
    ensures y1 == y2 && q1 == q2
  {
  }

  /* ---------------------------------------------------------------- sector guess */

  /** A column-title-to-value table; the titles are distinct. */
  function Titles(markers: seq<(string, string)>): set<string> {
    set p | p in markers :: p.0
  }

  /** Scan the columns left to right and give the value of the first one that is a marker. */
  function FirstMarker(names: seq<string>, markers: seq<(string, string)>): (r: Option<string>)
    ensures r.None? <==> forall i :: 0 <= i < |names| ==> names[i] !in Titles(markers)
    ensures r.Some? ==> exists i :: 0 <= i < |names| && (names[i], r.value) in markers &&
                                    forall j :: 0 <= j < i ==> names[j] !in Titles(markers)
  {
    if |names| == 0 then None
    else
      var hit := MarkerValue(names[0], markers);
      if hit.Some? then Some(hit.value)
      else
        var rest := FirstMarker(names[1..], markers);
        assert forall i :: 1 <= i < |names| ==> names[i] == names[1..][i - 1];
        if rest.Some? then
          ghost var i :| 0 <= i < |names[1..]| && (names[1..][i], rest.value) in markers &&
                         forall j :: 0 <= j < i ==> names[1..][j] !in Titles(markers);
          assert (names[i + 1], rest.value) in markers;
          rest
        else rest
  }

  /** The value of `name` in a marker table, if it is one of its titles. */
  function MarkerValue(name: string, markers: seq<(string, string)>): (r: Option<string>)
    ensures r.None? <==> name !in Titles(markers)
    ensures r.Some? ==> (name, r.value) in markers
  {
    if |markers| == 0 then None
    else if markers[0].0 == name then Some(markers[0].1)
    else
      assert Titles(markers) == {markers[0].0} + Titles(markers[1..]);
      MarkerValue(name, markers[1..])
  }

  /** Income-statement titles found only in one sector's layout; "0" marks a table without a
      header, which belongs to no sector. */
  const IncomeFirstPass: seq<(string, string)> :=
    [("0", ""), ("收益", "bd"), ("保險負債準備淨變動", "fh"), ("原始認列生物資產及農產品之利益（損失）", "ci"), ("收入", "mim")]
  const IncomeSecondPass: seq<(string, string)> := [("利息淨收益", "basi"), ("營業收入", "ins")]
  const BalanceFirstPass: seq<(string, string)> :=
    [("0", ""), ("應付商業本票－淨額", "fh"), ("應付金融債券", "basi"), ("分離帳戶保險商品資產", "ins")]

  const CurrentAssets: string := "流動資產"
  const OperatingCashFlow: string := "營業活動之淨現金流入（流出）"
  const RatioRevenue: string := "營業收入 (百萬元)"

  /** A published table: its column titles and its number of company rows. */
  datatype Table = Table(columns: seq<Column>, rows: nat)
  datatype Column = Column(name: string, cells: seq<string>)

  function Names(columns: seq<Column>): (r: seq<string>)
    ensures |r| == |columns|
    ensures forall i :: 0 <= i < |r| ==> r[i] == columns[i].name
  {
    if |columns| == 0 then [] else [columns[0].name] + Names(columns[1..])
  }

  /** The sector names a guess can produce; `other` is the name used for the "other" sector
      when it is told apart only by the table's position. */
  function GuessNames(other: string): set<string> {
    {"", "bd", "fh", "ci", "mim", "basi", "ins", other, "bd_ci_min", "--"}
  }

  /** A small balance table whose position among the published tables does not tell which of
      securities, general or other industry it is. */
  predicate AmbiguousPosition(rows: nat, market: string, index: int, count: int) {
    && rows < 500
    && !(market == "tse" && count == 7 && index in {2, 3, 6})
    && !(market == "otc" && count == 3 && index in {1, 2})
    && !(market == "otc" && count == 4 && index in {1, 2, 3})
  }

  /** Securities, general and other industries share the balance-sheet layout: a large table
      is the general industry, otherwise the table's position among the published tables
      decides, and failing that all three remain possible. */
  function BalanceLayout(rows: nat, market: string, index: int, count: int, other: string): (r: string)
    ensures r in {"ci", "bd", other, "bd_ci_min"}
    ensures rows >= 500 ==> r == "ci"
    ensures AmbiguousPosition(rows, market, index, count) ==> r == "bd_ci_min"
    ensures !AmbiguousPosition(rows, market, index, count) ==> r in {"ci", "bd", other}
  {
    if rows >= 500 then "ci"
    else if market == "tse" && count == 7 then
      (if index == 2 then "bd" else if index == 3 then "ci" else if index == 6 then other else "bd_ci_min")
    else if market == "otc" && count == 3 then
      (if index == 1 then "bd" else if index == 2 then "ci" else "bd_ci_min")
    else if market == "otc" && count == 4 then
      (if index == 1 then "bd" else if index == 2 then "ci" else if index == 3 then other else "bd_ci_min")
    else "bd_ci_min"
  }

  /** The three passes over the column titles, each taking the first title that is one of its
      markers: income-statement markers, then the weaker income markers, then balance-sheet
      markers. */
  function MarkerGuess(names: seq<string>): (r: Option<string>)
    ensures r.Some? ==> r.value in {"", "bd", "fh", "ci", "mim", "basi", "ins"}
    ensures r.None? <==> forall i :: 0 <= i < |names| ==>
      names[i] !in Titles(IncomeFirstPass) && names[i] !in Titles(IncomeSecondPass) && names[i] !in Titles(BalanceFirstPass)
    ensures FirstMarker(names, IncomeFirstPass).Some? ==> r == FirstMarker(names, IncomeFirstPass)
  {
    var income1 := FirstMarker(names, IncomeFirstPass);
    if income1.Some? then
      assert income1.value in {"", "bd", "fh", "ci", "mim"} by { MarkerValues(IncomeFirstPass, income1.value); }
      income1
    else
      var income2 := FirstMarker(names, IncomeSecondPass);
      if income2.Some? then
        assert income2.value in {"basi", "ins"} by { MarkerValues(IncomeSecondPass, income2.value); }
        income2
      else
        var balance1 := FirstMarker(names, BalanceFirstPass);
        assert balance1.Some? ==> balance1.value in {"", "fh", "basi", "ins"} by {
          if balance1.Some? { MarkerValues(BalanceFirstPass, balance1.value); }
        }
        balance1
  }

  /** Tables with none of the marker titles: a balance sheet is told apart by size and
      position, a cash-flow statement by size, and a ratio table is the general industry's. */
  function LayoutGuess(names: seq<string>, rows: nat, market: string, index: int, count: int, other: string): (r: string)
    ensures r in {"ci", "bd", other, "bd_ci_min", "--"}
    ensures CurrentAssets in names && rows >= 500 ==> r == "ci"
    ensures CurrentAssets !in names && OperatingCashFlow !in names && RatioRevenue !in names ==> r == "--"
  {
    if CurrentAssets in names then BalanceLayout(rows, market, index, count, other)
    else if OperatingCashFlow in names then (if rows >= 500 then "ci" else "--")
    else if RatioRevenue in names then "ci"
    else "--"
  }

  /** The sector name the guesser settles on for table number `index` of `count`. */
  function Label(t: Table, market: string, index: int, count: int, other: string): (r: string)
    ensures r in GuessNames(other)
  {
    var names := Names(t.columns);
    match MarkerGuess(names)
    case Some(s) => s
    case None => LayoutGuess(names, t.rows, market, index, count, other)
  }

  /** The guesser reaches one of its two debug prints of the first row's first two cells: for
      an ambiguous balance table, and when no rule applies at all. */
  predicate DebugPrint(t: Table, market: string, index: int, count: int) {
    var names := Names(t.columns);
    && MarkerGuess(names).None?
    && (if CurrentAssets in names then AmbiguousPosition(t.rows, market, index, count)
        else OperatingCashFlow !in names && RatioRevenue !in names)
  }

  /** The debug print reads cell (0, 1), which a table without rows or with one column lacks. */
  predicate GuessFails(t: Table, market: string, index: int, count: int) {
    DebugPrint(t, market, index, count) && (t.rows == 0 || |t.columns| < 2)
  }

  /** The sector of table number `index` of `count` in a reply; the debug print of an empty or
      one-column table raises an index error instead. */
  function GuessSector(t: Table, market: string, index: int, count: int, other: string): (r: Result<string>)
    ensures r.Failure? <==> GuessFails(t, market, index, count)
    ensures r.Success? ==> r.value in GuessNames(other) && r.value == Label(t, market, index, count, other)
  {
    if GuessFails(t, market, index, count) then Failure("single positional indexer is out-of-bounds")
    else Success(Label(t, market, index, count, other))
  }

  /** The guesser prints exactly when it is unsure: when it answers "bd_ci_min", or when it
      answers "--" for a table that is not a cash-flow statement. */
  lemma PrintsWhenUnsure(t: Table, market: string, index: int, count: int, other: string)
    requires other != "bd_ci_min" && other != "--"
    ensures DebugPrint(t, market, index, count) <==>
      Label(t, market, index, count, other) == "bd_ci_min" ||
      (Label(t, market, index, count, other) == "--" && OperatingCashFlow !in Names(t.columns))
  {
  }

  /** An empty balance table of an ambiguous position makes the guess fail. */
  lemma EmptyAmbiguousBalanceFails(t: Table, market: string, index: int, count: int, other: string)
    requires forall c :: c in t.columns ==>
      c.name !in Titles(IncomeFirstPass) && c.name !in Titles(IncomeSecondPass) && c.name !in Titles(BalanceFirstPass)
    requires CurrentAssets in Names(t.columns) && t.rows == 0
    requires AmbiguousPosition(t.rows, market, index, count)
    ensures GuessSector(t, market, index, count, other).Failure?
  {
    NoMarkers(t);
  }

  lemma MarkerValues(markers: seq<(string, string)>, v: string)
    requires exists n :: (n, v) in markers
    ensures exists i :: 0 <= i < |markers| && markers[i].1 == v
  {
  }

  /** The first marker column of the first pass decides the sector, wherever the markers of
      later passes stand. */
  lemma FirstPassDecides(t: Table, market: string, index: int, count: int, other: string, i: nat)
    requires i < |t.columns| && t.columns[i].name in Titles(IncomeFirstPass)
    requires forall j :: 0 <= j < i ==> t.columns[j].name !in Titles(IncomeFirstPass)
    ensures GuessSector(t, market, index, count, other).Success?
    ensures (t.columns[i].name, GuessSector(t, market, index, count, other).value) in IncomeFirstPass
  {
    var names := Names(t.columns);
    var r := FirstMarker(names, IncomeFirstPass);
    var k :| 0 <= k < |names| && (names[k], r.value) in IncomeFirstPass &&
             forall j :: 0 <= j < k ==> names[j] !in Titles(IncomeFirstPass);
    assert names[k] in Titles(IncomeFirstPass);
    assert k == i;
  }

  /** A balance sheet of at least 500 companies with no marker of the earlier passes belongs to
      the general industry. */
  lemma LargeBalanceIsGeneral(t: Table, market: string, index: int, count: int, other: string)
    requires CurrentAssets in Names(t.columns) && t.rows >= 500
    requires forall c :: c in t.columns ==>
      c.name !in Titles(IncomeFirstPass) && c.name !in Titles(IncomeSecondPass) && c.name !in Titles(BalanceFirstPass)
    ensures GuessSector(t, market, index, count, other) == Success("ci")
  {
    NoMarkers(t);
    GuessIsLayout(t, market, index, count, other);
  }

  lemma NotATitle(name: string, markers: seq<(string, string)>)
    requires forall i :: 0 <= i < |markers| ==> |markers[i].0| != |name| || (|name| > 0 && markers[i].0[0] != name[0])
    ensures name !in Titles(markers)
  {
  }

  /* ---------------------------------------------------------------- keeping tables */

  /** A table is kept when its sector was asked for, when its sector is unknown ("--"), or when
      it is one of securities/general/other and any of those was asked for. */
  predicate Kept(sector: string, sectors: seq<string>, other: string) {
    sector in sectors || sector == "--" ||
    (sector == "bd_ci_min" && ("bd" in sectors || "ci" in sectors || other in sectors))
  }

  /** The name the fetcher's position rule gives the "other" industry. */
  const AsWrittenOther: string := "min"
  /** The name every other part of the system uses for it. */
  const OtherIndustry: string := "mim"

  /** With the position rule naming the other industry "min", a default request drops exactly
      the headerless tables and the other-industry tables told apart by position. */
  lemma DefaultRequestAsWritten(t: Table, market: string, index: int, count: int)
    ensures var g := Label(t, market, index, count, AsWrittenOther);
            Kept(g, AllSectors, AsWrittenOther) <==> g != "" && g != AsWrittenOther
  {
    KeptByDefault(Label(t, market, index, count, AsWrittenOther), AsWrittenOther);
  }

  /** Against the default sector list, a guessed name is kept unless it is the empty name or
      a name for the other industry that the list does not hold. */
  lemma KeptByDefault(g: string, other: string)
    requires g in GuessNames(other) && (other == AsWrittenOther || other == OtherIndustry)
    ensures Kept(g, AllSectors, other) <==> g != "" && (g != other || other in AllSectors)
  {
  }

  /** The seventh listed-market balance table, the other industry's, is named "min" and is
      dropped both from a default request and from one that asks for "mim". */
  lemma OtherBalanceDroppedAsWritten(t: Table)
    requires forall c :: c in t.columns ==>
      c.name !in Titles(IncomeFirstPass) && c.name !in Titles(IncomeSecondPass) && c.name !in Titles(BalanceFirstPass)
    requires CurrentAssets in Names(t.columns) && t.rows < 500
    ensures GuessSector(t, "tse", 6, 7, AsWrittenOther) == Success("min")
    ensures !Kept(Label(t, "tse", 6, 7, AsWrittenOther), AllSectors, AsWrittenOther)
    ensures !Kept(Label(t, "tse", 6, 7, AsWrittenOther), [OtherIndustry], AsWrittenOther)
  {
    PositionNamesOther(t, AsWrittenOther);
    AsWrittenOtherDropped();
  }

  /** A small balance table without markers, seventh of seven on the listed market, gets the
      position rule's name for the other industry. */
  lemma PositionNamesOther(t: Table, other: string)
    requires forall c :: c in t.columns ==>
      c.name !in Titles(IncomeFirstPass) && c.name !in Titles(IncomeSecondPass) && c.name !in Titles(BalanceFirstPass)
    requires CurrentAssets in Names(t.columns) && t.rows < 500
    ensures GuessSector(t, "tse", 6, 7, other) == Success(other)
  {
    NoMarkers(t);
    GuessIsLayout(t, "tse", 6, 7, other);
    LayoutOther(Names(t.columns), t.rows, other);
  }

  lemma GuessIsLayout(t: Table, market: string, index: int, count: int, other: string)
    requires MarkerGuess(Names(t.columns)) == None
    ensures Label(t, market, index, count, other) == LayoutGuess(Names(t.columns), t.rows, market, index, count, other)
  {
  }

  lemma LayoutOther(names: seq<string>, rows: nat, other: string)
    requires CurrentAssets in names && rows < 500
    ensures LayoutGuess(names, rows, "tse", 6, 7, other) == other
  {
  }

  lemma NoMarkers(t: Table)
    requires forall c :: c in t.columns ==>
      c.name !in Titles(IncomeFirstPass) && c.name !in Titles(IncomeSecondPass) && c.name !in Titles(BalanceFirstPass)
    ensures MarkerGuess(Names(t.columns)) == None
  {
    var names := Names(t.columns);
    assert forall i :: 0 <= i < |names| ==> names[i] == t.columns[i].name && t.columns[i] in t.columns;
  }

  lemma AsWrittenOtherDropped()
    ensures !Kept(AsWrittenOther, AllSectors, AsWrittenOther)
    ensures !Kept(AsWrittenOther, [OtherIndustry], AsWrittenOther)
  {
    AsWrittenOtherNotASector();
  }

  lemma AsWrittenOtherNotASector()
    ensures AsWrittenOther !in AllSectors && AsWrittenOther != OtherIndustry
    ensures AsWrittenOther != "--" && AsWrittenOther != "bd_ci_min"
  {
    assert AsWrittenOther[2] != OtherIndustry[2];
    assert AsWrittenOther[0] != "ins"[0];
    assert forall i :: 0 <= i < |AllSectors| ==> AllSectors[i] != AsWrittenOther by {
      assert AllSectors[4] == "ins" && AllSectors[5] == OtherIndustry;
    }
  }

  /** Such a table exists: one whose only column is the current-assets total. */
  lemma OtherBalanceExample()
    ensures var t := Table([Column(CurrentAssets, [])], 12);
            CurrentAssets in Names(t.columns) && forall c :: c in t.columns ==>
              c.name !in Titles(IncomeFirstPass) && c.name !in Titles(IncomeSecondPass) && c.name !in Titles(BalanceFirstPass)
  {
    var t := Table([Column(CurrentAssets, [])], 12);
    assert Names(t.columns) == [CurrentAssets];
    CurrentAssetsIsNoMarker();
  }

  lemma CurrentAssetsIsNoMarker()
    ensures CurrentAssets !in Titles(IncomeFirstPass)
    ensures CurrentAssets !in Titles(IncomeSecondPass)
    ensures CurrentAssets !in Titles(BalanceFirstPass)
  {
    assert CurrentAssets[0] == '流';
    NotATitle(CurrentAssets, IncomeFirstPass);
    NotATitle(CurrentAssets, IncomeSecondPass);
    NotATitle(CurrentAssets, BalanceFirstPass);
  }

  /** Naming it "mim" as elsewhere, a default request keeps every table except the headerless
      ones. */
  lemma DefaultRequestKeepsAllSectors(t: Table, market: string, index: int, count: int)
    ensures var g := Label(t, market, index, count, OtherIndustry);
            Kept(g, AllSectors, OtherIndustry) <==> g != ""
  {
    KeptByDefault(Label(t, market, index, count, OtherIndustry), OtherIndustry);
  }

  /* ---------------------------------------------------------------- columns */

  /** Rename the columns that have an entry in the table; other columns keep their title. */
  function RenameColumns(columns: seq<Column>, rename: seq<(string, string)>): (r: seq<Column>)
    ensures |r| == |columns|
    ensures forall i :: 0 <= i < |r| ==> r[i].cells == columns[i].cells
    ensures forall i :: 0 <= i < |r| ==>
      if columns[i].name in Titles(rename) then (columns[i].name, r[i].name) in rename else r[i].name == columns[i].name
  {
    if |columns| == 0 then []
    else
      var v := MarkerValue(columns[0].name, rename);
      [Column(if v.Some? then v.value else columns[0].name, columns[0].cells)] + RenameColumns(columns[1..], rename)
  }

  /** The columns whose title is not in `remove`, in order. */
  function Outside(columns: seq<Column>, remove: seq<string>): (r: seq<Column>)
    ensures forall c :: c in r <==> c in columns && c.name !in remove
  {
    if |columns| == 0 then []
    else (if columns[0].name in remove then [] else [columns[0]]) + Outside(columns[1..], remove)
  }

  /** Drop the listed columns; a listed title that is missing aborts the whole drop. */
  function DropColumns(columns: seq<Column>, remove: seq<string>): (r: seq<Column>)
    ensures r == columns || forall x :: x in remove ==> x in Names(columns) && x !in Names(r)
    ensures (forall x :: x in remove ==> x in Names(columns)) ==> forall x :: x in remove ==> x !in Names(r)
    ensures Outside(r, remove) == Outside(columns, remove)
  {
    if forall x :: x in remove ==> x in Names(columns) then
      var r := Outside(columns, remove);
      OutsideIdempotent(columns, remove);
      assert forall i :: 0 <= i < |r| ==> r[i] in r;
      r
    else columns
  }

  lemma {:induction false} OutsideIdempotent(columns: seq<Column>, remove: seq<string>)
    ensures Outside(Outside(columns, remove), remove) == Outside(columns, remove)
    decreases |columns|
  {
    if |columns| > 0 {
      OutsideIdempotent(columns[1..], remove);
      var head := if columns[0].name in remove then [] else [columns[0]];
      OutsideAppend(head, Outside(columns[1..], remove), remove);
      assert Outside(head, remove) == head by {
        if head != [] { assert head[1..] == []; }
      }
      assert Outside(columns, remove) == head + Outside(columns[1..], remove);
    }
  }

  lemma {:induction false} OutsideAppend(a: seq<Column>, b: seq<Column>, remove: seq<string>)
    ensures Outside(a + b, remove) == Outside(a, remove) + Outside(b, remove)
    decreases |a|
  {
    if |a| == 0 {
      assert a + b == b;
    } else {
      assert (a + b)[0] == a[0] && (a + b)[1..] == a[1..] + b;
      OutsideAppend(a[1..], b, remove);
    }
  }

  /** A statement's rename table and the stored names dropped after renaming. */
  datatype Adjustment = Adjustment(rename: seq<(string, string)>, remove: seq<string>)

  function AdjustmentOf(statement: string): Option<Adjustment> {
    if statement == "income" then Some(Adjustment(IncomeRename, IncomeRemove))
    else if statement == "balance" then Some(Adjustment(BalanceRename, BalanceRemove))
    else if statement == "cash" then Some(Adjustment(CashRename, CashRemove))
    else if statement == "ratio" then Some(Adjustment(RatioRename, RatioRemove))
    else None
  }

  /** Rename a table's columns to the stored names and drop the unused ones, by the statement's
      entry of the adjustment table; an unknown statement (no entry) leaves the table as it is. */
  function AdjustColumns(columns: seq<Column>, adjustment: Option<Adjustment>): (r: seq<Column>)
    ensures adjustment.None? ==> r == columns
    ensures adjustment.Some? ==>
      var a := adjustment.value;
      && (r == RenameColumns(columns, a.rename) || forall x :: x in a.remove ==> x !in Names(r))
      && Outside(r, a.remove) == Outside(RenameColumns(columns, a.rename), a.remove)
  {
    match adjustment
    case None => columns
    case Some(a) => DropColumns(RenameColumns(columns, a.rename), a.remove)
  }

  /** The stored names in the order of the rename table, repeats included. */
  function Sequence(rename: seq<(string, string)>): (r: seq<string>)
    ensures |r| == |rename|
    ensures forall i :: 0 <= i < |r| ==> r[i] == rename[i].1
  {
    if |rename| == 0 then [] else [rename[0].1] + Sequence(rename[1..])
  }

  /** The first position of `name` in `order`, or `|order|` when it is not there. */
  function FirstIndex(order: seq<string>, name: string): (k: nat)
    ensures k <= |order|
    ensures k < |order| ==> order[k] == name && name !in order[..k]
    ensures k == |order| <==> name !in order
  {
    if |order| == 0 then 0
    else if order[0] == name then 0
    else
      var k := FirstIndex(order[1..], name);
      assert order[..k + 1] == [order[0]] + order[1..][..k];
      k + 1
  }

  /** The sort key of a column: its title's first position in `order`. */
  function OrderKey(order: seq<string>): Column -> real {
    (c: Column) => FirstIndex(order, c.name) as real
  }

  /** Order a concatenated table's columns like the statement's rename table; columns it does
      not list go last. An unknown statement (no entry) leaves the table as it is. */
  function SortColumns(columns: seq<Column>, adjustment: Option<Adjustment>): (r: seq<Column>)
    ensures multiset(r) == multiset(columns)
    ensures adjustment.None? ==> r == columns
    ensures adjustment.Some? ==> SortedBy(r, OrderKey(Sequence(adjustment.value.rename)))
  {
    match adjustment
    case None => columns
    case Some(a) => SortBy(columns, OrderKey(Sequence(a.rename)))
  }

  /** Columns with the same sort key, and in particular the unlisted ones, keep their relative
      order; and no listed column follows an unlisted one. */
  lemma SortColumnsStable(columns: seq<Column>, a: Adjustment, k: real)
    ensures var key := OrderKey(Sequence(a.rename));
            WithKey(SortColumns(columns, Some(a)), key, k) == WithKey(columns, key, k)
    ensures var order := Sequence(a.rename);
            var r := SortColumns(columns, Some(a));
            forall i, j :: 0 <= i < j < |r| && r[i].name !in order ==> r[j].name !in order
  {
    var order := Sequence(a.rename);
    var key := OrderKey(order);
    SortByStable(columns, key, k);
    var r := SortColumns(columns, Some(a));
    forall i, j | 0 <= i < j < |r| && r[i].name !in order ensures r[j].name !in order {
      assert key(r[i]) <= key(r[j]);
      assert FirstIndex(order, r[j].name) >= |order|;
    }
  }

  /* ---------------------------------------------------------------- one reply */

  /** A table that enters the result: its position in the reply, its sector, and its adjusted
      columns with the sector appended as a last column. */
  datatype Selected = Selected(index: nat, sector: string, columns: seq<Column>)

  function SectorColumn(sector: string, rows: nat): Column {
    Column("Sector", seq(rows, _ => sector))
  }

  /** A kept table's adjusted columns, with its sector added as a last column. */
  function Labelled(t: Table, adjustment: Option<Adjustment>, sector: string): seq<Column> {
    AdjustColumns(t.columns, adjustment) + [SectorColumn(sector, t.rows)]
  }

  /** The positions from `from` on whose flag is set, in increasing order. */
  function Marked(flags: seq<bool>, from: nat): (r: seq<nat>)
    requires from <= |flags|
    ensures forall k :: 0 <= k < |r| ==> from <= r[k] < |flags| && flags[r[k]]
    ensures forall k, l :: 0 <= k < l < |r| ==> r[k] < r[l]
    ensures forall i :: from <= i < |flags| && flags[i] ==> i in r
    decreases |flags| - from
  {
    if from == |flags| then []
    else if flags[from] then [from] + Marked(flags, from + 1)
    else Marked(flags, from + 1)
  }

  /** Whether each of the first `n` tables is kept. */
  function KeepFlags(tables: seq<Table>, n: nat, market: string, sectors: seq<string>, other: string): (r: seq<bool>)
    requires n <= |tables|
    ensures |r| == n
    ensures forall i :: 0 <= i < n ==> r[i] == Kept(Label(tables[i], market, i, |tables|, other), sectors, other)
  {
    seq(n, i requires 0 <= i < n => Kept(Label(tables[i], market, i, |tables|, other), sectors, other))
  }

  /** The selected tables at the positions `kept`, each with its sector and labelled columns. */
  function SelectKept(tables: seq<Table>, kept: seq<nat>, market: string, adjustment: Option<Adjustment>, other: string): (r: seq<Selected>)
    requires forall k :: 0 <= k < |kept| ==> kept[k] < |tables|
    ensures |r| == |kept|
    ensures forall k :: 0 <= k < |r| ==>
      && r[k].index == kept[k]
      && r[k].sector == Label(tables[kept[k]], market, kept[k], |tables|, other)
      && r[k].columns == Labelled(tables[kept[k]], adjustment, r[k].sector)
  {
    seq(|kept|, k requires 0 <= k < |kept| =>
      var sector := Label(tables[kept[k]], market, kept[k], |tables|, other);
      Selected(kept[k], sector, Labelled(tables[kept[k]], adjustment, sector)))
  }

  lemma KeptPositions(flags: seq<bool>, kept: seq<nat>, picked: seq<Selected>)
    requires 1 <= |flags| && kept == Marked(flags, 1)
    requires |picked| == |kept| && forall k :: 0 <= k < |picked| ==> picked[k].index == kept[k]
    ensures forall i :: 1 <= i < |flags| ==> (flags[i] <==> exists k :: 0 <= k < |picked| && picked[k].index == i)
  {
    forall i | 1 <= i < |flags| && flags[i] ensures exists k :: 0 <= k < |picked| && picked[k].index == i {
      var k :| 0 <= k < |kept| && kept[k] == i;
      assert picked[k].index == i;
    }
  }

  /* ---------------------------------------------------------------- the ratio statement */

  /** Cell `k` of a column; a column shorter than its table reads as blank cells. */
  function CellAt(c: Column, k: int): string {
    if 0 <= k < |c.cells| then c.cells[k] else ""
  }

  function Indices(n: nat): (r: seq<int>)
    ensures |r| == n && forall k :: 0 <= k < n ==> r[k] == k
  {
    seq(n, k => k)
  }

  /** Whether row `k` of the ratio table is data rather than a repeat of its header row 0. */
  function DataRow(t: Table): int -> bool
    requires |t.columns| > 0
  {
    k => CellAt(t.columns[0], k) != CellAt(t.columns[0], 0)
  }

  /** The data rows of the ratio table, in table order. */
  function DataRows(t: Table): (r: seq<int>)
    requires |t.columns| > 0
    ensures forall k :: k in r <==> 0 <= k < t.rows && CellAt(t.columns[0], k) != CellAt(t.columns[0], 0)
    ensures forall m, l :: 0 <= m < l < |r| ==> r[m] < r[l]
  {
    var all := Indices(t.rows);
    FilterCounts(all, DataRow(t));
    FilterIncreasing(all, DataRow(t));
    var r := Filter(all, DataRow(t));
    forall k ensures k in r <==> 0 <= k < t.rows && CellAt(t.columns[0], k) != CellAt(t.columns[0], 0) {
      if 0 <= k < t.rows { assert all[k] == k; }
      assert DataRow(t)(k) == (CellAt(t.columns[0], k) != CellAt(t.columns[0], 0));
    }
    r
  }

  /** The ratio statement comes as one table with untitled columns whose first row, the header,
      recurs through the data: the columns take their titles from row 0, and every row whose
      first cell repeats the header's is dropped. Reading row 0 of a table without rows is a
      key error, and the header's first cell of a table without columns an index error. */
  function AdjustRatio(t: Table): (r: Result<Table>)
    ensures r.Failure? <==> t.rows == 0 || |t.columns| == 0
    ensures r.Success? ==> |r.value.columns| == |t.columns| && r.value.rows == |DataRows(t)|
    ensures r.Success? ==> forall j :: 0 <= j < |t.columns| ==>
      && r.value.columns[j].name == CellAt(t.columns[j], 0)
      && |r.value.columns[j].cells| == r.value.rows
      && forall m :: 0 <= m < r.value.rows ==> r.value.columns[j].cells[m] == CellAt(t.columns[j], DataRows(t)[m])
  {
    if t.rows == 0 then Failure("0")
    else if |t.columns| == 0 then Failure("list index out of range")
    else
      var kept := DataRows(t);
      Success(Table(seq(|t.columns|, j requires 0 <= j < |t.columns| =>
        Column(CellAt(t.columns[j], 0), seq(|kept|, m requires 0 <= m < |kept| => CellAt(t.columns[j], kept[m])))), |kept|))
  }

  /** No header row is left in the adjusted ratio table, and each data row of the original
      is still there. */
  lemma AdjustRatioDropsHeaders(t: Table)
    requires AdjustRatio(t).Success?
    ensures forall m :: 0 <= m < AdjustRatio(t).value.rows ==>
      AdjustRatio(t).value.columns[0].cells[m] != AdjustRatio(t).value.columns[0].name
    ensures forall k :: 0 <= k < t.rows && CellAt(t.columns[0], k) != CellAt(t.columns[0], 0) ==>
      CellAt(t.columns[0], k) in AdjustRatio(t).value.columns[0].cells
  {
    var a := AdjustRatio(t).value;
    var kept := DataRows(t);
    forall k | 0 <= k < t.rows && CellAt(t.columns[0], k) != CellAt(t.columns[0], 0)
      ensures CellAt(t.columns[0], k) in a.columns[0].cells
    {
      var m :| 0 <= m < |kept| && kept[m] == k;
      assert a.columns[0].cells[m] == CellAt(t.columns[0], k);
    }
  }

  /** Table `i` as the fetcher's loop reads it: the reply's own table, except that for the ratio
      statement position 1 holds the adjusted first table (and position 0 an empty one). */
  function Read(tables: seq<Table>, statement: string, i: nat): Table {
    if statement == "ratio" then
      (if i == 1 && |tables| > 0 && AdjustRatio(tables[0]).Success? then AdjustRatio(tables[0]).value else Table([], 0))
    else if i < |tables| then tables[i]
    else Table([], 0)
  }

  /** Whether the fetcher gets through a reply without raising: at least two tables; for the
      ratio statement, exactly two (the loop still counts the reply's tables but the adjusted
      list holds two) and a first table that can be adjusted; and no table whose guess hits the
      debug print without a cell to print. */
  predicate ReplyReadable(tables: seq<Table>, market: string, statement: string) {
    && |tables| >= 2
    && (statement == "ratio" ==> |tables| == 2 && AdjustRatio(tables[0]).Success?)
    && forall i :: 1 <= i < |tables| ==> !GuessFails(Read(tables, statement, i), market, i, |tables|)
  }

  /* ---------------------------------------------------------------- the tables of a reply */

  /** The tables of one reply that the fetcher keeps, in reply order, before they are
      concatenated: table 0 is a page header and never used; a reply with fewer than two
      tables fails, and so does one the fetcher's loop raises on. Kept columns are adjusted by
      `adjustment`, the statement's entry of the adjustment table. */
  function SelectTables(tables: seq<Table>, year: int, quarter: int, market: string, statement: string, adjustment: Option<Adjustment>, sectors: seq<string>, other: string): (r: Result<seq<Selected>>)
    ensures r.Success? <==> ReplyReadable(tables, market, statement)
    ensures r.Success? ==> forall k :: 0 <= k < |r.value| ==>
      var i := r.value[k].index;
      && 1 <= i < |tables|
      && GuessSector(Read(tables, statement, i), market, i, |tables|, other) == Success(r.value[k].sector)
      && Kept(r.value[k].sector, sectors, other)
      && r.value[k].columns == Labelled(Read(tables, statement, i), adjustment, r.value[k].sector)
    ensures r.Success? ==> forall k, l :: 0 <= k < l < |r.value| ==> r.value[k].index < r.value[l].index
    ensures r.Success? ==> forall i :: 1 <= i < |tables| ==>
      (Kept(Label(Read(tables, statement, i), market, i, |tables|, other), sectors, other) <==>
       exists k :: 0 <= k < |r.value| && r.value[k].index == i)
  {
    if |tables| == 0 then Failure("Data not available for '" + IntToString(year) + "Q" + IntToString(quarter) + "'")
    else if |tables| < 2 then Failure("Unexpected number of tables inside html, " + IntToString(|tables|) + " < 2")
    else if statement == "ratio" && AdjustRatio(tables[0]).Failure? then Failure(AdjustRatio(tables[0]).error)
    else
      var n := |tables|;
      var reach := if statement == "ratio" then 2 else n;
      if exists i :: 1 <= i < reach && GuessFails(Read(tables, statement, i), market, i, n) then
        Failure("single positional indexer is out-of-bounds")
      else if reach < n then Failure("list index out of range")
      else Success(SelectRead(tables, market, statement, adjustment, sectors, other))
  }

  /** The kept tables of a reply the loop gets through. */
  function SelectRead(tables: seq<Table>, market: string, statement: string, adjustment: Option<Adjustment>, sectors: seq<string>, other: string): (r: seq<Selected>)
    requires |tables| >= 2
    requires forall i :: 1 <= i < |tables| ==> !GuessFails(Read(tables, statement, i), market, i, |tables|)
    ensures forall k :: 0 <= k < |r| ==>
      var i := r[k].index;
      && 1 <= i < |tables|
      && GuessSector(Read(tables, statement, i), market, i, |tables|, other) == Success(r[k].sector)
      && Kept(r[k].sector, sectors, other)
      && r[k].columns == Labelled(Read(tables, statement, i), adjustment, r[k].sector)
    ensures forall k, l :: 0 <= k < l < |r| ==> r[k].index < r[l].index
    ensures forall i :: 1 <= i < |tables| ==>
      (Kept(Label(Read(tables, statement, i), market, i, |tables|, other), sectors, other) <==>
       exists k :: 0 <= k < |r| && r[k].index == i)
  {
    var n := |tables|;
    var ts := seq(n, i requires 0 <= i < n => Read(tables, statement, i));
    var flags := KeepFlags(ts, n, market, sectors, other);
    var kept := Marked(flags, 1);
    var r := SelectKept(ts, kept, market, adjustment, other);
    KeptPositions(flags, kept, r);
    forall k | 0 <= k < |r|
      ensures var i := r[k].index;
        && 1 <= i < n
        && GuessSector(Read(tables, statement, i), market, i, n, other) == Success(r[k].sector)
        && Kept(r[k].sector, sectors, other)
        && r[k].columns == Labelled(Read(tables, statement, i), adjustment, r[k].sector)
    {
      var i := kept[k];
      assert r[k].index == i && 1 <= i < n && flags[i];
      assert ts[i] == Read(tables, statement, i);
      assert r[k].sector == Label(ts[i], market, i, n, other);
      assert !GuessFails(ts[i], market, i, n);
    }
    forall k, l | 0 <= k < l < |r| ensures r[k].index < r[l].index {
      assert r[k].index == kept[k] && r[l].index == kept[l];
    }
    forall i | 1 <= i < n
      ensures flags[i] == Kept(Label(Read(tables, statement, i), market, i, n, other), sectors, other)
    {
      assert ts[i] == Read(tables, statement, i);
    }
    r
  }

  /** The fetch as the code writes it: a validated request's reply, where the position rule
      names the other industry "min", which no request asks for, so a default request keeps
      every table except the headerless ones and those. */
  function FetchStatementsAsWritten(market: string, year: int, quarter: int, statement: string, arg: SectorArg, tables: seq<Table>): (r: Result<seq<Selected>>)
    ensures r.Success? <==> ValidateRequest(market, year, quarter, statement, arg).Success? && ReplyReadable(tables, market, statement)
    ensures r.Success? && arg.NoSectors? ==> forall i :: 1 <= i < |tables| ==>
      (var g := Label(Read(tables, statement, i), market, i, |tables|, AsWrittenOther);
       g != "" && g != AsWrittenOther <==> exists k :: 0 <= k < |r.value| && r.value[k].index == i)
  {
    AsWrittenOtherNotASector();
    Fetch(market, year, quarter, statement, arg, tables, AsWrittenOther)
  }

  /** The fetch with the other industry named "mim" as everywhere else: a default request
      keeps every table the guesser gives some sector. */
  function FetchStatements(market: string, year: int, quarter: int, statement: string, arg: SectorArg, tables: seq<Table>): (r: Result<seq<Selected>>)
    ensures r.Success? <==> ValidateRequest(market, year, quarter, statement, arg).Success? && ReplyReadable(tables, market, statement)
    ensures r.Success? && arg.NoSectors? ==> forall i :: 1 <= i < |tables| ==>
      (Label(Read(tables, statement, i), market, i, |tables|, OtherIndustry) != "" <==> exists k :: 0 <= k < |r.value| && r.value[k].index == i)
  {
    assert OtherIndustry in AllSectors by { assert AllSectors[5] == OtherIndustry; }
    Fetch(market, year, quarter, statement, arg, tables, OtherIndustry)
  }

  /** Both fetches: validate the request, then select the reply's tables, the other industry
      being named `other`. */
  function Fetch(market: string, year: int, quarter: int, statement: string, arg: SectorArg, tables: seq<Table>, other: string): (r: Result<seq<Selected>>)
    requires other == AsWrittenOther || other == OtherIndustry
    ensures r.Success? <==> ValidateRequest(market, year, quarter, statement, arg).Success? && ReplyReadable(tables, market, statement)
    ensures r.Success? && arg.NoSectors? ==> forall i :: 1 <= i < |tables| ==>
      (var g := Label(Read(tables, statement, i), market, i, |tables|, other);
       g != "" && (g != other || other in AllSectors) <==> exists k :: 0 <= k < |r.value| && r.value[k].index == i)
  {
    var request :- ValidateRequest(market, year, quarter, statement, arg);
    if arg.NoSectors? then
      DefaultSelection(tables, year, quarter, market, statement, AdjustmentOf(statement), request.sectors, other);
      SelectTables(tables, year, quarter, market, statement, AdjustmentOf(statement), request.sectors, other)
    else SelectTables(tables, year, quarter, market, statement, AdjustmentOf(statement), request.sectors, other)
  }

  /** A default request keeps exactly the tables the guesser gives some sector, leaving out the
      other industry when its name is no sector a request can ask for. */
  lemma DefaultSelection(tables: seq<Table>, year: int, quarter: int, market: string, statement: string, adjustment: Option<Adjustment>, sectors: seq<string>, other: string)
    requires forall s :: s in sectors <==> s in AllSectors
    requires other == AsWrittenOther || other == OtherIndustry
    ensures var r := SelectTables(tables, year, quarter, market, statement, adjustment, sectors, other);
      r.Success? ==> forall i :: 1 <= i < |tables| ==>
        (var g := Label(Read(tables, statement, i), market, i, |tables|, other);
         g != "" && (g != other || other in AllSectors) <==> exists k :: 0 <= k < |r.value| && r.value[k].index == i)
  {
    DefaultKeptTables(tables, statement, market, sectors, other);
  }

  lemma DefaultKeptTables(tables: seq<Table>, statement: string, market: string, sectors: seq<string>, other: string)
    requires forall s :: s in sectors <==> s in AllSectors
    requires other == AsWrittenOther || other == OtherIndustry
    ensures forall i :: 1 <= i < |tables| ==>
      var g := Label(Read(tables, statement, i), market, i, |tables|, other);
      Kept(g, sectors, other) <==> g != "" && (g != other || other in AllSectors)
  {
    forall i | 1 <= i < |tables|
      ensures var g := Label(Read(tables, statement, i), market, i, |tables|, other);
              Kept(g, sectors, other) <==> g != "" && (g != other || other in AllSectors)
    {
      KeptByDefault(Label(Read(tables, statement, i), market, i, |tables|, other), other);
    }
    AsWrittenOtherNotASector();
  }

  /** The facts about such a reply that both halves below use. */
  predicate OtherBalanceReply(year: int, quarter: int, tables: seq<Table>) {
    && year >= 2013 && 1 <= quarter <= 4 && |tables| == 7
    && (forall c :: c in tables[6].columns ==>
         c.name !in Titles(IncomeFirstPass) && c.name !in Titles(IncomeSecondPass) && c.name !in Titles(BalanceFirstPass))
    && CurrentAssets in Names(tables[6].columns) && tables[6].rows < 500
    && forall i :: 1 <= i < 6 ==> !GuessFails(tables[i], "tse", i, 7)
  }

  lemma OtherBalanceReadable(year: int, quarter: int, tables: seq<Table>, other: string)
    requires OtherBalanceReply(year, quarter, tables)
    ensures ReplyReadable(tables, "tse", "balance")
    ensures Label(Read(tables, "balance", 6), "tse", 6, 7, other) == other
  {
    PositionNamesOther(tables[6], other);
    SeventhListedNeverPrints(tables[6]);
    forall i | 1 <= i < 7 ensures !GuessFails(Read(tables, "balance", i), "tse", i, 7) {
      assert Read(tables, "balance", i) == tables[i];
    }
  }

  /** The seventh of seven listed-market tables is never an ambiguous balance table. */
  lemma SeventhListedNeverPrints(t: Table)
    requires CurrentAssets in Names(t.columns)
    ensures !DebugPrint(t, "tse", 6, 7)
  {
    assert !AmbiguousPosition(t.rows, "tse", 6, 7);
  }

  lemma AsWrittenDropsOtherBalance(year: int, quarter: int, tables: seq<Table>)
    requires OtherBalanceReply(year, quarter, tables)
    ensures var r := FetchStatementsAsWritten("tse", year, quarter, "balance", NoSectors, tables);
            r.Success? && forall k :: 0 <= k < |r.value| ==> r.value[k].index != 6
  {
    OtherBalanceReadable(year, quarter, tables, AsWrittenOther);
    AsWrittenOtherNotASector();
    assert ValidateRequest("tse", year, quarter, "balance", NoSectors).Success?;
    var r := FetchStatementsAsWritten("tse", year, quarter, "balance", NoSectors, tables);
    assert r.Success?;
    assert !(Label(Read(tables, "balance", 6), "tse", 6, 7, AsWrittenOther) != AsWrittenOther);
  }

  lemma CorrectedKeepsOtherBalance(year: int, quarter: int, tables: seq<Table>)
    requires OtherBalanceReply(year, quarter, tables)
    ensures var r := FetchStatements("tse", year, quarter, "balance", NoSectors, tables);
            r.Success? && exists k :: 0 <= k < |r.value| && r.value[k].index == 6
  {
    OtherBalanceReadable(year, quarter, tables, OtherIndustry);
    assert ValidateRequest("tse", year, quarter, "balance", NoSectors).Success?;
    var r := FetchStatements("tse", year, quarter, "balance", NoSectors, tables);
    assert Label(Read(tables, "balance", 6), "tse", 6, 7, OtherIndustry) != "";
    assert exists k :: 0 <= k < |r.value| && r.value[k].index == 6;
  }

  /** The seventh of seven balance tables of a listed-market reply, small and without
      markers, is dropped from a default request as the code is written and kept once the
      other industry is named "mim". */
  lemma FetchDropsOtherBalance(year: int, quarter: int, tables: seq<Table>)
    requires year >= 2013 && 1 <= quarter <= 4 && |tables| == 7
    requires forall c :: c in tables[6].columns ==>
      c.name !in Titles(IncomeFirstPass) && c.name !in Titles(IncomeSecondPass) && c.name !in Titles(BalanceFirstPass)
    requires CurrentAssets in Names(tables[6].columns) && tables[6].rows < 500
    requires forall i :: 1 <= i < 6 ==> !GuessFails(tables[i], "tse", i, 7)
    ensures var r := FetchStatementsAsWritten("tse", year, quarter, "balance", NoSectors, tables);
            r.Success? && forall k :: 0 <= k < |r.value| ==> r.value[k].index != 6
    ensures var r := FetchStatements("tse", year, quarter, "balance", NoSectors, tables);
            r.Success? && exists k :: 0 <= k < |r.value| && r.value[k].index == 6
  {
    AsWrittenDropsOtherBalance(year, quarter, tables);
    CorrectedKeepsOtherBalance(year, quarter, tables);
  }

  /** A reply with an empty balance table at an ambiguous position, after the header page,
      fails the fetch: the guesser's debug print finds no row to print. */
  lemma FetchFailsOnEmptyAmbiguousTable(market: string, year: int, quarter: int, statement: string, arg: SectorArg, tables: seq<Table>, i: nat)
    requires statement != "ratio" && 1 <= i < |tables|
    requires forall c :: c in tables[i].columns ==>
      c.name !in Titles(IncomeFirstPass) && c.name !in Titles(IncomeSecondPass) && c.name !in Titles(BalanceFirstPass)
    requires CurrentAssets in Names(tables[i].columns) && tables[i].rows == 0
    requires AmbiguousPosition(0, market, i, |tables|)
    ensures FetchStatements(market, year, quarter, statement, arg, tables).Failure?
    ensures FetchStatementsAsWritten(market, year, quarter, statement, arg, tables).Failure?
  {
    EmptyAmbiguousBalanceFails(tables[i], market, i, |tables|, OtherIndustry);
    assert Read(tables, statement, i) == tables[i];
  }

  /** A ratio reply of more than two tables fails: the adjusted list holds two tables while
      the loop still runs over the reply's count. */
  lemma RatioWithMoreTablesFails(market: string, year: int, quarter: int, arg: SectorArg, tables: seq<Table>)
    requires |tables| > 2
    ensures FetchStatements(market, year, quarter, "ratio", arg, tables).Failure?
    ensures FetchStatementsAsWritten(market, year, quarter, "ratio", arg, tables).Failure?
  {
  }

  /* ---------------------------------------------------------------- last report */

  /** Part of the year in which the reports of one quarter are the latest to fetch: from
      (begMonth, begDay) to (endMonth, endDay) inclusive, the reports of quarter `quarter` of
      this year less `back`. */
  datatype ReportWindow = ReportWindow(begMonth: int, begDay: int, endMonth: int, endDay: int, back: int, quarter: int)

  const ReportWindows: seq<ReportWindow> := [
    ReportWindow(1, 1, 3, 1, 1, 3),
    ReportWindow(3, 2, 4, 14, 1, 4),
    ReportWindow(4, 15, 7, 14, 0, 1),
    ReportWindow(7, 15, 10, 14, 0, 2),
    ReportWindow(10, 15, 12, 31, 0, 3)
  ]

  predicate InWindow(w: ReportWindow, today: Date) {
    DateLe(Date(today.year, w.begMonth, w.begDay), today) && DateLe(today, Date(today.year, w.endMonth, w.endDay))
  }

  /** Every day of the year lies in exactly one window. */
  lemma WindowsTile(today: Date)
    requires ValidDate(today)
    ensures exists i :: 0 <= i < |ReportWindows| && InWindow(ReportWindows[i], today)
    ensures forall i, j :: 0 <= i < j < |ReportWindows| ==> !(InWindow(ReportWindows[i], today) && InWindow(ReportWindows[j], today))
  {
    var m := today.month;
    if m <= 2 || (m == 3 && today.day == 1) { assert InWindow(ReportWindows[0], today); }
    else if m <= 3 || (m == 4 && today.day <= 14) { assert InWindow(ReportWindows[1], today); }
    else if m <= 6 || (m == 7 && today.day <= 14) { assert InWindow(ReportWindows[2], today); }
    else if m <= 9 || (m == 10 && today.day <= 14) { assert InWindow(ReportWindows[3], today); }
    else { assert InWindow(ReportWindows[4], today); }
  }

  function FirstWindow(today: Date, from: nat): (r: Option<ReportWindow>)
    requires from <= |ReportWindows|
    ensures r.Some? ==> exists i :: from <= i < |ReportWindows| && r.value == ReportWindows[i] && InWindow(r.value, today)
    ensures r.None? ==> forall i :: from <= i < |ReportWindows| ==> !InWindow(ReportWindows[i], today)
    decreases |ReportWindows| - from
  {
    if from == |ReportWindows| then None
    else if InWindow(ReportWindows[from], today) then Some(ReportWindows[from])
    else FirstWindow(today, from + 1)
  }

  /** The (year, quarter) of the latest reports that are due on `today`. The window bounds are
      written as 'YYYY-MM-DD' text and parsed, which fails for a year of fewer than four digits. */
  function LastReportYearQuarter(today: Date): (r: Result<(int, int)>)
    requires ValidDate(today)
    ensures r.Success? <==> today.year >= 1000
    ensures r.Success? ==> 1 <= r.value.1 <= 4 && (r.value.0 == today.year || r.value.0 == today.year - 1)
    ensures r.Success? ==>
      1 <= QuarterIndex(today.year, QuarterOfMonth(today.month)) - QuarterIndex(r.value.0, r.value.1) <= 2
  {
    if today.year < 1000 then Failure("Invalid isoformat string")
    else
      WindowsTile(today);
      var w := FirstWindow(today, 0).value;
      Success((today.year - w.back, w.quarter))
  }

  /** The report quarter never decreases as the days go by within a year. */
  lemma LastReportMonotone(a: Date, b: Date)
    requires ValidDate(a) && ValidDate(b) && a.year == b.year >= 1000 && DateLe(a, b)
    ensures var ra, rb := LastReportYearQuarter(a), LastReportYearQuarter(b);
            QuarterIndex(ra.value.0, ra.value.1) <= QuarterIndex(rb.value.0, rb.value.1)
  {
    assert WindowOf(a) <= WindowOf(b);
    LastReportOfWindow(a);
    LastReportOfWindow(b);
  }

  /** The window `today` lies in, found from its month and day. */
  function WindowOf(today: Date): (k: nat)
    requires ValidDate(today)
    ensures k < |ReportWindows| && InWindow(ReportWindows[k], today)
  {
    var m, d := today.month, today.day;
    if m <= 2 || (m == 3 && d == 1) then 0
    else if m <= 3 || (m == 4 && d <= 14) then 1
    else if m <= 6 || (m == 7 && d <= 14) then 2
    else if m <= 9 || (m == 10 && d <= 14) then 3
    else 4
  }

  /** The reports due on `today` are those of the one window it lies in. */
  lemma LastReportOfWindow(today: Date)
    requires ValidDate(today) && today.year >= 1000
    ensures var w := ReportWindows[WindowOf(today)];
            LastReportYearQuarter(today) == Success((today.year - w.back, w.quarter))
  {
    WindowsTile(today);
    var k := WindowOf(today);
    forall i | 0 <= i < k ensures !InWindow(ReportWindows[i], today) {
      assert InWindow(ReportWindows[k], today);
    }
    FirstWindowFinds(today, 0, k);
  }

  /** Searching from `from`, the first window holding `today` is the k-th when none before
      it does. */
  lemma {:induction false} FirstWindowFinds(today: Date, from: nat, k: nat)
    requires from <= k < |ReportWindows| && InWindow(ReportWindows[k], today)
    requires forall i :: from <= i < k ==> !InWindow(ReportWindows[i], today)
    ensures FirstWindow(today, from) == Some(ReportWindows[k])
    decreases k - from
  {
    if from < k {
      FirstWindowFinds(today, from + 1, k);
    }
  }

  /* ---------------------------------------------------------------- history */

  /** Two (year, quarter) pairs with quarters in 1..4 are the same quarter iff their indices agree. */
  lemma QuarterIndexInjective(y1: int, q1: int, y2: int, q2: int)
    requires 1 <= q1 <= 4 && 1 <= q2 <= 4
    ensures QuarterIndex(y1, q1) == QuarterIndex(y2, q2) <==> y1 == y2 && q1 == q2
  {
  }

  /** Walk the quarters from (year, quarter) to (endYear, endQuarter), fetching each whose file
      is not already there, and count what happened. Returns the quarters in visiting order with
      the downloaded, failed and visited counts. A start past the end visits nothing, where the
      code as written never stops (QuarterLoopNeverExits). */
  method StepQuarters(startYear: int, startQuarter: int, endYear: int, endQuarter: int, outcome: ((int, int)) -> Outcome)
    returns (visited: seq<(int, int)>, downloaded: nat, failed: nat, count: nat)
    requires 1 <= startQuarter <= 4 && 1 <= endQuarter <= 4
    ensures count == |visited| ==
      if QuarterIndex(startYear, startQuarter) <= QuarterIndex(endYear, endQuarter)
      then QuarterIndex(endYear, endQuarter) - QuarterIndex(startYear, startQuarter) + 1 else 0
    ensures forall i :: 0 <= i < |visited| ==>
      1 <= visited[i].1 <= 4 && QuarterIndex(visited[i].0, visited[i].1) == QuarterIndex(startYear, startQuarter) + i
    ensures |visited| > 0 ==> visited[0] == (startYear, startQuarter) && visited[|visited| - 1] == (endYear, endQuarter)
    ensures downloaded == Count(visited, outcome, Downloaded) && failed == Count(visited, outcome, Failed)
    ensures count - failed == Count(visited, outcome, Present) + Count(visited, outcome, Downloaded)
  {
    var first := QuarterIndex(startYear, startQuarter);
    var year, quarter := startYear, startQuarter;
    visited, downloaded, failed, count := [], 0, 0, 0;
    if first > QuarterIndex(endYear, endQuarter) {
      return;
    }
    while true
      invariant 1 <= quarter <= 4
      invariant QuarterIndex(year, quarter) == first + |visited| <= QuarterIndex(endYear, endQuarter)
      invariant count == |visited|
      invariant forall i :: 0 <= i < |visited| ==> 1 <= visited[i].1 <= 4 && QuarterIndex(visited[i].0, visited[i].1) == first + i
      invariant |visited| == 0 ==> year == startYear && quarter == startQuarter
      invariant |visited| > 0 ==> visited[0] == (startYear, startQuarter)
      invariant downloaded == Count(visited, outcome, Downloaded) && failed == Count(visited, outcome, Failed)
      decreases QuarterIndex(endYear, endQuarter) - QuarterIndex(year, quarter)
    {
      QuartersAppend(visited, (year, quarter), first);
      visited, downloaded, failed := Tally(visited, (year, quarter), outcome, downloaded, failed);
      count := count + 1;
      if year == endYear && quarter == endQuarter {
        break;
      }
      QuarterIndexInjective(year, quarter, endYear, endQuarter);
      var next := NextQuarter(year, quarter);
      year, quarter := next.0, next.1;
    }
    CountsPartition(visited, outcome);
  }

  /** Quarters visited one after another from `first` stay so with the next one appended. */
  lemma QuartersAppend(visited: seq<(int, int)>, q: (int, int), first: int)
    requires forall i :: 0 <= i < |visited| ==> 1 <= visited[i].1 <= 4 && QuarterIndex(visited[i].0, visited[i].1) == first + i
    requires 1 <= q.1 <= 4 && QuarterIndex(q.0, q.1) == first + |visited|
    ensures forall i :: 0 <= i < |visited + [q]| ==>
      1 <= (visited + [q])[i].1 <= 4 && QuarterIndex((visited + [q])[i].0, (visited + [q])[i].1) == first + i
  {
  }

  /** The history download: from the quarter holding `start` to the latest one due on `today`;
      nothing when `start` lies past that quarter. */
  method DownloadHistory(start: Date, today: Date, outcome: ((int, int)) -> Outcome)
    returns (visited: seq<(int, int)>, downloaded: nat, failed: nat, count: nat)
    requires ValidDate(start) && ValidDate(today) && LastReportYearQuarter(today).Success?
    ensures count == |visited|
    ensures |visited| > 0 <==> QuarterIndex(start.year, QuarterOfMonth(start.month)) <=
                               QuarterIndex(LastReportYearQuarter(today).value.0, LastReportYearQuarter(today).value.1)
    ensures |visited| > 0 ==>
      visited[0] == (start.year, QuarterOfMonth(start.month)) && visited[|visited| - 1] == LastReportYearQuarter(today).value
    ensures forall i :: 0 <= i < |visited| ==> 1 <= visited[i].1 <= 4
    ensures forall i :: 0 <= i < |visited| - 1 ==> visited[i + 1] == NextQuarter(visited[i].0, visited[i].1)
    ensures downloaded == Count(visited, outcome, Downloaded) && failed == Count(visited, outcome, Failed)
  {
    var last := LastReportYearQuarter(today).value;
    visited, downloaded, failed, count := StepQuarters(start.year, QuarterOfMonth(start.month), last.0, last.1, outcome);
    forall i | 0 <= i < |visited| - 1 ensures visited[i + 1] == NextQuarter(visited[i].0, visited[i].1) {
      var n := NextQuarter(visited[i].0, visited[i].1);
      QuarterIndexInjective(n.0, n.1, visited[i + 1].0, visited[i + 1].1);
    }
  }
  /** As written, the loop leaves only when the quarter it has just visited is the end quarter,
      so from a start past the end it never leaves: no quarter it reaches is the end. */
  lemma QuarterLoopNeverExits(startYear: int, startQuarter: int, endYear: int, endQuarter: int, n: nat)
    requires 1 <= startQuarter <= 4 && 1 <= endQuarter <= 4
    requires QuarterIndex(startYear, startQuarter) > QuarterIndex(endYear, endQuarter)
    ensures QuarterAfter(startYear, startQuarter, n) != (endYear, endQuarter)
  {
    QuarterAfterIndex(startYear, startQuarter, n);
  }

  /** A start date in today's quarter lies past the latest quarter due, always: the download
      as written never stops, and the corrected one visits nothing. */
  lemma DownloadFromTodaysQuarter(start: Date, today: Date)
    requires ValidDate(start) && ValidDate(today) && today.year >= 1000
    requires start.year == today.year && QuarterOfMonth(start.month) == QuarterOfMonth(today.month)
    ensures var last := LastReportYearQuarter(today).value;
            QuarterIndex(start.year, QuarterOfMonth(start.month)) > QuarterIndex(last.0, last.1)
    ensures var last := LastReportYearQuarter(today).value;
            forall n: nat :: QuarterAfter(start.year, QuarterOfMonth(start.month), n) != last
  {
    var last := LastReportYearQuarter(today).value;
    forall n: nat ensures QuarterAfter(start.year, QuarterOfMonth(start.month), n) != last {
      QuarterLoopNeverExits(start.year, QuarterOfMonth(start.month), last.0, last.1, n);
    }
  }
}

=== FILE: report_columns.dfy ===
/** The column tables of the quarterly financial statements: for each statement, the mapping
    from the column titles of the published tables to the stored names, and the stored names
    that are dropped after renaming. The rows follow the dictionaries' insertion order, which
    is also the order the sorted output uses. */
module ReportColumns {
  const IncomeRename: seq<(string, string)> := [
    ("公司代號", "Code"),
    ("公司 代號", "Code"),
    ("公司名稱", "Name"),
    ("營業收入", "營業收入"),
    ("收益", "收益"),
    ("收入", "收入"),
    ("利息淨收益", "利息淨收益"),
    ("利息以外淨收益", "利息以外淨收益"),
    ("利息以外淨損益", "利息以外淨收益"),
    ("淨收益", "淨收益"),
    ("營業成本", "營業成本"),
    ("支出及費用", "支出及費用"),
    ("支出", "支出"),
    ("呆帳費用、承諾及保證責任準備提存", "呆帳費用、承諾及保證責任準備提存"),
    ("呆帳費用及保證責任準備提存（各項提存）", "呆帳費用、承諾及保證責任準備提存"),
    ("呆帳費用及保證責任準備提存", "呆帳費用、承諾及保證責任準備提存"),
    ("保險負債準備淨變動", "保險負債準備淨變動"),
    ("原始認列生物資產及農產品之利益（損失）", "原始認列生物資產及農產品之利益"),
    ("生物資產當期公允價值減出售成本之變動利益（損失）", "生物資產當期公允價值減出售成本之變動利益"),
    ("營業毛利（毛損）", "營業毛利"),
    ("未實現銷貨（損）益", "未實現銷貨利益"),
    ("已實現銷貨（損）益", "已實現銷貨利益"),
    ("營業毛利（毛損）淨額", "營業毛利淨額"),
    ("營業費用", "營業費用"),
    ("其他收益及費損淨額", "其他收益及費損"),
    ("營業利益", "營業利益"),
    ("營業利益（損失）", "營業利益"),
    ("營業外收入及支出", "營業外收入及支出"),
    ("營業外損益", "營業外收入及支出"),
    ("稅前淨利（淨損）", "稅前淨利"),
    ("繼續營業單位稅前純益（純損）", "繼續營業單位稅前淨利"),
    ("繼續營業單位稅前淨利（淨損）", "繼續營業單位稅前淨利"),
    ("繼續營業單位稅前損益", "繼續營業單位稅前淨利"),
    ("利益（淨損）", "利益"),
    ("所得稅費用（利益）", "所得稅費用"),
    ("所得稅（費用）利益", "所得稅費用"),
    ("所得稅利益（費用）", "所得稅費用"),
    ("繼續營業單位本期淨利（淨損）", "繼續營業單位本期淨利"),
    ("繼續營業單位本期純益（純損）", "繼續營業單位本期淨利"),
    ("繼續營業單位本期稅後淨利（淨損）", "繼續營業單位本期淨利"),
    ("停業單位損益", "停業單位損益"),
    ("合併前非屬共同控制股權損益", "合併前非屬共同控制股權損益"),
    ("本期淨利（淨損）", "本期淨利"),
    ("本期稅後淨利（淨損）", "本期淨利"),
    ("其他綜合損益", "本期其他綜合損益"),
    ("其他綜合損益（淨額）", "本期其他綜合損益"),
    ("其他綜合損益（稅後淨額）", "本期其他綜合損益"),
    ("本期其他綜合損益（稅後淨額）", "本期其他綜合損益"),
    ("其他綜合損益（稅後）", "本期其他綜合損益"),
    ("合併前非屬共同控制股權綜合損益淨額", "合併前非屬共同控制股權綜合損益"),
    ("本期綜合損益總額", "本期綜合損益總額"),
    ("本期綜合損益總額（稅後）", "本期綜合損益總額"),
    ("淨利（淨損）歸屬於母公司業主", "淨利歸屬於母公司業主"),
    ("淨利（損）歸屬於母公司業主", "淨利歸屬於母公司業主"),
    ("淨利（淨損）歸屬於共同控制下前手權益", "淨利歸屬於共同控制下前手權益"),
    ("淨利（損）歸屬於共同控制下前手權益", "淨利歸屬於共同控制下前手權益"),
    ("淨利（淨損）歸屬於非控制權益", "淨利歸屬於非控制權益"),
    ("淨利（損）歸屬於非控制權益", "淨利歸屬於非控制權益"),
    ("綜合損益總額歸屬於母公司業主", "綜合損益總額歸屬於母公司業主"),
    ("綜合損益總額歸屬於共同控制下前手權益", "綜合損益總額歸屬於共同控制下前手權益"),
    ("綜合損益總額歸屬於非控制權益", "綜合損益總額歸屬於非控制權益"),
    ("基本每股盈餘（元）", "每股盈餘"),
    ("Sector", "Sector")
  ]

  const IncomeRemove: seq<string> := ["淨收益"]

  const BalanceRename: seq<(string, string)> := [
    ("公司代號", "Code"),
    ("公司 代號", "Code"),
    ("公司名稱", "Name"),
    ("流動資產", "流動資產"),
    ("非流動資產", "非流動資產"),
    ("現金及約當現金", "現金及約當現金"),
    ("存放央行及拆借銀行同業", "存放央行及拆借同業"),
    ("存放央行及拆借金融同業", "存放央行及拆借同業"),
    ("透過損益按公允價值衡量之金融資產", "透過損益按公允價值衡量之金融資產"),
    ("備供出售金融資產－淨額", "備供出售金融資產"),
    ("透過其他綜合損益按公允價值衡量之金融資產", "透過其他綜合損益按公允價值衡量之金融資產"),
    ("按攤銷後成本衡量之債務工具投資", "按攤銷後成本衡量之債務工具投資"),
    ("避險之金融資產", "避險之金融資產"),
    ("避險之衍生金融資產淨額", "避險之金融資產"),
    ("避險之衍生金融資產", "避險之金融資產"),
    ("附賣回票券及債券投資", "附賣回票券及債券投資"),
    ("附賣回票券及債券投資淨額", "附賣回票券及債券投資"),
    ("應收款項", "應收款項"),
    ("應收款項－淨額", "應收款項"),
    ("本期所得稅資產", "本期所得稅資產"),
    ("當期所得稅資產", "本期所得稅資產"),
    ("待出售資產", "待出售資產"),
    ("待出售資產－淨額", "待出售資產"),
    ("Unnamed: 12", "待分配予業主之資產"),
    ("待分配予業主之資產（或處分群組）", "待分配予業主之資產"),
    ("待分配予業主之資產－淨額", "待分配予業主之資產"),
    ("貼現及放款－淨額", "貼現及放款"),
    ("持有至到期日金融資產－淨額", "持有至到期日金融資產"),
    ("投資", "投資"),
    ("再保險合約資產", "再保險合約資產"),
    ("再保險合約資產－淨額", "再保險合約資產"),
    ("採用權益法之投資－淨額", "採用權益法之投資"),
    ("受限制資產－淨額", "受限制資產"),
    ("其他金融資產－淨額", "其他金融資產"),
    ("投資性不動產－淨額", "投資性不動產"),
    ("投資性不動產投資－淨額", "投資性不動產"),
    ("不動產及設備", "不動產及設備"),
    ("不動產及設備－淨額", "不動產及設備"),
    ("使用權資產", "使用權資產"),
    ("使用權資產－淨額", "使用權資產"),
    ("無形資產", "無形資產"),
    ("無形資產－淨額", "無形資產"),
    ("遞延所得稅資產", "遞延所得稅資產"),
    ("其他資產", "其他資產"),
    ("其他資產－淨額", "其他資產"),
    ("分離帳戶保險商品資產", "分離帳戶保險商品資產"),
    ("資產總計", "資產總計"),
    ("資產總額", "資產總計"),
    ("資產合計", "資產總計"),
    ("流動負債", "流動負債"),
    ("非流動負債", "非流動負債"),
    ("短期債務", "短期債務"),
    ("央行及銀行同業存款", "央行及同業存款"),
    ("央行及金融同業存款", "央行及同業存款"),
    ("央行及同業融資", "央行及同業融資"),
    ("透過損益按公允價值衡量之金融負債", "透過損益按公允價值衡量之金融負債"),
    ("避險之金融負債", "避險之金融負債"),
    ("避險之衍生金融負債－淨額", "避險之金融負債"),
    ("避險之衍生金融負債", "避險之金融負債"),
    ("附買回票券及債券負債", "附買回票券及債券負債"),
    ("應付商業本票－淨額", "應付商業本票"),
    ("應付款項", "應付款項"),
    ("本期所得稅負債", "本期所得稅負債"),
    ("當期所得稅負債", "本期所得稅負債"),
    ("與待出售資產直接相關之負債", "與待出售資產直接相關之負債"),
    ("存款及匯款", "存款及匯款"),
    ("應付債券", "應付債券"),
    ("應付金融債券", "應付債券"),
    ("應付公司債", "應付公司債"),
    ("其他借款", "其他借款"),
    ("特別股負債", "特別股負債"),
    ("其他金融負債", "其他金融負債"),
    ("以成本衡量之金融負債", "以成本衡量之金融負債"),
    ("租賃負債", "租賃負債"),
    ("保險負債", "保險負債"),
    ("具金融商品性質之保險契約準備", "具金融商品性質之保險契約準備"),
    ("外匯價格變動準備", "外匯價格變動準備"),
    ("負債準備", "負債準備"),
    ("遞延所得稅負債", "遞延所得稅負債"),
    ("其他負債", "其他負債"),
    ("分離帳戶保險商品負債", "分離帳戶保險商品負債"),
    ("負債總計", "負債總計"),
    ("負債總額", "負債總計"),
    ("負債合計", "負債總計"),
    ("股本", "股本"),
    ("權益─具證券性質之虛擬通貨", "具證券性質之虛擬通貨權益"),
    ("權益－具證券性質之虛擬通貨", "具證券性質之虛擬通貨權益"),
    ("資本公積", "資本公積"),
    ("保留盈餘", "保留盈餘"),
    ("保留盈餘（或累積虧損）", "保留盈餘"),
    ("其他權益", "其他權益"),
    ("庫藏股票", "庫藏股票"),
    ("庫藏股", "庫藏股票"),
    ("歸屬於母公司業主之權益合計", "歸屬於母公司業主之權益合計"),
    ("歸屬於母公司業主權益合計", "歸屬於母公司業主之權益合計"),
    ("歸屬於母公司業主之權益", "歸屬於母公司業主之權益合計"),
    ("共同控制下前手權益", "共同控制下前手權益"),
    ("合併前非屬共同控制股權", "合併前非屬共同控制股權"),
    ("非控制權益", "非控制權益"),
    ("權益總計", "權益總計"),
    ("權益總額", "權益總計"),
    ("權益合計", "權益總計"),
    ("負債及權益總計", "負債及權益總計"),
    ("待註銷股本股數（單位：股）", "待註銷股本股數"),
    ("預收股款（權益項下）之約當發行股數（單位：股）", "預收股款之約當發行股數"),
    ("母公司暨子公司所持有之母公司庫藏股股數（單位：股）", "母公司暨子公司所持有之母公司庫藏股股數"),
    ("母公司暨子公司持有之母公司庫藏股股數（單位：股）", "母公司暨子公司所持有之母公司庫藏股股數"),
    ("每股參考淨值", "每股淨值"),
    ("Sector", "Sector")
  ]

  const BalanceRemove: seq<string> := ["負債及權益總計", "備供出售金融資產", "持有至到期日金融資產", "以成本衡量之金融負債"]

  const CashRename: seq<(string, string)> := [
    ("公司代號", "Code"),
    ("公司 代號", "Code"),
    ("公司名稱", "Name"),
    ("營業活動之淨現金流入（流出）", "營業活動之淨現金流入"),
    ("投資活動之淨現金流入（流出）", "投資活動之淨現金流入"),
    ("籌資活動之淨現金流入（流出）", "籌資活動之淨現金流入"),
    ("匯率變動對現金及約當現金之影響", "匯率變動對現金及約當現金之影響"),
    ("本期現金及約當現金增加（減少）數", "本期現金及約當現金增加數"),
    ("期初現金及約當現金餘額", "期初現金及約當現金"),
    ("期末現金及約當現金餘額", "期末現金及約當現金"),
    ("Sector", "Sector")
  ]

  const CashRemove: seq<string> := []

  const RatioRename: seq<(string, string)> := [
    ("公司代號", "Code"),
    ("公司名稱", "Name"),
    ("營業收入 (百萬元)", "營業收入"),
    ("毛利率(%) (營業毛利)/ (營業收入)", "毛利率"),
    ("營業利益率(%) (營業利益)/ (營業收入)", "營業利益率"),
    ("稅前純益率(%) (稅前純益)/ (營業收入)", "稅前純益率"),
    ("稅後純益率(%) (稅後純益)/ (營業收入)", "稅後純益率"),
    ("Sector", "Sector")
  ]

  const RatioRemove: seq<string> := ["營業收入"]
}

=== FILE: revenue_derived.dfy ===
/** update_monthly_revenue: the derived columns of the monthly revenue table. Within one
    stock's rows in (year, month) order it computes the revenue 12 rows earlier, the running
    year-to-date sum, the year-to-date 12 rows earlier, and the month-on-month, year-on-year
    and year-to-date year-on-year percentages. */
module RevenueDerived {
  import opened Wrappers
  import opened Calendar
  import opened Sorting

  /** One stored month of one stock; revenue is NOT NULL in the table. */
  datatype MonthRow = MonthRow(year: int, month: int, revenue: int)

  /** A month with its derived columns; None is SQL NULL. */
  datatype Derived = Derived(
    year: int, month: int, revenue: int,
    ly: Option<int>, ytd: int, ytdLy: Option<int>,
    mom: Option<real>, yoy: Option<real>, ytdYoy: Option<real>)

  /** The revenue period key year*100 + month. */
  function Period(year: int, month: int): int {
    year * 100 + month
  }

  function PeriodOf(x: MonthRow): int {
    Period(x.year, x.month)
  }

  /** Months as a two-digit file-name field can give them. */
  predicate TwoDigitMonths(rows: seq<MonthRow>) {
    forall i :: 0 <= i < |rows| ==> 0 <= rows[i].month < 100
  }

  /** The table's primary key (code, year, month): one row per month of a stock. */
  predicate DistinctPeriods(rows: seq<MonthRow>) {
    forall i, j :: 0 <= i < j < |rows| ==> PeriodOf(rows[i]) != PeriodOf(rows[j])
  }

  predicate InPeriodOrder(rows: seq<MonthRow>) {
    forall i, j :: 0 <= i < j < |rows| ==> PeriodOf(rows[i]) < PeriodOf(rows[j])
  }

  /** Row `x` counts towards the year-to-date of row `y`: same year, not a later month. */
  predicate InYtdOf(x: MonthRow, y: MonthRow) {
    x.year == y.year && x.month <= y.month
  }

  /** SUM(revenue) OVER (PARTITION BY code, year ORDER BY month) for row `y`: the revenue of
      every row of the year up to and including y's month, whatever order the rows are in. */
  function WindowSum(s: seq<MonthRow>, y: MonthRow): int {
    if |s| == 0 then 0
    else WindowSum(s[..|s| - 1], y) + (if InYtdOf(s[|s| - 1], y) then s[|s| - 1].revenue else 0)
  }

  /** groupby(['code', 'year']).cumsum() at position i of rows in period order. */
  function Ytd(rows: seq<MonthRow>, i: nat): int
    requires i < |rows|
  {
    if i > 0 && rows[i - 1].year == rows[i].year then Ytd(rows, i - 1) + rows[i].revenue
    else rows[i].revenue
  }

  /** pct_change * 100, and the SQL CASE: NULL when the earlier value is NULL or zero. */
  function PctChange(cur: int, prior: Option<int>): (r: Option<real>)
    ensures r.Some? <==> prior.Some? && prior.value != 0
    ensures r.Some? ==> r.value * (prior.value as real) == ((cur - prior.value) as real) * 100.0
    ensures r.Some? && prior.value > 0 ==> (r.value > 0.0 <==> cur > prior.value)
  {
    match prior
    case None => None
    case Some(p) =>
      if p == 0 then None
      else
        var q := cur as real / p as real;
        assert q * (p as real) == cur as real;
        Some((q - 1.0) * 100.0)
  }

  lemma {:induction false} WindowSumAppend(a: seq<MonthRow>, b: seq<MonthRow>, y: MonthRow)
    ensures WindowSum(a + b, y) == WindowSum(a, y) + WindowSum(b, y)
    decreases |b|
  {
    if |b| == 0 {
      assert a + b == a;
    } else {
      assert (a + b)[..|a + b| - 1] == a + b[..|b| - 1];
      WindowSumAppend(a, b[..|b| - 1], y);
    }
  }

  /** The window sum does not depend on the order of the rows. */
  lemma {:induction false} WindowSumPermutation(a: seq<MonthRow>, b: seq<MonthRow>, y: MonthRow)
    requires multiset(a) == multiset(b)
    ensures WindowSum(a, y) == WindowSum(b, y)
    decreases |a|
  {
    if |a| == 0 {
      assert |b| == |multiset(b)| == 0;
    } else {
      var k := MatchLast(a, b);
      WindowSumPermutation(a[..|a| - 1], b[..k] + b[k + 1..], y);
      WindowSumRemove(b, k, y);
    }
  }

  /** The last row of `a` has a match in a permutation `b`, and the rest of both are still
      permutations of each other. */
  lemma MatchLast(a: seq<MonthRow>, b: seq<MonthRow>) returns (k: nat)
    requires multiset(a) == multiset(b) && |a| > 0
    ensures k < |b| && b[k] == a[|a| - 1]
    ensures multiset(a[..|a| - 1]) == multiset(b[..k] + b[k + 1..])
  {
    var x := a[|a| - 1];
    assert a == a[..|a| - 1] + [x];
    assert x in multiset(b);
    k :| 0 <= k < |b| && b[k] == x;
    assert b == b[..k] + [x] + b[k + 1..];
    assert multiset(b[..k] + b[k + 1..]) == multiset(b) - multiset{x};
    assert multiset(a[..|a| - 1]) == multiset(a) - multiset{x};
  }

  /** Taking one row out of a sequence takes its share out of the window sum. */
  lemma WindowSumRemove(b: seq<MonthRow>, k: nat, y: MonthRow)
    requires k < |b|
    ensures WindowSum(b, y) == WindowSum(b[..k] + b[k + 1..], y) + (if InYtdOf(b[k], y) then b[k].revenue else 0)
  {
    var x := b[k];
    assert b == b[..k] + [x] + b[k + 1..];
    WindowSumAppend(b[..k], [x], y);
    WindowSumAppend(b[..k] + [x], b[k + 1..], y);
    WindowSumAppend(b[..k], b[k + 1..], y);
    assert WindowSum([x], y) == (if InYtdOf(x, y) then x.revenue else 0) by {
      assert [x][..0] == [];
    }
  }

  lemma {:induction false} WindowSumNone(s: seq<MonthRow>, y: MonthRow)
    requires forall i :: 0 <= i < |s| ==> !InYtdOf(s[i], y)
    ensures WindowSum(s, y) == 0
    decreases |s|
  {
    if |s| > 0 {
      WindowSumNone(s[..|s| - 1], y);
    }
  }

  lemma {:induction false} WindowSumSame(s: seq<MonthRow>, y: MonthRow, z: MonthRow)
    requires forall i :: 0 <= i < |s| ==> (InYtdOf(s[i], y) <==> InYtdOf(s[i], z))
    ensures WindowSum(s, y) == WindowSum(s, z)
    decreases |s|
  {
    if |s| > 0 {
      WindowSumSame(s[..|s| - 1], y, z);
    }
  }

  /** Over rows in period order, the running sum equals the window sum of the prefix. */
  lemma {:induction false} YtdIsPrefixWindow(rows: seq<MonthRow>, i: nat)
    requires InPeriodOrder(rows) && TwoDigitMonths(rows) && i < |rows|
    ensures Ytd(rows, i) == WindowSum(rows[..i + 1], rows[i])
    decreases i
  {
    var p := rows[..i];
    assert rows[..i + 1] == p + [rows[i]];
    assert p[..|p|] == p;
    assert (p + [rows[i]])[..|p|] == p;
    if i > 0 && rows[i - 1].year == rows[i].year {
      YtdIsPrefixWindow(rows, i - 1);
      assert rows[..i] == rows[..i - 1 + 1];
      forall j | 0 <= j < |p| ensures InYtdOf(p[j], rows[i - 1]) <==> InYtdOf(p[j], rows[i]) {
        if j < i - 1 {
          assert PeriodOf(rows[j]) < PeriodOf(rows[i - 1]);
        }
      }
      WindowSumSame(p, rows[i - 1], rows[i]);
    } else {
      forall j | 0 <= j < |p| ensures !InYtdOf(p[j], rows[i]) {
        assert PeriodOf(rows[j]) < PeriodOf(rows[i]);
        if j < i - 1 {
          assert PeriodOf(rows[j]) < PeriodOf(rows[i - 1]);
        }
      }
      WindowSumNone(p, rows[i]);
    }
  }

  /** Over rows in period order, the running sum is the SQL window sum over all the rows. */
  lemma YtdIsWindowSum(rows: seq<MonthRow>, i: nat)
    requires InPeriodOrder(rows) && TwoDigitMonths(rows) && i < |rows|
    ensures Ytd(rows, i) == WindowSum(rows, rows[i])
  {
    YtdIsPrefixWindow(rows, i);
    WindowSumSplit(rows, i + 1, rows[i]);
    LaterRowsOutside(rows, i);
  }

  lemma WindowSumSplit(s: seq<MonthRow>, n: nat, y: MonthRow)
    requires n <= |s|
    ensures WindowSum(s, y) == WindowSum(s[..n], y) + WindowSum(s[n..], y)
  {
    assert s == s[..n] + s[n..];
    WindowSumAppend(s[..n], s[n..], y);
  }

  /** No later row of a sequence in period order counts towards row i's year-to-date. */
  lemma LaterRowsOutside(rows: seq<MonthRow>, i: nat)
    requires InPeriodOrder(rows) && TwoDigitMonths(rows) && i < |rows|
    ensures WindowSum(rows[i + 1..], rows[i]) == 0
  {
    var rest := rows[i + 1..];
    forall j | 0 <= j < |rest| ensures !InYtdOf(rest[j], rows[i]) {
      assert rest[j] == rows[i + 1 + j];
      assert PeriodOf(rows[i]) < PeriodOf(rows[i + 1 + j]);
    }
    WindowSumNone(rest, rows[i]);
  }

  function PeriodKey(x: MonthRow): real {
    PeriodOf(x) as real
  }

  /** Sorting rows with distinct periods puts them in strictly increasing period order. */
  lemma SortedDistinct(table: seq<MonthRow>, rows: seq<MonthRow>)
    requires DistinctPeriods(table)
    requires SortedBy(rows, PeriodKey) && multiset(rows) == multiset(table)
    ensures InPeriodOrder(rows)
  {
    forall i, j | 0 <= i < j < |rows| ensures PeriodOf(rows[i]) < PeriodOf(rows[j]) {
      assert PeriodKey(rows[i]) <= PeriodKey(rows[j]);
      if PeriodOf(rows[i]) == PeriodOf(rows[j]) {
        assert rows[i] in multiset(table) && rows[j] in multiset(table);
        var p :| 0 <= p < |table| && table[p] == rows[i];
        var q :| 0 <= q < |table| && table[q] == rows[j];
        assert PeriodOf(table[p]) == PeriodOf(table[q]);
        assert p == q;
        TwiceCounted(rows, i, j);
        assert multiset(table)[table[p]] >= 2;
        DistinctCountsOnce(table, p);
      }
    }
  }

  lemma TwiceCounted(s: seq<MonthRow>, i: nat, j: nat)
    requires i < j < |s| && s[i] == s[j]
    ensures multiset(s)[s[i]] >= 2
  {
    assert s == s[..i] + [s[i]] + s[i + 1..j] + [s[j]] + s[j + 1..];
  }

  lemma {:induction false} DistinctCountsOnce(s: seq<MonthRow>, p: nat)
    requires DistinctPeriods(s) && p < |s|
    ensures multiset(s)[s[p]] == 1
    decreases |s|
  {
    var x := s[p];
    var n := |s| - 1;
    assert s == s[..n] + [s[n]];
    if p == n {
      forall q | 0 <= q < n ensures s[..n][q] != x {
        assert PeriodOf(s[q]) != PeriodOf(s[n]);
      }
    } else {
      DistinctCountsOnce(s[..n], p);
      assert s[n] != x by { assert PeriodOf(s[p]) != PeriodOf(s[n]); }
    }
  }

  /** The rows of one stock sorted by (year, month), as sort_values leaves them. */
  function Ordered(table: seq<MonthRow>): (rows: seq<MonthRow>)
    requires DistinctPeriods(table) && TwoDigitMonths(table)
    ensures |rows| == |table| && multiset(rows) == multiset(table)
    ensures InPeriodOrder(rows) && TwoDigitMonths(rows)
  {
    var rows := SortBy(table, PeriodKey);
    SortedDistinct(table, rows);
    assert TwoDigitMonths(rows) by {
      forall i | 0 <= i < |rows| ensures 0 <= rows[i].month < 100 {
        assert rows[i] in multiset(table);
      }
    }
    rows
  }

  /** A sorted row comes from the table, and its running sum is its window sum there. */
  lemma OrderedYtd(table: seq<MonthRow>, i: nat)
    requires DistinctPeriods(table) && TwoDigitMonths(table) && i < |table|
    ensures Ordered(table)[i] in table
    ensures Ytd(Ordered(table), i) == WindowSum(table, Ordered(table)[i])
  {
    var rows := Ordered(table);
    YtdIsWindowSum(rows, i);
    WindowSumPermutation(rows, table, rows[i]);
    assert rows[i] in multiset(table);
  }

  /** The derived columns at position i: shift(12) for the last-year revenue, the running
      sum within the year, shift(12) of that, and the three percentages. */
  function DeriveAt(rows: seq<MonthRow>, i: nat): (d: Derived)
    requires i < |rows|
    ensures d.year == rows[i].year && d.month == rows[i].month && d.revenue == rows[i].revenue
    ensures d.ly == (if i >= 12 then Some(rows[i - 12].revenue) else None)
    ensures d.ytdLy == (if i >= 12 then Some(Ytd(rows, i - 12)) else None)
    ensures d.mom.Some? <==> i >= 1 && rows[i - 1].revenue != 0
    ensures d.yoy.Some? <==> i >= 12 && rows[i - 12].revenue != 0
    ensures d.ytdYoy.Some? <==> i >= 12 && Ytd(rows, i - 12) != 0
  {
    var x := rows[i];
    var ly := if i >= 12 then Some(rows[i - 12].revenue) else None;
    var ytdLy := if i >= 12 then Some(Ytd(rows, i - 12)) else None;
    Derived(x.year, x.month, x.revenue, ly, Ytd(rows, i), ytdLy,
            PctChange(x.revenue, if i >= 1 then Some(rows[i - 1].revenue) else None),
            PctChange(x.revenue, ly),
            PctChange(Ytd(rows, i), ytdLy))
  }

  /** The derived columns of one stock, row by row in period order: every table row once,
      and the year-to-date of each the SQL window sum over the stock's rows. */
  function Derive(table: seq<MonthRow>): (r: seq<Derived>)
    requires DistinctPeriods(table) && TwoDigitMonths(table)
    ensures |r| == |table|
    ensures forall i, j :: 0 <= i < j < |r| ==> Period(r[i].year, r[i].month) < Period(r[j].year, r[j].month)
    ensures forall i :: 0 <= i < |r| ==> MonthRow(r[i].year, r[i].month, r[i].revenue) in table
    ensures forall i :: 0 <= i < |r| ==> r[i].ytd == WindowSum(table, MonthRow(r[i].year, r[i].month, r[i].revenue))
    ensures forall i :: 0 <= i < |r| ==> r[i] == DeriveAt(Ordered(table), i)
  {
    var rows := Ordered(table);
    var r := seq(|rows|, i requires 0 <= i < |rows| => DeriveAt(rows, i));
    forall i | 0 <= i < |rows| ensures r[i].ytd == WindowSum(table, rows[i]) && rows[i] in table {
      OrderedYtd(table, i);
    }
    assert forall i :: 0 <= i < |r| ==> rows[i] == MonthRow(r[i].year, r[i].month, r[i].revenue);
    r
  }

  /** The lags are positional: the last-year columns are those of the row 12 places back. */
  lemma DerivedLags(table: seq<MonthRow>)
    requires DistinctPeriods(table) && TwoDigitMonths(table)
    ensures var r := Derive(table);
      && (forall i :: 0 <= i < |r| ==> r[i].ly == (if i >= 12 then Some(r[i - 12].revenue) else None))
      && (forall i :: 0 <= i < |r| ==> r[i].ytdLy == (if i >= 12 then Some(r[i - 12].ytd) else None))
  {
    var r := Derive(table);
    var rows := Ordered(table);
    forall i | 0 <= i < |r|
      ensures r[i].ly == (if i >= 12 then Some(r[i - 12].revenue) else None)
      ensures r[i].ytdLy == (if i >= 12 then Some(r[i - 12].ytd) else None)
    {
      assert r[i] == DeriveAt(rows, i);
      if i >= 12 {
        assert r[i - 12] == DeriveAt(rows, i - 12);
      }
    }
  }

  /** A percentage is NULL exactly when its earlier value is absent or zero. */
  lemma DerivedNulls(table: seq<MonthRow>)
    requires DistinctPeriods(table) && TwoDigitMonths(table)
    ensures var r := Derive(table);
      && (forall i :: 0 <= i < |r| ==> (r[i].mom.Some? <==> i >= 1 && r[i - 1].revenue != 0))
      && (forall i :: 0 <= i < |r| ==> (r[i].yoy.Some? <==> i >= 12 && r[i - 12].revenue != 0))
      && (forall i :: 0 <= i < |r| ==> (r[i].ytdYoy.Some? <==> i >= 12 && r[i - 12].ytd != 0))
  {
    var r := Derive(table);
    var rows := Ordered(table);
    forall i | 0 <= i < |r|
      ensures r[i].mom.Some? <==> i >= 1 && r[i - 1].revenue != 0
      ensures r[i].yoy.Some? <==> i >= 12 && r[i - 12].revenue != 0
      ensures r[i].ytdYoy.Some? <==> i >= 12 && r[i - 12].ytd != 0
    {
      assert r[i] == DeriveAt(rows, i);
      if i >= 1 {
        assert r[i - 1] == DeriveAt(rows, i - 1);
      }
      if i >= 12 {
        assert r[i - 12] == DeriveAt(rows, i - 12);
      }
    }
  }

  /** Months 1..12, each row the month after the previous one. */
  predicate Consecutive(r: seq<Derived>) {
    && (forall i :: 0 <= i < |r| ==> 1 <= r[i].month <= 12)
    && (forall i :: 0 <= i < |r| - 1 ==> MonthIndex(r[i + 1].year, r[i + 1].month) == MonthIndex(r[i].year, r[i].month) + 1)
  }

  lemma {:induction false} ConsecutiveGap(rs: seq<Derived>, a: nat, b: nat)
    requires Consecutive(rs) && a <= b < |rs|
    ensures MonthIndex(rs[b].year, rs[b].month) == MonthIndex(rs[a].year, rs[a].month) + (b - a)
    decreases b - a
  {
    if a < b {
      ConsecutiveGap(rs, a, b - 1);
    }
  }

  /** The lag is by position: only when no month is missing is the row 12 places back the
      same month of the previous year, and then the last-year revenue is that month's. */
  lemma LagIsSameMonthLastYear(table: seq<MonthRow>, i: nat)
    requires DistinctPeriods(table) && TwoDigitMonths(table)
    requires Consecutive(Derive(table)) && 12 <= i < |table|
    ensures var r := Derive(table);
            r[i - 12].year == r[i].year - 1 && r[i - 12].month == r[i].month && r[i].ly == Some(r[i - 12].revenue)
  {
    var r := Derive(table);
    ConsecutiveGap(r, i - 12, i);
    DerivedLags(table);
  }

  /** With months 1..12 and a month missing, the row 12 places back lies more than a year
      earlier: the positional lag never reaches a later month than a year back. */
  lemma LagReachesAtLeastAYearBack(table: seq<MonthRow>, i: nat)
    requires DistinctPeriods(table) && TwoDigitMonths(table) && 12 <= i < |table|
    requires forall j :: 0 <= j < |table| ==> 1 <= table[j].month <= 12
    ensures var r := Derive(table);
            MonthIndex(r[i - 12].year, r[i - 12].month) <= MonthIndex(r[i].year, r[i].month) - 12
  {
    var r := Derive(table);
    forall j | 0 <= j < |r| - 1 ensures MonthIndex(r[j].year, r[j].month) < MonthIndex(r[j + 1].year, r[j + 1].month) {
      assert MonthRow(r[j].year, r[j].month, r[j].revenue) in table;
      assert MonthRow(r[j + 1].year, r[j + 1].month, r[j + 1].revenue) in table;
      assert Period(r[j].year, r[j].month) < Period(r[j + 1].year, r[j + 1].month);
    }
    IndexGrows(r, i - 12, i);
  }

  lemma {:induction false} IndexGrows(rs: seq<Derived>, a: nat, b: nat)
    requires a <= b < |rs|
    requires forall j :: 0 <= j < |rs| - 1 ==> MonthIndex(rs[j].year, rs[j].month) < MonthIndex(rs[j + 1].year, rs[j + 1].month)
    ensures MonthIndex(rs[a].year, rs[a].month) <= MonthIndex(rs[b].year, rs[b].month) - (b - a)
    decreases b - a
  {
    if a < b {
      IndexGrows(rs, a, b - 1);
    }
  }
}

=== FILE: screening.dfy ===
/** Stock lists as the screening methods pass them around, and the list algebra over them:
    union with summed scores, difference by code, and the industrial-stock intersection. */
module Screening {
  import opened Wrappers
  import opened Text
  import opened Sorting
  import opened Filtering

  /** One row of a stock list. */
  datatype Scored = Scored(code: string, name: string, score: real)

  /** A stock list as a DataFrame: the names of its columns and its rows. */
  datatype StockList = StockList(columns: set<string>, rows: seq<Scored>)

  const RequiredColumns: set<string> := {"code", "name", "score"}

  predicate HasRequiredColumns(l: StockList) {
    RequiredColumns <= l.columns
  }

  function Codes(rows: seq<Scored>): set<string> {
    set i | 0 <= i < |rows| :: rows[i].code
  }

  /** Sum of the scores of the rows with code `c`. */
  function ScoreSum(rows: seq<Scored>, c: string): real {
    if |rows| == 0 then 0.0
    else ScoreSum(rows[..|rows| - 1], c) + (if rows[|rows| - 1].code == c then rows[|rows| - 1].score else 0.0)
  }

  /** The name on the first row with code `c`. */
  function FirstName(rows: seq<Scored>, c: string): string
    requires c in Codes(rows)
  {
    var init, last := rows[..|rows| - 1], rows[|rows| - 1];
    assert rows == init + [last];
    CodesAppend(init, last);
    if c in Codes(init) then FirstName(init, c) else last.name
  }

  lemma CodesAppend(p: seq<Scored>, x: Scored)
    ensures Codes(p + [x]) == Codes(p) + {x.code}
  {
    var q := p + [x];
    assert forall i :: 0 <= i < |p| ==> q[i] == p[i];
    assert q[|p|] == x;
  }

  /** Codes strictly increase down the list, so no code repeats. */
  predicate StrictlyByCode(rows: seq<Scored>) {
    forall i, j :: 0 <= i < j < |rows| ==> LexLess(rows[i].code, rows[j].code)
  }

  /** Inserts a row with a new code at its place in code order. */
  function InsertByCode(x: Scored, acc: seq<Scored>): (r: seq<Scored>)
    ensures multiset(r) == multiset(acc) + multiset{x}
  {
    if |acc| == 0 then [x]
    else if LexLess(x.code, acc[0].code) then [x] + acc
    else
      assert acc == [acc[0]] + acc[1..];
      [acc[0]] + InsertByCode(x, acc[1..])
  }

  lemma {:induction false} InsertByCodeSorted(x: Scored, acc: seq<Scored>)
    requires StrictlyByCode(acc) && x.code !in Codes(acc)
    ensures StrictlyByCode(InsertByCode(x, acc))
  {
    if |acc| > 0 {
      if LexLess(x.code, acc[0].code) {
        var r := [x] + acc;
        forall i, j | 0 <= i < j < |r| ensures LexLess(r[i].code, r[j].code) {
          assert r[j] == acc[j - 1];
          if i == 0 {
            if j > 1 {
              LexLessTransitive(x.code, acc[0].code, acc[j - 1].code);
            }
          } else {
            assert r[i] == acc[i - 1];
          }
        }
      } else {
        assert x.code != acc[0].code;
        LexLessTotal(x.code, acc[0].code);
        var rest := acc[1..];
        assert Codes(rest) <= Codes(acc);
        assert StrictlyByCode(rest);
        InsertByCodeSorted(x, rest);
        var t := InsertByCode(x, rest);
        forall j | 0 <= j < |t| ensures LexLess(acc[0].code, t[j].code) {
          assert t[j] in multiset(t);
          if t[j] != x {
            assert t[j] in rest;
          }
        }
      }
    }
  }

  /** Adds one row to a code-ordered accumulator: its score joins an existing code's total, or
      it enters as a new code. */
  function AddRow(acc: seq<Scored>, x: Scored): seq<Scored> {
    if x.code in Codes(acc) then
      seq(|acc|, i requires 0 <= i < |acc| =>
        if acc[i].code == x.code then acc[i].(score := acc[i].score + x.score) else acc[i])
    else InsertByCode(x, acc)
  }

  /** groupby('code').agg(name='first', score='sum'): one row per code, in code order. */
  function GroupByCode(rows: seq<Scored>): seq<Scored> {
    if |rows| == 0 then [] else AddRow(GroupByCode(rows[..|rows| - 1]), rows[|rows| - 1])
  }

  /** What a grouping of `rows` must be: one row per code in code order, each carrying the
      first name and the total score of its code. */
  predicate IsGrouping(r: seq<Scored>, rows: seq<Scored>) {
    && StrictlyByCode(r)
    && Codes(r) == Codes(rows)
    && forall y :: y in r ==> y.code in Codes(rows) && y.score == ScoreSum(rows, y.code) && y.name == FirstName(rows, y.code)
  }

  lemma ScoreSumAbsent(rows: seq<Scored>, c: string)
    requires c !in Codes(rows)
    ensures ScoreSum(rows, c) == 0.0
  {
    if |rows| > 0 {
      assert rows == rows[..|rows| - 1] + [rows[|rows| - 1]];
      CodesAppend(rows[..|rows| - 1], rows[|rows| - 1]);
      ScoreSumAbsent(rows[..|rows| - 1], c);
    }
  }

  lemma {:induction false} GroupByCodeIsGrouping(rows: seq<Scored>)
    ensures IsGrouping(GroupByCode(rows), rows)
  {
    if |rows| > 0 {
      var p, x := rows[..|rows| - 1], rows[|rows| - 1];
      assert rows == p + [x];
      GroupByCodeIsGrouping(p);
      if x.code in Codes(GroupByCode(p)) {
        AddRowToExisting(GroupByCode(p), p, x);
      } else {
        AddRowAsNew(GroupByCode(p), p, x);
      }
    }
  }

  lemma AddRowToExisting(acc: seq<Scored>, p: seq<Scored>, x: Scored)
    requires IsGrouping(acc, p) && x.code in Codes(acc)
    ensures IsGrouping(AddRow(acc, x), p + [x])
  {
    var r := AddRow(acc, x);
    assert forall i :: 0 <= i < |r| ==> r[i].code == acc[i].code;
    assert StrictlyByCode(r) by {
      forall i, j | 0 <= i < j < |r| ensures LexLess(r[i].code, r[j].code) {
        assert r[i].code == acc[i].code && r[j].code == acc[j].code;
      }
    }
    assert Codes(r) == Codes(p + [x]) by {
      CodesAppend(p, x);
      assert Codes(r) == Codes(acc);
    }
    forall y | y in r ensures y.code in Codes(p + [x]) && y.score == ScoreSum(p + [x], y.code) && y.name == FirstName(p + [x], y.code) {
      var i :| 0 <= i < |r| && r[i] == y;
      assert acc[i] in acc;
      ExistingRowStep(p, x, acc[i]);
    }
  }

  /** A grouped row of `p` after `x` joins: its score grows by x's when the codes match, and
      its first name stays. */
  lemma ExistingRowStep(p: seq<Scored>, x: Scored, a: Scored)
    requires a.code in Codes(p) && a.score == ScoreSum(p, a.code) && a.name == FirstName(p, a.code)
    ensures var b := if a.code == x.code then a.(score := a.score + x.score) else a;
            b.code in Codes(p + [x]) && b.score == ScoreSum(p + [x], b.code) && b.name == FirstName(p + [x], b.code)
  {
    assert (p + [x])[..|p|] == p;
    CodesAppend(p, x);
  }

  lemma AddRowAsNew(acc: seq<Scored>, p: seq<Scored>, x: Scored)
    requires IsGrouping(acc, p) && x.code !in Codes(acc)
    ensures IsGrouping(AddRow(acc, x), p + [x])
  {
    var r := AddRow(acc, x);
    assert StrictlyByCode(r) by { InsertByCodeSorted(x, acc); }
    assert Codes(r) == Codes(p + [x]) by {
      CodesAppend(p, x);
      InsertedCodes(acc, x);
    }
    forall y | y in r ensures y.code in Codes(p + [x]) && y.score == ScoreSum(p + [x], y.code) && y.name == FirstName(p + [x], y.code) {
      assert y in multiset(r);
      if y != x {
        assert y in acc;
        ExistingRowStep(p, x, y);
      } else {
        NewRowStep(p, x);
      }
    }
  }

  /** Inserting a row adds its code to the accumulator's codes. */
  lemma InsertedCodes(acc: seq<Scored>, x: Scored)
    ensures Codes(InsertByCode(x, acc)) == Codes(acc) + {x.code}
  {
    var r := InsertByCode(x, acc);
    forall c | c in Codes(r) ensures c in Codes(acc) + {x.code} {
      var i :| 0 <= i < |r| && r[i].code == c;
      assert r[i] in multiset(r);
      if r[i] != x {
        assert r[i] in acc;
      }
    }
    forall c | c in Codes(acc) + {x.code} ensures c in Codes(r) {
      if c == x.code {
        assert x in multiset(r);
      } else {
        var i :| 0 <= i < |acc| && acc[i].code == c;
        assert acc[i] in multiset(r);
      }
    }
  }

  /** A row whose code `p` lacks is its own group: its score and its name. */
  lemma NewRowStep(p: seq<Scored>, x: Scored)
    requires x.code !in Codes(p)
    ensures x.code in Codes(p + [x]) && x.score == ScoreSum(p + [x], x.code) && x.name == FirstName(p + [x], x.code)
  {
    assert (p + [x])[..|p|] == p;
    CodesAppend(p, x);
    ScoreSumAbsent(p, x.code);
  }

  /** add_lists: the union of two lists, one row per code in code order, the first name seen
      and the sum of the scores; a list without the code/name/score columns raises. */
  function AddLists(a: StockList, b: StockList): (r: Result<seq<Scored>>)
    ensures r.Failure? <==> !HasRequiredColumns(a) || !HasRequiredColumns(b)
    ensures r.Success? ==> IsGrouping(r.value, a.rows + b.rows)
    ensures r.Success? ==> Codes(r.value) == Codes(a.rows) + Codes(b.rows)
  {
    if !HasRequiredColumns(a) then Failure("Input1 is missing required columns")
    else if !HasRequiredColumns(b) then Failure("Input2 is missing required columns")
    else
      GroupByCodeIsGrouping(a.rows + b.rows);
      CodesConcat(a.rows, b.rows);
      Success(GroupByCode(a.rows + b.rows))
  }

  lemma CodesConcat(a: seq<Scored>, b: seq<Scored>)
    ensures Codes(a + b) == Codes(a) + Codes(b)
  {
    var c := a + b;
    forall k | k in Codes(c) ensures k in Codes(a) + Codes(b) {
      var i :| 0 <= i < |c| && c[i].code == k;
      if i < |a| { assert a[i] == c[i]; } else { assert b[i - |a|] == c[i]; }
    }
    forall k | k in Codes(a) + Codes(b) ensures k in Codes(c) {
      if k in Codes(a) {
        var i :| 0 <= i < |a| && a[i].code == k;
        assert c[i] == a[i];
      } else {
        var i :| 0 <= i < |b| && b[i].code == k;
        assert c[|a| + i] == b[i];
      }
    }
  }

  /** The rows of `rows` whose code is not in `excluded`, in their original order. */
  function DropCodes(rows: seq<Scored>, excluded: set<string>): seq<Scored> {
    if |rows| == 0 then []
    else (if rows[0].code in excluded then [] else [rows[0]]) + DropCodes(rows[1..], excluded)
  }

  /** minus_lists: the source rows whose code the exclude list does not mention, order and
      duplicates kept; a list without the code/name/score columns raises. */
  function MinusLists(source: StockList, exclude: StockList): (r: Result<seq<Scored>>)
    ensures r.Failure? <==> !HasRequiredColumns(source) || !HasRequiredColumns(exclude)
    ensures r.Success? ==> r.value == Filter(source.rows, Outside(Codes(exclude.rows)))
    ensures r.Success? ==> forall y :: y in r.value <==> y in source.rows && y.code !in Codes(exclude.rows)
    ensures r.Success? ==> forall y :: multiset(r.value)[y] == if y.code in Codes(exclude.rows) then 0 else multiset(source.rows)[y]
    ensures r.Success? ==> |r.value| <= |source.rows|
  {
    if !HasRequiredColumns(source) then Failure("Source is missing required columns")
    else if !HasRequiredColumns(exclude) then Failure("Exclude is missing required columns")
    else
      DropCodesMembers(source.rows, Codes(exclude.rows));
      Success(DropCodes(source.rows, Codes(exclude.rows)))
  }

  /** The mask `~code.isin(excluded)`. */
  function Outside(excluded: set<string>): Scored -> bool {
    (x: Scored) => x.code !in excluded
  }

  /** DropCodes keeps exactly the rows outside `excluded`, in their order and as often as
      they occur. */
  lemma {:induction false} DropCodesMembers(rows: seq<Scored>, excluded: set<string>)
    ensures DropCodes(rows, excluded) == Filter(rows, Outside(excluded))
    ensures forall y :: y in DropCodes(rows, excluded) <==> y in rows && y.code !in excluded
    ensures forall y :: multiset(DropCodes(rows, excluded))[y] == if y.code in excluded then 0 else multiset(rows)[y]
    ensures |DropCodes(rows, excluded)| <= |rows|
  {
    if |rows| > 0 {
      DropCodesMembers(rows[1..], excluded);
    }
    FilterCounts(rows, Outside(excluded));
  }

  /** Removing nothing keeps the source list as it is. */
  lemma MinusEmptyIsIdentity(source: StockList, exclude: StockList)
    requires HasRequiredColumns(source) && HasRequiredColumns(exclude) && |exclude.rows| == 0
    ensures MinusLists(source, exclude) == Success(source.rows)
  {
    DropNothing(source.rows, Codes(exclude.rows));
  }

  lemma {:induction false} DropNothing(rows: seq<Scored>, excluded: set<string>)
    requires excluded == {}
    ensures DropCodes(rows, excluded) == rows
  {
    if |rows| > 0 {
      DropNothing(rows[1..], excluded);
      assert rows == [rows[0]] + rows[1..];
    }
  }

  /** Subtracting a list and adding it back restores every code of the source. */
  lemma MinusThenAddCoversSource(a: StockList, b: StockList)
    requires HasRequiredColumns(a) && HasRequiredColumns(b)
    ensures Codes(a.rows) <= Codes(MinusLists(a, b).value) + Codes(b.rows)
  {
    CodesOutsideKept(a.rows, MinusLists(a, b).value, Codes(b.rows));
  }

  /** Rows that keep every row of `rows` outside `excluded` keep every code outside it. */
  lemma CodesOutsideKept(rows: seq<Scored>, m: seq<Scored>, excluded: set<string>)
    requires forall y :: y in m <==> y in rows && y.code !in excluded
    ensures Codes(rows) <= Codes(m) + excluded
  {
    forall c | c in Codes(rows) && c !in excluded ensures c in Codes(m) {
      var i :| 0 <= i < |rows| && rows[i].code == c;
      assert rows[i] in rows;
      assert rows[i] in m;
      var j :| 0 <= j < |m| && m[j] == rows[i];
    }
  }

  /** Descending score order, the order of sort_values(by='score', ascending=False). */
  predicate ByScoreDescending(rows: seq<Scored>) {
    forall i, j :: 0 <= i < j < |rows| ==> rows[i].score >= rows[j].score
  }

  function NegScore(x: Scored): real {
    -x.score
  }

  /** Sorts a list by descending score. pandas sorts without a stability guarantee, so only the
      order and the permutation are promised. */
  function SortByScore(rows: seq<Scored>): (r: seq<Scored>)
    ensures ByScoreDescending(r)
    ensures multiset(r) == multiset(rows)
  {
    var s := SortBy(rows, NegScore);
    assert forall i, j :: 0 <= i < j < |s| ==> NegScore(s[i]) <= NegScore(s[j]);
    s
  }

  /** A row of the industrial-stock list the database provides. */
  datatype Listed = Listed(code: string, name: string)

  function ListedCodes(ind: seq<Listed>): set<string> {
    set i | 0 <= i < |ind| :: ind[i].code
  }

  function WithScore(ind: seq<Listed>, score: real): (r: seq<Scored>)
    ensures |r| == |ind|
    ensures forall i :: 0 <= i < |r| ==> r[i] == Scored(ind[i].code, ind[i].name, score)
  {
    seq(|ind|, i requires 0 <= i < |ind| => Scored(ind[i].code, ind[i].name, score))
  }

  /** get_target_stocks: a non-empty input list as it is, otherwise every industrial stock
      with score 0. */
  function GetTargetStocks(input: Option<seq<Scored>>, ind: seq<Listed>): (r: seq<Scored>)
    ensures input.Some? && |input.value| > 0 ==> r == input.value
    ensures !(input.Some? && |input.value| > 0) ==>
      |r| == |ind| && forall i :: 0 <= i < |r| ==> r[i].code == ind[i].code && r[i].name == ind[i].name && r[i].score == 0.0
  {
    if input.Some? && |input.value| > 0 then input.value
    else if |ind| == 0 then []
    else WithScore(ind, 0.0)
  }

  /** The codes of the industrial rows, in table order and with repeats. */
  function ListedCodeSeq(ind: seq<Listed>): (r: seq<string>)
    ensures |r| == |ind| && forall i :: 0 <= i < |ind| ==> r[i] == ind[i].code
  {
    seq(|ind|, i requires 0 <= i < |ind| => ind[i].code)
  }

  /** How many industrial rows carry code `c`. */
  function CountListed(ind: seq<Listed>, c: string): (n: nat)
    ensures n > 0 <==> c in ListedCodes(ind)
    ensures n == multiset(ListedCodeSeq(ind))[c]
  {
    if |ind| == 0 then 0
    else
      assert ListedCodes(ind) == {ind[0].code} + ListedCodes(ind[1..]) by {
        assert forall i :: 1 <= i < |ind| ==> ind[i] == ind[1..][i - 1];
        assert forall i :: 0 <= i < |ind[1..]| ==> ind[1..][i] == ind[i + 1];
      }
      assert ListedCodeSeq(ind) == [ind[0].code] + ListedCodeSeq(ind[1..]);
      (if ind[0].code == c then 1 else 0) + CountListed(ind[1..], c)
  }

  /** A row with one more point. */
  function Bump(x: Scored): Scored {
    x.(score := x.score + 1.0)
  }

  /** Every row with one more point, in order. */
  function Bumped(rows: seq<Scored>): (r: seq<Scored>)
    ensures |r| == |rows| && forall i :: 0 <= i < |rows| ==> r[i] == Bump(rows[i])
  {
    seq(|rows|, i requires 0 <= i < |rows| => Bump(rows[i]))
  }

  /** The mask of the inner merge: the row's code is an industrial code. */
  function IsIndustrial(ind: seq<Listed>): Scored -> bool {
    (x: Scored) => x.code in ListedCodes(ind)
  }

  /** pd.merge(input, industrial[['code']], on='code', how='inner') followed by score + 1: each
      input row, in input order, once per industrial row with its code. */
  function MergeIndustrial(rows: seq<Scored>, ind: seq<Listed>): (r: seq<Scored>)
    ensures forall y :: y in r <==> exists x :: x in rows && x.code in ListedCodes(ind) && y == x.(score := x.score + 1.0)
    ensures |rows| == 1 ==> |r| == CountListed(ind, rows[0].code) && forall k :: 0 <= k < |r| ==> r[k] == Bump(rows[0])
  {
    MergedMembers(rows, ind);
    assert |rows| == 1 ==> Merged(rows[1..], ind) == [];
    Merged(rows, ind)
  }

  /** Each input row, once per industrial row with its code, with one more point. */
  function Merged(rows: seq<Scored>, ind: seq<Listed>): seq<Scored> {
    if |rows| == 0 then []
    else seq(CountListed(ind, rows[0].code), _ => Bump(rows[0])) + Merged(rows[1..], ind)
  }

  lemma {:induction false} MergedMembers(rows: seq<Scored>, ind: seq<Listed>)
    ensures forall y :: y in Merged(rows, ind) <==> exists x :: x in rows && x.code in ListedCodes(ind) && y == Bump(x)
  {
    if |rows| > 0 {
      var x := rows[0];
      var head := seq(CountListed(ind, x.code), _ => Bump(x));
      MergedMembers(rows[1..], ind);
      assert forall y :: y in rows <==> y == x || y in rows[1..] by { assert rows == [x] + rows[1..]; }
      assert forall y :: y in head <==> x.code in ListedCodes(ind) && y == Bump(x) by {
        if x.code in ListedCodes(ind) {
          assert head[0] == Bump(x);
        }
      }
    }
  }

  /** The merge works row by row: merging two runs of input rows merges each in turn, so the
      input order is kept. */
  lemma {:induction false} MergeIndustrialAppend(a: seq<Scored>, b: seq<Scored>, ind: seq<Listed>)
    ensures MergeIndustrial(a + b, ind) == MergeIndustrial(a, ind) + MergeIndustrial(b, ind)
  {
    MergedAppend(a, b, ind);
  }

  lemma {:induction false} MergedAppend(a: seq<Scored>, b: seq<Scored>, ind: seq<Listed>)
    ensures Merged(a + b, ind) == Merged(a, ind) + Merged(b, ind)
  {
    if |a| == 0 {
      assert a + b == b;
    } else {
      assert (a + b)[0] == a[0] && (a + b)[1..] == a[1..] + b;
      MergedAppend(a[1..], b, ind);
    }
  }

  /** The industrial codes are unique (the stock table is keyed by code), so the merge is the
      filter of the input on industrial codes, each kept row with one more point. */
  lemma {:induction false} MergeUniqueIsFilter(rows: seq<Scored>, ind: seq<Listed>)
    requires forall i, j :: 0 <= i < j < |ind| ==> ind[i].code != ind[j].code
    ensures MergeIndustrial(rows, ind) == Bumped(Filter(rows, IsIndustrial(ind)))
    ensures |MergeIndustrial(rows, ind)| == |rows| - |DropCodes(rows, ListedCodes(ind))|
  {
    MergedUniqueIsFilter(rows, ind);
    if |rows| > 0 {
      UniqueLength(rows, ind);
    }
  }

  lemma {:induction false} MergedUniqueIsFilter(rows: seq<Scored>, ind: seq<Listed>)
    requires forall i, j :: 0 <= i < j < |ind| ==> ind[i].code != ind[j].code
    ensures Merged(rows, ind) == Bumped(Filter(rows, IsIndustrial(ind)))
  {
    if |rows| > 0 {
      UniqueCountAtMostOne(ind, rows[0].code);
      MergedUniqueIsFilter(rows[1..], ind);
      var x := rows[0];
      var head := seq(CountListed(ind, x.code), _ => Bump(x));
      var kept := if IsIndustrial(ind)(x) then [x] else [];
      assert Filter(rows, IsIndustrial(ind)) == kept + Filter(rows[1..], IsIndustrial(ind));
      assert head == Bumped(kept);
      assert Bumped(kept + Filter(rows[1..], IsIndustrial(ind))) == Bumped(kept) + Bumped(Filter(rows[1..], IsIndustrial(ind)));
    }
  }

  lemma {:induction false} UniqueLength(rows: seq<Scored>, ind: seq<Listed>)
    requires forall i, j :: 0 <= i < j < |ind| ==> ind[i].code != ind[j].code
    ensures |Merged(rows, ind)| == |rows| - |DropCodes(rows, ListedCodes(ind))|
  {
    if |rows| > 0 {
      UniqueCountAtMostOne(ind, rows[0].code);
      UniqueLength(rows[1..], ind);
    }
  }

  lemma {:induction false} UniqueCountAtMostOne(ind: seq<Listed>, c: string)
    requires forall i, j :: 0 <= i < j < |ind| ==> ind[i].code != ind[j].code
    ensures CountListed(ind, c) <= 1
  {
    if |ind| > 0 {
      UniqueCountAtMostOne(ind[1..], c);
      if ind[0].code == c {
        assert c !in ListedCodes(ind[1..]);
      }
    }
  }

  /** list_industrial: without industrial stocks the input comes back untouched (nothing for a
      missing input); a non-empty input is narrowed to industrial stocks with one more point
      each and sorted by score; otherwise every industrial stock scores 1. */
  function ListIndustrial(ind: seq<Listed>, input: Option<seq<Scored>>): (r: seq<Scored>)
    ensures |ind| == 0 ==> r == input.GetOr([])
    ensures |ind| > 0 && input.Some? && |input.value| > 0 ==>
      && ByScoreDescending(r)
      && multiset(r) == multiset(MergeIndustrial(input.value, ind))
      && (forall y :: y in r <==> exists x :: x in input.value && x.code in ListedCodes(ind) && y == x.(score := x.score + 1.0))
    ensures |ind| > 0 && !(input.Some? && |input.value| > 0) ==>
      |r| == |ind| && forall i :: 0 <= i < |r| ==> r[i] == Scored(ind[i].code, ind[i].name, 1.0)
  {
    if |ind| == 0 then input.GetOr([])
    else if input.Some? && |input.value| > 0 then
      var merged := MergeIndustrial(input.value, ind);
      var sorted := SortByScore(merged);
      assert forall y :: y in sorted <==> y in merged by {
        assert forall y :: y in sorted <==> y in multiset(sorted);
        assert forall y :: y in merged <==> y in multiset(merged);
      }
      sorted
    else WithScore(ind, 1.0)
  }

  /** The stocks a screening method walks through: their codes in order, and the name and the
      score carried in for each code. */
  datatype Targets = Targets(codes: seq<string>, names: map<string, string>, scores: map<string, real>)

  /** dict(zip(codes, names)): a later row overrides an earlier row with the same code. */
  function NameMap(rows: seq<Scored>): (m: map<string, string>)
    ensures m.Keys == Codes(rows)
    ensures |rows| > 0 ==> m[rows[|rows| - 1].code] == rows[|rows| - 1].name
  {
    if |rows| == 0 then map[]
    else
      CodesAppend(rows[..|rows| - 1], rows[|rows| - 1]);
      assert rows == rows[..|rows| - 1] + [rows[|rows| - 1]];
      NameMap(rows[..|rows| - 1])[rows[|rows| - 1].code := rows[|rows| - 1].name]
  }

  /** dict(zip(codes, scores)), later rows overriding earlier ones. */
  function ScoreMap(rows: seq<Scored>): (m: map<string, real>)
    ensures m.Keys == Codes(rows)
    ensures |rows| > 0 ==> m[rows[|rows| - 1].code] == rows[|rows| - 1].score
  {
    if |rows| == 0 then map[]
    else
      CodesAppend(rows[..|rows| - 1], rows[|rows| - 1]);
      assert rows == rows[..|rows| - 1] + [rows[|rows| - 1]];
      ScoreMap(rows[..|rows| - 1])[rows[|rows| - 1].code := rows[|rows| - 1].score]
  }

  function ListedNameMap(ind: seq<Listed>): (m: map<string, string>)
    ensures m.Keys == ListedCodes(ind)
  {
    if |ind| == 0 then map[]
    else
      var init := ind[..|ind| - 1];
      assert ListedCodes(ind) == ListedCodes(init) + {ind[|ind| - 1].code} by {
        assert forall i :: 0 <= i < |init| ==> init[i] == ind[i];
      }
      ListedNameMap(init)[ind[|ind| - 1].code := ind[|ind| - 1].name]
  }

  /** _get_target_stocks: the codes of a non-empty input list with its names and scores, or
      the industrial stocks with their names and no carried scores. */
  function TargetsOf(input: Option<seq<Scored>>, ind: seq<Listed>): (t: Targets)
    ensures input.Some? && |input.value| > 0 ==>
      && |t.codes| == |input.value|
      && (forall i :: 0 <= i < |t.codes| ==> t.codes[i] == input.value[i].code)
      && t.names.Keys == Codes(input.value) && t.scores.Keys == Codes(input.value)
    ensures !(input.Some? && |input.value| > 0) ==>
      && |t.codes| == |ind|
      && (forall i :: 0 <= i < |t.codes| ==> t.codes[i] == ind[i].code)
      && t.names.Keys == ListedCodes(ind) && t.scores == map[]
  {
    if input.Some? && |input.value| > 0 then
      var rows := input.value;
      Targets(seq(|rows|, i requires 0 <= i < |rows| => rows[i].code), NameMap(rows), ScoreMap(rows))
    else if |ind| == 0 then Targets([], map[], map[])
    else Targets(seq(|ind|, i requires 0 <= i < |ind| => ind[i].code), ListedNameMap(ind), map[])
  }

  /** The row a selected code contributes: its name (or '') and its carried score (or 0) plus
      the score the method awards. */
  function Award(t: Targets, c: string, gained: real): Scored {
    Scored(c, if c in t.names then t.names[c] else "", (if c in t.scores then t.scores[c] else 0.0) + gained)
  }

  /** The mask a screen applies to the target codes: the codes it scores. */
  function Chosen(eval: string -> Option<real>): string -> bool {
    c => eval(c).Some?
  }

  /** One awarded row per code of `codes`, in their order. */
  function AwardRows(t: Targets, codes: seq<string>, eval: string -> Option<real>): (r: seq<Scored>)
    ensures |r| == |codes|
    ensures forall k :: 0 <= k < |codes| ==> r[k] == Award(t, codes[k], eval(codes[k]).GetOr(0.0))
  {
    seq(|codes|, k requires 0 <= k < |codes| => Award(t, codes[k], eval(codes[k]).GetOr(0.0)))
  }

  lemma AwardRowsAppend(t: Targets, a: seq<string>, b: seq<string>, eval: string -> Option<real>)
    ensures AwardRows(t, a + b, eval) == AwardRows(t, a, eval) + AwardRows(t, b, eval)
  {
  }

  /** No code occurs on two rows. */
  predicate UniqueCodes(rows: seq<Scored>) {
    forall i, j :: 0 <= i < j < |rows| ==> rows[i].code != rows[j].code
  }

  /** Distinct codes give distinct awarded rows. */
  lemma AwardRowsUnique(t: Targets, codes: seq<string>, eval: string -> Option<real>)
    requires Distinct(codes)
    ensures UniqueCodes(AwardRows(t, codes, eval))
  {
  }

  /** Reordering rows cannot make two of them share a code. */
  lemma UniqueCodesPermutation(a: seq<Scored>, b: seq<Scored>)
    requires multiset(a) == multiset(b) && UniqueCodes(a)
    ensures UniqueCodes(b)
  {
    forall i, j | 0 <= i < j < |b| ensures b[i].code != b[j].code {
      DistinctPositions(a, b, i, j);
      var p, q :| 0 <= p < |a| && 0 <= q < |a| && p != q && a[p] == b[i] && a[q] == b[j];
      assert a[p].code != a[q].code;
    }
  }

  /** Two positions of `b` come from two different positions of a permutation `a` of it. */
  lemma DistinctPositions(a: seq<Scored>, b: seq<Scored>, i: int, j: int)
    requires multiset(a) == multiset(b) && 0 <= i < j < |b|
    ensures exists p, q :: 0 <= p < |a| && 0 <= q < |a| && p != q && a[p] == b[i] && a[q] == b[j]
  {
    assert b[i] in multiset(a);
    var p :| 0 <= p < |a| && a[p] == b[i];
    if b[i] == b[j] {
      TwoPositions(b, i, j);
      OtherPosition(a, p);
      var q :| 0 <= q < |a| && q != p && a[q] == a[p];
      assert a[p] == b[i] && a[q] == b[j];
    } else {
      assert b[j] in multiset(a);
      var q :| 0 <= q < |a| && a[q] == b[j];
      assert a[p] == b[i] && a[q] == b[j];
    }
  }

  lemma TwoPositions(s: seq<Scored>, i: int, j: int)
    requires 0 <= i < j < |s| && s[i] == s[j]
    ensures multiset(s)[s[i]] >= 2
  {
    assert s == s[..j] + [s[j]] + s[j + 1..];
    assert s[..j][i] == s[i];
  }

  lemma OtherPosition(s: seq<Scored>, p: int)
    requires 0 <= p < |s| && multiset(s)[s[p]] >= 2
    ensures exists q :: 0 <= q < |s| && q != p && s[q] == s[p]
  {
    var x := s[p];
    var rest := s[..p] + s[p + 1..];
    assert s == s[..p] + [x] + s[p + 1..];
    assert x in multiset(rest);
    var k :| 0 <= k < |rest| && rest[k] == x;
    if k < p {
      assert s[k] == x;
    } else {
      assert s[k + 1] == x;
    }
  }

  /** The rows of the selected codes, in target order, one per occurrence of the code. */
  function Picks(t: Targets, codes: seq<string>, eval: string -> Option<real>): (r: seq<Scored>)
    ensures r == AwardRows(t, Filter(codes, Chosen(eval)), eval)
    ensures forall y :: y in r <==> exists c :: c in codes && eval(c).Some? && y == Award(t, c, eval(c).value)
    ensures |r| <= |codes|
  {
    PickedRowsAwarded(t, codes, eval);
    AwardedMembers(t, codes, eval);
    PickedRows(t, codes, eval)
  }

  /** The loop over the codes: the awarded row of each code `eval` scores, in code order. */
  function PickedRows(t: Targets, codes: seq<string>, eval: string -> Option<real>): seq<Scored> {
    if |codes| == 0 then []
    else
      var c := codes[0];
      (if eval(c).Some? then [Award(t, c, eval(c).value)] else []) + PickedRows(t, codes[1..], eval)
  }

  lemma {:induction false} PickedRowsAwarded(t: Targets, codes: seq<string>, eval: string -> Option<real>)
    ensures PickedRows(t, codes, eval) == AwardRows(t, Filter(codes, Chosen(eval)), eval)
  {
    if |codes| > 0 {
      var c := codes[0];
      var kept := if eval(c).Some? then [c] else [];
      assert Filter(codes, Chosen(eval)) == kept + Filter(codes[1..], Chosen(eval));
      AwardRowsAppend(t, kept, Filter(codes[1..], Chosen(eval)), eval);
      PickedRowsAwarded(t, codes[1..], eval);
    }
  }

  /** The awarded rows of the chosen codes are the awards of the codes `eval` scores. */
  lemma AwardedMembers(t: Targets, codes: seq<string>, eval: string -> Option<real>)
    ensures forall y :: y in AwardRows(t, Filter(codes, Chosen(eval)), eval) <==>
      exists c :: c in codes && eval(c).Some? && y == Award(t, c, eval(c).value)
  {
    var cs := Filter(codes, Chosen(eval));
    FilterCounts(codes, Chosen(eval));
    var r := AwardRows(t, cs, eval);
    forall y | y in r ensures exists c :: c in codes && eval(c).Some? && y == Award(t, c, eval(c).value) {
      var k :| 0 <= k < |r| && r[k] == y;
      var c := cs[k];
      assert Chosen(eval)(c) && c in cs;
    }
    forall c | c in codes && eval(c).Some? ensures Award(t, c, eval(c).value) in r {
      assert Chosen(eval)(c);
      assert c in cs;
      var k :| 0 <= k < |cs| && cs[k] == c;
      assert r[k] == Award(t, c, eval(c).value);
    }
  }

  /** What a screen's result must be: the awarded rows of the chosen target codes, one per
      occurrence, in some order of descending score. */
  predicate IsScreenOf(r: seq<Scored>, t: Targets, eval: string -> Option<real>) {
    && ByScoreDescending(r)
    && multiset(r) == multiset(AwardRows(t, Filter(t.codes, Chosen(eval)), eval))
  }

  /** The loop every screening method shares: evaluate each target code, keep the selected
      ones with their accumulated score, and sort by score, highest first. */
  function Screen(t: Targets, eval: string -> Option<real>): (r: seq<Scored>)
    ensures IsScreenOf(r, t, eval)
    ensures Distinct(t.codes) ==> UniqueCodes(r)
    ensures forall y :: y in r <==> exists c :: c in t.codes && eval(c).Some? && y == Award(t, c, eval(c).value)
    ensures |r| <= |t.codes|
  {
    var picks := Picks(t, t.codes, eval);
    var sorted := SortByScore(picks);
    assert forall y :: y in sorted <==> y in picks by {
      assert forall y :: y in sorted <==> y in multiset(sorted);
      assert forall y :: y in picks <==> y in multiset(picks);
    }
    assert |sorted| == |picks| by {
      assert |multiset(sorted)| == |multiset(picks)|;
    }
    ScreenUnique(t, eval, sorted);
    sorted
  }

  lemma ScreenUnique(t: Targets, eval: string -> Option<real>, sorted: seq<Scored>)
    requires multiset(sorted) == multiset(AwardRows(t, Filter(t.codes, Chosen(eval)), eval))
    ensures Distinct(t.codes) ==> UniqueCodes(sorted)
  {
    if Distinct(t.codes) {
      FilterDistinct(t.codes, Chosen(eval));
      AwardRowsUnique(t, Filter(t.codes, Chosen(eval)), eval);
      UniqueCodesPermutation(AwardRows(t, Filter(t.codes, Chosen(eval)), eval), sorted);
    }
  }
}

=== FILE: series.dfy ===
/** The few column operations the screening methods apply to a stock's recent history. */
module Series {
  import opened Wrappers
  import opened Filtering

  /** The last `limit` rows of a history kept oldest first (all of it when it is shorter). */
  function Recent<T>(h: seq<T>, limit: nat): (r: seq<T>)
    ensures |r| == if |h| < limit then |h| else limit
    ensures r == h[|h| - |r|..]
  {
    if |h| <= limit then h else h[|h| - limit..]
  }

  predicate AllPresent(s: seq<Option<real>>) {
    forall i :: 0 <= i < |s| ==> s[i].Some?
  }

  function Present(s: seq<Option<real>>): (r: seq<real>)
    requires AllPresent(s)
    ensures |r| == |s|
    ensures forall i :: 0 <= i < |s| ==> r[i] == s[i].value
  {
    seq(|s|, i requires 0 <= i < |s| => s[i].value)
  }

  predicate Known(o: Option<real>) {
    o.Some?
  }

  /** The present values, in order: what pandas keeps when it skips NaN. They are the values
      of the present entries, one for one. */
  function DropMissing(s: seq<Option<real>>): (r: seq<real>)
    ensures |r| == |Filter(s, Known)|
    ensures forall i :: 0 <= i < |r| ==> Filter(s, Known)[i] == Some(r[i])
    ensures forall v :: v in r <==> Some(v) in s
  {
    DroppedIsFilter(s);
    Dropped(s)
  }

  /** The skipping loop itself. */
  function Dropped(s: seq<Option<real>>): seq<real> {
    if |s| == 0 then []
    else (if s[0].Some? then [s[0].value] else []) + Dropped(s[1..])
  }

  lemma {:induction false} DroppedIsFilter(s: seq<Option<real>>)
    ensures |Dropped(s)| == |Filter(s, Known)|
    ensures forall i :: 0 <= i < |Dropped(s)| ==> Filter(s, Known)[i] == Some(Dropped(s)[i])
    ensures forall v :: v in Dropped(s) <==> Some(v) in s
  {
    if |s| > 0 {
      assert forall o :: o in s <==> o == s[0] || o in s[1..] by { assert s == [s[0]] + s[1..]; }
      DroppedIsFilter(s[1..]);
      assert Filter(s, Known) == (if s[0].Some? then [s[0]] else []) + Filter(s[1..], Known);
    }
  }

  /** Each value is kept exactly as often as it is present, which is what a mean over the
      present values relies on. */
  lemma DropMissingCounts(s: seq<Option<real>>)
    ensures forall v :: multiset(DropMissing(s))[v] == multiset(s)[Some(v)]
    ensures |DropMissing(s)| == |s| - multiset(s)[None]
  {
    forall v ensures multiset(Dropped(s))[v] == multiset(s)[Some(v)] {
      DroppedCount(s, v);
    }
    DroppedLength(s);
  }

  lemma {:induction false} DroppedCount(s: seq<Option<real>>, v: real)
    ensures multiset(Dropped(s))[v] == multiset(s)[Some(v)]
  {
    if |s| > 0 {
      DroppedCount(s[1..], v);
      assert s == [s[0]] + s[1..];
    }
  }

  lemma {:induction false} DroppedLength(s: seq<Option<real>>)
    ensures |Dropped(s)| == |s| - multiset(s)[None]
  {
    if |s| > 0 {
      DroppedLength(s[1..]);
      assert s == [s[0]] + s[1..];
    }
  }

  /** Without missing entries nothing is dropped. */
  lemma DropNoneMissing(s: seq<Option<real>>)
    requires AllPresent(s)
    ensures DropMissing(s) == Present(s)
  {
    FilterAll(s, Known);
  }

  /** The loop the methods use: every value is below the next one. */
  function RisesEachStep(s: seq<real>): bool {
    |s| < 2 || (s[0] < s[1] && RisesEachStep(s[1..]))
  }

  predicate StrictlyIncreasing(s: seq<real>) {
    forall i, j :: 0 <= i < j < |s| ==> s[i] < s[j]
  }

  /** Checking neighbours is the same as checking every pair. */
  lemma {:induction false} RisesEachStepIffIncreasing(s: seq<real>)
    ensures RisesEachStep(s) <==> StrictlyIncreasing(s)
  {
    if |s| >= 2 {
      RisesEachStepIffIncreasing(s[1..]);
      if RisesEachStep(s) {
        forall i, j | 0 <= i < j < |s| ensures s[i] < s[j] {
          if i > 0 {
            assert s[1..][i - 1] < s[1..][j - 1];
          } else if j > 1 {
            assert s[1..][0] < s[1..][j - 1];
          }
        }
      }
      if StrictlyIncreasing(s) {
        assert StrictlyIncreasing(s[1..]) by {
          forall i, j | 0 <= i < j < |s[1..]| ensures s[1..][i] < s[1..][j] {
            assert s[i + 1] < s[j + 1];
          }
        }
      }
    }
  }

  function Sum(s: seq<real>): real {
    if |s| == 0 then 0.0 else Sum(s[..|s| - 1]) + s[|s| - 1]
  }

  /** max(s): a member of `s` that no member exceeds. */
  function Max(s: seq<real>): (m: real)
    requires |s| > 0
    ensures m in s
    ensures forall i :: 0 <= i < |s| ==> s[i] <= m
  {
    if |s| == 1 then s[0]
    else
      var m := Max(s[..|s| - 1]);
      assert forall i :: 0 <= i < |s| - 1 ==> s[..|s| - 1][i] == s[i];
      if s[|s| - 1] > m then s[|s| - 1] else m
  }

  /** min(s): a member of `s` that no member undercuts. */
  function Min(s: seq<real>): (m: real)
    requires |s| > 0
    ensures m in s
    ensures forall i :: 0 <= i < |s| ==> m <= s[i]
  {
    if |s| == 1 then s[0]
    else
      var m := Min(s[..|s| - 1]);
      assert forall i :: 0 <= i < |s| - 1 ==> s[..|s| - 1][i] == s[i];
      if s[|s| - 1] < m then s[|s| - 1] else m
  }

  function Scale(s: seq<real>, k: real): (r: seq<real>)
    ensures |r| == |s|
    ensures forall i :: 0 <= i < |s| ==> r[i] == s[i] * k
  {
    seq(|s|, i requires 0 <= i < |s| => s[i] * k)
  }

  function Mean(s: seq<real>): real
    requires |s| > 0
  {
    Sum(s) / (|s| as real)
  }

  /** A sum of positive values is positive, and of none is zero. */
  lemma {:induction false} SumPositive(s: seq<real>)
    requires forall i :: 0 <= i < |s| ==> s[i] > 0.0
    ensures Sum(s) >= 0.0
    ensures |s| > 0 ==> Sum(s) > 0.0
  {
    if |s| > 0 {
      SumPositive(s[..|s| - 1]);
    }
  }

  /** The percentage by which `last` exceeds `first`: 0 when `first` is 0. */
  function GrowthPercent(first: real, last: real): (g: real)
    ensures first <= last ==> g >= 0.0
    ensures first < last && first != 0.0 ==> g > 0.0
    ensures last < first && first != 0.0 ==> g < 0.0
    ensures first == 0.0 ==> g == 0.0
    ensures first > 0.0 ==> g * first == (last - first) * 100.0
    ensures first < 0.0 ==> g * -first == (last - first) * 100.0
  {
    if first == 0.0 then 0.0
    else
      var a := if first < 0.0 then -first else first;
      (last - first) / a * 100.0
  }

  /** A run of values that are all present and rise at every step, and how far it rose from
      its first value to its last. */
  function RiseOf(col: seq<Option<real>>): (r: Option<real>)
    requires |col| > 0
    ensures r.Some? <==> AllPresent(col) && StrictlyIncreasing(Present(col))
    ensures r.Some? ==> r.value == col[|col| - 1].value - col[0].value
    ensures r.Some? ==> r.value >= 0.0 && (|col| > 1 ==> r.value > 0.0)
  {
    if !AllPresent(col) then None
    else
      var vals := Present(col);
      RisesEachStepIffIncreasing(vals);
      if RisesEachStep(vals) then Some(vals[|vals| - 1] - vals[0]) else None
  }
}

=== FILE: sorting.dfy ===
/** Sorting a sequence by a numeric key with an insertion sort that never reorders equal keys. */
module Sorting {

  /** Keys never decrease along `s`. */
  predicate SortedBy<T>(s: seq<T>, key: T -> real) {
    forall i, j :: 0 <= i < j < |s| ==> key(s[i]) <= key(s[j])
  }

  /** The elements of `s` whose key is `k`, in their order in `s`. */
  function WithKey<T>(s: seq<T>, key: T -> real, k: real): seq<T> {
    if |s| == 0 then [] else (if key(s[0]) == k then [s[0]] else []) + WithKey(s[1..], key, k)
  }

  /** Places `x` after the leading elements whose key is at most its own. */
  function InsertBy<T>(x: T, s: seq<T>, key: T -> real): (r: seq<T>)
    ensures |r| == |s| + 1
  {
    if |s| == 0 then [x]
    else if key(s[0]) <= key(x) then [s[0]] + InsertBy(x, s[1..], key)
    else [x] + s
  }

  lemma {:induction false} InsertByElements<T>(x: T, s: seq<T>, key: T -> real)
    ensures multiset(InsertBy(x, s, key)) == multiset(s) + multiset{x}
    ensures forall i :: 0 <= i < |InsertBy(x, s, key)| ==> InsertBy(x, s, key)[i] == x || InsertBy(x, s, key)[i] in s
  {
    if |s| > 0 {
      assert s == [s[0]] + s[1..];
      InsertByElements(x, s[1..], key);
    }
  }

  lemma {:induction false} InsertBySorted<T>(x: T, s: seq<T>, key: T -> real)
    requires SortedBy(s, key)
    ensures SortedBy(InsertBy(x, s, key), key)
  {
    if |s| > 0 && key(s[0]) <= key(x) {
      InsertBySorted(x, s[1..], key);
      var t := InsertBy(x, s[1..], key);
      InsertByElements(x, s[1..], key);
      forall j | 0 <= j < |t| ensures key(s[0]) <= key(t[j]) {
        if t[j] != x {
          var i :| 0 <= i < |s[1..]| && s[1..][i] == t[j];
          assert s[i + 1] == t[j];
        }
      }
    }
  }

  /** A stable sort: the result is ordered by key and is a permutation of the input. */
  function SortBy<T>(s: seq<T>, key: T -> real): (r: seq<T>)
    ensures SortedBy(r, key)
    ensures multiset(r) == multiset(s)
    ensures |r| == |s|
  {
    if |s| == 0 then []
    else
      var init, x := s[..|s| - 1], s[|s| - 1];
      assert s == init + [x];
      var sorted := SortBy(init, key);
      InsertBySorted(x, sorted, key);
      InsertByElements(x, sorted, key);
      InsertBy(x, sorted, key)
  }

  lemma WithKeyAppend<T>(a: seq<T>, b: seq<T>, key: T -> real, k: real)
    ensures WithKey(a + b, key, k) == WithKey(a, key, k) + WithKey(b, key, k)
  {
    if |a| > 0 {
      assert (a + b)[1..] == a[1..] + b;
      WithKeyAppend(a[1..], b, key, k);
    } else {
      assert a + b == b;
    }
  }

  lemma WithKeyAbove<T>(s: seq<T>, key: T -> real, k: real)
    requires forall i :: 0 <= i < |s| ==> k < key(s[i])
    ensures WithKey(s, key, k) == []
  {
  }

  lemma {:induction false} InsertByStable<T>(x: T, s: seq<T>, key: T -> real, k: real)
    requires SortedBy(s, key)
    ensures WithKey(InsertBy(x, s, key), key, k) == WithKey(s, key, k) + (if key(x) == k then [x] else [])
  {
    if |s| == 0 {
    } else if key(s[0]) <= key(x) {
      assert SortedBy(s[1..], key) by {
        forall i, j | 0 <= i < j < |s[1..]| ensures key(s[1..][i]) <= key(s[1..][j]) {
          assert s[1..][i] == s[i + 1] && s[1..][j] == s[j + 1];
        }
      }
      InsertByStable(x, s[1..], key, k);
      var t := InsertBy(x, s[1..], key);
      var head := if key(s[0]) == k then [s[0]] else [];
      assert ([s[0]] + t)[1..] == t;
      assert WithKey([s[0]] + t, key, k) == head + WithKey(t, key, k);
      assert WithKey(s, key, k) == head + WithKey(s[1..], key, k);
    } else {
      assert ([x] + s)[1..] == s;
      if key(x) == k {
        WithKeyAbove(s, key, k);
      }
    }
  }

  /** Stability: for every key, the elements carrying it keep their relative order. */
  lemma {:induction false} SortByStable<T>(s: seq<T>, key: T -> real, k: real)
    ensures WithKey(SortBy(s, key), key, k) == WithKey(s, key, k)
  {
    if |s| > 0 {
      var init, x := s[..|s| - 1], s[|s| - 1];
      var tail := if key(x) == k then [x] else [];
      var sorted := SortBy(init, key);
      assert WithKey(SortBy(s, key), key, k) == WithKey(sorted, key, k) + tail by {
        assert SortBy(s, key) == InsertBy(x, sorted, key);
        InsertByStable(x, sorted, key, k);
      }
      assert WithKey(s, key, k) == WithKey(init, key, k) + tail by {
        assert s == init + [x];
        WithKeyAppend(init, [x], key, k);
        assert [x][1..] == [];
      }
      SortByStable(init, key, k);
    }
  }
}

=== FILE: stock_list.dfy ===
/** The listed-securities downloader's pure rules: the market's page number, the security type
    read off the ISO 10962 CFI code (its category and group letters), which types are listed,
    and the split of the "symbol name" cell. */
module StockList {
  import opened Wrappers
  import QuarterlyReports

  /** The page of the securities register that lists a market. */
  function Mode(market: string): (r: Result<int>)
    ensures r.Success? <==> QuarterlyReports.MarketId(market).Some?
    ensures r.Failure? ==> r.error == "Not support market '" + market + "'"
  {
    if market == "tse" then Success(2)
    else if market == "otc" then Success(4)
    else if market == "esb" then Success(5)
    else Failure("Not support market '" + market + "'")
  }

  /** The security type of a CFI code, testing the category letter before the group letter as
      the downloader does: an empty code, or a one-letter code whose letter starts one of the
      tested pairs, fails (the second letter is out of range); an untested code is a label row,
      "-". */
  function CfiToType(cfi: string): (r: Result<string>)
    ensures r.Failure? <==> |cfi| == 0 || (|cfi| == 1 && cfi[0] in "ERCD")
    ensures r.Success? && |cfi| < 2 ==> r.value == "-"
  {
    if |cfi| == 0 then Failure("string index out of range")
    else if cfi[0] in "ERCD" && |cfi| == 1 then Failure("string index out of range")
    else if cfi[0] == 'E' && cfi[1] == 'S' then Success("s")
    else if cfi[0] == 'R' && cfi[1] == 'W' then Success("w")
    else if cfi[0] == 'E' && cfi[1] == 'P' then Success("ps")
    else if cfi[0] == 'E' && cfi[1] == 'F' then Success("ps")
    else if cfi[0] == 'C' && cfi[1] == 'E' then Success("etf")
    else if cfi[0] == 'C' && cfi[1] == 'M' then Success("etn")
    else if cfi[0] == 'E' && cfi[1] == 'D' then Success("tdr")
    else if cfi[0] == 'C' && cfi[1] == 'B' then Success("reit")
    else if cfi[0] == 'D' && cfi[1] == 'A' then Success("abs")
    else Success("-")
  }

  /** The ISO 10962 category-and-group prefixes the downloader recognises: shares, warrants,
      preferred and preferred convertible shares, exchange-traded funds and notes, depositary
      receipts, real-estate investment trusts and asset-backed securities. */
  const TypeNames: map<string, string> := map[
    "ES" := "s", "RW" := "w", "EP" := "ps", "EF" := "ps", "CE" := "etf",
    "CM" := "etn", "ED" := "tdr", "CB" := "reit", "DA" := "abs"]

  /** The type of a code of two letters or more is its prefix's entry in the table, or "-" for
      a prefix the table lacks. */
  lemma CfiToTypeIsTableLookup(cfi: string)
    requires |cfi| >= 2
    ensures CfiToType(cfi).Success?
    ensures cfi[..2] in TypeNames ==> CfiToType(cfi).value == TypeNames[cfi[..2]]
    ensures cfi[..2] !in TypeNames ==> CfiToType(cfi).value == "-"
  {
    assert cfi[..2] == [cfi[0], cfi[1]];
  }

  /** Only the category and group letters matter. */
  lemma CfiPrefixDecides(a: string, b: string)
    requires |a| >= 2 && |b| >= 2 && a[..2] == b[..2]
    ensures CfiToType(a) == CfiToType(b)
  {
    assert a[0] == a[..2][0] == b[..2][0] == b[0];
    assert a[1] == a[..2][1] == b[..2][1] == b[1];
  }

  /** Which optional security types to list. */
  datatype Include = Include(warrant: bool, preferred: bool, etn: bool, reit: bool, abs: bool)

  /** The types listed only on request. */
  function OptionalTypes(options: Include): map<string, bool> {
    map["w" := options.warrant, "ps" := options.preferred, "etn" := options.etn, "reit" := options.reit, "abs" := options.abs]
  }

  /** Whether a row of a type is listed: label rows never, optional types when asked for, every
      other type always. */
  function Keep(kind: string, options: Include): (r: bool)
    ensures r <==> kind != "-" && (kind in OptionalTypes(options) ==> OptionalTypes(options)[kind])
  {
    if kind == "-" then false
    else if kind == "w" then options.warrant
    else if kind == "ps" then options.preferred
    else if kind == "etn" then options.etn
    else if kind == "reit" then options.reit
    else if kind == "abs" then options.abs
    else true
  }

  /** With every option on, only label rows go; with every option off, exactly shares, funds,
      depositary receipts and unrecognised types stay among the recognised codes. */
  lemma KeepExtremes(cfi: string)
    requires |cfi| >= 2
    ensures Keep(CfiToType(cfi).value, Include(true, true, true, true, true)) <==> cfi[..2] in TypeNames
    ensures Keep(CfiToType(cfi).value, Include(false, false, false, false, false)) <==>
      cfi[..2] in {"ES", "CE", "ED"}
  {
    assert cfi[..2][0] == cfi[0] && cfi[..2][1] == cfi[1];
    assert cfi[..2] == [cfi[0], cfi[1]];
  }

  const IdeographicSpace: char := '\U{3000}'

  predicate IsSeparator(c: char) {
    c == IdeographicSpace || c == ' '
  }

  /** Split a "symbol name" cell at its first ideographic or ASCII space; a cell without one is
      all symbol and has no name. */
  function SplitSymbol(cell: string): (r: (string, Option<string>))
    ensures forall i :: 0 <= i < |r.0| ==> !IsSeparator(r.0[i])
    ensures r.1.None? ==> r.0 == cell
    ensures r.1.Some? ==> exists sep :: IsSeparator(sep) && cell == r.0 + [sep] + r.1.value
  {
    if |cell| == 0 then ("", None)
    else if IsSeparator(cell[0]) then
      assert cell == "" + [cell[0]] + cell[1..];
      ("", Some(cell[1..]))
    else
      var rest := SplitSymbol(cell[1..]);
      if rest.1.Some? then
        ghost var sep :| IsSeparator(sep) && cell[1..] == rest.0 + [sep] + rest.1.value;
        assert cell == [cell[0]] + rest.0 + [sep] + rest.1.value;
        ([cell[0]] + rest.0, rest.1)
      else ([cell[0]] + rest.0, None)
  }

  /** A cell built from a symbol without spaces, a separator and a name splits back into that
      symbol and name. */
  lemma {:induction false} SplitSymbolRoundTrip(symbol: string, sep: char, name: string)
    requires IsSeparator(sep) && forall i :: 0 <= i < |symbol| ==> !IsSeparator(symbol[i])
    ensures SplitSymbol(symbol + [sep] + name) == (symbol, Some(name))
    decreases |symbol|
  {
    var cell := symbol + [sep] + name;
    if |symbol| == 0 {
      assert cell == [sep] + name;
    } else {
      assert cell[0] == symbol[0] && cell[1..] == symbol[1..] + [sep] + name;
      SplitSymbolRoundTrip(symbol[1..], sep, name);
      assert [symbol[0]] + symbol[1..] == symbol;
    }
  }

  /** A row of the securities register: the "symbol name" cell, the market, industry and CFI
      code. */
  datatype Listing = Listing(symbolName: string, market: string, industry: string, cfi: string)

  /** A listed security as the downloader returns it. */
  datatype Stock = Stock(symbol: string, name: Option<string>, market: string, industry: string, kind: string)

  /** The market label of the Taiwan Innovation Board, whose rows are left out. */
  const InnovationBoard: string := "上市臺灣創新板"

  /** The type of every row; one unreadable CFI code fails them all. */
  function Types(rows: seq<Listing>): (r: Result<seq<string>>)
    ensures r.Success? <==> forall i :: 0 <= i < |rows| ==> CfiToType(rows[i].cfi).Success?
    ensures r.Success? ==> |r.value| == |rows| && forall i :: 0 <= i < |rows| ==> r.value[i] == CfiToType(rows[i].cfi).value
  {
    if |rows| == 0 then Success([])
    else
      var init :- Types(rows[..|rows| - 1]);
      var last :- CfiToType(rows[|rows| - 1].cfi);
      assert forall i :: 0 <= i < |rows| - 1 ==> rows[..|rows| - 1][i] == rows[i];
      Success(init + [last])
  }

  predicate Wanted(row: Listing, kind: string, options: Include) {
    row.market != InnovationBoard && Keep(kind, options)
  }

  function StockOf(row: Listing, kind: string, market: string): Stock {
    var split := SplitSymbol(row.symbolName);
    Stock(split.0, split.1, market, row.industry, kind)
  }

  /** How many rows are wanted. */
  function CountWanted(rows: seq<Listing>, kinds: seq<string>, options: Include): nat
    requires |kinds| == |rows|
  {
    if |rows| == 0 then 0
    else CountWanted(rows[..|rows| - 1], kinds[..|kinds| - 1], options) + (if Wanted(rows[|rows| - 1], kinds[|kinds| - 1], options) then 1 else 0)
  }

  /** The wanted rows, in register order, relabelled with the requested market and split into
      symbol and name. */
  function Listed(rows: seq<Listing>, kinds: seq<string>, market: string, options: Include): (r: seq<Stock>)
    requires |kinds| == |rows|
    ensures |r| == CountWanted(rows, kinds, options)
  {
    if |rows| == 0 then []
    else
      var n := |rows| - 1;
      var init := Listed(rows[..n], kinds[..n], market, options);
      assert forall i :: 0 <= i < n ==> rows[..n][i] == rows[i] && kinds[..n][i] == kinds[i];
      if Wanted(rows[n], kinds[n], options) then init + [StockOf(rows[n], kinds[n], market)] else init
  }

  /** Listing one more row adds its security at the end when the row is wanted. */
  lemma ListedSnoc(rows: seq<Listing>, kinds: seq<string>, row: Listing, kind: string, market: string, options: Include)
    requires |kinds| == |rows|
    ensures Listed(rows + [row], kinds + [kind], market, options) ==
      Listed(rows, kinds, market, options) + (if Wanted(row, kind, options) then [StockOf(row, kind, market)] else [])
  {
    assert (rows + [row])[..|rows|] == rows && (kinds + [kind])[..|rows|] == kinds;
  }

  /** `stock` is the security of a wanted row. */
  predicate FromWantedRow(stock: Stock, rows: seq<Listing>, kinds: seq<string>, market: string, options: Include)
    requires |kinds| == |rows|
  {
    exists i :: 0 <= i < |rows| && Wanted(rows[i], kinds[i], options) && stock == StockOf(rows[i], kinds[i], market)
  }

  /** The `k`-th listed security comes from a wanted row of the register. */
  lemma {:induction false} ListedElementFromWantedRow(rows: seq<Listing>, kinds: seq<string>, market: string, options: Include, k: int)
    requires |kinds| == |rows| && 0 <= k < |Listed(rows, kinds, market, options)|
    ensures FromWantedRow(Listed(rows, kinds, market, options)[k], rows, kinds, market, options)
    decreases |rows|
  {
    var n := |rows| - 1;
    var front, fk := rows[..n], kinds[..n];
    var init := Listed(front, fk, market, options);
    if k < |init| {
      ListedElementFromWantedRow(front, fk, market, options, k);
      var i :| 0 <= i < |front| && Wanted(front[i], fk[i], options) && init[k] == StockOf(front[i], fk[i], market);
      assert front[i] == rows[i] && fk[i] == kinds[i];
      assert Listed(rows, kinds, market, options)[k] == init[k];
    } else {
      assert Wanted(rows[n], kinds[n], options);
      assert Listed(rows, kinds, market, options)[k] == StockOf(rows[n], kinds[n], market);
    }
  }

  /** Every listed security comes from a wanted row of the register. */
  lemma ListedFromWantedRows(rows: seq<Listing>, kinds: seq<string>, market: string, options: Include)
    requires |kinds| == |rows|
    ensures forall k :: 0 <= k < |Listed(rows, kinds, market, options)| ==>
      FromWantedRow(Listed(rows, kinds, market, options)[k], rows, kinds, market, options)
  {
    forall k | 0 <= k < |Listed(rows, kinds, market, options)|
      ensures FromWantedRow(Listed(rows, kinds, market, options)[k], rows, kinds, market, options)
    {
      ListedElementFromWantedRow(rows, kinds, market, options, k);
    }
  }

  /** Every wanted row of the register is listed. */
  lemma {:induction false} WantedRowsListed(rows: seq<Listing>, kinds: seq<string>, market: string, options: Include)
    requires |kinds| == |rows|
    ensures forall i :: 0 <= i < |rows| && Wanted(rows[i], kinds[i], options) ==>
      StockOf(rows[i], kinds[i], market) in Listed(rows, kinds, market, options)
    decreases |rows|
  {
    if |rows| > 0 {
      var n := |rows| - 1;
      var front, fk := rows[..n], kinds[..n];
      assert rows == front + [rows[n]] && kinds == fk + [kinds[n]];
      ListedSnoc(front, fk, rows[n], kinds[n], market, options);
      WantedRowsListed(front, fk, market, options);
      forall i | 0 <= i < |rows| && Wanted(rows[i], kinds[i], options)
        ensures StockOf(rows[i], kinds[i], market) in Listed(rows, kinds, market, options)
      {
        if i < n {
          assert front[i] == rows[i] && fk[i] == kinds[i];
        }
      }
    }
  }

  /** Listing two parts of the register lists each part in turn: the order of the register is
      kept. */
  lemma {:induction false} ListedAppend(a: seq<Listing>, ka: seq<string>, b: seq<Listing>, kb: seq<string>, market: string, options: Include)
    requires |ka| == |a| && |kb| == |b|
    ensures Listed(a + b, ka + kb, market, options) == Listed(a, ka, market, options) + Listed(b, kb, market, options)
    decreases |b|
  {
    if |b| == 0 {
      assert a + b == a && ka + kb == ka;
      assert Listed(b, kb, market, options) == [];
    } else {
      var n := |b| - 1;
      var fb, fkb := b[..n], kb[..n];
      assert a + b == (a + fb) + [b[n]] && ka + kb == (ka + fkb) + [kb[n]];
      assert b == fb + [b[n]] && kb == fkb + [kb[n]];
      var tail := if Wanted(b[n], kb[n], options) then [StockOf(b[n], kb[n], market)] else [];
      var la, lfb := Listed(a, ka, market, options), Listed(fb, fkb, market, options);
      calc {
        Listed(a + b, ka + kb, market, options);
        { ListedSnoc(a + fb, ka + fkb, b[n], kb[n], market, options); }
        Listed(a + fb, ka + fkb, market, options) + tail;
        { ListedAppend(a, ka, fb, fkb, market, options); }
        la + lfb + tail;
        la + (lfb + tail);
        { ListedSnoc(fb, fkb, b[n], kb[n], market, options); }
        la + Listed(b, kb, market, options);
      }
    }
  }

  /** `stock` carries the type and industry of a register row outside the innovation board. */
  predicate FromListedRow(stock: Stock, rows: seq<Listing>) {
    exists i :: 0 <= i < |rows| && rows[i].market != InnovationBoard &&
      CfiToType(rows[i].cfi).Success? && stock.kind == CfiToType(rows[i].cfi).value && stock.industry == rows[i].industry
      && (stock.symbol, stock.name) == SplitSymbol(rows[i].symbolName)
  }

  /** Some security has a name: the split of the "symbol name" cells yields two columns. */
  predicate SomeNamed(stocks: seq<Stock>) {
    exists k :: 0 <= k < |stocks| && stocks[k].name.Some?
  }

  /** Some wanted register row has a separator in its "symbol name" cell. */
  predicate SomeWantedNamed(market: string, options: Include, rows: seq<Listing>)
    requires forall i :: 0 <= i < |rows| ==> CfiToType(rows[i].cfi).Success?
  {
    exists i :: 0 <= i < |rows| && rows[i].market != InnovationBoard && Keep(CfiToType(rows[i].cfi).value, options)
      && SplitSymbol(rows[i].symbolName).1.Some?
  }

  /** The listed securities of a market's register rows. The split into symbol and name is
      assigned to two columns, so it fails when no wanted cell holds a separator, which covers
      a register with no wanted row at all. */
  function ListStocks(market: string, options: Include, rows: seq<Listing>): (r: Result<seq<Stock>>)
    ensures r.Success? <==>
      Mode(market).Success? && (forall i :: 0 <= i < |rows| ==> CfiToType(rows[i].cfi).Success?) && SomeWantedNamed(market, options, rows)
    ensures r.Failure? && Mode(market).Success? && (forall i :: 0 <= i < |rows| ==> CfiToType(rows[i].cfi).Success?) ==>
      r.error == SplitColumnsError
    ensures r.Success? ==> forall k :: 0 <= k < |r.value| ==> r.value[k].market == market && Keep(r.value[k].kind, options)
    ensures r.Success? ==> forall k :: 0 <= k < |r.value| ==> FromListedRow(r.value[k], rows)
    ensures r.Success? ==> forall i :: 0 <= i < |rows| && rows[i].market != InnovationBoard && Keep(CfiToType(rows[i].cfi).value, options) ==>
      StockOf(rows[i], CfiToType(rows[i].cfi).value, market) in r.value
  {
    if Mode(market).Success? && Types(rows).Success? then
      var kinds := Types(rows).value;
      ListedFromWantedRows(rows, kinds, market, options);
      WantedRowsListed(rows, kinds, market, options);
      NamedIffWantedNamed(market, options, rows, kinds);
      ListingOf(market, options, rows)
    else ListingOf(market, options, rows)
  }

  /** The listing itself, stated by ListStocks. */
  function ListingOf(market: string, options: Include, rows: seq<Listing>): Result<seq<Stock>> {
    var _ :- Mode(market);
    var kinds :- Types(rows);
    var listed := Listed(rows, kinds, market, options);
    if SomeNamed(listed) then Success(listed) else Failure(SplitColumnsError)
  }

  /** pandas' complaint when a one-column split is assigned to the two columns Symbol and Name. */
  const SplitColumnsError: string := "Columns must be same length as key"

  /** A listing has a named security iff some wanted row's cell holds a separator. */
  lemma NamedIffWantedNamed(market: string, options: Include, rows: seq<Listing>, kinds: seq<string>)
    requires Types(rows) == Success(kinds)
    ensures SomeNamed(Listed(rows, kinds, market, options)) <==> SomeWantedNamed(market, options, rows)
  {
    if SomeNamed(Listed(rows, kinds, market, options)) {
      NamedFromWantedNamed(market, options, rows, kinds);
    }
    if SomeWantedNamed(market, options, rows) {
      WantedNamedListed(market, options, rows, kinds);
    }
  }

  lemma NamedFromWantedNamed(market: string, options: Include, rows: seq<Listing>, kinds: seq<string>)
    requires Types(rows) == Success(kinds) && SomeNamed(Listed(rows, kinds, market, options))
    ensures SomeWantedNamed(market, options, rows)
  {
    var listed := Listed(rows, kinds, market, options);
    var k :| 0 <= k < |listed| && listed[k].name.Some?;
    ListedElementFromWantedRow(rows, kinds, market, options, k);
    var i :| 0 <= i < |rows| && Wanted(rows[i], kinds[i], options) && listed[k] == StockOf(rows[i], kinds[i], market);
    assert SplitSymbol(rows[i].symbolName).1.Some?;
  }

  lemma WantedNamedListed(market: string, options: Include, rows: seq<Listing>, kinds: seq<string>)
    requires Types(rows) == Success(kinds) && SomeWantedNamed(market, options, rows)
    ensures SomeNamed(Listed(rows, kinds, market, options))
  {
    var listed := Listed(rows, kinds, market, options);
    var i :| 0 <= i < |rows| && rows[i].market != InnovationBoard && Keep(CfiToType(rows[i].cfi).value, options)
      && SplitSymbol(rows[i].symbolName).1.Some?;
    assert Wanted(rows[i], kinds[i], options);
    WantedRowsListed(rows, kinds, market, options);
    var stock := StockOf(rows[i], kinds[i], market);
    assert stock in listed;
    var k :| 0 <= k < |listed| && listed[k] == stock;
    assert listed[k].name.Some?;
  }

  /** A register whose only wanted cell has no separator, and one with no wanted row, both
      fail the split. */
  lemma UnsplitListingFails()
    ensures ListStocks("tse", Include(false, false, false, false, false), [Listing("1101", "上市", "x", "ESVUFR")]) ==
      Failure(SplitColumnsError)
    ensures ListStocks("tse", Include(false, false, false, false, false), [Listing("股票", "上市", "", "XXXXXX")]) ==
      Failure(SplitColumnsError)
  {
    var none := Include(false, false, false, false, false);
    var share, heading := [Listing("1101", "上市", "x", "ESVUFR")], [Listing("股票", "上市", "", "XXXXXX")];
    assert ListStocks("tse", none, share) == ListingOf("tse", none, share);
    assert ListStocks("tse", none, heading) == ListingOf("tse", none, heading);
    UnnamedShare();
    HeadingOnly();
  }

  lemma UnnamedShare()
    ensures ListingOf("tse", Include(false, false, false, false, false), [Listing("1101", "上市", "x", "ESVUFR")]) ==
      Failure(SplitColumnsError)
  {
    var none, share := Include(false, false, false, false, false), [Listing("1101", "上市", "x", "ESVUFR")];
    assert CfiToType("ESVUFR") == Success("s");
    TypesOf(share, ["s"]);
    assert SplitSymbol("1101").1.None?;
    var listed := Listed(share, ["s"], "tse", none);
    assert listed == [StockOf(share[0], "s", "tse")] by {
      assert share[..0] == [] && ["s"][..0] == [];
    }
    assert !SomeNamed(listed) by {
      assert listed[0].name.None?;
    }
    assert Mode("tse").Success?;
  }

  lemma HeadingOnly()
    ensures ListingOf("tse", Include(false, false, false, false, false), [Listing("股票", "上市", "", "XXXXXX")]) ==
      Failure(SplitColumnsError)
  {
    var none, heading := Include(false, false, false, false, false), [Listing("股票", "上市", "", "XXXXXX")];
    assert CfiToType("XXXXXX") == Success("-");
    TypesOf(heading, ["-"]);
    assert Listed(heading, ["-"], "tse", none) == [] by {
      assert heading[..0] == [] && ["-"][..0] == [];
    }
    assert Mode("tse").Success?;
  }

  /** The types of two parts of the register, one after the other. */
  lemma TypesAppend(a: seq<Listing>, b: seq<Listing>)
    requires Types(a).Success? && Types(b).Success?
    ensures Types(a + b) == Success(Types(a).value + Types(b).value)
  {
    var ka, kb, ab := Types(a).value, Types(b).value, a + b;
    var kab := ka + kb;
    forall i | 0 <= i < |ab| ensures CfiToType(ab[i].cfi) == Success(kab[i]) {
      if i < |a| {
        assert ab[i] == a[i] && kab[i] == ka[i];
      } else {
        assert ab[i] == b[i - |a|] && kab[i] == kb[i - |a|];
      }
    }
    TypesOf(ab, kab);
  }

  /** The types are those of each row's CFI code, when every code has one. */
  lemma TypesOf(rows: seq<Listing>, kinds: seq<string>)
    requires |kinds| == |rows| && forall i :: 0 <= i < |rows| ==> CfiToType(rows[i].cfi) == Success(kinds[i])
    ensures Types(rows) == Success(kinds)
  {
    var t := Types(rows);
    assert t.Success?;
    assert t.value == kinds;
  }


  /** The listing keeps the order of the register: listing two parts of it lists the first
      part's securities and then the second's. */
  lemma ListStocksAppend(market: string, options: Include, a: seq<Listing>, b: seq<Listing>)
    requires ListStocks(market, options, a).Success? && ListStocks(market, options, b).Success?
    ensures ListStocks(market, options, a + b) == Success(ListStocks(market, options, a).value + ListStocks(market, options, b).value)
  {
    assert ListStocks(market, options, a) == ListingOf(market, options, a);
    assert ListStocks(market, options, b) == ListingOf(market, options, b);
    assert ListStocks(market, options, a + b) == ListingOf(market, options, a + b);
    ListingOfAppend(market, options, a, b);
  }

  lemma ListingOfAppend(market: string, options: Include, a: seq<Listing>, b: seq<Listing>)
    requires ListingOf(market, options, a).Success? && ListingOf(market, options, b).Success?
    ensures ListingOf(market, options, a + b) == Success(ListingOf(market, options, a).value + ListingOf(market, options, b).value)
  {
    var ka, kb := Types(a).value, Types(b).value;
    var la, lb := Listed(a, ka, market, options), Listed(b, kb, market, options);
    assert Mode(market).Success? && SomeNamed(la);
    assert ListingOf(market, options, a).value == la && ListingOf(market, options, b).value == lb;
    assert Types(a + b) == Success(ka + kb) by { TypesAppend(a, b); }
    assert Listed(a + b, ka + kb, market, options) == la + lb by { ListedAppend(a, ka, b, kb, market, options); }
    assert SomeNamed(la + lb) by {
      var k :| 0 <= k < |la| && la[k].name.Some?;
      assert (la + lb)[k] == la[k];
    }
    assert ListingOf(market, options, a + b) == Success(la + lb);
  }



}

=== FILE: stock_list_import.dfy ===
/** The stock-list import of StockDatabase: one CSV file replaces the whole stocks table,
    unless it is not newer than the table's recorded time. */
module StockListImport {
  import opened Wrappers
  import opened Storage
  import opened CsvImport
  import opened Filtering

  /** CSV header to column of the stocks table. */
  const StockMap: seq<(string, string)> :=
    [("Code", "code"), ("Name", "name"), ("Market", "market"), ("Industry", "industry"), ("Type", "security_type")]

  /** The stocks table's primary key. */
  const CodeKey: seq<string> := ["code"]

  /** The columns the file must supply, the NOT NULL columns of the table. */
  const StockMandatory: set<string> := {"code", "name", "market"}

  /** The renamed header columns the table takes. */
  function StockColumns(csv: CsvTable): (r: set<string>)
    ensures forall d :: d in r <==> d in TargetNames(StockMap) && exists c :: c in csv.columns && Renamed(StockMap, c) == d
  {
    set c | c in csv.columns && Renamed(StockMap, c) in TargetNames(StockMap) :: Renamed(StockMap, c)
  }

  /** One CSV row restricted to the kept columns, under their table names. */
  function StockRow(csv: CsvTable, row: Row): (r: Row)
    ensures r.Keys == StockColumns(csv)
  {
    map d | d in StockColumns(csv) ::
      match SourceOf(StockMap, csv.columns, d)
      case Some(c) => Lookup(row, c)
      case None => Null
  }

  /** The rows the file inserts: every row with a code, in file order. */
  function StockRows(csv: CsvTable): (r: seq<Row>)
    ensures forall x :: x in r ==> x.Keys == StockColumns(csv) && HasCode(x)
    ensures forall i :: 0 <= i < |csv.rows| && HasCode(StockRow(csv, csv.rows[i])) ==> StockRow(csv, csv.rows[i]) in r
  {
    var all := AllStockRows(csv);
    FilterCounts(all, HasCode);
    Filter(all, HasCode)
  }

  function AllStockRows(csv: CsvTable): (r: seq<Row>)
    ensures |r| == |csv.rows|
    ensures forall x :: x in r ==> x.Keys == StockColumns(csv)
    ensures forall i :: 0 <= i < |csv.rows| ==> StockRow(csv, csv.rows[i]) in r
  {
    var all := seq(|csv.rows|, i requires 0 <= i < |csv.rows| => StockRow(csv, csv.rows[i]));
    assert forall i :: 0 <= i < |csv.rows| ==> all[i] == StockRow(csv, csv.rows[i]);
    all
  }

  /** No two rows share a primary key: what a plain INSERT into an emptied table needs. */
  predicate DistinctKeys(rows: seq<Row>, pk: seq<string>) {
    forall i, j :: 0 <= i < j < |rows| ==> KeyOf(rows[i], pk) != KeyOf(rows[j], pk)
  }

  /** A row NULL in a NOT NULL column of the stocks table. */
  predicate MissingName(rows: seq<Row>) {
    exists i :: 0 <= i < |rows| && (Lookup(rows[i], "name") == Null || Lookup(rows[i], "market") == Null)
  }

  /** DELETE then executemany of INSERT into the emptied table, when no row makes it fail:
      the table then holds exactly the batch, one entry per row. */
  function InsertAll(rows: seq<Row>): (r: Table)
    requires DistinctKeys(rows, CodeKey)
    ensures r.Keys == BatchKeys(rows, CodeKey)
    ensures forall i :: 0 <= i < |rows| ==> r[KeyOf(rows[i], CodeKey)] == rows[i]
  {
    var r := Replace(map[], CodeKey, rows);
    ReplaceLastWins(map[], CodeKey, rows);
    forall i | 0 <= i < |rows| ensures r[KeyOf(rows[i], CodeKey)] == rows[i] {
      var k := KeyOf(rows[i], CodeKey);
      assert k in BatchKeys(rows, CodeKey);
      var j :| 0 <= j < |rows| && rows[j] == LastFor(rows, CodeKey, k).value && KeyOf(rows[j], CodeKey) == k
               && forall l :: j < l < |rows| ==> KeyOf(rows[l], CodeKey) != k;
      assert i == j;
    }
    r
  }

  /** A file the table takes: it has the mandatory columns, no two of its rows share a code,
      and every row has a name and a market. */
  predicate Acceptable(csv: CsvTable) {
    StockMandatory <= StockColumns(csv) && DistinctKeys(StockRows(csv), CodeKey) && !MissingName(StockRows(csv))
  }

  /** The file is newer than the table's recorded time, or there is none. */
  predicate Newer(meta: Metadata, f: CsvFile) {
    var recorded := GetTableUpdatedTime(meta, "stocks");
    recorded.None? || f.mtime > recorded.value
  }

  /** The rows a file puts in the table, or None when it changes nothing. */
  function Written(meta: Metadata, f: CsvFile): (r: Option<seq<Row>>)
    ensures r.Some? <==> Newer(meta, f) && f.content.Some? && Acceptable(f.content.value)
    ensures r.Some? ==> r.value == StockRows(f.content.value) && DistinctKeys(r.value, CodeKey)
  {
    if Newer(meta, f) && f.content.Some? && Acceptable(f.content.value) then Some(StockRows(f.content.value)) else None
  }

  /** The import: a missing file raises; a file no newer than the recorded time, one that does
      not read, or one the table does not take changes nothing (a duplicate code or a row
      without a name or market rolls the transaction back); otherwise the file's rows become
      the table and its time the table's recorded time. The count is the rows inserted. */
  function ImportStockList(fmt: TimeFormat, t: Table, meta: Metadata, file: Option<CsvFile>): (r: Result<(Table, Metadata, nat)>)
    ensures r.Failure? <==> file.None?
    ensures r.Success? && Written(meta, file.value).None? ==> r.value == (t, meta, 0)
    ensures r.Success? && Written(meta, file.value).Some? ==>
              var rows := Written(meta, file.value).value;
              && r.value.0.Keys == BatchKeys(rows, CodeKey)
              && (forall i :: 0 <= i < |rows| ==> r.value.0[KeyOf(rows[i], CodeKey)] == rows[i])
              && r.value.2 == |rows|
              && GetTableUpdatedTime(r.value.1, "stocks") == Some(StoredTime(fmt, file.value.mtime))
              && (forall other :: other in meta && other != "stocks" ==> other in r.value.1 && r.value.1[other] == meta[other])
  {
    match file
    case None => Failure("CSV file not found")
    case Some(f) =>
      match Written(meta, f)
      case None => Success((t, meta, 0))
      case Some(rows) => Success((InsertAll(rows), SetTableUpdatedTime(fmt, meta, "stocks", f.mtime), |rows|))
  }

  /** With the time kept to the microsecond, importing the same file again changes nothing. */
  lemma StockListReimport(t: Table, meta: Metadata, f: CsvFile)
    requires ImportStockList(WithMicroseconds, t, meta, Some(f)).Success?
    ensures var after := ImportStockList(WithMicroseconds, t, meta, Some(f)).value;
            ImportStockList(WithMicroseconds, after.0, after.1, Some(f)) == Success((after.0, after.1, 0))
  {
  }
}

=== FILE: storage.dfy ===
/** SQLite tables seen as maps from primary key to row, the three ways the importers write
    a batch of rows into them, and the per-table "last updated" metadata. */
module Storage {
  import opened Wrappers
  import opened Calendar

  /** A cell: NULL, a number or a text. */
  datatype Value = Null | Num(x: real) | Text(s: string)

  /** A row: column name to value. A column the row does not mention reads as NULL. */
  type Row = map<string, Value>

  /** A table keyed by the values of its primary-key columns. */
  type Table = map<seq<Value>, Row>

  function Lookup(row: Row, c: string): Value {
    if c in row then row[c] else Null
  }

  /** The primary key of a row, in primary-key column order. */
  function KeyOf(row: Row, pk: seq<string>): (k: seq<Value>)
    ensures |k| == |pk| && forall i :: 0 <= i < |pk| ==> k[i] == Lookup(row, pk[i])
  {
    seq(|pk|, i requires 0 <= i < |pk| => Lookup(row, pk[i]))
  }

  function BatchKeys(rows: seq<Row>, pk: seq<string>): (ks: set<seq<Value>>)
    ensures forall k :: k in ks <==> exists i :: 0 <= i < |rows| && KeyOf(rows[i], pk) == k
  {
    set i | 0 <= i < |rows| :: KeyOf(rows[i], pk)
  }

  /** The last row of a batch with key `k`. */
  function LastFor(rows: seq<Row>, pk: seq<string>, k: seq<Value>): (r: Option<Row>)
    ensures r.Some? <==> k in BatchKeys(rows, pk)
    ensures r.Some? ==> exists i :: 0 <= i < |rows| && rows[i] == r.value && KeyOf(rows[i], pk) == k
                                    && forall j :: i < j < |rows| ==> KeyOf(rows[j], pk) != k
  {
    if |rows| == 0 then None
    else if KeyOf(rows[|rows| - 1], pk) == k then Some(rows[|rows| - 1])
    else
      var p := rows[..|rows| - 1];
      assert forall i :: 0 <= i < |p| ==> p[i] == rows[i];
      LastFor(p, pk, k)
  }

  /** The first row of a batch with key `k`. */
  function FirstFor(rows: seq<Row>, pk: seq<string>, k: seq<Value>): (r: Option<Row>)
    ensures r.Some? <==> k in BatchKeys(rows, pk)
    ensures r.Some? ==> exists i :: 0 <= i < |rows| && rows[i] == r.value && KeyOf(rows[i], pk) == k
                                    && forall j :: 0 <= j < i ==> KeyOf(rows[j], pk) != k
  {
    if |rows| == 0 then None
    else if KeyOf(rows[0], pk) == k then Some(rows[0])
    else
      var r := FirstFor(rows[1..], pk, k);
      assert r.Some? ==> exists i :: 0 <= i < |rows| && KeyOf(rows[i], pk) == k by {
        if r.Some? {
          var i :| 0 <= i < |rows[1..]| && rows[1..][i] == r.value && KeyOf(rows[1..][i], pk) == k;
          assert KeyOf(rows[i + 1], pk) == k;
        }
      }
      assert k in BatchKeys(rows, pk) ==> r.Some? by {
        if k in BatchKeys(rows, pk) {
          var i :| 0 <= i < |rows| && KeyOf(rows[i], pk) == k;
          assert rows[1..][i - 1] == rows[i];
        }
      }
      r
  }

  /** executemany of INSERT OR REPLACE: each row replaces whatever had its key. */
  function Replace(t: Table, pk: seq<string>, rows: seq<Row>): Table {
    if |rows| == 0 then t
    else
      var last := rows[|rows| - 1];
      Replace(t, pk, rows[..|rows| - 1])[KeyOf(last, pk) := last]
  }

  /** executemany of INSERT OR IGNORE: a row is dropped when its key is already there. */
  function Ignore(t: Table, pk: seq<string>, rows: seq<Row>): Table {
    if |rows| == 0 then t
    else
      var s := Ignore(t, pk, rows[..|rows| - 1]);
      var last := rows[|rows| - 1];
      if KeyOf(last, pk) in s then s else s[KeyOf(last, pk) := last]
  }

  /** The existing row with the columns `cols` taken from the incoming row, where it has them. */
  function Overlay(existing: Row, incoming: Row, cols: set<string>): (r: Row)
    ensures r.Keys == existing.Keys + (incoming.Keys * cols)
    ensures forall c :: c in r ==> r[c] == if c in cols && c in incoming then incoming[c] else existing[c]
  {
    map c | c in existing.Keys + (incoming.Keys * cols) :: if c in cols && c in incoming then incoming[c] else existing[c]
  }

  /** executemany of INSERT ... ON CONFLICT DO UPDATE SET c = excluded.c for c in `cols`:
      a new key is inserted, an existing one gets only those columns overwritten. */
  function Upsert(t: Table, pk: seq<string>, rows: seq<Row>, cols: set<string>): Table {
    if |rows| == 0 then t
    else
      var s := Upsert(t, pk, rows[..|rows| - 1], cols);
      var last := rows[|rows| - 1];
      var k := KeyOf(last, pk);
      if k in s then s[k := Overlay(s[k], last, cols)] else s[k := last]
  }

  /** After INSERT OR REPLACE, a key of the batch holds the batch's last row for it, and
      every other key is untouched. */
  lemma {:induction false} ReplaceLastWins(t: Table, pk: seq<string>, rows: seq<Row>)
    ensures Replace(t, pk, rows).Keys == t.Keys + BatchKeys(rows, pk)
    ensures forall k :: k in BatchKeys(rows, pk) ==> Replace(t, pk, rows)[k] == LastFor(rows, pk, k).value
    ensures forall k :: k in t && k !in BatchKeys(rows, pk) ==> Replace(t, pk, rows)[k] == t[k]
  {
    if |rows| > 0 {
      var p := rows[..|rows| - 1];
      ReplaceLastWins(t, pk, p);
      BatchKeysSnoc(rows, pk);
      forall k | k in BatchKeys(rows, pk) ensures Replace(t, pk, rows)[k] == LastFor(rows, pk, k).value {
        LastForSnoc(rows, pk, k);
      }
    }
  }

  /** The keys of a batch are those of all but its last row and the last row's key. */
  lemma BatchKeysSnoc(rows: seq<Row>, pk: seq<string>)
    requires |rows| > 0
    ensures BatchKeys(rows, pk) == BatchKeys(rows[..|rows| - 1], pk) + {KeyOf(rows[|rows| - 1], pk)}
  {
    var p := rows[..|rows| - 1];
    assert forall i :: 0 <= i < |p| ==> p[i] == rows[i];
  }

  /** The last row for a key is the batch's last row when that has the key, and otherwise
      the last row for it before. */
  lemma LastForSnoc(rows: seq<Row>, pk: seq<string>, k: seq<Value>)
    requires |rows| > 0
    ensures LastFor(rows, pk, k) == if KeyOf(rows[|rows| - 1], pk) == k then Some(rows[|rows| - 1]) else LastFor(rows[..|rows| - 1], pk, k)
  {
  }

  /** Importing the same rows twice leaves the table as importing them once. */
  lemma ReplaceIdempotent(t: Table, pk: seq<string>, rows: seq<Row>)
    ensures Replace(Replace(t, pk, rows), pk, rows) == Replace(t, pk, rows)
  {
    var once := Replace(t, pk, rows);
    ReplaceLastWins(t, pk, rows);
    ReplaceLastWins(once, pk, rows);
  }

  /** After INSERT OR IGNORE, an existing key keeps its row, and a new key of the batch holds
      the batch's first row for it. */
  lemma {:induction false} IgnoreFirstWins(t: Table, pk: seq<string>, rows: seq<Row>)
    ensures Ignore(t, pk, rows).Keys == t.Keys + BatchKeys(rows, pk)
    ensures forall k :: k in t ==> Ignore(t, pk, rows)[k] == t[k]
    ensures forall k :: k !in t && k in BatchKeys(rows, pk) ==> Ignore(t, pk, rows)[k] == FirstFor(rows, pk, k).value
  {
    if |rows| > 0 {
      var p := rows[..|rows| - 1];
      var last := rows[|rows| - 1];
      IgnoreFirstWins(t, pk, p);
      BatchKeysSnoc(rows, pk);
      forall k | k !in t && k in BatchKeys(rows, pk)
        ensures Ignore(t, pk, rows)[k] == FirstFor(rows, pk, k).value
      {
        FirstForPrefix(rows, pk, k);
      }
    }
  }

  /** A key first met in the last row has that row as its first one; any other key has the
      same first row as in the batch without the last row. */
  lemma {:induction false} FirstForPrefix(rows: seq<Row>, pk: seq<string>, k: seq<Value>)
    requires |rows| > 0
    ensures var p := rows[..|rows| - 1];
            FirstFor(rows, pk, k) == if k in BatchKeys(p, pk) then FirstFor(p, pk, k)
                                     else if KeyOf(rows[|rows| - 1], pk) == k then Some(rows[|rows| - 1]) else None
    decreases |rows|
  {
    var p := rows[..|rows| - 1];
    if |rows| == 1 {
      assert BatchKeys(p, pk) == {};
    } else {
      assert p[0] == rows[0];
      if KeyOf(rows[0], pk) != k {
        var tail := rows[1..];
        assert p[1..] == tail[..|tail| - 1];
        assert tail[|tail| - 1] == rows[|rows| - 1];
        FirstForPrefix(tail, pk, k);
        assert FirstFor(p, pk, k) == FirstFor(p[1..], pk, k);
      }
    }
  }

  /** Ignoring a batch twice is ignoring it once. */
  lemma IgnoreIdempotent(t: Table, pk: seq<string>, rows: seq<Row>)
    ensures Ignore(Ignore(t, pk, rows), pk, rows) == Ignore(t, pk, rows)
  {
    var once := Ignore(t, pk, rows);
    IgnoreFirstWins(t, pk, rows);
    IgnoreFirstWins(once, pk, rows);
  }

  /** With no column to update, the upsert inserts new keys and leaves existing rows alone:
      it is INSERT OR IGNORE, which is what the importer switches to in that case. */
  lemma {:induction false} UpsertNothingIsIgnore(t: Table, pk: seq<string>, rows: seq<Row>)
    ensures Upsert(t, pk, rows, {}) == Ignore(t, pk, rows)
  {
    if |rows| > 0 {
      var p := rows[..|rows| - 1];
      UpsertNothingIsIgnore(t, pk, p);
      var s := Ignore(t, pk, p);
      var k := KeyOf(rows[|rows| - 1], pk);
      if k in s {
        assert Overlay(s[k], rows[|rows| - 1], {}) == s[k];
      }
    }
  }

  /** The upsert touches only the batch's keys, and on a row that was already there it
      changes only the update columns. */
  lemma UpsertKeepsOtherColumns(t: Table, pk: seq<string>, rows: seq<Row>, cols: set<string>)
    ensures Upsert(t, pk, rows, cols).Keys == t.Keys + BatchKeys(rows, pk)
    ensures forall k :: k in t && k !in BatchKeys(rows, pk) ==> Upsert(t, pk, rows, cols)[k] == t[k]
    ensures forall k, c :: k in t && c !in cols && c in t[k] ==> c in Upsert(t, pk, rows, cols)[k] && Upsert(t, pk, rows, cols)[k][c] == t[k][c]
  {
    UpsertKeys(t, pk, rows, cols);
    UpsertUntouched(t, pk, rows, cols);
    UpsertColumnsKept(t, pk, rows, cols);
  }

  lemma {:induction false} UpsertKeys(t: Table, pk: seq<string>, rows: seq<Row>, cols: set<string>)
    ensures Upsert(t, pk, rows, cols).Keys == t.Keys + BatchKeys(rows, pk)
  {
    if |rows| > 0 {
      UpsertKeys(t, pk, rows[..|rows| - 1], cols);
      BatchKeysSnoc(rows, pk);
    }
  }

  lemma {:induction false} UpsertUntouched(t: Table, pk: seq<string>, rows: seq<Row>, cols: set<string>)
    ensures forall k :: k in t && k !in BatchKeys(rows, pk) ==> k in Upsert(t, pk, rows, cols) && Upsert(t, pk, rows, cols)[k] == t[k]
  {
    if |rows| > 0 {
      UpsertKeys(t, pk, rows, cols);
      UpsertUntouched(t, pk, rows[..|rows| - 1], cols);
      BatchKeysSnoc(rows, pk);
    }
  }

  lemma {:induction false} UpsertColumnsKept(t: Table, pk: seq<string>, rows: seq<Row>, cols: set<string>)
    ensures forall k, c :: k in t && c !in cols && c in t[k] ==> k in Upsert(t, pk, rows, cols) && c in Upsert(t, pk, rows, cols)[k] && Upsert(t, pk, rows, cols)[k][c] == t[k][c]
  {
    if |rows| > 0 {
      UpsertColumnsKept(t, pk, rows[..|rows| - 1], cols);
    }
  }

  /** The metadata table: table name to the recorded time, in microseconds since the
      epoch, as read back by datetime.fromisoformat. */
  type Metadata = map<string, int>

  /** How set_table_updated_time writes a time. The source formats it with
      '%Y-%m-%d %H:%M:%S', which drops the microseconds; keeping them is the correction
      described under Findings. */
  datatype TimeFormat = WholeSeconds | WithMicroseconds

  /** The time that reads back after writing `t`. */
  function StoredTime(fmt: TimeFormat, t: int): (s: int)
    ensures s <= t && t - s < MicrosPerSecond
    ensures fmt == WithMicroseconds ==> s == t
    ensures fmt == WholeSeconds ==> s % MicrosPerSecond == 0
  {
    if fmt == WholeSeconds then t - t % MicrosPerSecond else t
  }

  /** Every recorded time is one that `fmt` can have written. */
  predicate Recorded(fmt: TimeFormat, meta: Metadata) {
    forall name :: name in meta ==> StoredTime(fmt, meta[name]) == meta[name]
  }

  /** set_table_updated_time: INSERT OR REPLACE of the table's row; `updatedAt` is the
      caller's time, or "now" when the source passes none. */
  function SetTableUpdatedTime(fmt: TimeFormat, meta: Metadata, name: string, updatedAt: int): (r: Metadata)
    ensures r.Keys == meta.Keys + {name}
    ensures r[name] == StoredTime(fmt, updatedAt)
    ensures forall other :: other in meta && other != name ==> r[other] == meta[other]
    ensures Recorded(fmt, meta) ==> Recorded(fmt, r)
  {
    StoredTimeStable(fmt, updatedAt);
    meta[name := StoredTime(fmt, updatedAt)]
  }

  lemma StoredTimeStable(fmt: TimeFormat, t: int)
    ensures StoredTime(fmt, StoredTime(fmt, t)) == StoredTime(fmt, t)
  {
    if fmt == WholeSeconds {
      var s := t - t % MicrosPerSecond;
      assert s == (t / MicrosPerSecond) * MicrosPerSecond;
    }
  }

  function GetTableUpdatedTime(meta: Metadata, name: string): (r: Option<int>)
    ensures r.Some? <==> name in meta
    ensures r.Some? ==> r.value == meta[name]
  {
    if name in meta then Some(meta[name]) else None
  }

  /** update_table_time: write only when nothing is recorded or the new time is strictly
      later. The recorded time never goes back: it becomes the later of the old record and
      the new time as stored. */
  function UpdateTableTime(fmt: TimeFormat, meta: Metadata, name: string, updatedAt: int): (r: Metadata)
    ensures r.Keys == meta.Keys + {name}
    ensures forall other :: other in meta && other != name ==> r[other] == meta[other]
    ensures name !in meta ==> r[name] == StoredTime(fmt, updatedAt)
    ensures name in meta && Recorded(fmt, meta) ==>
      r[name] >= meta[name] && r[name] >= StoredTime(fmt, updatedAt)
      && (r[name] == meta[name] || r[name] == StoredTime(fmt, updatedAt))
    ensures Recorded(fmt, meta) ==> Recorded(fmt, r)
  {
    match GetTableUpdatedTime(meta, name)
    case None => SetTableUpdatedTime(fmt, meta, name, updatedAt)
    case Some(last) =>
      if updatedAt > last then
        assert Recorded(fmt, meta) ==> StoredTime(fmt, updatedAt) >= last by {
          if Recorded(fmt, meta) { StoredTimeMonotone(fmt, last, updatedAt); }
        }
        SetTableUpdatedTime(fmt, meta, name, updatedAt)
      else meta
  }

  /** Storing keeps the order of a stored time and any later time. */
  lemma StoredTimeMonotone(fmt: TimeFormat, s: int, t: int)
    requires StoredTime(fmt, s) == s && s <= t
    ensures s <= StoredTime(fmt, t)
  {
    if fmt == WholeSeconds {
      var q := t / MicrosPerSecond;
      assert StoredTime(fmt, t) == q * MicrosPerSecond;
      assert s == (s / MicrosPerSecond) * MicrosPerSecond;
    }
  }
}

=== FILE: text.dfy ===
/** Decimal digits and the small string helpers the Python code gets from str and f-strings. */
module Text {
  import opened Wrappers


  predicate IsDigit(c: char) {
    '0' <= c <= '9'
  }

  predicate AllDigits(s: string) {
    forall i :: 0 <= i < |s| ==> IsDigit(s[i])
  }

  function DigitChar(d: int): (c: char)
    requires 0 <= d < 10
    ensures IsDigit(c)
  {
    (48 + d) as char
  }

  function DigitValue(c: char): (d: int)
    requires IsDigit(c)
    ensures 0 <= d < 10
  {
    c as int - 48
  }

  /** str(n) for a non-negative integer: decimal digits without leading zeros. */
  function NatToString(n: nat): (s: string)
    ensures 1 <= |s|
    ensures AllDigits(s)
    ensures s[0] == '0' <==> n == 0
    ensures n < 10 <==> |s| == 1
  {
    if n < 10 then [DigitChar(n)] else NatToString(n / 10) + [DigitChar(n % 10)]
  }

  /** int(s) for a string of decimal digits (leading zeros allowed, the empty string reads as 0). */
  function ParseDigits(s: string): nat
    requires AllDigits(s)
  {
    if |s| == 0 then 0 else ParseDigits(s[..|s| - 1]) * 10 + DigitValue(s[|s| - 1])
  }

  /** Reading back the digits of a number gives the number. */
  lemma {:induction false} ParseNatToString(n: nat)
    ensures ParseDigits(NatToString(n)) == n
  {
    if n >= 10 {
      var s := NatToString(n);
      assert s[..|s| - 1] == NatToString(n / 10);
      ParseNatToString(n / 10);
    }
  }

  /** Two numbers with the same decimal text are equal. */
  lemma NatToStringInjective(a: nat, b: nat)
    requires NatToString(a) == NatToString(b)
    ensures a == b
  {
    ParseNatToString(a);
    ParseNatToString(b);
  }

  /** str(i) for any integer. */
  function IntToString(i: int): (s: string)
    ensures 1 <= |s|
    ensures s[0] == '-' <==> i < 0
  {
    if i < 0 then "-" + NatToString(-i) else NatToString(i)
  }

  /** int(s) for an optionally signed run of decimal digits; None for anything else. */
  function ParseInt(s: string): Option<int> {
    if |s| > 1 && s[0] == '-' && AllDigits(s[1..]) then Some(-(ParseDigits(s[1..]) as int))
    else if |s| > 0 && AllDigits(s) then Some(ParseDigits(s))
    else None
  }

  /** int(str(i)) == i. */
  lemma ParseIntToString(i: int)
    ensures ParseInt(IntToString(i)) == Some(i)
  {
    if i < 0 {
      ParseNegative(-i);
      assert IntToString(i) == "-" + NatToString(-i);
    } else {
      ParseNonNegative(i);
    }
  }

  lemma ParseNonNegative(n: nat)
    ensures ParseInt(NatToString(n)) == Some(n)
  {
    var s := NatToString(n);
    assert s[0] != '-';
    assert ParseDigits(s) == n by { ParseNatToString(n); }
  }

  lemma ParseNegative(n: nat)
    requires n > 0
    ensures ParseInt("-" + NatToString(n)) == Some(-(n as int))
  {
    var s := "-" + NatToString(n);
    assert s[1..] == NatToString(n);
    assert ParseDigits(s[1..]) == n by { ParseNatToString(n); }
  }

  /** Different integers have different decimal texts. */
  lemma IntToStringInjective(a: int, b: int)
    ensures IntToString(a) == IntToString(b) <==> a == b
  {
    ParseIntToString(a);
    ParseIntToString(b);
  }

  /** s.zfill(width) for a digit string: left-pads with '0' up to `width` characters. */
  function ZeroFill(s: string, width: nat): (r: string)
    ensures |r| == if |s| < width then width else |s|
    ensures r[|r| - |s|..] == s
    ensures forall i :: 0 <= i < |r| - |s| ==> r[i] == '0'
  {
    if |s| < width then seq(width - |s|, _ => '0') + s else s
  }

  /** f'{n:02}': at least two digits. */
  function Pad2(n: nat): string {
    ZeroFill(NatToString(n), 2)
  }

  predicate EndsWith(s: string, suffix: string) {
    |suffix| <= |s| && s[|s| - |suffix|..] == suffix
  }

  predicate IsAsciiAlnum(c: char) {
    IsDigit(c) || ('a' <= c <= 'z') || ('A' <= c <= 'Z')
  }

  predicate StartsWith(s: string, prefix: string) {
    |prefix| <= |s| && s[..|prefix|] == prefix
  }

  /** Occurrences of `c` in `s`. */
  function CountChar(s: string, c: char): nat {
    if |s| == 0 then 0 else CountChar(s[..|s| - 1], c) + (if s[|s| - 1] == c then 1 else 0)
  }

  /** `s` with every `c` removed. */
  function Without(s: string, c: char): (r: string)
    ensures |r| == |s| - CountChar(s, c)
    ensures forall i :: 0 <= i < |r| ==> r[i] != c
  {
    if |s| == 0 then [] else Without(s[..|s| - 1], c) + (if s[|s| - 1] == c then [] else [s[|s| - 1]])
  }

  lemma WithoutAppend(a: string, b: string, c: char)
    ensures Without(a + b, c) == Without(a, c) + Without(b, c)
  {
    if |b| > 0 {
      assert (a + b)[..|a + b| - 1] == a + b[..|b| - 1];
      WithoutAppend(a, b[..|b| - 1], c);
    } else {
      assert a + b == a;
    }
  }

  /** Leading zeros do not change the value of a digit string. */
  lemma {:induction false} ParseLeadingZeros(z: nat, s: string)
    requires AllDigits(s)
    ensures AllDigits(seq(z, _ => '0') + s)
    ensures ParseDigits(seq(z, _ => '0') + s) == ParseDigits(s)
    decreases |s|
  {
    var p := seq(z, _ => '0');
    if |s| == 0 {
      assert p + s == p;
      ZerosParseToZero(z);
    } else {
      assert (p + s)[..|p + s| - 1] == p + s[..|s| - 1];
      ParseLeadingZeros(z, s[..|s| - 1]);
    }
  }

  lemma {:induction false} ZerosParseToZero(z: nat)
    ensures ParseDigits(seq(z, _ => '0')) == 0
  {
    if z > 0 {
      assert seq(z, _ => '0')[..z - 1] == seq(z - 1, _ => '0');
      ZerosParseToZero(z - 1);
    }
  }

  /** Reading back a zero-filled number gives the number. */
  lemma ParseZeroFill(n: nat, width: nat)
    ensures AllDigits(ZeroFill(NatToString(n), width))
    ensures ParseDigits(ZeroFill(NatToString(n), width)) == n
  {
    var s := NatToString(n);
    ParseNatToString(n);
    if |s| < width {
      ParseLeadingZeros(width - |s|, s);
    }
  }

  /** A number below 10^k has at most k digits. */
  lemma {:induction false} NatToStringShort(n: nat, k: nat, bound: nat)
    requires bound == Pow10(k) && n < bound
    ensures |NatToString(n)| <= if k == 0 then 1 else k
  {
    if n >= 10 {
      assert k != 0 && k != 1;
      assert n / 10 < Pow10(k - 1);
      NatToStringShort(n / 10, k - 1, Pow10(k - 1));
    }
  }

  /** A number with exactly k digits: 10^(k-1) <= n < 10^k. */
  lemma {:induction false} NatToStringLength(n: nat, k: nat)
    requires 1 <= k && Pow10(k - 1) <= n < Pow10(k)
    ensures |NatToString(n)| == k
  {
    if k > 1 {
      Pow10Positive(k - 2);
      assert Pow10(k - 2) <= n / 10 < Pow10(k - 1);
      NatToStringLength(n / 10, k - 1);
    }
  }

  lemma {:induction false} Pow10Positive(k: nat)
    ensures Pow10(k) >= 1
  {
    if k > 0 {
      Pow10Positive(k - 1);
    }
  }

  /** k digits read as less than 10^k. */
  lemma {:induction false} ParseDigitsBound(s: string)
    requires AllDigits(s)
    ensures ParseDigits(s) < Pow10(|s|)
  {
    if |s| > 0 {
      ParseDigitsBound(s[..|s| - 1]);
    }
  }

  function Pow10(k: nat): nat {
    if k == 0 then 1 else 10 * Pow10(k - 1)
  }

  /** Python's `<` on strings: code-point order, and a proper prefix comes first. */
  predicate LexLess(a: string, b: string) {
    |b| > 0 && (|a| == 0 || a[0] < b[0] || (a[0] == b[0] && LexLess(a[1..], b[1..])))
  }

  lemma {:induction false} LexLessIrreflexive(a: string)
    ensures !LexLess(a, a)
  {
    if |a| > 0 {
      LexLessIrreflexive(a[1..]);
    }
  }

  lemma {:induction false} LexLessTransitive(a: string, b: string, c: string)
    requires LexLess(a, b) && LexLess(b, c)
    ensures LexLess(a, c)
  {
    if |a| > 0 && a[0] == b[0] && b[0] == c[0] {
      LexLessTransitive(a[1..], b[1..], c[1..]);
    }
  }

  lemma {:induction false} LexLessTotal(a: string, b: string)
    requires a != b
    ensures LexLess(a, b) || LexLess(b, a)
  {
    if |a| > 0 && |b| > 0 && a[0] == b[0] {
      assert a == [a[0]] + a[1..] && b == [b[0]] + b[1..];
      LexLessTotal(a[1..], b[1..]);
    }
  }

  /** Reading digits from the front: the first digit weighs 10^(k-1). */
  lemma {:induction false} ParseDigitsFront(s: string)
    requires AllDigits(s) && |s| > 0
    ensures ParseDigits(s) == DigitValue(s[0]) * Pow10(|s| - 1) + ParseDigits(s[1..])
    decreases |s|
  {
    if |s| > 1 {
      var p := s[..|s| - 1];
      ParseDigitsFront(p);
      assert p[0] == s[0] && p[1..] == s[1..][..|s| - 2];
      var x, w, y, z := DigitValue(s[0]), Pow10(|s| - 2), ParseDigits(p[1..]), DigitValue(s[|s| - 1]);
      assert ParseDigits(s[1..]) == y * 10 + z;
      assert ParseDigits(s) == (x * w + y) * 10 + z;
      ShiftDigit(x, w, y);
    } else {
      assert s[1..] == [];
    }
  }

  lemma ShiftDigit(x: int, w: int, y: int)
    ensures (x * w + y) * 10 == x * (10 * w) + y * 10
  {
  }

  lemma LowerDigitFirst(da: int, db: int, w: int, ra: int, rb: int)
    requires 0 <= da < db && 0 <= ra < w && 0 <= rb
    ensures da * w + ra < db * w + rb
  {
    assert (da + 1) * w <= db * w;
  }

  /** For digit strings of equal length, string order is numeric order, as it is for the
      fixed-width 'YYYYMMDD' dates. */
  lemma {:induction false} LexLessDigits(a: string, b: string)
    requires AllDigits(a) && AllDigits(b) && |a| == |b|
    ensures LexLess(a, b) <==> ParseDigits(a) < ParseDigits(b)
    decreases |a|
  {
    if |a| > 0 {
      var k := |a| - 1;
      ParseDigitsFront(a);
      ParseDigitsFront(b);
      ParseDigitsBound(a[1..]);
      ParseDigitsBound(b[1..]);
      var da, db := DigitValue(a[0]), DigitValue(b[0]);
      if da < db {
        LowerDigitFirst(da, db, Pow10(k), ParseDigits(a[1..]), ParseDigits(b[1..]));
      } else if db < da {
        LowerDigitFirst(db, da, Pow10(k), ParseDigits(b[1..]), ParseDigits(a[1..]));
      } else {
        LexLessDigits(a[1..], b[1..]);
      }
    }
  }
}

=== FILE: trading_holiday.dfy ===
/** The market-closure table for weekdays and the holiday test built on it. */
module TradingHoliday {
  import opened Wrappers
  import opened Text
  import opened Calendar

  // Closures on weekdays, year by year, in the order the table lists them (the source writes
  // each as an ISO 'YYYY-MM-DD' string). Weekends are not listed: the market never opens on them.
  const Closures2019: seq<Date> := [
    Date(2019, 1, 1), Date(2019, 1, 31), Date(2019, 2, 1), Date(2019, 2, 4), Date(2019, 2, 5), Date(2019, 2, 6),
    Date(2019, 2, 7), Date(2019, 2, 8), Date(2019, 2, 28), Date(2019, 3, 1), Date(2019, 4, 4), Date(2019, 4, 5),
    Date(2019, 5, 1), Date(2019, 6, 7), Date(2019, 9, 13), Date(2019, 10, 10), Date(2019, 10, 11), Date(2019, 8, 9),
    Date(2019, 9, 30)
  ]

  const Closures2020: seq<Date> := [
    Date(2020, 1, 1), Date(2020, 1, 21), Date(2020, 1, 22), Date(2020, 1, 23), Date(2020, 1, 24), Date(2020, 1, 27),
    Date(2020, 1, 28), Date(2020, 1, 29), Date(2020, 2, 28), Date(2020, 4, 2), Date(2020, 4, 3), Date(2020, 5, 1),
    Date(2020, 6, 25), Date(2020, 6, 26), Date(2020, 10, 1), Date(2020, 10, 2), Date(2020, 10, 9)
  ]

  const Closures2021: seq<Date> := [
    Date(2021, 1, 1), Date(2021, 2, 8), Date(2021, 2, 9), Date(2021, 2, 10), Date(2021, 2, 11), Date(2021, 2, 12),
    Date(2021, 2, 15), Date(2021, 2, 16), Date(2021, 3, 1), Date(2021, 4, 2), Date(2021, 4, 5), Date(2021, 4, 30),
    Date(2021, 6, 14), Date(2021, 9, 20), Date(2021, 9, 21), Date(2021, 10, 11), Date(2021, 12, 31)
  ]

  const Closures2022: seq<Date> := [
    Date(2022, 1, 27), Date(2022, 1, 28), Date(2022, 1, 31), Date(2022, 2, 1), Date(2022, 2, 2), Date(2022, 2, 3),
    Date(2022, 2, 4), Date(2022, 2, 28), Date(2022, 4, 4), Date(2022, 4, 5), Date(2022, 5, 2), Date(2022, 6, 3),
    Date(2022, 9, 9), Date(2022, 10, 10)
  ]

  const Closures2023: seq<Date> := [
    Date(2023, 1, 2), Date(2023, 1, 18), Date(2023, 1, 19), Date(2023, 1, 20), Date(2023, 1, 23), Date(2023, 1, 24),
    Date(2023, 1, 25), Date(2023, 1, 26), Date(2023, 1, 27), Date(2023, 2, 27), Date(2023, 2, 28), Date(2023, 4, 3),
    Date(2023, 4, 4), Date(2023, 4, 5), Date(2023, 5, 1), Date(2023, 6, 22), Date(2023, 6, 23), Date(2023, 9, 29),
    Date(2023, 10, 9), Date(2023, 10, 10), Date(2023, 8, 3)
  ]

  const Closures2024: seq<Date> := [
    Date(2024, 1, 1), Date(2024, 2, 6), Date(2024, 2, 7), Date(2024, 2, 8), Date(2024, 2, 9), Date(2024, 2, 12),
    Date(2024, 2, 13), Date(2024, 2, 14), Date(2024, 2, 28), Date(2024, 4, 4), Date(2024, 4, 5), Date(2024, 5, 1),
    Date(2024, 6, 10), Date(2024, 9, 17), Date(2024, 10, 10), Date(2024, 7, 24), Date(2024, 7, 25), Date(2024, 10, 2),
    Date(2024, 10, 3), Date(2024, 10, 31)
  ]

  const Closures2025: seq<Date> := [
    Date(2025, 1, 1), Date(2025, 1, 23), Date(2025, 1, 24), Date(2025, 1, 27), Date(2025, 1, 28), Date(2025, 1, 29),
    Date(2025, 1, 30), Date(2025, 1, 31), Date(2025, 2, 28), Date(2025, 4, 3), Date(2025, 4, 4), Date(2025, 5, 1),
    Date(2025, 5, 30), Date(2025, 9, 29), Date(2025, 10, 6), Date(2025, 10, 10), Date(2025, 10, 24), Date(2025, 12, 25)
  ]

  const HolidayTable: seq<Date> :=
    Closures2019 + Closures2020 + Closures2021 + Closures2022 + Closures2023 + Closures2024 + Closures2025

  /** A real calendar date that is not a Saturday or Sunday. */
  predicate OpenWeekday(d: Date) {
    ValidDate(d) && !IsWeekend(d)
  }

  /** Every entry is a real weekday date in a year from `lo` to `hi`. */
  predicate ClosuresWithin(s: seq<Date>, lo: int, hi: int) {
    forall k :: 0 <= k < |s| ==> OpenWeekday(s[k]) && lo <= s[k].year <= hi
  }

  lemma WithinAppend(a: seq<Date>, lo: int, b: seq<Date>, hi: int, mid: int)
    requires ClosuresWithin(a, lo, mid) && ClosuresWithin(b, lo, hi) && mid <= hi
    ensures ClosuresWithin(a + b, lo, hi)
  {
  }

  // One lemma per year: fixing the days before the year and its leap status once keeps each
  // date's weekday a small computation.
  lemma Closures2019OnWeekdays()
    ensures ClosuresWithin(Closures2019, 2019, 2019)
  {
    assert DaysBeforeYear(2019) == 737059;
    assert !IsLeapYear(2019);
    forall k | 0 <= k < |Closures2019| ensures OpenWeekday(Closures2019[k]) && Closures2019[k].year == 2019 {
      if k == 0 { assert Closures2019[k] == Date(2019, 1, 1); assert OpenWeekday(Date(2019, 1, 1)); }
      else if k == 1 { assert Closures2019[k] == Date(2019, 1, 31); assert OpenWeekday(Date(2019, 1, 31)); }
      else if k == 2 { assert Closures2019[k] == Date(2019, 2, 1); assert OpenWeekday(Date(2019, 2, 1)); }
      else if k == 3 { assert Closures2019[k] == Date(2019, 2, 4); assert OpenWeekday(Date(2019, 2, 4)); }
      else if k == 4 { assert Closures2019[k] == Date(2019, 2, 5); assert OpenWeekday(Date(2019, 2, 5)); }
      else if k == 5 { assert Closures2019[k] == Date(2019, 2, 6); assert OpenWeekday(Date(2019, 2, 6)); }
      else if k == 6 { assert Closures2019[k] == Date(2019, 2, 7); assert OpenWeekday(Date(2019, 2, 7)); }
      else if k == 7 { assert Closures2019[k] == Date(2019, 2, 8); assert OpenWeekday(Date(2019, 2, 8)); }
      else if k == 8 { assert Closures2019[k] == Date(2019, 2, 28); assert OpenWeekday(Date(2019, 2, 28)); }
      else if k == 9 { assert Closures2019[k] == Date(2019, 3, 1); assert OpenWeekday(Date(2019, 3, 1)); }
      else if k == 10 { assert Closures2019[k] == Date(2019, 4, 4); assert OpenWeekday(Date(2019, 4, 4)); }
      else if k == 11 { assert Closures2019[k] == Date(2019, 4, 5); assert OpenWeekday(Date(2019, 4, 5)); }
      else if k == 12 { assert Closures2019[k] == Date(2019, 5, 1); assert OpenWeekday(Date(2019, 5, 1)); }
      else if k == 13 { assert Closures2019[k] == Date(2019, 6, 7); assert OpenWeekday(Date(2019, 6, 7)); }
      else if k == 14 { assert Closures2019[k] == Date(2019, 9, 13); assert OpenWeekday(Date(2019, 9, 13)); }
      else if k == 15 { assert Closures2019[k] == Date(2019, 10, 10); assert OpenWeekday(Date(2019, 10, 10)); }
      else if k == 16 { assert Closures2019[k] == Date(2019, 10, 11); assert OpenWeekday(Date(2019, 10, 11)); }
      else if k == 17 { assert Closures2019[k] == Date(2019, 8, 9); assert OpenWeekday(Date(2019, 8, 9)); }
      else { assert Closures2019[k] == Date(2019, 9, 30); assert OpenWeekday(Date(2019, 9, 30)); }
    }
  }


  lemma Closures2020OnWeekdays()
    ensures ClosuresWithin(Closures2020, 2020, 2020)
  {
    assert DaysBeforeYear(2020) == 737424;
    assert IsLeapYear(2020);
    forall k | 0 <= k < |Closures2020| ensures OpenWeekday(Closures2020[k]) && Closures2020[k].year == 2020 {
      if k == 0 { assert Closures2020[k] == Date(2020, 1, 1); assert OpenWeekday(Date(2020, 1, 1)); }
      else if k == 1 { assert Closures2020[k] == Date(2020, 1, 21); assert OpenWeekday(Date(2020, 1, 21)); }
      else if k == 2 { assert Closures2020[k] == Date(2020, 1, 22); assert OpenWeekday(Date(2020, 1, 22)); }
      else if k == 3 { assert Closures2020[k] == Date(2020, 1, 23); assert OpenWeekday(Date(2020, 1, 23)); }
      else if k == 4 { assert Closures2020[k] == Date(2020, 1, 24); assert OpenWeekday(Date(2020, 1, 24)); }
      else if k == 5 { assert Closures2020[k] == Date(2020, 1, 27); assert OpenWeekday(Date(2020, 1, 27)); }
      else if k == 6 { assert Closures2020[k] == Date(2020, 1, 28); assert OpenWeekday(Date(2020, 1, 28)); }
      else if k == 7 { assert Closures2020[k] == Date(2020, 1, 29); assert OpenWeekday(Date(2020, 1, 29)); }
      else if k == 8 { assert Closures2020[k] == Date(2020, 2, 28); assert OpenWeekday(Date(2020, 2, 28)); }
      else if k == 9 { assert Closures2020[k] == Date(2020, 4, 2); assert OpenWeekday(Date(2020, 4, 2)); }
      else if k == 10 { assert Closures2020[k] == Date(2020, 4, 3); assert OpenWeekday(Date(2020, 4, 3)); }
      else if k == 11 { assert Closures2020[k] == Date(2020, 5, 1); assert OpenWeekday(Date(2020, 5, 1)); }
      else if k == 12 { assert Closures2020[k] == Date(2020, 6, 25); assert OpenWeekday(Date(2020, 6, 25)); }
      else if k == 13 { assert Closures2020[k] == Date(2020, 6, 26); assert OpenWeekday(Date(2020, 6, 26)); }
      else if k == 14 { assert Closures2020[k] == Date(2020, 10, 1); assert OpenWeekday(Date(2020, 10, 1)); }
      else if k == 15 { assert Closures2020[k] == Date(2020, 10, 2); assert OpenWeekday(Date(2020, 10, 2)); }
      else { assert Closures2020[k] == Date(2020, 10, 9); assert OpenWeekday(Date(2020, 10, 9)); }
    }
  }


  lemma Closures2021OnWeekdays()
    ensures ClosuresWithin(Closures2021, 2021, 2021)
  {
    assert DaysBeforeYear(2021) == 737790;
    assert !IsLeapYear(2021);
    forall k | 0 <= k < |Closures2021| ensures OpenWeekday(Closures2021[k]) && Closures2021[k].year == 2021 {
      if k == 0 { assert Closures2021[k] == Date(2021, 1, 1); assert OpenWeekday(Date(2021, 1, 1)); }
      else if k == 1 { assert Closures2021[k] == Date(2021, 2, 8); assert OpenWeekday(Date(2021, 2, 8)); }
      else if k == 2 { assert Closures2021[k] == Date(2021, 2, 9); assert OpenWeekday(Date(2021, 2, 9)); }
      else if k == 3 { assert Closures2021[k] == Date(2021, 2, 10); assert OpenWeekday(Date(2021, 2, 10)); }
      else if k == 4 { assert Closures2021[k] == Date(2021, 2, 11); assert OpenWeekday(Date(2021, 2, 11)); }
      else if k == 5 { assert Closures2021[k] == Date(2021, 2, 12); assert OpenWeekday(Date(2021, 2, 12)); }
      else if k == 6 { assert Closures2021[k] == Date(2021, 2, 15); assert OpenWeekday(Date(2021, 2, 15)); }
      else if k == 7 { assert Closures2021[k] == Date(2021, 2, 16); assert OpenWeekday(Date(2021, 2, 16)); }
      else if k == 8 { assert Closures2021[k] == Date(2021, 3, 1); assert OpenWeekday(Date(2021, 3, 1)); }
      else if k == 9 { assert Closures2021[k] == Date(2021, 4, 2); assert OpenWeekday(Date(2021, 4, 2)); }
      else if k == 10 { assert Closures2021[k] == Date(2021, 4, 5); assert OpenWeekday(Date(2021, 4, 5)); }
      else if k == 11 { assert Closures2021[k] == Date(2021, 4, 30); assert OpenWeekday(Date(2021, 4, 30)); }
      else if k == 12 { assert Closures2021[k] == Date(2021, 6, 14); assert OpenWeekday(Date(2021, 6, 14)); }
      else if k == 13 { assert Closures2021[k] == Date(2021, 9, 20); assert OpenWeekday(Date(2021, 9, 20)); }
      else if k == 14 { assert Closures2021[k] == Date(2021, 9, 21); assert OpenWeekday(Date(2021, 9, 21)); }
      else if k == 15 { assert Closures2021[k] == Date(2021, 10, 11); assert OpenWeekday(Date(2021, 10, 11)); }
      else { assert Closures2021[k] == Date(2021, 12, 31); assert OpenWeekday(Date(2021, 12, 31)); }
    }
  }


  lemma Closures2022OnWeekdays()
    ensures ClosuresWithin(Closures2022, 2022, 2022)
  {
    assert DaysBeforeYear(2022) == 738155;
    assert !IsLeapYear(2022);
    forall k | 0 <= k < |Closures2022| ensures OpenWeekday(Closures2022[k]) && Closures2022[k].year == 2022 {
      if k == 0 { assert Closures2022[k] == Date(2022, 1, 27); assert OpenWeekday(Date(2022, 1, 27)); }
      else if k == 1 { assert Closures2022[k] == Date(2022, 1, 28); assert OpenWeekday(Date(2022, 1, 28)); }
      else if k == 2 { assert Closures2022[k] == Date(2022, 1, 31); assert OpenWeekday(Date(2022, 1, 31)); }
      else if k == 3 { assert Closures2022[k] == Date(2022, 2, 1); assert OpenWeekday(Date(2022, 2, 1)); }
      else if k == 4 { assert Closures2022[k] == Date(2022, 2, 2); assert OpenWeekday(Date(2022, 2, 2)); }
      else if k == 5 { assert Closures2022[k] == Date(2022, 2, 3); assert OpenWeekday(Date(2022, 2, 3)); }
      else if k == 6 { assert Closures2022[k] == Date(2022, 2, 4); assert OpenWeekday(Date(2022, 2, 4)); }
      else if k == 7 { assert Closures2022[k] == Date(2022, 2, 28); assert OpenWeekday(Date(2022, 2, 28)); }
      else if k == 8 { assert Closures2022[k] == Date(2022, 4, 4); assert OpenWeekday(Date(2022, 4, 4)); }
      else if k == 9 { assert Closures2022[k] == Date(2022, 4, 5); assert OpenWeekday(Date(2022, 4, 5)); }
      else if k == 10 { assert Closures2022[k] == Date(2022, 5, 2); assert OpenWeekday(Date(2022, 5, 2)); }
      else if k == 11 { assert Closures2022[k] == Date(2022, 6, 3); assert OpenWeekday(Date(2022, 6, 3)); }
      else if k == 12 { assert Closures2022[k] == Date(2022, 9, 9); assert OpenWeekday(Date(2022, 9, 9)); }
      else { assert Closures2022[k] == Date(2022, 10, 10); assert OpenWeekday(Date(2022, 10, 10)); }
    }
  }


  lemma Closures2023OnWeekdays()
    ensures ClosuresWithin(Closures2023, 2023, 2023)
  {
    assert DaysBeforeYear(2023) == 738520;
    assert !IsLeapYear(2023);
    forall k | 0 <= k < |Closures2023| ensures OpenWeekday(Closures2023[k]) && Closures2023[k].year == 2023 {
      if k == 0 { assert Closures2023[k] == Date(2023, 1, 2); assert OpenWeekday(Date(2023, 1, 2)); }
      else if k == 1 { assert Closures2023[k] == Date(2023, 1, 18); assert OpenWeekday(Date(2023, 1, 18)); }
      else if k == 2 { assert Closures2023[k] == Date(2023, 1, 19); assert OpenWeekday(Date(2023, 1, 19)); }
      else if k == 3 { assert Closures2023[k] == Date(2023, 1, 20); assert OpenWeekday(Date(2023, 1, 20)); }
      else if k == 4 { assert Closures2023[k] == Date(2023, 1, 23); assert OpenWeekday(Date(2023, 1, 23)); }
      else if k == 5 { assert Closures2023[k] == Date(2023, 1, 24); assert OpenWeekday(Date(2023, 1, 24)); }
      else if k == 6 { assert Closures2023[k] == Date(2023, 1, 25); assert OpenWeekday(Date(2023, 1, 25)); }
      else if k == 7 { assert Closures2023[k] == Date(2023, 1, 26); assert OpenWeekday(Date(2023, 1, 26)); }
      else if k == 8 { assert Closures2023[k] == Date(2023, 1, 27); assert OpenWeekday(Date(2023, 1, 27)); }
      else if k == 9 { assert Closures2023[k] == Date(2023, 2, 27); assert OpenWeekday(Date(2023, 2, 27)); }
      else if k == 10 { assert Closures2023[k] == Date(2023, 2, 28); assert OpenWeekday(Date(2023, 2, 28)); }
      else if k == 11 { assert Closures2023[k] == Date(2023, 4, 3); assert OpenWeekday(Date(2023, 4, 3)); }
      else if k == 12 { assert Closures2023[k] == Date(2023, 4, 4); assert OpenWeekday(Date(2023, 4, 4)); }
      else if k == 13 { assert Closures2023[k] == Date(2023, 4, 5); assert OpenWeekday(Date(2023, 4, 5)); }
      else if k == 14 { assert Closures2023[k] == Date(2023, 5, 1); assert OpenWeekday(Date(2023, 5, 1)); }
      else if k == 15 { assert Closures2023[k] == Date(2023, 6, 22); assert OpenWeekday(Date(2023, 6, 22)); }
      else if k == 16 { assert Closures2023[k] == Date(2023, 6, 23); assert OpenWeekday(Date(2023, 6, 23)); }
      else if k == 17 { assert Closures2023[k] == Date(2023, 9, 29); assert OpenWeekday(Date(2023, 9, 29)); }
      else if k == 18 { assert Closures2023[k] == Date(2023, 10, 9); assert OpenWeekday(Date(2023, 10, 9)); }
      else if k == 19 { assert Closures2023[k] == Date(2023, 10, 10); assert OpenWeekday(Date(2023, 10, 10)); }
      else { assert Closures2023[k] == Date(2023, 8, 3); assert OpenWeekday(Date(2023, 8, 3)); }
    }
  }


  lemma Closures2024OnWeekdays()
    ensures ClosuresWithin(Closures2024, 2024, 2024)
  {
    assert DaysBeforeYear(2024) == 738885;
    assert IsLeapYear(2024);
    forall k | 0 <= k < |Closures2024| ensures OpenWeekday(Closures2024[k]) && Closures2024[k].year == 2024 {
      if k == 0 { assert Closures2024[k] == Date(2024, 1, 1); assert OpenWeekday(Date(2024, 1, 1)); }
      else if k == 1 { assert Closures2024[k] == Date(2024, 2, 6); assert OpenWeekday(Date(2024, 2, 6)); }
      else if k == 2 { assert Closures2024[k] == Date(2024, 2, 7); assert OpenWeekday(Date(2024, 2, 7)); }
      else if k == 3 { assert Closures2024[k] == Date(2024, 2, 8); assert OpenWeekday(Date(2024, 2, 8)); }
      else if k == 4 { assert Closures2024[k] == Date(2024, 2, 9); assert OpenWeekday(Date(2024, 2, 9)); }
      else if k == 5 { assert Closures2024[k] == Date(2024, 2, 12); assert OpenWeekday(Date(2024, 2, 12)); }
      else if k == 6 { assert Closures2024[k] == Date(2024, 2, 13); assert OpenWeekday(Date(2024, 2, 13)); }
      else if k == 7 { assert Closures2024[k] == Date(2024, 2, 14); assert OpenWeekday(Date(2024, 2, 14)); }
      else if k == 8 { assert Closures2024[k] == Date(2024, 2, 28); assert OpenWeekday(Date(2024, 2, 28)); }
      else if k == 9 { assert Closures2024[k] == Date(2024, 4, 4); assert OpenWeekday(Date(2024, 4, 4)); }
      else if k == 10 { assert Closures2024[k] == Date(2024, 4, 5); assert OpenWeekday(Date(2024, 4, 5)); }
      else if k == 11 { assert Closures2024[k] == Date(2024, 5, 1); assert OpenWeekday(Date(2024, 5, 1)); }
      else if k == 12 { assert Closures2024[k] == Date(2024, 6, 10); assert OpenWeekday(Date(2024, 6, 10)); }
      else if k == 13 { assert Closures2024[k] == Date(2024, 9, 17); assert OpenWeekday(Date(2024, 9, 17)); }
      else if k == 14 { assert Closures2024[k] == Date(2024, 10, 10); assert OpenWeekday(Date(2024, 10, 10)); }
      else if k == 15 { assert Closures2024[k] == Date(2024, 7, 24); assert OpenWeekday(Date(2024, 7, 24)); }
      else if k == 16 { assert Closures2024[k] == Date(2024, 7, 25); assert OpenWeekday(Date(2024, 7, 25)); }
      else if k == 17 { assert Closures2024[k] == Date(2024, 10, 2); assert OpenWeekday(Date(2024, 10, 2)); }
      else if k == 18 { assert Closures2024[k] == Date(2024, 10, 3); assert OpenWeekday(Date(2024, 10, 3)); }
      else { assert Closures2024[k] == Date(2024, 10, 31); assert OpenWeekday(Date(2024, 10, 31)); }
    }
  }


  lemma Closures2025OnWeekdays()
    ensures ClosuresWithin(Closures2025, 2025, 2025)
  {
    assert DaysBeforeYear(2025) == 739251;
    assert !IsLeapYear(2025);
    forall k | 0 <= k < |Closures2025| ensures OpenWeekday(Closures2025[k]) && Closures2025[k].year == 2025 {
      if k == 0 { assert Closures2025[k] == Date(2025, 1, 1); assert OpenWeekday(Date(2025, 1, 1)); }
      else if k == 1 { assert Closures2025[k] == Date(2025, 1, 23); assert OpenWeekday(Date(2025, 1, 23)); }
      else if k == 2 { assert Closures2025[k] == Date(2025, 1, 24); assert OpenWeekday(Date(2025, 1, 24)); }
      else if k == 3 { assert Closures2025[k] == Date(2025, 1, 27); assert OpenWeekday(Date(2025, 1, 27)); }
      else if k == 4 { assert Closures2025[k] == Date(2025, 1, 28); assert OpenWeekday(Date(2025, 1, 28)); }
      else if k == 5 { assert Closures2025[k] == Date(2025, 1, 29); assert OpenWeekday(Date(2025, 1, 29)); }
      else if k == 6 { assert Closures2025[k] == Date(2025, 1, 30); assert OpenWeekday(Date(2025, 1, 30)); }
      else if k == 7 { assert Closures2025[k] == Date(2025, 1, 31); assert OpenWeekday(Date(2025, 1, 31)); }
      else if k == 8 { assert Closures2025[k] == Date(2025, 2, 28); assert OpenWeekday(Date(2025, 2, 28)); }
      else if k == 9 { assert Closures2025[k] == Date(2025, 4, 3); assert OpenWeekday(Date(2025, 4, 3)); }
      else if k == 10 { assert Closures2025[k] == Date(2025, 4, 4); assert OpenWeekday(Date(2025, 4, 4)); }
      else if k == 11 { assert Closures2025[k] == Date(2025, 5, 1); assert OpenWeekday(Date(2025, 5, 1)); }
      else if k == 12 { assert Closures2025[k] == Date(2025, 5, 30); assert OpenWeekday(Date(2025, 5, 30)); }
      else if k == 13 { assert Closures2025[k] == Date(2025, 9, 29); assert OpenWeekday(Date(2025, 9, 29)); }
      else if k == 14 { assert Closures2025[k] == Date(2025, 10, 6); assert OpenWeekday(Date(2025, 10, 6)); }
      else if k == 15 { assert Closures2025[k] == Date(2025, 10, 10); assert OpenWeekday(Date(2025, 10, 10)); }
      else if k == 16 { assert Closures2025[k] == Date(2025, 10, 24); assert OpenWeekday(Date(2025, 10, 24)); }
      else { assert Closures2025[k] == Date(2025, 12, 25); assert OpenWeekday(Date(2025, 12, 25)); }
    }
  }

  /** The table keeps its promise: every listed closure is a real date on a weekday, so the
      weekend test and the table never overlap. */
  lemma TableListsOnlyWeekdays()
    ensures ClosuresWithin(HolidayTable, 2019, 2025)
  {
    Closures2019OnWeekdays();
    Closures2020OnWeekdays();
    Closures2021OnWeekdays();
    Closures2022OnWeekdays();
    Closures2023OnWeekdays();
    Closures2024OnWeekdays();
    Closures2025OnWeekdays();
    var t := Closures2019;
    assert ClosuresWithin(t, 2019, 2019);
    WithinAppend(t, 2019, Closures2020, 2020, 2019);
    t := t + Closures2020;
    WithinAppend(t, 2019, Closures2021, 2021, 2020);
    t := t + Closures2021;
    WithinAppend(t, 2019, Closures2022, 2022, 2021);
    t := t + Closures2022;
    WithinAppend(t, 2019, Closures2023, 2023, 2022);
    t := t + Closures2023;
    WithinAppend(t, 2019, Closures2024, 2024, 2023);
    t := t + Closures2024;
    WithinAppend(t, 2019, Closures2025, 2025, 2024);
    t := t + Closures2025;
    assert t == HolidayTable;
  }

  /** The range the table covers: the years of its first and last entries. */
  function MinYear(): int {
    HolidayTable[0].year
  }

  function MaxYear(): int {
    HolidayTable[|HolidayTable| - 1].year
  }

  lemma TableRange()
    ensures MinYear() == 2019 && MaxYear() == 2025
  {
  }

  /** What the caller may pass: a date string, a date, a datetime, nothing (today) or any other value. */
  datatype HolidayQuery =
    | TextQuery(text: string)
    | DateQuery(date: Date)
    | DateTimeQuery(at: DateTime)
    | TodayQuery
    | OtherQuery

  predicate WellFormedQuery(q: HolidayQuery) {
    match q
    case DateQuery(d) => ValidDate(d)
    case DateTimeQuery(t) => ValidDate(t.date)
    case _ => true
  }

  /** The date a query asks about; a string that does not parse raises. */
  function QueriedDate(q: HolidayQuery, today: Date): (r: Result<Date>)
    requires !q.OtherQuery? && WellFormedQuery(q) && ValidDate(today)
    ensures r.Success? ==> ValidDate(r.value)
  {
    match q
    case TextQuery(s) => FromIsoFormat(s)
    case DateQuery(d) => Success(d)
    case DateTimeQuery(t) => Success(t.date)
    case TodayQuery => Success(today)
  }

  /** Whether some table entry has the ISO string `iso`, scanning the table in order. */
  function ListedIso(t: seq<Date>, iso: string): bool
    requires forall k :: 0 <= k < |t| ==> ValidDate(t[k])
  {
    |t| > 0 && (IsoFormat(t[0]) == iso || ListedIso(t[1..], iso))
  }

  /** The answer for a date: weekends are always closed; other days are closed iff listed in
      the table, which only answers for the years it covers. */
  function HolidayOnDate(d: Date): (r: Result<bool>)
    requires ValidDate(d)
    ensures IsWeekend(d) ==> r == Success(true)
    ensures !IsWeekend(d) && (d.year < 2019 || d.year > 2025) ==> r.Failure?
    ensures !IsWeekend(d) && 2019 <= d.year <= 2025 ==> r == Success(d in HolidayTable)
  {
    if IsWeekend(d) then Success(true)
    else if d.year < MinYear() || d.year > MaxYear() then
      Failure("Checking date only from " + IntToString(MinYear()) + "-01-01 to " + IntToString(MaxYear()) + "-12-31")
    else
      TableListsOnlyWeekdays();
      ListedIsoIffMember(HolidayTable, d);
      Success(ListedIso(HolidayTable, IsoFormat(d)))
  }

  /** isTradingHoliday: a value that is not a date, a datetime, a string or None answers False;
      a string that is not an ISO date raises. */
  function IsTradingHoliday(q: HolidayQuery, today: Date): (r: Result<bool>)
    requires WellFormedQuery(q) && ValidDate(today)
    ensures q.OtherQuery? ==> r == Success(false)
    ensures !q.OtherQuery? && QueriedDate(q, today).Failure? ==> r.Failure?
    ensures !q.OtherQuery? && QueriedDate(q, today).Success? ==>
      var d := QueriedDate(q, today).value;
      if IsWeekend(d) then r == Success(true)
      else if d.year < 2019 || d.year > 2025 then r.Failure?
      else r == Success(d in HolidayTable)
  {
    if q.OtherQuery? then Success(false)
    else
      var d :- QueriedDate(q, today);
      HolidayOnDate(d)
  }

  /** Comparing ISO strings against the table is the same as asking whether the date is in it. */
  lemma {:induction false} ListedIsoIffMember(t: seq<Date>, d: Date)
    requires forall k :: 0 <= k < |t| ==> ValidDate(t[k])
    requires ValidDate(d)
    ensures ListedIso(t, IsoFormat(d)) <==> d in t
  {
    if |t| > 0 {
      IsoFormatInjective(t[0], d);
      ListedIsoIffMember(t[1..], d);
      assert d in t <==> d == t[0] || d in t[1..];
    }
  }

  /** A date written as 'YYYY-MM-DD' gets the same answer as the date itself. */
  lemma TextQueryMatchesDate(d: Date, today: Date)
    requires ValidDate(d) && ValidDate(today)
    ensures IsTradingHoliday(TextQuery(IsoFormat(d)), today) == IsTradingHoliday(DateQuery(d), today)
  {
    ParseIsoFormat(d);
    assert QueriedDate(TextQuery(IsoFormat(d)), today) == QueriedDate(DateQuery(d), today);
  }

  /** Every listed date is reported as a holiday. */
  lemma ListedDatesAreHolidays(k: nat, today: Date)
    requires k < |HolidayTable| && ValidDate(today)
    ensures ValidDate(HolidayTable[k])
    ensures IsTradingHoliday(DateQuery(HolidayTable[k]), today) == Success(true)
  {
    TableListsOnlyWeekdays();
  }
}

=== FILE: wrappers.dfy ===
/** Optional values and results with an error message, shared by every module. */
module Wrappers {

  /** A value that may be absent: a SQL NULL, a pandas NaN or a Python None. */
  datatype Option<+T> = None | Some(value: T) {
    function GetOr(default: T): T {
      match this
      case Some(v) => v
      case None => default
    }
  }

  /** The outcome of an operation that either returns a value or raises an error. */
  datatype Result<+R> = Success(value: R) | Failure(error: string) {
    predicate IsFailure() {
      Failure?
    }

    function PropagateFailure<U>(): Result<U>
      requires Failure?
    {
      Failure(error)
    }

    function Extract(): R
      requires Success?
    {
      value
    }
  }
}
